=== FILE: README.md ===
# AEO score auditor — a Dafny model

This project models the core of an Answer Engine Optimization (AEO) auditor. The auditor fetches a web page, extracts what an answer engine would look at, and scores the page out of 100 in six categories:

| category | points |
|---|---|
| answerability | 30 |
| structured data | 15 |
| authority | 15 |
| content quality | 10 |
| citationability | 10 |
| technical | 10 |

It grades the score, recommends improvements, aggregates audits over a whole domain, and computes a separate "GEO" (generative engine optimisation) score for a site. A benchmark runner compares audited scores with expected ones.

The model is organised as one Dafny module per source file:

- **Scorers** (`answerability.dfy` … `technical.dfy`, `calculator.dfy`, `content_profiles.dfy`): pure functions from the extracted page record to the category scores. Each is proved to stay within its maximum. The sum is proved to be the overall score.
- **Extractors** (`schema.dfy`, `semantic.dfy`, `content_classifier.dfy`, `parser.dfy`, `orchestrator.dfy`): work on a DOM tree datatype (`dom.dfy`). Where the source loops, they are methods proved against specification functions.
- **Stateful objects**: `hybrid_fetcher.dfy`, `progress_tracker.dfy` and the runner in `run_benchmark.dfy` are classes with `modifies` frames. `domain_crawler.dfy` keeps no state; it is functions plus the loop methods `AuditPages` and `AuditDomain`.
- **Reporting**: `audit_pipeline.dfy`, `recommendation_generator.dfy`, `geo_topics.dfy`/`geo_scorer.dfy` and the benchmark statistics in `run_benchmark.dfy`.
- **Python semantics**: shared helpers in `wrappers.dfy`, `strings.dfy`, `numbers.dfy`, `sorting.dfy`, `dicts.dfy`, `json.dfy`, `page_model.dfy` and `scores.dfy`:
  - `round(x, 1)` with ties to even, and `int()` truncation;
  - stable `sorted(..., reverse=True)`;
  - dicts as insertion-ordered association lists;
  - `str.split`, `lower` and `title` on ASCII.

Exceptions the source lets escape (a `TypeError`, a `KeyError`, a `ZeroDivisionError`) become `Failure` values of a `Result`.

The page extraction (`Orchestrator.ExtractFrom`, `Orchestrator.Extract`) and the page audit (`AuditPipeline.AuditPageOf`, `AuditPipeline.AuditPage`) take a flag `corrected`. With the flag off they are the program as written: the schema extractor searches the cleaned document, which holds no script any more, and question headings are matched by the anchored patterns. With the flag on they apply the corrections listed under "## Findings": JSON-LD is read from the unparsed document, and a question phrase may stand anywhere in a heading. The corrected schema extraction and validation (`Schema.ExtractJsonld`, `Schema.ValidateSchema`) only ever see blocks with the flag on, because with it off there are none.

## Model

| member | source | states |
|---|---|---|
| Answerability.DirectAnswerPoints | backend/scoring/answerability.py:50-59 | two points per non-blockquote answer block, capped at 12: exactly 12 from six blocks on, 2·n below |
| Answerability.DirectAnswerScore | backend/scoring/answerability.py:50-59 | the direct-answer sub-score lies in 0..12 and is a whole number of tenths |
| Answerability.QuestionCoverage | backend/scoring/answerability.py:61-71 | `min(8, q/10·8)`: within 0..8, equal to 0.8·q below ten questions |
| Answerability.QuestionCoverageMonotone | backend/scoring/answerability.py:61-71 | more questions never lower the coverage score; ten or more earn all 8 points |
| Answerability.QuestionScore | backend/scoring/answerability.py:61-71 | the question sub-score lies in 0..8 |
| Answerability.ConcisenessScore | backend/scoring/answerability.py:73-96 | one of 0, 2, 4, 6: the full 6 exactly when a TL;DR pattern, three or more lists and a mean paragraph length of at most 100 words are all present, 0 exactly when none is |
| Answerability.FormattingScore | backend/scoring/answerability.py:98-118 | a whole number within 0..4: the full 4 exactly when five emphasised paragraphs, a definition box or callout and a blockquote are all present, 0 exactly when none is |
| Answerability.FormattingIsTenth | backend/scoring/answerability.py:36-48 | conciseness and formatting are whole tenths, so rounding them in the report changes nothing |
| Answerability.Calculate | backend/scoring/answerability.py:14-48 | the category score is the sum of its four sub-scores, with maximum 30 and 0 ≤ score ≤ 30 |
| Answerability.EmptyPageScoresZero | backend/scoring/answerability.py:14-48 | a page record with nothing extracted scores 0 |
| Authority.AuthorScore | backend/scoring/authority.py:34-44 | no author scores 0; an author scores 5 when found in JSON-LD, otherwise 3 |
| Authority.DatesScore | backend/scoring/authority.py:46-56 | at least 2 exactly when a publication date is present, an odd score exactly when a modification date is; within 0..3 |
| Authority.CitationPoints | backend/scoring/authority.py:58-63 | half a point per external link, capped at 4 (reached from eight links) |
| Authority.CitationPointsMonotone | backend/scoring/authority.py:58-63 | more external links never lower the citation score |
| Authority.OrganizationScore | backend/scoring/authority.py:65-70 | 3 exactly when "Organization" is among the schema types, else 0 |
| Authority.Calculate | backend/scoring/authority.py:14-32 | the sum of the four sub-scores, with maximum 15 and 0 ≤ score ≤ 15 |
| StructuredData.BasicPresence | backend/scoring/structured_data.py:44-88 | a whole number of points within 0..5 |
| StructuredData.BasicPresenceCases | backend/scoring/structured_data.py:44-88 | with no primary signal (valid JSON-LD, microdata, an Open Graph title or description) the title/meta-description/headings fallback decides and gives at most 3; otherwise at least 2 and `min(5, points)` |
| StructuredData.CompletenessBonus | backend/scoring/structured_data.py:110-118 | the completeness bonus of the validated schemas is 0, 1 or 2 |
| StructuredData.SchemaQuality | backend/scoring/structured_data.py:90-121 | a core type (Article, BlogPosting, NewsArticle, WebPage, Person, Organization, WebSite) earns 3, a rich type (FAQPage, HowTo, QAPage, BreadcrumbList) 2, plus the completeness bonus; the cap of 5 cuts only when both kinds are present, giving exactly 5 |
| StructuredData.AdvancedFeatures | backend/scoring/structured_data.py:123-142 | within 0..3; 0 without FAQ schema and breadcrumbs; at least 2 with an FAQ of three valid pairs |
| StructuredData.SocialMetadata | backend/scoring/structured_data.py:144-162 | a multiple of 0.5 within 0..2; 0 without Open Graph tags or a Twitter card |
| StructuredData.SubScoresAreTenths | backend/scoring/structured_data.py:26-42 | every sub-score is a whole number of tenths |
| StructuredData.Calculate | backend/scoring/structured_data.py:15-42 | the sum of the four sub-scores, with maximum 15 and 0 ≤ score ≤ 15 |
| ContentQuality.WordTier | backend/scoring/content_quality.py:34-53 | the word-count tier is 0..2, and 2 from 2000 words |
| ContentQuality.SectionTier | backend/scoring/content_quality.py:34-53 | the H2-count tier is 0..2 |
| ContentQuality.DepthScore | backend/scoring/content_quality.py:34-53 | fails (a `KeyError`) exactly when a heading lacks its level; otherwise the sum of the two tiers, within 0..4 |
| ContentQuality.UniquenessScore | backend/scoring/content_quality.py:55-71 | 1 plus 1 for a table plus 1 for three or more lists |
| ContentQuality.FreshnessTier | backend/scoring/content_quality.py:73-94 | 3 up to 90 days old, 0 beyond a year, within 0..3 |
| ContentQuality.FreshnessTierMonotone | backend/scoring/content_quality.py:73-94 | an older page never earns more freshness points |
| ContentQuality.LastModified | backend/scoring/content_quality.py:73-94 | the modification date when present, else the publication date |
| ContentQuality.FreshnessScore | backend/scoring/content_quality.py:73-94 | 0 without dates or when the date cannot be parsed, otherwise the tier of its age |
| ContentQuality.Calculate | backend/scoring/content_quality.py:16-32 | fails exactly when the depth sub-score does; otherwise the sum of the sub-scores, with maximum 10 and 1 ≤ score ≤ 10 |
| Citationability.FactPoints | backend/scoring/citationability.py:34-40 | within 0..4, all 4 points from 14 emphasised paragraphs |
| Citationability.FactsScore | backend/scoring/citationability.py:34-40 | the fact sub-score lies in 0..4 |
| Citationability.DataPoints | backend/scoring/citationability.py:42-48 | `min(1.5, tables·0.5) + min(1.5, lists·0.2)`, within 0..3 |
| Citationability.DataPointsMonotone | backend/scoring/citationability.py:42-48 | more tables or lists never lower the data sub-score |
| Citationability.SecurityScore | backend/scoring/citationability.py:50-52 | 2 exactly for an HTTPS page, else 0 |
| Citationability.Calculate | backend/scoring/citationability.py:14-32 | the sum of the four sub-scores, with maximum 10 and 1 ≤ score ≤ 10 |
| Technical.PerformancePoints | backend/scoring/technical.py:36-49 | 3 up to 500 ms time to first byte, 0 beyond 2000 ms |
| Technical.PerformanceMonotone | backend/scoring/technical.py:36-49 | a slower first byte never earns more points |
| Technical.PerformanceScore | backend/scoring/technical.py:36-49 | without a measured time the page gets the full 3 points |
| Technical.MobileScore | backend/scoring/technical.py:51-57 | 2 exactly when the page has a meta description, else 0 |
| Technical.AnyLevel | backend/scoring/technical.py:59-72 | `any(h['level'] == n …)`: true when a heading of that level comes before any heading without a level; fails when such a heading comes first |
| Technical.SemanticScore | backend/scoring/technical.py:59-72 | fails exactly when either heading check fails; otherwise one point for some level-1 heading plus one for some level-2 heading |
| Technical.MetaScore | backend/scoring/technical.py:79-86 | 1 exactly when the meta description has 50 to 160 characters |
| Technical.Calculate | backend/scoring/technical.py:14-34 | fails exactly when the semantic sub-score does; otherwise the sum of the five sub-scores, with maximum 10 and 1 ≤ score ≤ 9 |
| Calculator.MaxOf | backend/scoring/calculator.py:19-26 | each of the six scorers has a positive maximum (30, 15, 15, 10, 10, 10 in registration order) |
| Calculator.RunScorer | backend/scoring/calculator.py:46-50 | a scorer that succeeds reports its own maximum and a score within 0..max; the technical scorer never exceeds 9 |
| Calculator.Bucket | backend/scoring/calculator.py:46-53 | a scorer's bucket carries its name and maximum; an exception becomes score 0 with the error recorded, otherwise the scorer's score |
| Calculator.AiBucket | backend/scoring/calculator.py:55-70 | the AI-citation bucket has maximum 5; without citation data it scores 0 with the "not performed" note, otherwise the reported citation score (0 when absent) |
| Calculator.Grade | backend/scoring/calculator.py:86-97 | "A+" exactly from 90, "F" exactly below 50 |
| Calculator.GradeMonotone | backend/scoring/calculator.py:86-97 | every grade is one of the ten letter grades, and a higher score never earns a lower grade |
| Calculator.ScorerBuckets | backend/scoring/calculator.py:44-53 | the first n buckets, in registration order, each the bucket of its scorer |
| Calculator.CalculateScore | backend/scoring/calculator.py:28-84 | the loop over the scorers computes the specification: seven buckets, the six scorers in order and then "ai_citation" |
| Calculator.SumScoresBound | backend/scoring/calculator.py:72-74 | the first n buckets sum to between 0 and the sum of their maxima (the technical one counted at 9) |
| Calculator.OverallIsSum | backend/scoring/calculator.py:72-80 | the overall score is the rounded sum of the bucket scores; without AI-citation data it is at most 89, so the grade is never "A+" |
| Calculator.FailureIsolated | backend/scoring/calculator.py:47-53 | a scorer that raises scores 0 in its own bucket with its maximum kept, and every other bucket is unaffected |
| ContentProfiles.ScoringProfile.GetWeight | backend/scoring/content_profiles.py:31-33 | the category's weight, or 1.0 for a category the profile does not list |
| ContentProfiles.ScoringProfile.GetAdjustment | backend/scoring/content_profiles.py:35-37 | the adjustment under the key, or the caller's default |
| ContentProfiles.MakeProfile | backend/scoring/content_profiles.py:18-29 | the profile keeps its name and weights; missing adjustments become an empty map |
| ContentProfiles.GetProfile | backend/scoring/content_profiles.py:147-157 | the registered profile of a known content type, the default profile for any other; its name is the content type or "default" |
| ContentProfiles.GetProfileByName | backend/scoring/content_profiles.py:160-162 | an alias of the lookup by content type |
| ContentProfiles.RegistryKeys | backend/scoring/content_profiles.py:138-144 | the registry holds exactly the four content types and "default" |
| ContentProfiles.WeightRanges | backend/scoring/content_profiles.py:40-135 | every profile weights exactly the six categories, each between 0.5 and 1.4; the default profile weights all at 1.0; an unlisted category weighs 1.0 |
| Scores.Report | backend/scoring/answerability.py:38-48 | the result dict of a scorer: for sub-scores that are whole tenths, the reported score is their sum and rounding leaves them unchanged |
| Scores.RoundSubsOfTenths | backend/scoring/answerability.py:43-47 | rounding sub-scores that are already whole tenths changes none of them |
| Scores.SumSubsTenth | backend/scoring/answerability.py:36-39 | a sum of whole tenths is a whole tenth, so `round(total, 1)` is the total itself |
| Schema.ErrorPlaceholder | backend/crawler/extractors/schema.py:42-47 | a script that does not parse is recorded as an error block that keeps at most 200 characters of its raw text |
| Schema.ExtractJsonld | backend/crawler/extractors/schema.py:26-50 | the loop over the scripts computes the blocks of every script in order, or stops at the first exception; this is the corrected extraction, in which an empty script gives a placeholder (see Findings) |
| Schema.ExtractPrefixFails | backend/crawler/extractors/schema.py:30-47 | once a script raises, the whole extraction raises that exception |
| Schema.ExtractAppend | backend/crawler/extractors/schema.py:30-47 | scripts are independent: the blocks of two runs of scripts are the blocks of each, concatenated |
| Schema.MalformedScript | backend/crawler/extractors/schema.py:42-47 | a script that does not parse contributes exactly one error placeholder |
| Schema.ParsedScript | backend/crawler/extractors/schema.py:32-40 | a parsed script contributes what `extend` takes from its `@graph` (the members of a list, the characters of a string, the keys of a dict in insertion order, TypeError for a number, boolean or null), the elements of a top-level list, or itself |
| Schema.DictGraphKeys | backend/crawler/extractors/schema.py:35-36 | a dict-valued `@graph` adds each of its keys once, as a string block, and nothing else |
| Schema.EmptyScriptAborts | backend/crawler/extractors/schema.py:30-47 | an empty script makes the extraction as written fail with TypeError; the corrected extraction records a placeholder and carries on |
| Schema.TypesOf | backend/crawler/extractors/schema.py:56-60 | a value is listed exactly when some non-error block has it as its type (or "Unknown" without one) |
| Schema.DetectSchemaTypes | backend/crawler/extractors/schema.py:52-62 | the distinct types of the non-error blocks, in order of first appearance, each exactly once |
| Schema.Clip | backend/crawler/extractors/schema.py:81 | slicing succeeds exactly on strings and lists and a clipped string has at most n characters |
| Schema.QaPairOf | backend/crawler/extractors/schema.py:71-83 | an FAQ answer string is cut to at most 200 characters |
| Schema.QaPairs | backend/crawler/extractors/schema.py:70-83 | one pair per entity when no entity raises |
| Schema.FaqSpec | backend/crawler/extractors/schema.py:64-91 | valid pairs never outnumber pairs; without an FAQPage block the result is the "not found" record |
| Schema.FaqFirstBlock | backend/crawler/extractors/schema.py:66-89 | the record is that of the first FAQPage block; later ones are ignored |
| Schema.CollectPairs | backend/crawler/extractors/schema.py:70-83 | the entity loop computes the pairs, stopping at the first entity that raises |
| Schema.QaPairsPrefixFails | backend/crawler/extractors/schema.py:70-83 | an entity that raises makes the whole FAQ extraction raise |
| Schema.ExtractFaqSchema | backend/crawler/extractors/schema.py:64-91 | the block loop computes the FAQ record of the specification |
| Schema.PresentFields | backend/crawler/extractors/schema.py:105 | a field is present exactly when it is required and in the block |
| Schema.MissingFields | backend/crawler/extractors/schema.py:106 | a field is missing exactly when it is required and not in the block |
| Schema.FieldsPartition | backend/crawler/extractors/schema.py:104-106 | present and missing fields split the required fields: together they are a permutation of them |
| Schema.CheckFieldsFacts | backend/crawler/extractors/schema.py:104-115 | valid exactly when no required field is missing; completeness is the present share, 1.0 with nothing required, always within 0..1 |
| Schema.ValidateSchema | backend/crawler/extractors/schema.py:93-115 | the corrected validation (see Findings): invalid exactly when the type is falsy or the block is an error block; otherwise the field check against the type's required fields |
| Schema.ListTypeRaises | backend/crawler/extractors/schema.py:104 | a block typed by a list makes the validation as written raise TypeError; the corrected one checks the fields of the first listed type |
| Schema.AsWrittenAgrees | backend/crawler/extractors/schema.py:93-115 | on every block whose type is hashable the corrected validation is the one as written |
| Schema.ValidateAllSpec | backend/crawler/extractors/schema.py:117-126 | one validation per non-error block |
| Schema.ValidateAllSchemas | backend/crawler/extractors/schema.py:117-126 | the loop computes the specification; no invalid validation carries a truthy type |
| Semantic.SecondPatternRedundant | backend/crawler/extractors/semantic.py:46-52 | as written the question test holds exactly when the text starts with an interrogative word: the phrase pattern adds nothing |
| Semantic.PhraseInsideMissed | backend/crawler/extractors/semantic.py:46-52 | "Learn how to cook" is not a question as written, and is one for the corrected test |
| Semantic.NoWordMatches | backend/crawler/extractors/semantic.py:49 | a text whose lower-cased form starts with 'l' starts with no interrogative word |
| Semantic.AnswerParts | backend/crawler/extractors/semantic.py:56-67 | at most two parts, each longer than 20 characters |
| Semantic.AnswerAfterHeading | backend/crawler/extractors/semantic.py:54-69 | the answer is at most 500 characters |
| Semantic.ExtractAnswerAfterHeading | backend/crawler/extractors/semantic.py:54-69 | the sibling walk computes the answer of the specification, at most 500 characters |
| Semantic.HeadingQuestions | backend/crawler/extractors/semantic.py:21-31 | at most one question per heading, each from an h2-h4 heading, carrying an answer of at most 500 characters; the pattern test is the one as written or the corrected one, by its flag |
| Semantic.CorrectedFindsMore | backend/crawler/extractors/semantic.py:21-31 | every heading question found as written is found by the corrected test too, and there are at least as many |
| Semantic.InlineQuestions | backend/crawler/extractors/semantic.py:33-41 | at most one question per sentence, each longer than 10 characters and without an answer |
| Semantic.CollectHeadingQuestions | backend/crawler/extractors/semantic.py:21-31 | the heading loop computes the heading questions, as written or corrected |
| Semantic.CollectInlineQuestions | backend/crawler/extractors/semantic.py:33-41 | the sentence loop computes the inline questions |
| Semantic.ExtractQuestions | backend/crawler/extractors/semantic.py:17-44 | the heading questions (as written or corrected, by its flag) then the inline ones; bounded by headings plus sentences; each record has the shape of its kind |
| Semantic.PatternsOf | backend/crawler/extractors/semantic.py:75-107 | at most one pattern per element, of the pass's kind, its content at most 300 characters |
| Semantic.CollectPatterns | backend/crawler/extractors/semantic.py:76-107 | one pass's loop computes its patterns |
| Semantic.ExtractAnswerPatterns | backend/crawler/extractors/semantic.py:71-110 | the three passes in order; every content at most 300 characters and of one of the three kinds |
| Semantic.TldrEntries | backend/crawler/extractors/semantic.py:89-98 | one TL;DR entry per div, p or section whose lower-cased text opens with a TL;DR prefix |
| Semantic.PreviousHeading | backend/crawler/extractors/semantic.py:120 | the heading found before an element is an h2 or h3 |
| Semantic.Contribution | backend/crawler/extractors/semantic.py:121-130 | one container contributes at most five takeaways |
| Semantic.ExtractKeyTakeaways | backend/crawler/extractors/semantic.py:112-133 | the container loop computes the takeaways, at most ten |
| Semantic.TakeawaysBound | backend/crawler/extractors/semantic.py:124-130 | at most five takeaways per container seen |
| Semantic.CleanWord | backend/crawler/extractors/semantic.py:150 | the cleaned word keeps only word characters |
| Semantic.KeptWords | backend/crawler/extractors/semantic.py:148-152 | every counted word is longer than three characters and not a stop word |
| Semantic.Freq | backend/crawler/extractors/semantic.py:147-152 | the table holds exactly the counted words, each with its number of occurrences |
| Semantic.Density | backend/crawler/extractors/semantic.py:160 | the density table is keyed by the first five keywords |
| Semantic.TopicStep | backend/crawler/extractors/semantic.py:151-152 | counting one more word increments its entry or adds it, and extends the first-occurrence order only when new |
| Semantic.CountKeywords | backend/crawler/extractors/semantic.py:147-152 | the counting loop builds the frequency table and the first-occurrence order of the counted words |
| Semantic.ExtractTopics | backend/crawler/extractors/semantic.py:135-162 | the method computes the topic summary of the specification |
| Semantic.TopKeywordsFacts | backend/crawler/extractors/semantic.py:154-156 | `most_common(10)`: `min(10, distinct words)` distinct counted words, most frequent first; a word left out means ten were kept and it occurs no more often than the tenth |
| Semantic.TopKeywordLeftOut | backend/crawler/extractors/semantic.py:154-156 | a word not among the top keywords occurs no more often than the tenth of ten kept |
| Semantic.TopicsFacts | backend/crawler/extractors/semantic.py:135-162 | `min(10, distinct keywords)` distinct keywords, most frequent first, any keyword left out no more frequent than the tenth; the density of each of the first five is its count; the total counts every word |
| ContentClassifier.TypeScores.Add | backend/crawler/extractors/content_classifier.py:115-134 | adding points to one type raises that type's score by exactly that much and leaves the other three alone |
| ContentClassifier.CheckMetaTag | backend/crawler/extractors/content_classifier.py:158-168 | a type is found exactly when the meta value, lower-cased, is one of the four types, and the result is that lower-cased value |
| ContentClassifier.CheckSchemaTypes | backend/crawler/extractors/content_classifier.py:170-179 | nothing is found exactly when no block maps to a type; otherwise the outcome is that of the first block that maps or raises |
| ContentClassifier.FirstRuleFrom | backend/crawler/extractors/content_classifier.py:186-212 | the type of the first rule with a fragment in the text, or none exactly when no rule matches |
| ContentClassifier.CheckUrlPatterns | backend/crawler/extractors/content_classifier.py:181-212 | the type of the first URL rule (experiential, transactional, informational, navigational) one of whose fragments occurs in the lower-cased URL; none exactly when no fragment occurs |
| ContentClassifier.Normalize | backend/crawler/extractors/content_classifier.py:236-238 | a normalised score is at most 3, zero exactly below 3 hits, and 3 from 9 hits on |
| ContentClassifier.CountKeywords | backend/crawler/extractors/content_classifier.py:227-234 | the keyword loop computes the total number of keyword occurrences |
| ContentClassifier.AnalyzeContentHeuristics | backend/crawler/extractors/content_classifier.py:214-240 | navigational always scores 0, every type at most 3, and informational scores exactly when its keywords occur at least three times |
| ContentClassifier.FirstStructuralFrom | backend/crawler/extractors/content_classifier.py:244-270 | the type of the first structural rule that fires, or none exactly when none does |
| ContentClassifier.CheckStructuralPatterns | backend/crawler/extractors/content_classifier.py:242-270 | the type of the first structural rule that fires (media, purchase buttons, headings with lists, links), or none exactly when none fires |
| ContentClassifier.MaxKey | backend/crawler/extractors/content_classifier.py:142 | a key of maximal score |
| ContentClassifier.MaxKeyIsFirst | backend/crawler/extractors/content_classifier.py:142 | the key picked is the first maximal one in key order, as `max` with a key function picks it |
| ContentClassifier.Classify | backend/crawler/extractors/content_classifier.py:84-156 | the method's step-by-step scoring computes the classification of the specification |
| ContentClassifier.AddHeuristicSignals | backend/crawler/extractors/content_classifier.py:124-128 | the heuristic loop adds each positive heuristic score and its signal, in type order |
| ContentClassifier.SignalTypesKnown | backend/crawler/extractors/content_classifier.py:115-134 | every type a signal can add to is one of the four keys, so no update raises KeyError |
| ContentClassifier.MetaTagDecides | backend/crawler/extractors/content_classifier.py:99-109 | a recognised meta value decides the type with high confidence and no score vector |
| ContentClassifier.ClassifyFails | backend/crawler/extractors/content_classifier.py:111-115 | without a meta tag, classification raises exactly when the schema check raises |
| ContentClassifier.DecideIsFirstMax | backend/crawler/extractors/content_classifier.py:136-144 | an all-zero vector gives informational with low confidence; otherwise the first maximal type, confidence high from 3, medium from 2, else low |
| ContentClassifier.AddSignalKeepsPairing | backend/crawler/extractors/content_classifier.py:113-121 | a signal step keeps "no signals" equivalent to "all scores zero" |
| ContentClassifier.AddHeuristicsKeepsPairing | backend/crawler/extractors/content_classifier.py:124-128 | the heuristic loop keeps "no signals" equivalent to "all scores zero" |
| ContentClassifier.SignalsIffScores | backend/crawler/extractors/content_classifier.py:136-156 | the signal list is empty exactly when every score is zero, so the primary signal is "default" exactly in the zero case |
| Dom.Descendants | backend/crawler/parser.py:87 | the search of `find_all` visits only elements |
| Dom.LocatedOfNodes | backend/crawler/extractors/semantic.py:22-25 | walking the elements with their following siblings visits exactly the descendants, in order |
| Dom.FindAll | backend/crawler/parser.py:121 | exactly the descendants carrying one of the searched tags: every element found carries one, and every descendant carrying one is found |
| Dom.FindAllInOrder | backend/crawler/parser.py:121 | the found elements are the tagged descendants in document order (the order-preserving filter of the descendant walk) |
| Dom.FirstWithTags | backend/crawler/parser.py:66-73 | the first element with one of the tags, or none exactly when no element has one |
| Dom.Texts | backend/crawler/parser.py:122 | one stripped text per element, in order |
| Dom.RemoveTags | backend/crawler/parser.py:22-30 | removal keeps the root's tag, attributes and classes |
| Dom.RemoveTagsOfClean | backend/crawler/parser.py:22-30 | after decomposing, no element of the removed tags is left anywhere below |
| Dom.RemoveTagsKeepsUntagged | backend/crawler/parser.py:22-30 | removing elements never brings in an element of other tags |
| Parser.FirstByRule | backend/crawler/parser.py:43-51 | the first element a selector accepts, or none exactly when it accepts none |
| Parser.SelectMain | backend/crawler/parser.py:43-51 | the main area is found by the first selector (main, article, the content ids, role main, a content class, body) that accepts some element |
| Parser.CleanFirstBelowKeepsUntagged | backend/crawler/parser.py:55-56 | cleaning the main area never brings in an element of other tags |
| Parser.MainContentKeepsUntagged | backend/crawler/parser.py:34-62 | the document left by `get_main_content` holds no element of tags it lacked, so the noise removal of the constructor survives |
| Parser.NoMainArea | backend/crawler/parser.py:53-62 | without a main-area candidate the text is empty and the document is unchanged |
| Parser.TitleSource | backend/crawler/parser.py:64-75 | the title is the text of the first title element when there is one, else of the first h1, else empty |
| Parser.HeadingsAt | backend/crawler/parser.py:87-94 | the headings of one level, each recording that level |
| Parser.HeadingsGrouped | backend/crawler/parser.py:86-94 | headings come grouped by level ascending, every level between 1 and 6 |
| Parser.ParagraphRecords | backend/crawler/parser.py:105-112 | every kept paragraph is longer than 20 characters and counts its words |
| Parser.ListRecords | backend/crawler/parser.py:121-128 | every kept list has at least two direct items |
| Parser.RowCells | backend/crawler/parser.py:141-144 | only rows with cells are kept |
| Parser.TableOf | backend/crawler/parser.py:137-152 | a table is kept only with a row of cells; its column count is the header count, or the first row's length without headers |
| Parser.TableRecords | backend/crawler/parser.py:137-152 | every kept table has non-empty rows and the column count of its headers or first row |
| Parser.MetaFromKeys | backend/crawler/parser.py:162-166 | a key is in the table exactly when some meta element contributes it |
| Parser.MetaLastWins | backend/crawler/parser.py:162-166 | each entry holds the non-empty content of the last meta element with that key |
| Parser.FirstCanonical | backend/crawler/parser.py:169 | the first canonical link, or none exactly when there is none |
| Parser.MetaTagsFacts | backend/crawler/parser.py:157-174 | 'canonical' holds the first canonical link's href when there is one; every other entry is the last content given for its key |
| Parser.ContentParser.constructor | backend/crawler/parser.py:12-20 | the parser's document has no script, style, nav or footer element left |
| Parser.ContentParser.GetMainContent | backend/crawler/parser.py:34-62 | the text and the document left behind are those of the specification |
| Parser.ContentParser.ExtractHeadings | backend/crawler/parser.py:77-97 | every heading has a level 1 to 6 and levels never decrease along the list |
| Parser.ContentParser.ExtractParagraphs | backend/crawler/parser.py:99-115 | every paragraph is longer than 20 characters and counts its words |
| Parser.CollectHeadingsAt | backend/crawler/parser.py:87-94 | one pass over the document collects exactly the headings of one level, in document order |
| Parser.CollectHeadings | backend/crawler/parser.py:86-94 | the level loop collects the headings of levels 1 to 6, level by level |
| Parser.CollectParagraphs | backend/crawler/parser.py:105-112 | the paragraph loop keeps exactly the paragraphs longer than 20 characters, with their word counts |
| Parser.ContentParser.ExtractLists | backend/crawler/parser.py:117-131 | every list has at least two items |
| Parser.ContentParser.ExtractTables | backend/crawler/parser.py:133-155 | every table has rows and the column count of its headers or first row |
| Parser.ContentParser.ExtractMetaTags | backend/crawler/parser.py:157-174 | the method computes the meta table of the specification |
| Parser.CollectLists | backend/crawler/parser.py:121-128 | the list loop computes the kept lists |
| Parser.CollectTables | backend/crawler/parser.py:137-152 | the table loop computes the kept tables |
| Parser.CollectRows | backend/crawler/parser.py:141-144 | the row loop keeps exactly the rows with cells |
| Orchestrator.FirstIndex | backend/crawler/orchestrator.py:194-204 | the first position satisfying the test, or none exactly when no position does |
| Orchestrator.AuthorInfo | backend/crawler/orchestrator.py:189-214 | found exactly when an article block has an author or a meta author exists; "jsonld" is a source exactly when an article block has an author; at most two sources |
| Orchestrator.ExtractAuthorInfo | backend/crawler/orchestrator.py:189-214 | the block loop, stopping at the first article block with an author, computes the author record |
| Orchestrator.DatesOf | backend/crawler/orchestrator.py:216-230 | the dates come from the first article block only; its source is recorded exactly when that block has a publication date; without article blocks both dates are None |
| Orchestrator.ExtractDates | backend/crawler/orchestrator.py:216-230 | the block loop computes the dates of the first article block |
| Orchestrator.LinkCandidates | backend/crawler/orchestrator.py:237-240 | every candidate starts with "http" and points at another host |
| Orchestrator.ExtractExternalLinks | backend/crawler/orchestrator.py:232-242 | at most fifty distinct links, each starting with "http" and pointing at another host |
| Orchestrator.ExternalLinksComplete | backend/crawler/orchestrator.py:242 | with at most fifty distinct candidates no external link is lost |
| Orchestrator.ComputeFeatures | backend/crawler/orchestrator.py:249-265 | each feature is the count or the test it names: a TL;DR block exists, HTTPS, a non-empty meta description, a publication date |
| Orchestrator.ScriptStrings | backend/crawler/extractors/schema.py:30 | without script elements there is nothing to parse |
| Orchestrator.AsBlocks | backend/crawler/orchestrator.py:128-136 | the items are kept one for one as dictionaries, or the extraction fails on a non-object item (earlier than the source, which raises only where a later pass reaches it) |
| Orchestrator.ExtractFrom | backend/crawler/orchestrator.py:88-187 | with its flag off, the extraction as written; with it on, the corrected one (JSON-LD read from the unparsed document, the corrected question test). A failed fetch raises; otherwise the blocks are those of the searched document, the questions those of the chosen test, the word count is that of the main content and HTTPS is read off the URL |
| Orchestrator.AsWrittenLosesJsonld | backend/crawler/orchestrator.py:108-128 | as written the JSON-LD list is always empty, because the parser has already removed every script |
| Orchestrator.ScriptIsFound | backend/crawler/orchestrator.py:108-128 | a page with one JSON-LD script yields its block from the original document and nothing from the cleaned one |
| Orchestrator.Extract | backend/crawler/orchestrator.py:88-187 | the pipeline of passes computes the extraction as written or the corrected one, by its flag |
| Orchestrator.ExtractBlocks | backend/crawler/orchestrator.py:127-128 | the JSON-LD pass computes the blocks of the document it is given |
| HybridFetch.SubdomainRequiresJavascript | backend/crawler/hybrid_fetcher.py:136-152 | any subdomain of a listed two-label site needs JavaScript |
| HybridFetch.CountPresent | backend/crawler/hybrid_fetcher.py:184 | counts at most one per pattern |
| HybridFetch.Penalties | backend/crawler/hybrid_fetcher.py:169-209 | each reason is recorded exactly when its check fires: under 1000 characters, two JavaScript markers, four essential tags missing, two loading-screen markers |
| HybridFetch.Bonus | backend/crawler/hybrid_fetcher.py:212-216 | a bonus never lowers the score nor lifts it past 100 |
| HybridFetch.QualityOf | backend/crawler/hybrid_fetcher.py:154-221 | the score lies in 0..100; a failed fetch scores 0 with "fetch_error"; "good_quality" exactly when no penalty fires, and then the score is 100; all four penalties give 0 |
| HybridFetch.AssessContentQuality | backend/crawler/hybrid_fetcher.py:154-221 | the checks one after the other compute the quality of the specification |
| HybridFetch.FetchOutcome | backend/crawler/hybrid_fetcher.py:78-127 | the page is the HTTP page or the browser page; a JavaScript-heavy domain always gets the browser; otherwise the result scores no worse than the HTTP page |
| HybridFetch.BrowserWinsOnlyWhenBetter | backend/crawler/hybrid_fetcher.py:108-124 | after a poor HTTP page the browser page is returned exactly when it scores strictly higher |
| HybridFetch.HybridFetcher.constructor | backend/crawler/hybrid_fetcher.py:73-76 | no browser fetcher yet, and the browser is not forced |
| HybridFetch.HybridFetcher.FetchWithBrowser | backend/crawler/hybrid_fetcher.py:129-134 | the browser fetcher is created once, on first use, and returns the browser's page |
| HybridFetch.HybridFetcher.Fetch | backend/crawler/hybrid_fetcher.py:78-127 | returns the fetch outcome; the browser fetcher exists afterwards exactly when it existed or this fetch needed it |
| DomainCrawler.PageResults | backend/crawler/domain_crawler.py:226-243 | one entry per URL, in URL order: the audit result, or the error record of an audit that raised |
| DomainCrawler.FailedPagesRecorded | backend/crawler/domain_crawler.py:235-241 | a failed audit is recorded under its own URL with its message and score 0 |
| DomainCrawler.AuditPages | backend/crawler/domain_crawler.py:228-245 | the batch loop, whatever the batch size, collects the same entries as auditing the URLs one by one |
| DomainCrawler.DomainGrade | backend/crawler/domain_crawler.py:288-300 | one of six grades; "F" exactly below 50 and "A+" exactly from 90 |
| DomainCrawler.DomainGradeMonotone | backend/crawler/domain_crawler.py:288-300 | a higher average never gets a lower domain grade |
| DomainCrawler.GradersDiffer | backend/crawler/domain_crawler.py:288-300 | the domain and page grading functions disagree: 82 is an "A" for a domain and an "A-" for a page |
| DomainCrawler.BestIndex | backend/crawler/domain_crawler.py:310 | the best page has the highest score and is the first such page |
| DomainCrawler.WorstIndex | backend/crawler/domain_crawler.py:311 | the worst page has the lowest score and is the first such page |
| DomainCrawler.Lookup | backend/crawler/domain_crawler.py:277-279 | the entry of the named category, or none exactly when the breakdown lacks it |
| DomainCrawler.CategoryScoresNonEmpty | backend/crawler/domain_crawler.py:277-281 | a result holding the category contributes a score to its average |
| DomainCrawler.Averages | backend/crawler/domain_crawler.py:273-286 | one average per category of the first valid result, keeping its maximum, whose score is the rounded mean over the valid results holding it; it raises exactly on a zero maximum |
| DomainCrawler.AggregateResults | backend/crawler/domain_crawler.py:253-312 | without a valid (positive-score) page the "no pages" record; otherwise the counts of audited and valid pages and the valid pages themselves |
| DomainCrawler.AggregateBounds | backend/crawler/domain_crawler.py:270-311 | the domain score is the rounded mean of the valid scores and lies between the rounded worst and best page scores |
| DomainCrawler.DomainAudit | backend/crawler/domain_crawler.py:199-251 | the empty-discovery record exactly when no URL is found; otherwise every URL counts as audited |
| DomainCrawler.AuditDomain | backend/crawler/domain_crawler.py:199-251 | the batch loop followed by the aggregation computes the domain audit |
| ProgressTracking.ToDict | backend/progress_tracker.py:26-33 | every field by name, in order; the result appears exactly for a completed or failed job |
| ProgressTracking.Apply | backend/progress_tracker.py:71-73 | an unknown keyword changes nothing, and the job id never changes |
| ProgressTracking.Recompute | backend/progress_tracker.py:78-85 | only the percentage can change, and only for a job with URLs that is discovering, auditing or completed; a completed one is at 100 |
| ProgressTracking.PercentageBounds | backend/progress_tracker.py:79-83 | with sensible counts, discovery stays within 0..10 and auditing within 10..100 |
| ProgressTracking.CompletionIsFinal | backend/progress_tracker.py:122-130 | after `complete_job` the job is completed or failed, at 100 percent, with a message, and its dict carries the result |
| ProgressTracking.Offer | backend/progress_tracker.py:116-120 | a full bounded queue drops the record; otherwise it is appended |
| ProgressTracking.OfferTimesBounds | backend/progress_tracker.py:110-120 | a bounded queue never grows past its bound, an unbounded one keeps every offer, and what it held stays in front |
| ProgressTracking.Queue.constructor | backend/progress_tracker.py:98-102 | a new queue is empty with the given bound |
| ProgressTracking.ProgressTracker.constructor | backend/progress_tracker.py:42-45 | no jobs, no listeners, no results |
| ProgressTracking.ProgressTracker.CreateJob | backend/progress_tracker.py:47-60 | a fresh discovering record replaces any job with that id, its listener list is reset, results untouched |
| ProgressTracking.ProgressTracker.Update | backend/progress_tracker.py:62-92 | an unknown job changes nothing; otherwise the record is updated and each listening queue is offered it once per registration |
| ProgressTracking.ProgressTracker.NotifyListeners | backend/progress_tracker.py:110-120 | each registered queue is offered the record once per registration |
| ProgressTracking.ProgressTracker.GetProgress | backend/progress_tracker.py:94-96 | the record of a known job, none otherwise |
| ProgressTracking.ProgressTracker.AddListener | backend/progress_tracker.py:98-102 | the queue is appended to the job's listeners, created if missing |
| ProgressTracking.ProgressTracker.RemoveListener | backend/progress_tracker.py:104-108 | the first registration of the queue is dropped, if any |
| ProgressTracking.ProgressTracker.CompleteJob | backend/progress_tracker.py:122-130 | the job is updated with the completion settings |
| ProgressTracking.ProgressTracker.StoreResult | backend/progress_tracker.py:132-137 | the result is stored and attached to the job's record when the job exists |
| ProgressTracking.ProgressTracker.GetResult | backend/progress_tracker.py:139-141 | the stored result of the job, none otherwise |
| ProgressTracking.ProgressTracker.Cleanup | backend/progress_tracker.py:143-154 | the job disappears from all three tables, nothing else changes |
| ProgressTracking.RemoveFirst | backend/progress_tracker.py:107-108 | one occurrence fewer when present, unchanged otherwise |
| AuditPipeline.TitleFrom | backend/audit_pipeline.py:87 | title-casing keeps the length and every non-letter, upper-cases a letter that follows a non-letter or starts the text, and lower-cases a letter that follows a letter |
| AuditPipeline.Underscores | backend/audit_pipeline.py:87 | every underscore becomes a space and nothing else changes |
| AuditPipeline.Candidates | backend/audit_pipeline.py:78-92 | one recommendation per category with a gap of at least two; it raises ZeroDivisionError exactly when such a category has maximum 0 |
| AuditPipeline.TopTenSorted | backend/audit_pipeline.py:94-97 | the ten kept are in priority order |
| AuditPipeline.TopTenMembers | backend/audit_pipeline.py:94-97 | the kept are candidates, and all of them when there are at most ten |
| AuditPipeline.SimpleRecommendationsFacts | backend/audit_pipeline.py:74-97 | at most ten recommendations, highest priority first, each for a category with a gap of at least two; with at most ten such categories every one is there; a qualifying category left out by `[:10]` has priority no higher than the tenth kept |
| AuditPipeline.TopTenLeftOut | backend/audit_pipeline.py:94-97 | a candidate cut by `[:10]` ranks no higher than the tenth one kept |
| AuditPipeline.CandidatesCount | backend/audit_pipeline.py:78-92 | one candidate per qualifying category |
| AuditPipeline.CandidatesFailurePersists | backend/audit_pipeline.py:78-92 | a division by zero anywhere aborts the whole list |
| AuditPipeline.GenerateSimpleRecommendations | backend/audit_pipeline.py:74-97 | the loop, sort and cut compute the recommendations of the specification |
| AuditPipeline.Summary | backend/audit_pipeline.py:53-60 | the summary counts the headings, questions and blocks and reports author and date presence |
| AuditPipeline.AuditPageOf | backend/audit_pipeline.py:18-72 | the page audit over the extraction as written, or over the corrected one, by its flag: an extraction failure is passed on; otherwise URL, score, grade and breakdown are the calculator's, and the recommendations are those of its breakdown |
| AuditPipeline.AuditPage | backend/audit_pipeline.py:18-72 | the steps compute the page audit, as written or corrected by its flag |
| RecommendationGenerator.FindCategory | backend/reporting/recommendation_generator.py:504 | the table entry of the category, or none exactly when the table lacks it |
| RecommendationGenerator.FindSub | backend/reporting/recommendation_generator.py:525-526 | the entry of the sub-category, or none exactly when the category lacks it |
| RecommendationGenerator.LevelOf | backend/reporting/recommendation_generator.py:512-521 | low below 50 percent, medium from 50 to below 75, high from 75 |
| RecommendationGenerator.PriorityOf | backend/reporting/recommendation_generator.py:512-521 | the weaker the tier, the more urgent: 100, 75 or 50 |
| RecommendationGenerator.SubRecommendationsFromTable | backend/reporting/recommendation_generator.py:524-541 | every recommendation of a known category names it and a sub-category the table lists, with at most three of that tier's tips |
| RecommendationGenerator.AllFromTable | backend/reporting/recommendation_generator.py:503-541 | every recommendation comes from the tip table |
| RecommendationGenerator.RecommendationsFacts | backend/reporting/recommendation_generator.py:497-546 | at most `top_n` recommendations, highest priority first, all from the table; they open the stably sorted list, so recommendations of one priority keep their generation order |
| RecommendationGenerator.FindCategoryAt | backend/reporting/recommendation_generator.py:504 | the lookup finds the entry holding the key |
| RecommendationGenerator.SubKeys | backend/reporting/recommendation_generator.py:19 | the keys of a category's sub-categories, in order |
| RecommendationGenerator.HasTipsIffKey | backend/reporting/recommendation_generator.py:525 | tips exist exactly for the sub-category keys the category lists |
| RecommendationGenerator.AnswerabilityKeys | backend/reporting/recommendation_generator.py:16-93 | the answerability entry lists direct_answer_presence, question_coverage, answer_conciseness and answer_block_formatting |
| RecommendationGenerator.StructuredDataKeys | backend/reporting/recommendation_generator.py:94-171 | the structured-data entry lists faq_schema, howto_schema, article_schema and breadcrumb_schema |
| RecommendationGenerator.AuthorityKeys | backend/reporting/recommendation_generator.py:172-256 | the authority entry lists author_info, citations, dates and expertise_signals |
| RecommendationGenerator.ContentQualityKeys | backend/reporting/recommendation_generator.py:257-342 | the content-quality entry lists word_count, headings, uniqueness and freshness |
| RecommendationGenerator.CitationabilityKeys | backend/reporting/recommendation_generator.py:343-408 | the citationability entry lists facts_density, tables and clarity |
| RecommendationGenerator.TechnicalKeys | backend/reporting/recommendation_generator.py:409-494 | the technical entry lists page_speed, mobile_friendly, https and crawlability |
| RecommendationGenerator.AnswerabilityHasTips | backend/scoring/answerability.py:42-47 | every answerability sub-score has tips |
| RecommendationGenerator.StructuredDataHasNoTips | backend/scoring/structured_data.py:36-41 | no structured-data sub-score has tips, since the table uses other names |
| RecommendationGenerator.AuthorityHasNoTips | backend/scoring/authority.py:26-31 | no authority sub-score has tips |
| RecommendationGenerator.ContentQualityTipsOnlyFreshness | backend/scoring/content_quality.py:27-31 | of the content-quality sub-scores only "freshness" has tips |
| RecommendationGenerator.CitationabilityHasNoTips | backend/scoring/citationability.py:26-31 | no citationability sub-score has tips |
| RecommendationGenerator.TechnicalHasNoTips | backend/scoring/technical.py:27-33 | no technical sub-score has tips |
| RecommendationGenerator.UnknownCategoryIgnored | backend/reporting/recommendation_generator.py:504-505 | a category outside the table yields nothing |
| RecommendationGenerator.CollectSubRecommendations | backend/reporting/recommendation_generator.py:524-541 | the sub-score loop computes the category's recommendations |
| RecommendationGenerator.GenerateRecommendations | backend/reporting/recommendation_generator.py:497-546 | the loops, the stable sort and the cut compute the recommendations of the specification |
| RecommendationGenerator.CategoryOverview | backend/reporting/recommendation_generator.py:548-556 | the table's title and description, or the category name with "No description available" |
| GeoTopics.UrlTopics | backend/scoring/geo_scorer.py:272-273 | at most five URL segments, each longer than three characters and not a scheme or "www" |
| GeoTopics.MeaningfulWords | backend/scoring/geo_scorer.py:276-279 | every word kept is a run of at least four lower-case letters and not a stop word |
| GeoTopics.FrequentWords | backend/scoring/geo_scorer.py:281-282 | the frequent words are words of the summary |
| GeoTopics.FrequentWordsFacts | backend/scoring/geo_scorer.py:281-282 | at most ten words, each repeated; with at most ten distinct words every repeated word is there; a repeated word left out means ten were kept, each occurring at least as often |
| GeoTopics.FrequentWordLeftOut | backend/scoring/geo_scorer.py:281-282 | a repeated word cut by `most_common(10)` ranks below ten words that occur at least as often, all of which pass `c > 1` |
| GeoTopics.PageTopics | backend/scoring/geo_scorer.py:268-283 | every topic a page contributes is longer than three characters |
| GeoTopics.TopicSet | backend/scoring/geo_scorer.py:265-283 | every topic is longer than three characters |
| GeoTopics.TopicSetStep | backend/scoring/geo_scorer.py:267-283 | one more page adds its URL segments and its frequent words |
| GeoTopics.TopicsFacts | backend/scoring/geo_scorer.py:263-285 | at most fifteen distinct topics from the set, and the whole set when it has at most fifteen |
| GeoTopics.ExtractTopics | backend/scoring/geo_scorer.py:263-285 | the page loop computes the topics of the specification |
| GeoScorer.Capped | backend/scoring/geo_scorer.py:201 | the score is capped at the maximum and is either the score or the maximum |
| GeoScorer.BrandName | backend/scoring/geo_scorer.py:120-126 | the brand has the length of the host's first label |
| GeoScorer.BrandNameIsOneLabel | backend/scoring/geo_scorer.py:120-126 | the brand holds no '.' and no '/' |
| GeoScorer.BrandNameOfHost | backend/scoring/geo_scorer.py:120-126 | for an http(s) URL the brand is the capitalised first label of the host, after any "www." |
| GeoScorer.CanonicalSignal | backend/scoring/geo_scorer.py:138-159 | the canonical-page signal is worth 0, 8 or 10 |
| GeoScorer.FirstHit | backend/scoring/geo_scorer.py:140-156 | the first page that is an about page or defines the brand, or none exactly when no page does |
| GeoScorer.CanonicalSignalFirstHit | backend/scoring/geo_scorer.py:138-159 | the first hit decides: 10 for an about page, 8 for a brand definition, 0 with the "missing" evidence when there is none |
| GeoScorer.OrgSignal | backend/scoring/geo_scorer.py:161-171 | four points per page with Organization schema, at most eight |
| GeoScorer.MentionSignal | backend/scoring/geo_scorer.py:173-181 | the truncated share of seven points, within 0..7 |
| GeoScorer.MentionPointsBound | backend/scoring/geo_scorer.py:178-179 | the truncated mention points lie within 0..7 |
| GeoScorer.KnowledgeSignal | backend/scoring/geo_scorer.py:183-198 | 5, 4, 2 or 0 points for five, three, one or no knowledge pages |
| GeoScorer.BrandFoundation | backend/scoring/geo_scorer.py:128-204 | the sum of the four signals, which never exceeds 30, so the cap never applies |
| GeoScorer.ScoreBrandFoundation | backend/scoring/geo_scorer.py:128-204 | the page scan that stops at the first hit computes the component of the specification |
| GeoScorer.DiversitySignal | backend/scoring/geo_scorer.py:219-232 | 10, 7, 4 or 2 points for eight, five, three or fewer topics |
| GeoScorer.GroupSize | backend/scoring/geo_scorer.py:293-300 | a topic's group holds at most every page |
| GeoScorer.MultiTopics | backend/scoring/geo_scorer.py:303 | the reinforced topics are topics with more than one page |
| GeoScorer.GroupTotalLower | backend/scoring/geo_scorer.py:306 | reinforced groups hold at least two pages each |
| GeoScorer.ModerateDepthUnreachable | backend/scoring/geo_scorer.py:305-317 | depth scores only 2, 7 or 10: the average group size is never below two, so the 4-point branch is dead |
| GeoScorer.TopicDepth | backend/scoring/geo_scorer.py:287-328 | the depth signal lies within 0..10 |
| GeoScorer.TopicDepthPenalty | backend/scoring/geo_scorer.py:320-325 | orphaned experiential pages cost exactly two points, the floor at zero never binding |
| GeoScorer.GroupSizeStep | backend/scoring/geo_scorer.py:294-300 | one more page joins the group of each topic it mentions |
| GeoScorer.GroupSizes | backend/scoring/geo_scorer.py:293-300 | the grouping loop computes every topic's group size |
| GeoScorer.AnalyzeTopicDepth | backend/scoring/geo_scorer.py:287-328 | the grouping, the reinforced topics and the penalty compute the depth signal |
| GeoScorer.MixSignal | backend/scoring/geo_scorer.py:239-255 | 5 points for knowledge and experiential pages, 3 for one of them, 1 otherwise |
| GeoScorer.TopicCoverage | backend/scoring/geo_scorer.py:206-261 | the sum of diversity, depth and mix, which never exceeds 25 |
| GeoScorer.BrandConsistencySignal | backend/scoring/geo_scorer.py:347-361 | 8, 5 or 2 points for a mention ratio from 0.8, from 0.5, or less |
| GeoScorer.SummaryLengthsNonEmpty | backend/scoring/geo_scorer.py:366-370 | an intent has a group exactly when some page has that intent |
| GeoScorer.ToneSignal | backend/scoring/geo_scorer.py:381-385 | 7 points for a consistent tone, 4 otherwise |
| GeoScorer.OutlierSignal | backend/scoring/geo_scorer.py:395-402 | 5, 3 or 1 points for no, one, or more outliers |
| GeoScorer.Consistency | backend/scoring/geo_scorer.py:330-409 | a single page gets 10; otherwise the sum of the three signals; never above 20 |
| GeoScorer.GroupByIntent | backend/scoring/geo_scorer.py:366-370 | the grouping loop builds the summary lengths of each intent |
| GeoScorer.VariesTooMuch | backend/scoring/geo_scorer.py:374-379 | a group is inconsistent exactly when it has two lengths or more and a standard deviation above half the mean |
| GeoScorer.ConsistentOnGroups | backend/scoring/geo_scorer.py:372-379 | checking the groups in any order decides tone consistency |
| GeoScorer.CheckTone | backend/scoring/geo_scorer.py:372-379 | the group loop decides tone consistency |
| GeoScorer.ScoreConsistency | backend/scoring/geo_scorer.py:330-409 | the method computes the consistency component |
| GeoScorer.ComparativeUrls | backend/scoring/geo_scorer.py:422-426 | one URL per comparative page |
| GeoScorer.ComparativeSignal | backend/scoring/geo_scorer.py:428-434 | 6 points for three comparative pages or more, 3 for one, 0 otherwise |
| GeoScorer.DistinctSignal | backend/scoring/geo_scorer.py:437-446 | 2 points for a generic brand word, 5 otherwise |
| GeoScorer.QaSignal | backend/scoring/geo_scorer.py:449-461 | 4 points for three question-answering pages or more, 2 for one |
| GeoScorer.AiRecall | backend/scoring/geo_scorer.py:411-468 | the sum of the three signals, never above 15 |
| GeoScorer.ScoreAiRecall | backend/scoring/geo_scorer.py:411-468 | the method with its page loop computes the AI-recall component |
| GeoScorer.HttpsSignal | backend/scoring/geo_scorer.py:480-488 | 3 points for an https site or any localhost URL |
| GeoScorer.AuthorSignal | backend/scoring/geo_scorer.py:491-505 | 4 points when half the pages name an author, 2 from a fifth |
| GeoScorer.DateSignal | backend/scoring/geo_scorer.py:507-521 | 3 points when half the pages are dated, 2 from a fifth |
| GeoScorer.Trust | backend/scoring/geo_scorer.py:470-527 | the sum of the three signals, never above 10 |
| GeoScorer.LabelsWhere | backend/scoring/geo_scorer.py:541-546 | the strengths and weaknesses are component labels |
| GeoScorer.PrimaryIntentMostCommon | backend/scoring/geo_scorer.py:534-535 | the primary intent is a page's intent, no intent is more frequent, and among equally frequent intents it is the first in page order |
| GeoScorer.PrimaryIntentFirst | backend/scoring/geo_scorer.py:534-535 | `most_common(1)` breaks ties by first occurrence: an intent as frequent as the primary one never occurs before it |
| GeoScorer.SummaryParts | backend/scoring/geo_scorer.py:558 | the summary opens with the brand's readiness clause |
| GeoScorer.SummaryShape | backend/scoring/geo_scorer.py:529-571 | the summary starts with the brand and the readiness word for the total, and ends with '.' |
| GeoScorer.RecommendationsFacts | backend/scoring/geo_scorer.py:573-608 | at most five actions, each a listed one; none exactly when no component is below 60 percent; a weak brand foundation leads with its two actions |
| GeoScorer.ScoredComponents | backend/scoring/geo_scorer.py:69-83 | every component has its maximum and lies within it; the total lies within 0..100 |
| GeoScorer.GeoScoreOf | backend/scoring/geo_scorer.py:34-118 | no pages give the empty result with brand "Unknown"; otherwise the brand of the site URL and the page count; the score is the sum of the components, within 0..100, with at most five actions |
| GeoScorer.CalculateGeoScore | backend/scoring/geo_scorer.py:34-118 | the method computes the GEO result of the specification |
| Dicts.IndexOf | run_benchmark.py:227 | a key's position is its first occurrence, and there is none exactly when the key is absent |
| Dicts.IndexOfIs | run_benchmark.py:227 | the first position holding the key is the one found |
| Dicts.SameKeysIndex | run_benchmark.py:141 | lookups depend on the keys alone |
| Dicts.GetEntry | run_benchmark.py:241 | with distinct keys each entry is what its key looks up |
| Dicts.PutNew | run_benchmark.py:263-264 | assigning a new key makes it look up its value and leaves every other lookup unchanged |
| Dicts.PutPresent | run_benchmark.py:141 | assigning a present key keeps the keys in place and changes only that key's lookup |
| Dicts.PutFacts | run_benchmark.py:141 | the laws of assignment: the key gains the value, others are unchanged, a new key goes to the end, and keys stay distinct |
| Dicts.PutAllFresh | run_benchmark.py:317-333 | assigning keys that are all new appends them in order |
| Dicts.ValuesOf | run_benchmark.py:260-265 | a key has values exactly when it occurs |
| Dicts.GroupedKeys | run_benchmark.py:260-265 | grouping lists each key once, in order of first appearance |
| Dicts.GroupedGet | run_benchmark.py:260-265 | each key looks up the list of all values paired with it, in order |
| Dicts.GroupedEntries | run_benchmark.py:260-265 | every group has a distinct key and holds the non-empty list of that key's values |
| Dicts.GroupBy | run_benchmark.py:260-265 | the grouping loop computes the grouping |
| Benchmark.PercentageError | run_benchmark.py:104 | non-negative; 0 for a non-positive expectation; otherwise the absolute difference as a percentage of the expectation |
| Benchmark.ActualScore | run_benchmark.py:137-138 | the category's reported score, or 0 when the breakdown lacks it or its score |
| Benchmark.CategoryDifferencesFacts | run_benchmark.py:132-148 | one entry per expected category, in order, each comparing the expectation with the reported score |
| Benchmark.AnalyzeCategoryDifferences | run_benchmark.py:132-148 | the loop computes the differences of the specification |
| Benchmark.ResultFor | run_benchmark.py:92-118 | the result records the site, the reported score (0 when absent) and grade ("N/A" when absent), and the difference actual minus expected |
| Benchmark.CategoryResultsFacts | run_benchmark.py:84-130 | one result per site that could be audited, each the result of such a site |
| Benchmark.WithinMonotone | run_benchmark.py:203-205 | a wider tolerance never counts fewer results, and none counts more than all |
| Benchmark.PercentOrder | run_benchmark.py:214-216 | shares of ordered counts are ordered and lie within 0..100 |
| Benchmark.PercentageBounds | run_benchmark.py:214-216 | the rounded accuracy percentages keep that order |
| Benchmark.SummaryCounts | run_benchmark.py:194-219 | the summary counts every result, and within 5 ≤ within 10 ≤ within 15, in counts and percentages |
| Benchmark.SumDifferenceSplit | run_benchmark.py:199 | the total difference is total actual minus total expected |
| Benchmark.SumAbsBound | run_benchmark.py:199-200 | the total difference is bounded by the total absolute error |
| Benchmark.RoundedMeanAbs | run_benchmark.py:211-212 | rounding keeps the mean difference within the mean absolute error |
| Benchmark.SummaryBias | run_benchmark.py:218 | underscoring, overscoring or neutral exactly as the total actual is below, above or equal to the total expected; the average difference never exceeds the average absolute error |
| Benchmark.StatsOf | run_benchmark.py:241-246 | the four lists have one element per result of the category, and the average difference never exceeds the average absolute error |
| Benchmark.CategoryValues | run_benchmark.py:225-238 | a category's results are the results of that category, in order |
| Benchmark.CategoryAnalysisFacts | run_benchmark.py:221-248 | one entry per category in order of first appearance, each the statistics of its non-empty list of results |
| Benchmark.FlaggedFacts | run_benchmark.py:268-279 | a category is flagged exactly when its mean passes the threshold, with its rounded mean; categories stay distinct |
| Benchmark.NotBoth | run_benchmark.py:270-279 | no category is both low and high |
| Benchmark.FlaggedDisjoint | run_benchmark.py:268-279 | the low and high lists share no category |
| Benchmark.LargestErrorsFacts | run_benchmark.py:281-291 | up to five results, largest absolute difference first; any result left out has no larger error than the fifth |
| Benchmark.IssuesFacts | run_benchmark.py:250-293 | low averages are at most -5 and high at least 5; every category averaging below -5 (above 5) is listed low (high); no category in both |
| Benchmark.CalibrationPriority | run_benchmark.py:303-312 | at most one critical issue, present exactly when the rounded mean difference exceeds 10 in size, and its direction agrees with the bias |
| Benchmark.AdjustmentsFacts | run_benchmark.py:317-333 | with disjoint categories the two loops append the low then the high adjustments; HIGH priority exactly for the low categories |
| Benchmark.CalibrationAdjustments | run_benchmark.py:314-333 | the weight adjustments are the low then the high ones, HIGH exactly for the consistently low categories |
| Benchmark.ReportOf | run_benchmark.py:169-192 | no report exactly when there are no results; otherwise it lists every result and its summary counts them |
| Benchmark.BenchmarkRunner.constructor | run_benchmark.py:24-27 | a runner for the URL with no results |
| Benchmark.BenchmarkRunner.RunCategory | run_benchmark.py:74-130 | the category's results are returned and appended to the runner's results |
| Benchmark.BenchmarkRunner.RunAllBenchmarks | run_benchmark.py:150-167 | every category's results are appended in category order, and all results are returned |
| Benchmark.BenchmarkRunner.AnalyzeByCategory | run_benchmark.py:221-248 | the grouping loop computes the category analysis |
| Benchmark.BenchmarkRunner.IdentifyScoringIssues | run_benchmark.py:250-293 | the loops compute the scoring issues |
| Benchmark.BenchmarkRunner.GenerateCalibrationRecommendations | run_benchmark.py:295-335 | the method computes the calibration |
| Benchmark.BenchmarkRunner.GenerateReport | run_benchmark.py:169-192 | the method computes the report |

## Left out

- Network, browser and file access: the HTTP fetcher, the Playwright fetcher, the local file fetcher, and the benchmark's site file and report file. Fetchers and the audit API are functions passed in (`HybridFetch.HttpFetch`, `HybridFetch.BrowserFetch`, `DomainCrawler.Audit`, `Benchmark.AuditApi`).
- `BenchmarkRunner.audit_site`: its retries, timeouts and sleeps are left out. Its outcome is the `AuditApi` value, and `None` covers both a failed request and an empty response. The delay between sites and `print_summary_report` are left out too.
- URL discovery in backend/crawler/domain_crawler.py (the sitemap reader and the breadth-first crawl): the discovered URLs are an input of `DomainCrawler.AuditDomain`.
- Third-party parsers are inputs, not models:
  - the HTML tree is a `Dom.Node` datatype whose `text` is the parser's rendering;
  - `json.loads` is `Schema.JsonParser`, where None stands for a decode error, together with the insertion order of the keys of each object it builds (the order iterating over that dict yields);
  - `urlparse(...).netloc` is `Orchestrator.Netloc`;
  - date parsing together with `datetime.now()` is `ContentQuality.AgeOracle`, which gives an age in days;
  - timestamps are string parameters.
- Regular expressions are written out as predicates over ASCII text. `lower`, `title`, `capitalize` and `\w` act on ASCII letters only, with no Unicode case mapping.
- Floating point: scores are exact `real`s. `round(x, 1)` is rounding to the nearest tenth with ties to even, and `int()` is truncation toward zero, both on the exact value. Binary floating-point representation error is not modelled.
- Concurrency: `asyncio.gather` batches in domain_crawler.py are a sequential loop that keeps URL order. Listener queues are objects holding a bounded sequence, where a full queue drops the record.
- ProgressTracking.ProgressTracker.Update: listeners receive a copy of the record. In the source they receive the very `ProgressUpdate` object, which later updates keep changing (aliasing).
- Python's set iteration order:
  - Orchestrator.ExtractExternalLinks keeps the distinct links in first-occurrence order, whereas the source keeps fifty of them in a set's order;
  - GeoTopics.ExtractTopics takes the order as a `SetOrder` parameter and states only order-independent facts.
- The page's `images` list is always empty in the source, so it is not part of the page record. The heading record's `html` field (the tag rendered back to text) is left out. `GeoPage` holds no `html`, because the GEO scorer never reads it.
- AuditPipeline.AuditPageOf: the `content_classification` key is never produced, because the calculator never reports a classification.
- The profile weights of backend/scoring/content_profiles.py are only looked up. No code applies them, so no rebalancing is modelled.
- Messages with formatted numbers ("Underscoring by 12.3 points", the GEO evidence lines) are datatypes holding the numbers, not rendered strings. Log calls are left out.
- `scoring_component_issues` (always `{}`) and `formula_changes` (always `[]`) of the benchmark calibration are constant and left out. So are report timestamps.
- DomainCrawler.AuditPages requires a positive batch size. In the source a batch size of 0 makes `range` raise ValueError, and the configured default is 5.
- Benchmark.SummaryOf, Benchmark.CalibrationOf and Benchmark.BenchmarkRunner.GenerateCalibrationRecommendations require at least one result. The source divides by the number of results there, and its only caller, `generate_report`, returns `{}` first when there are none.
- Orchestrator.AsBlocks: a JSON-LD item that is not an object (such as a key string a dict-valued `@graph` adds) fails the whole page extraction. The source raises on such an item only when a later pass reaches it with `.get`. `detect_schema_types` and `validate_all_schemas` skip items containing "error", `extract_faq_schema` returns at the first FAQPage block, and the author and date passes stop at an earlier article block. So a page whose string items are never reached, such as `[{"@type": "FAQPage"}, {"@type": "Article", "author": "x"}, "error"]`, is extracted by the source but fails in the model.
- The web API routes, workers, configuration, PDF rendering and the GEO test script are outside the model.

Observations the proofs bring out, beyond the findings below:

- the GEO "moderate depth" branch can never be taken (`GeoScorer.ModerateDepthUnreachable`);
- the floor at zero of the orphan penalty never binds, and no GEO component's sum ever exceeds its cap, so the `min` never cuts;
- the recommendation tip table matches only the four answerability sub-scores and content quality's "freshness" (`RecommendationGenerator.StructuredDataHasNoTips` and its neighbours);
- the domain grading and the page grading disagree on the same score (`DomainCrawler.GradersDiffer`).

## Findings

| source | as written | input that shows it | evidently intended | confidence | as-written member | corrected member |
|---|---|---|---|---|---|---|
| backend/crawler/orchestrator.py:108-128 | the parser's constructor removes every `script` element before the JSON-LD extractor searches the same tree, so the JSON-LD list is always empty | a page with one `<script type="application/ld+json">` holding `{"@type": "Article"}` | JSON-LD extracted from the document before noise removal | not executed | Orchestrator.AsWrittenLosesJsonld | Orchestrator.ScriptIsFound |
| backend/crawler/extractors/semantic.py:46-52 | the second pattern `(how to\|what is\|why does\|when to)` is tried with `re.match`, anchored at the start, so it adds nothing to the first pattern and a phrase inside the heading is missed | the heading "Learn how to cook" | a question-like phrase anywhere in the heading counts | not executed | Semantic.SecondPatternRedundant | Semantic.PhraseInsideMissed |
| backend/crawler/extractors/schema.py:30-47 | an empty JSON-LD script has no string, so `json.loads(None)` raises TypeError, which the `JSONDecodeError` handler does not catch, and the whole extraction aborts | `<script type="application/ld+json"></script>` followed by a valid script | the empty script recorded as an error placeholder and the later scripts still read | not executed | Schema.EmptyScriptAborts | Schema.ExtractJsonld |
| backend/crawler/extractors/schema.py:104 | a list-valued `@type` is used as a dictionary key and raises TypeError (unhashable list) | a block `{"@type": ["Article", "NewsArticle"], "headline": "x"}` | a list `@type` validated by its first type | not executed | Schema.ListTypeRaises | Schema.ValidateSchema |

=== FILE: answerability.dfy ===
/** The answerability category (30 points): direct answer blocks, question
    coverage, conciseness and answer-block formatting
    (backend/scoring/answerability.py). */
module Answerability {
  import opened Numbers
  import opened PageModel
  import opened Scores

  const MaxScore: real := 30.0

  predicate IsDirectAnswer(a: AnswerPattern) { a.kind != "blockquote" }
  predicate IsTldr(a: AnswerPattern) { a.kind == "tldr" }
  predicate IsBoxOrCallout(a: AnswerPattern) { a.kind == "definition_box" || a.kind == "callout" }
  predicate IsBlockquote(a: AnswerPattern) { a.kind == "blockquote" }
  predicate IsEmphasised(p: Paragraph) { p.hasEmphasis }
  function WordsOf(p: Paragraph): real { p.wordCount as real }

  /** Two points per answer block that is not a blockquote, capped at 12. */
  function DirectAnswerPoints(blocks: nat): (r: real)
    ensures 0.0 <= r <= 12.0 && IsTenth(r)
    ensures blocks >= 6 ==> r == 12.0
    ensures blocks < 6 ==> r == 2.0 * blocks as real
  {
    var raw := blocks * 2;
    var v := if raw <= 12 then raw else 12;
    TenthOfInt(v);
    v as real
  }

  function DirectAnswerScore(p: PageData): (r: real)
    ensures 0.0 <= r <= 12.0 && IsTenth(r)
  {
    DirectAnswerPoints(CountWhere(p.answerPatterns, IsDirectAnswer))
  }

  /** `min(8, questions / 10 * 8)`. */
  function QuestionCoverage(questions: nat): (r: real)
    ensures 0.0 <= r <= 8.0 && IsTenth(r)
    ensures questions < 10 ==> r == 0.8 * questions as real
  {
    var ratio := questions as real / 10.0;
    assert ratio * 8.0 == questions as real * 0.8;
    TenthMul(questions, 0.8);
    TenthOfInt(8);
    Min(8.0, ratio * 8.0)
  }

  /** More questions never lower the coverage score, and ten or more earn all 8 points. */
  lemma QuestionCoverageMonotone(m: nat, n: nat)
    requires m <= n
    ensures QuestionCoverage(m) <= QuestionCoverage(n)
    ensures n >= 10 ==> QuestionCoverage(n) == 8.0
  {
  }

  function QuestionScore(p: PageData): (r: real)
    ensures 0.0 <= r <= 8.0 && IsTenth(r)
  {
    QuestionCoverage(|p.questions|)
  }

  /** Mean paragraph length of at most 100 words. */
  predicate ShortParagraphs(ps: seq<Paragraph>)
    requires ps != []
  {
    SumBy(ps, WordsOf) / |ps| as real <= 100.0
  }

  /** 2 points for a TL;DR, 2 for three or more lists, 2 for short paragraphs. */
  function ConcisenessScore(p: PageData): (r: real)
    ensures r == 0.0 || r == 2.0 || r == 4.0 || r == 6.0
    ensures r == 6.0 <==>
      AnyWhere(p.answerPatterns, IsTldr) && |p.lists| >= 3 && p.paragraphs != [] && ShortParagraphs(p.paragraphs)
    ensures r == 0.0 <==>
      !AnyWhere(p.answerPatterns, IsTldr) && |p.lists| < 3 && !(p.paragraphs != [] && ShortParagraphs(p.paragraphs))
  {
    var tldr := if AnyWhere(p.answerPatterns, IsTldr) then 2.0 else 0.0;
    var lists := if |p.lists| >= 3 then 2.0 else 0.0;
    var paras := if p.paragraphs != [] && ShortParagraphs(p.paragraphs) then 2.0 else 0.0;
    tldr + lists + paras
  }

  /** 1 point for five or more emphasised paragraphs, 2 for a definition box or
      callout, 1 for a blockquote. */
  function FormattingScore(p: PageData): (r: real)
    ensures 0.0 <= r <= 4.0
    ensures r == r.Floor as real
    ensures r == 4.0 <==>
      CountWhere(p.paragraphs, IsEmphasised) >= 5 && AnyWhere(p.answerPatterns, IsBoxOrCallout) &&
      AnyWhere(p.answerPatterns, IsBlockquote)
    ensures r == 0.0 <==>
      CountWhere(p.paragraphs, IsEmphasised) < 5 && !AnyWhere(p.answerPatterns, IsBoxOrCallout) &&
      !AnyWhere(p.answerPatterns, IsBlockquote)
  {
    var emphasis := if CountWhere(p.paragraphs, IsEmphasised) >= 5 then 1.0 else 0.0;
    var boxes := if AnyWhere(p.answerPatterns, IsBoxOrCallout) then 2.0 else 0.0;
    var quotes := if AnyWhere(p.answerPatterns, IsBlockquote) then 1.0 else 0.0;
    emphasis + boxes + quotes
  }

  lemma FormattingIsTenth(p: PageData)
    ensures IsTenth(FormattingScore(p)) && IsTenth(ConcisenessScore(p))
  {
    var f := FormattingScore(p);
    var k := f.Floor;
    assert f == k as real;
    TenthOfInt(k);
    var c := ConcisenessScore(p);
    assert c == c.Floor as real;
    TenthOfInt(c.Floor);
  }

  function SubScores(p: PageData): seq<SubScore>
  {
    [SubScore("direct_answer_presence", DirectAnswerScore(p)),
     SubScore("question_coverage", QuestionScore(p)),
     SubScore("answer_conciseness", ConcisenessScore(p)),
     SubScore("answer_block_formatting", FormattingScore(p))]
  }

  /** `AnswerabilityScorer.calculate`: the score is the sum of the four sub-scores and
      lies between 0 and 30. */
  function Calculate(p: PageData): (r: CategoryScore)
    ensures r.max == MaxScore
    ensures r.subScores == SubScores(p)
    ensures r.score == DirectAnswerScore(p) + QuestionScore(p) + ConcisenessScore(p) + FormattingScore(p)
    ensures 0.0 <= r.score <= MaxScore
  {
    FormattingIsTenth(p);
    var subs := SubScores(p);
    SumSubs4(subs[0], subs[1], subs[2], subs[3]);
    Report(subs, MaxScore)
  }

  /** An input with no keys scores 0. */
  lemma EmptyPageScoresZero()
    ensures Calculate(EmptyPage()).score == 0.0
  {
    var p := EmptyPage();
    assert !AnyWhere(p.answerPatterns, IsTldr);
    assert CountWhere(p.answerPatterns, IsDirectAnswer) == 0;
  }
}

=== FILE: audit_pipeline.dfy ===
/** The page audit (backend/audit_pipeline.py): extraction, scoring, the gap-based
    recommendations, and the result record. */
module AuditPipeline {
  import opened Wrappers
  import opened Json
  import opened Strings
  import opened Numbers
  import opened Sorting
  import opened PageModel
  import opened Calculator
  import ContentQuality
  import Schema
  import Orchestrator

  predicate Cased(c: char)
  {
    IsAsciiUpper(c) || IsAsciiLower(c)
  }

  /** `str.title()` on ASCII text: a letter is upper-cased when the character before
      it is not a letter, lower-cased otherwise; `afterLetter` says whether a letter
      precedes `s`. Every other character is kept. */
  function TitleFrom(s: string, afterLetter: bool): (r: string)
    ensures |r| == |s|
    ensures forall k :: 0 <= k < |s| && !Cased(s[k]) ==> r[k] == s[k]
    ensures forall k :: 0 <= k < |s| && Cased(s[k]) && (if k == 0 then !afterLetter else !Cased(s[k - 1])) ==>
      r[k] == UpperChar(s[k])
    ensures forall k :: 0 <= k < |s| && Cased(s[k]) && (if k == 0 then afterLetter else Cased(s[k - 1])) ==>
      r[k] == LowerChar(s[k])
  {
    if s == [] then []
    else
      var c := s[0];
      var cased := Cased(c);
      [if cased && !afterLetter then UpperChar(c) else if cased then LowerChar(c) else c] + TitleFrom(s[1..], cased)
  }

  function TitleCase(s: string): string { TitleFrom(s, false) }

  /** `s.replace('_', ' ')`. */
  function Underscores(s: string): (r: string)
    ensures |r| == |s| && forall k :: 0 <= k < |s| ==> r[k] == if s[k] == '_' then ' ' else s[k]
  {
    if s == [] then [] else [if s[0] == '_' then ' ' else s[0]] + Underscores(s[1..])
  }

  datatype Recommendation = Recommendation(
    category: string, title: string, currentScore: real, maxScore: real, potentialGain: real, priority: int)

  function Gap(e: BucketEntry): real { e.max - e.score }

  /** A gap of two points or more is worth a recommendation. */
  predicate Significant(e: BucketEntry) { Gap(e) >= 2.0 }

  /** The recommendation for a category with a significant gap: the gap, and the gap
      as a truncated percentage of the maximum. */
  function RecommendationFor(e: BucketEntry): Recommendation
    requires e.max != 0.0
  {
    Recommendation(e.name, "Improve " + TitleCase(Underscores(e.name)), e.score, e.max, Gap(e),
                   Trunc(Gap(e) / e.max * 100.0))
  }

  /** The recommendations appended by the loop, in breakdown order; a significant gap
      with a zero maximum raises ZeroDivisionError. */
  function Candidates(b: seq<BucketEntry>): (r: Result<seq<Recommendation>>)
    ensures r.Failure? <==> exists k :: 0 <= k < |b| && Significant(b[k]) && b[k].max == 0.0
    ensures r.Failure? ==> r.error == "ZeroDivisionError"
    ensures r.Success? ==> forall x :: x in r.value <==> exists k :: 0 <= k < |b| && Significant(b[k]) && x == RecommendationFor(b[k])
  {
    if b == [] then Success([])
    else
      var e := b[|b| - 1];
      var front :- Candidates(b[..|b| - 1]);
      if Significant(e) then
        if e.max == 0.0 then Failure("ZeroDivisionError")
        else Success(front + [RecommendationFor(e)])
      else Success(front)
  }

  function PriorityKey(r: Recommendation): real { r.priority as real }

  /** What `_generate_simple_recommendations` returns. */
  function SimpleRecommendations(b: seq<BucketEntry>): Result<seq<Recommendation>>
  {
    var candidates :- Candidates(b);
    Success(Take(SortDesc(candidates, PriorityKey), 10))
  }

  /** The first ten of the sorted candidates are in priority order. */
  lemma TopTenSorted(c: seq<Recommendation>)
    ensures SortedDesc(Take(SortDesc(c, PriorityKey), 10), PriorityKey)
  {
    var sorted := SortDesc(c, PriorityKey);
    SortDescSorted(c, PriorityKey);
    var r := Take(sorted, 10);
    forall i, j | 0 <= i < j < |r|
      ensures PriorityKey(r[i]) >= PriorityKey(r[j])
    {
      assert r[i] == sorted[i] && r[j] == sorted[j];
    }
  }

  /** The first ten of the sorted candidates are candidates, and all of them when
      there are at most ten. */
  lemma TopTenMembers(c: seq<Recommendation>)
    ensures forall x :: x in Take(SortDesc(c, PriorityKey), 10) ==> x in c
    ensures |c| <= 10 ==> forall x :: x in c ==> x in Take(SortDesc(c, PriorityKey), 10)
  {
    var sorted := SortDesc(c, PriorityKey);
    var r := Take(sorted, 10);
    forall x | x in r
      ensures x in c
    {
      assert x in sorted;
      assert x in multiset(sorted);
    }
    if |c| <= 10 {
      assert r == sorted;
      forall x | x in c
        ensures x in r
      {
        assert x in multiset(c);
      }
    }
  }

  /** At most ten recommendations, highest priority first, each for a category of the
      breakdown with a gap of at least two; when at most ten categories qualify, every
      one of them is there. */
  lemma SimpleRecommendationsFacts(b: seq<BucketEntry>)
    requires SimpleRecommendations(b).Success?
    ensures |SimpleRecommendations(b).value| <= 10
    ensures SortedDesc(SimpleRecommendations(b).value, PriorityKey)
    ensures forall x :: x in SimpleRecommendations(b).value ==>
      exists k :: 0 <= k < |b| && Significant(b[k]) && x == RecommendationFor(b[k])
    ensures |Filter(b, Significant)| <= 10 ==>
      forall k :: 0 <= k < |b| && Significant(b[k]) ==> RecommendationFor(b[k]) in SimpleRecommendations(b).value
    ensures forall k :: 0 <= k < |b| && Significant(b[k]) ==>
      RecommendationFor(b[k]) in SimpleRecommendations(b).value ||
      (|SimpleRecommendations(b).value| == 10 &&
       PriorityKey(RecommendationFor(b[k])) <= PriorityKey(SimpleRecommendations(b).value[9]))
  {
    var c := Candidates(b).value;
    TopTenSorted(c);
    TopTenMembers(c);
    CandidatesCount(b);
    forall k | 0 <= k < |b| && Significant(b[k])
      ensures RecommendationFor(b[k]) in SimpleRecommendations(b).value ||
        (|SimpleRecommendations(b).value| == 10 &&
         PriorityKey(RecommendationFor(b[k])) <= PriorityKey(SimpleRecommendations(b).value[9]))
    {
      TopTenLeftOut(c, RecommendationFor(b[k]));
    }
  }

  /** `[:10]` keeps the ten highest priorities: a candidate left out ranks no higher
      than the tenth one kept. */
  lemma TopTenLeftOut(c: seq<Recommendation>, x: Recommendation)
    requires x in c
    ensures var top := Take(SortDesc(c, PriorityKey), 10);
      x in top || (|top| == 10 && PriorityKey(x) <= PriorityKey(top[9]))
  {
    var sorted := SortDesc(c, PriorityKey);
    SortDescTop(c, PriorityKey, 10, x);
    assert Take(sorted, 10) == sorted[..if 10 < |c| then 10 else |c|];
  }

  /** One candidate per qualifying category. */
  lemma {:induction false} CandidatesCount(b: seq<BucketEntry>)
    requires Candidates(b).Success?
    ensures |Candidates(b).value| == |Filter(b, Significant)|
  {
    if b != [] {
      CandidatesCount(b[..|b| - 1]);
      assert b == b[..|b| - 1] + [b[|b| - 1]];
      FilterAppend(b[..|b| - 1], [b[|b| - 1]], Significant);
    }
  }

  /** A failure in a prefix of the breakdown is a failure of the whole. */
  lemma {:induction false} CandidatesFailurePersists(b: seq<BucketEntry>, m: nat)
    requires m <= |b| && Candidates(b[..m]).Failure?
    ensures Candidates(b).Failure?
    decreases |b| - m
  {
    if m < |b| {
      assert b[..m + 1][..m] == b[..m];
      CandidatesFailurePersists(b, m + 1);
    } else {
      assert b[..m] == b;
    }
  }

  /** `_generate_simple_recommendations`: the loop over the breakdown, the sort by
      priority and the top ten. */
  method GenerateSimpleRecommendations(b: seq<BucketEntry>) returns (r: Result<seq<Recommendation>>)
    ensures r == SimpleRecommendations(b)
  {
    var recs: seq<Recommendation> := [];
    for i := 0 to |b|
      invariant Candidates(b[..i]) == Success(recs)
    {
      assert b[..i + 1][..i] == b[..i];
      var e := b[i];
      if Gap(e) >= 2.0 {
        if e.max == 0.0 {
          CandidatesFailurePersists(b, i + 1);
          return Failure("ZeroDivisionError");
        }
        recs := recs + [RecommendationFor(e)];
      }
    }
    assert b[..|b|] == b;
    recs := SortDesc(recs, PriorityKey);
    r := Success(Take(recs, 10));
  }

  /** The `extracted_data` summary of the audit result. */
  datatype ExtractedSummary = ExtractedSummary(
    wordCount: nat, headingCount: nat, questionCount: nat, jsonldCount: nat, hasAuthor: bool, hasDates: bool)

  /** The dict `audit_page` returns. The calculator never reports a content
      classification, so that optional key never appears. */
  datatype AuditResult = AuditResult(
    url: string, overallScore: real, grade: string, breakdown: seq<BucketEntry>,
    recommendations: seq<Recommendation>, extracted: ExtractedSummary)

  function Summary(d: PageData): (s: ExtractedSummary)
    ensures s.headingCount == |d.headings| && s.questionCount == |d.questions| && s.jsonldCount == |d.jsonld|
    ensures s.hasAuthor == d.author.found && s.hasDates == Truthy(d.dates.published)
  {
    ExtractedSummary(d.wordCount, |d.headings|, |d.questions|, |d.jsonld|, d.author.found, Truthy(d.dates.published))
  }

  /** `audit_page` for a fetched page: any exception of extraction or scoring is passed
      on. The extraction is the one as written, or the corrected one, by `corrected`. */
  function AuditPageOf(url: string, fetched: Orchestrator.FetchResult, parse: Schema.JsonParser,
                       netloc: Orchestrator.Netloc, fetchedAt: string, ageOf: ContentQuality.AgeOracle,
                       corrected: bool)
    : (r: Result<AuditResult>)
    ensures Orchestrator.ExtractFrom(url, fetched, parse, netloc, fetchedAt, corrected).Failure? ==>
      r == Failure(Orchestrator.ExtractFrom(url, fetched, parse, netloc, fetchedAt, corrected).error)
    ensures r.Success? ==>
      var data := Orchestrator.ExtractFrom(url, fetched, parse, netloc, fetchedAt, corrected).value;
      var scores := ScoreSpec(data, ageOf);
      r.value.url == url && r.value.overallScore == scores.overallScore && r.value.grade == scores.grade &&
      r.value.breakdown == scores.breakdown && r.value.extracted == Summary(data) &&
      Success(r.value.recommendations) == SimpleRecommendations(scores.breakdown)
  {
    var data :- Orchestrator.ExtractFrom(url, fetched, parse, netloc, fetchedAt, corrected);
    var scores := ScoreSpec(data, ageOf);
    var recs :- SimpleRecommendations(scores.breakdown);
    Success(AuditResult(url, scores.overallScore, scores.grade, scores.breakdown, recs, Summary(data)))
  }

  /** `AuditPipeline.audit_page`. */
  method AuditPage(url: string, fetched: Orchestrator.FetchResult, parse: Schema.JsonParser,
                   netloc: Orchestrator.Netloc, fetchedAt: string, ageOf: ContentQuality.AgeOracle,
                   corrected: bool)
    returns (r: Result<AuditResult>)
    ensures r == AuditPageOf(url, fetched, parse, netloc, fetchedAt, ageOf, corrected)
  {
    var data := Orchestrator.Extract(url, fetched, parse, netloc, fetchedAt, corrected);
    if data.Failure? {
      return Failure(data.error);
    }
    var scores := CalculateScore(data.value, ageOf);
    var recs := GenerateSimpleRecommendations(scores.breakdown);
    if recs.Failure? {
      return Failure(recs.error);
    }
    r := Success(AuditResult(url, scores.overallScore, scores.grade, scores.breakdown, recs.value, Summary(data.value)));
  }
}

=== FILE: authority.dfy ===
/** The authority category (15 points): author, publication dates, outbound
    citations and organization schema (backend/scoring/authority.py). */
module Authority {
  import opened Json
  import opened Numbers
  import opened PageModel
  import opened Scores

  const MaxScore: real := 15.0

  /** 0 without an author; 3 with one, 5 when it came from JSON-LD. */
  function AuthorScore(p: PageData): (r: real)
    ensures !p.author.found ==> r == 0.0
    ensures p.author.found ==> r == (if "jsonld" in p.author.sources then 5.0 else 3.0)
  {
    if !p.author.found then 0.0
    else
      var score := 3 + (if "jsonld" in p.author.sources then 2 else 0);
      (if score <= 5 then score else 5) as real
  }

  /** 2 points for a publication date, 1 for a modification date. */
  function DatesScore(p: PageData): (r: real)
    ensures 0.0 <= r <= 3.0
    ensures r >= 2.0 <==> Truthy(p.dates.published)
    ensures r == 1.0 || r == 3.0 <==> Truthy(p.dates.modified)
  {
    (if Truthy(p.dates.published) then 2.0 else 0.0) + (if Truthy(p.dates.modified) then 1.0 else 0.0)
  }

  /** Half a point per external link, capped at 4. */
  function CitationPoints(links: nat): (r: real)
    ensures 0.0 <= r <= 4.0 && IsTenth(r)
    ensures links >= 8 ==> r == 4.0
    ensures links < 8 ==> r == 0.5 * links as real
  {
    TenthMul(links, 0.5);
    TenthOfInt(4);
    Min(4.0, links as real * 0.5)
  }

  /** More links never lower the citation score. */
  lemma CitationPointsMonotone(m: nat, n: nat)
    requires m <= n
    ensures CitationPoints(m) <= CitationPoints(n)
  {
  }

  function CitationsScore(p: PageData): real
  {
    CitationPoints(|p.externalLinks|)
  }

  function OrganizationScore(p: PageData): (r: real)
    ensures r == 3.0 <==> JStr("Organization") in p.schemaTypes
    ensures r == 0.0 <==> JStr("Organization") !in p.schemaTypes
  {
    if JStr("Organization") in p.schemaTypes then 3.0 else 0.0
  }

  function SubScores(p: PageData): seq<SubScore>
  {
    [SubScore("author_information", AuthorScore(p)),
     SubScore("publication_date", DatesScore(p)),
     SubScore("citations_sources", CitationsScore(p)),
     SubScore("organization_info", OrganizationScore(p))]
  }

  /** `AuthorityScorer.calculate`: the sum of the four sub-scores, between 0 and 15. */
  function Calculate(p: PageData): (r: CategoryScore)
    ensures r.max == MaxScore && r.subScores == SubScores(p)
    ensures r.score == AuthorScore(p) + DatesScore(p) + CitationsScore(p) + OrganizationScore(p)
    ensures 0.0 <= r.score <= MaxScore
  {
    var subs := SubScores(p);
    TenthOfInt(AuthorScore(p).Floor);
    assert AuthorScore(p) == AuthorScore(p).Floor as real;
    TenthOfInt(DatesScore(p).Floor);
    assert DatesScore(p) == DatesScore(p).Floor as real;
    TenthOfInt(OrganizationScore(p).Floor);
    assert OrganizationScore(p) == OrganizationScore(p).Floor as real;
    SumSubs4(subs[0], subs[1], subs[2], subs[3]);
    Report(subs, MaxScore)
  }
}

=== FILE: calculator.dfy ===
/** The combiner (backend/scoring/calculator.py): runs the six category scorers in
    a fixed order, turns a scorer that raises into a zero entry, adds the
    `ai_citation` entry, sums everything and grades the sum. */
module Calculator {
  import opened Wrappers
  import opened Numbers
  import opened PageModel
  import opened Scores
  import Answerability
  import StructuredData
  import Authority
  import ContentQuality
  import Citationability
  import Technical

  /** The scorer map's keys, in its iteration order. */
  const BucketNames: seq<string> :=
    ["answerability", "structured_data", "authority", "content_quality", "citationability", "technical"]

  const AiCitationNote: string := "AI citation analysis not performed"

  /** One entry of the breakdown: a scorer's dict, the `{score 0, max, error}` dict of a
      scorer that raised, or the ai_citation dict. */
  datatype BucketEntry = BucketEntry(
    name: string, score: real, max: real, percentage: Option<real>,
    subScores: seq<SubScore>, error: Option<string>, note: Option<string>)

  datatype AuditScore = AuditScore(overallScore: real, grade: string, breakdown: seq<BucketEntry>)

  /** Each scorer's `max_score`. */
  function MaxOf(i: nat): (r: real)
    requires i < 6
    ensures r > 0.0
  {
    [Answerability.MaxScore, StructuredData.MaxScore, Authority.MaxScore,
     ContentQuality.MaxScore, Citationability.MaxScore, Technical.MaxScore][i]
  }

  /** `scorer.calculate(page_data)` for the `i`-th scorer; a failure is the exception raised. */
  function RunScorer(i: nat, p: PageData, ageOf: ContentQuality.AgeOracle): (r: Result<CategoryScore>)
    requires i < 6
    ensures r.Success? ==> r.value.max == MaxOf(i) && 0.0 <= r.value.score <= MaxOf(i)
    ensures r.Success? && i == 5 ==> r.value.score <= 9.0
  {
    if i == 0 then Success(Answerability.Calculate(p))
    else if i == 1 then Success(StructuredData.Calculate(p))
    else if i == 2 then Success(Authority.Calculate(p))
    else if i == 3 then ContentQuality.Calculate(p, ageOf)
    else if i == 4 then Success(Citationability.Calculate(p))
    else Technical.Calculate(p)
  }

  /** The entry the loop stores for the `i`-th scorer. */
  function Bucket(i: nat, p: PageData, ageOf: ContentQuality.AgeOracle): (e: BucketEntry)
    requires i < 6
    ensures e.name == BucketNames[i] && e.max == MaxOf(i)
    ensures RunScorer(i, p, ageOf).Failure? ==> e.score == 0.0 && e.error.Some?
    ensures RunScorer(i, p, ageOf).Success? ==> e.score == RunScorer(i, p, ageOf).value.score && e.error.None?
  {
    match RunScorer(i, p, ageOf)
    case Success(s) => BucketEntry(BucketNames[i], s.score, s.max, Some(s.percentage), s.subScores, None, None)
    case Failure(err) => BucketEntry(BucketNames[i], 0.0, MaxOf(i), None, [], Some(err), None)
  }

  /** The ai_citation entry: the supplied score out of 5 (0 when the data has no
      score), or a zero entry with a note when no data was supplied. */
  function AiBucket(p: PageData): (e: BucketEntry)
    ensures e.name == "ai_citation" && e.max == 5.0
    ensures p.aiCitationData.None? ==> e.score == 0.0 && e.note == Some(AiCitationNote)
    ensures p.aiCitationData.Some? ==> e.score == p.aiCitationData.value.citationScore.GetOr(0.0)
  {
    match p.aiCitationData
    case Some(data) =>
      var ai := data.citationScore.GetOr(0.0);
      BucketEntry("ai_citation", ai, 5.0, Some(ai / 5.0 * 100.0), [], None, None)
    case None =>
      BucketEntry("ai_citation", 0.0, 5.0, Some(0.0), [], None, Some(AiCitationNote))
  }

  function SumScores(es: seq<BucketEntry>): real
  {
    if es == [] then 0.0 else SumScores(es[..|es| - 1]) + es[|es| - 1].score
  }

  /** `_get_grade`: ten bands from 'A+' (90 and above) down to 'F' (below 50). */
  function Grade(score: real): (g: string)
    ensures g == "A+" <==> score >= 90.0
    ensures g == "F" <==> score < 50.0
  {
    if score >= 90.0 then "A+"
    else if score >= 85.0 then "A"
    else if score >= 80.0 then "A-"
    else if score >= 75.0 then "B+"
    else if score >= 70.0 then "B"
    else if score >= 65.0 then "B-"
    else if score >= 60.0 then "C+"
    else if score >= 55.0 then "C"
    else if score >= 50.0 then "C-"
    else "F"
  }

  /** The grades from worst to best. */
  const GradeOrder: seq<string> := ["F", "C-", "C", "C+", "B-", "B", "B+", "A-", "A", "A+"]

  function GradeRank(g: string): nat
  {
    if g == "A+" then 9 else if g == "A" then 8 else if g == "A-" then 7 else if g == "B+" then 6
    else if g == "B" then 5 else if g == "B-" then 4 else if g == "C+" then 3 else if g == "C" then 2
    else if g == "C-" then 1 else 0
  }

  /** Every grade is one of the ten bands, and a higher score never earns a worse grade. */
  lemma GradeMonotone(s1: real, s2: real)
    requires s1 <= s2
    ensures Grade(s1) in GradeOrder && GradeOrder[GradeRank(Grade(s1))] == Grade(s1)
    ensures GradeRank(Grade(s1)) <= GradeRank(Grade(s2))
  {
  }

  /** The breakdown the loop builds for the first `n` scorers. */
  function ScorerBuckets(p: PageData, ageOf: ContentQuality.AgeOracle, n: nat): (r: seq<BucketEntry>)
    requires n <= 6
    ensures |r| == n
    ensures forall i :: 0 <= i < n ==> r[i] == Bucket(i, p, ageOf)
  {
    if n == 0 then [] else ScorerBuckets(p, ageOf, n - 1) + [Bucket(n - 1, p, ageOf)]
  }

  /** `calculate_score` as a value: the breakdown is the six scorer entries then
      ai_citation; the grade is taken from the unrounded total, the reported total is
      rounded to one decimal. */
  function ScoreSpec(p: PageData, ageOf: ContentQuality.AgeOracle): AuditScore
  {
    var breakdown := ScorerBuckets(p, ageOf, 6) + [AiBucket(p)];
    var overall := SumScores(breakdown);
    AuditScore(RoundTenth(overall), Grade(overall), breakdown)
  }

  /** `AEOScoreCalculator.calculate_score`. */
  method CalculateScore(p: PageData, ageOf: ContentQuality.AgeOracle) returns (r: AuditScore)
    ensures r == ScoreSpec(p, ageOf)
    ensures |r.breakdown| == 7
    ensures forall i :: 0 <= i < 6 ==> r.breakdown[i].name == BucketNames[i]
    ensures r.breakdown[6].name == "ai_citation"
  {
    var scores: seq<BucketEntry> := [];
    var i := 0;
    while i < 6
      invariant 0 <= i <= 6
      invariant scores == ScorerBuckets(p, ageOf, i)
    {
      var result := RunScorer(i, p, ageOf);
      var entry;
      if result.Success? {
        entry := BucketEntry(BucketNames[i], result.value.score, result.value.max,
                             Some(result.value.percentage), result.value.subScores, None, None);
      } else {
        entry := BucketEntry(BucketNames[i], 0.0, MaxOf(i), None, [], Some(result.error), None);
      }
      scores := scores + [entry];
      i := i + 1;
    }
    scores := scores + [AiBucket(p)];
    var overall := SumScores(scores);
    r := AuditScore(RoundTenth(overall), Grade(overall), scores);
  }

  lemma {:induction false} SumScoresBound(es: seq<BucketEntry>, n: nat, p: PageData, ageOf: ContentQuality.AgeOracle)
    requires n <= 6 && es == ScorerBuckets(p, ageOf, n)
    ensures 0.0 <= SumScores(es)
    ensures SumScores(es) <= [0.0, 30.0, 45.0, 60.0, 70.0, 80.0, 89.0][n]
  {
    if n > 0 {
      SumScoresBound(es[..n - 1], n - 1, p, ageOf);
      assert es[n - 1] == Bucket(n - 1, p, ageOf);
    }
  }

  /** The overall score is the sum of every breakdown score; without AI citation data
      it is at most 89, so the grade is never 'A+'. */
  lemma OverallIsSum(p: PageData, ageOf: ContentQuality.AgeOracle)
    ensures ScoreSpec(p, ageOf).overallScore == RoundTenth(SumScores(ScoreSpec(p, ageOf).breakdown))
    ensures p.aiCitationData.None? ==> 0.0 <= SumScores(ScoreSpec(p, ageOf).breakdown) <= 89.0
    ensures p.aiCitationData.None? ==> ScoreSpec(p, ageOf).grade != "A+"
  {
    var b := ScorerBuckets(p, ageOf, 6);
    SumScoresBound(b, 6, p, ageOf);
    assert (b + [AiBucket(p)])[..6] == b;
  }

  /** A scorer that raises leaves a zero entry carrying its own maximum, and the other
      entries are exactly what their scorers return. */
  lemma FailureIsolated(p: PageData, ageOf: ContentQuality.AgeOracle, i: nat)
    requires i < 6 && RunScorer(i, p, ageOf).Failure?
    ensures ScoreSpec(p, ageOf).breakdown[i].score == 0.0
    ensures ScoreSpec(p, ageOf).breakdown[i].max == MaxOf(i)
    ensures forall j :: 0 <= j < 6 && j != i ==> ScoreSpec(p, ageOf).breakdown[j] == Bucket(j, p, ageOf)
  {
  }
}

=== FILE: citationability.dfy ===
/** The citation-ability category (10 points): statements of fact, data tables and
    lists, HTTPS and the absence of intrusive elements
    (backend/scoring/citationability.py). */
module Citationability {
  import opened Numbers
  import opened PageModel
  import opened Scores

  const MaxScore: real := 10.0

  predicate IsEmphasised(p: Paragraph) { p.hasEmphasis }

  /** 0.3 points per emphasised paragraph, capped at 4. */
  function FactPoints(emphasised: nat): (r: real)
    ensures 0.0 <= r <= 4.0 && IsTenth(r)
    ensures emphasised >= 14 ==> r == 4.0
  {
    TenthMul(emphasised, 0.3);
    TenthOfInt(4);
    Min(4.0, emphasised as real * 0.3)
  }

  function FactsScore(p: PageData): (r: real)
    ensures 0.0 <= r <= 4.0 && IsTenth(r)
  {
    FactPoints(CountWhere(p.paragraphs, IsEmphasised))
  }

  /** `min(1.5, 0.5 * tables) + min(1.5, 0.2 * lists)`, capped at 3. */
  function DataPoints(tables: nat, lists: nat): (r: real)
    ensures 0.0 <= r <= 3.0 && IsTenth(r)
    ensures r == Min(1.5, tables as real * 0.5) + Min(1.5, lists as real * 0.2)
  {
    TenthMul(tables, 0.5);
    TenthMul(lists, 0.2);
    TenthMul(15, 0.1);
    var a, b := Min(1.5, tables as real * 0.5), Min(1.5, lists as real * 0.2);
    TenthAdd(a, b);
    Min(3.0, a + b)
  }

  /** Neither more tables nor more lists ever lower the data score. */
  lemma DataPointsMonotone(t1: nat, l1: nat, t2: nat, l2: nat)
    requires t1 <= t2 && l1 <= l2
    ensures DataPoints(t1, l1) <= DataPoints(t2, l2)
  {
  }

  function DataScore(p: PageData): real
  {
    DataPoints(|p.tables|, |p.lists|)
  }

  function SecurityScore(p: PageData): (r: real)
    ensures r == 2.0 <==> p.isHttps
    ensures r == 0.0 <==> !p.isHttps
  {
    if p.isHttps then 2.0 else 0.0
  }

  /** A placeholder: always 1 point. */
  function IntrusiveScore(p: PageData): real
  {
    1.0
  }

  function SubScores(p: PageData): seq<SubScore>
  {
    [SubScore("clear_statements_of_fact", FactsScore(p)),
     SubScore("data_tables_lists", DataScore(p)),
     SubScore("https_security", SecurityScore(p)),
     SubScore("no_intrusive_elements", IntrusiveScore(p))]
  }

  /** `CitationabilityScorer.calculate`: the sum of the four sub-scores; the constant
      point keeps it between 1 and 10. */
  function Calculate(p: PageData): (r: CategoryScore)
    ensures r.max == MaxScore && r.subScores == SubScores(p)
    ensures r.score == FactsScore(p) + DataScore(p) + SecurityScore(p) + IntrusiveScore(p)
    ensures 1.0 <= r.score <= MaxScore
  {
    var subs := SubScores(p);
    TenthOfInt(SecurityScore(p).Floor);
    assert SecurityScore(p) == SecurityScore(p).Floor as real;
    TenthOfInt(1);
    SumSubs4(subs[0], subs[1], subs[2], subs[3]);
    Report(subs, MaxScore)
  }
}

=== FILE: content_classifier.dfy ===
/** The content-type classifier (backend/crawler/extractors/content_classifier.py):
    an explicit `aeo:content-type` meta tag decides outright; otherwise schema,
    URL, keyword and structural signals are added into a score vector over the four
    content types, and the first maximal type wins. The parsed document enters as
    the few counts and texts the classifier reads. */
module ContentClassifier {
  import opened Wrappers
  import opened Json
  import opened Strings
  import opened PageModel

  const Informational: string := "informational"
  const Experiential: string := "experiential"
  const Transactional: string := "transactional"
  const Navigational: string := "navigational"

  /** The keys of the score vector, in the order the source builds it. */
  const TypeOrder: seq<string> := [Informational, Experiential, Transactional, Navigational]

  /** `SCHEMA_TYPE_MAP`. */
  const SchemaTypeMap: map<string, string> := map[
    "Article" := Informational, "BlogPosting" := Informational, "NewsArticle" := Informational,
    "HowTo" := Informational, "FAQPage" := Informational, "QAPage" := Informational,
    "TechArticle" := Informational, "ScholarlyArticle" := Informational,
    "Event" := Experiential, "Place" := Experiential, "TouristAttraction" := Experiential,
    "LodgingBusiness" := Experiential, "Restaurant" := Experiential, "LocalBusiness" := Experiential,
    "TravelAction" := Experiential, "Trip" := Experiential,
    "Product" := Transactional, "Offer" := Transactional, "Service" := Transactional,
    "Order" := Transactional,
    "CollectionPage" := Navigational, "ItemList" := Navigational, "WebSite" := Navigational]

  const ExperientialKeywords: seq<string> := [
    "experience", "journey", "story", "adventure", "explore", "discover",
    "visit", "tour", "trip", "travel", "event", "celebration", "memories",
    "atmosphere", "ambiance", "immerse", "feel", "sense", "witness"]

  const InformationalKeywords: seq<string> := [
    "how to", "guide", "tutorial", "learn", "understand", "explain",
    "definition", "what is", "why", "when", "steps", "tips", "advice",
    "faq", "question", "answer", "help", "instruction"]

  const TransactionalKeywords: seq<string> := [
    "buy", "purchase", "price", "cost", "order", "cart", "checkout",
    "add to cart", "book now", "reserve", "subscription", "plan",
    "shipping", "delivery", "payment", "discount", "sale"]

  /** The URL rules, tried in this order: a type and the path fragments that select it. */
  const UrlRules: seq<(string, seq<string>)> := [
    (Experiential, ["/experience", "/event", "/tour", "/visit", "/trip", "/travel",
                    "/attraction", "/place", "/story", "/journey"]),
    (Transactional, ["/product", "/shop", "/store", "/buy", "/pricing", "/plans",
                     "/checkout", "/cart"]),
    (Informational, ["/blog", "/article", "/guide", "/how-to", "/tutorial", "/faq",
                     "/help", "/learn", "/docs", "/wiki"]),
    (Navigational, ["/category", "/archive", "/index", "/sitemap"])]

  /** Words in the buttons' text that mark a page as transactional. */
  const PurchaseWords: seq<string> := ["buy", "add to cart", "checkout", "book"]

  /** What the classifier reads of a page.
      - `metaContent`: the `content` attribute of the first `<meta name="aeo:content-type">`,
        None when there is no such tag or it has no `content`;
      - `text`: `soup.get_text()`;
      - `videoCount` counts `video` and `iframe` elements, `headingCount` h1 to h3,
        `listCount` ol and ul, `linkCount` a;
      - `buttonTexts`: `get_text()` of every button, in document order. */
  datatype PageSignals = PageSignals(
    url: string,
    jsonld: seq<Block>,
    metaContent: Option<string>,
    text: string,
    imageCount: nat,
    videoCount: nat,
    formCount: nat,
    buttonTexts: seq<string>,
    headingCount: nat,
    listCount: nat,
    linkCount: nat)

  /** The score vector, one entry per content type. */
  datatype TypeScores = TypeScores(informational: nat, experiential: nat, transactional: nat, navigational: nat)
  {
    function Get(t: string): nat
    {
      if t == Informational then informational
      else if t == Experiential then experiential
      else if t == Transactional then transactional
      else if t == Navigational then navigational
      else 0
    }

    /** `scores[t] += k`. */
    function Add(t: string, k: nat): (r: TypeScores)
      requires t in TypeOrder
      ensures r.Get(t) == Get(t) + k
      ensures forall u :: u in TypeOrder && u != t ==> r.Get(u) == Get(u)
    {
      if t == Informational then this.(informational := informational + k)
      else if t == Experiential then this.(experiential := experiential + k)
      else if t == Transactional then this.(transactional := transactional + k)
      else this.(navigational := navigational + k)
    }

    predicate IsZero()
    {
      informational == 0 && experiential == 0 && transactional == 0 && navigational == 0
    }
  }

  const NoScores: TypeScores := TypeScores(0, 0, 0, 0)

  datatype Classification = Classification(
    contentType: string,
    confidence: string,
    primarySignal: string,
    allSignals: seq<string>,
    scores: Option<TypeScores>,
    description: string)

  /** `_check_meta_tag`: the lower-cased meta value when it names one of the four types. */
  function CheckMetaTag(content: Option<string>): (r: Option<string>)
    ensures r.Some? <==> content.Some? && Lower(content.value) in TypeOrder
    ensures r.Some? ==> r.value == Lower(content.value)
  {
    if content.Some? && content.value != [] && Lower(content.value) in TypeOrder
    then Some(Lower(content.value))
    else None
  }

  /** A block's `@type` as the classifier reads it: the first element of a list;
      an empty list raises IndexError. */
  function BlockType(b: Block): Result<Json>
  {
    var t := Get(b, "@type", JNull);
    if t.JArr? then (if t.items == [] then Failure("IndexError") else Success(t.items[0]))
    else Success(t)
  }

  /** `SCHEMA_TYPE_MAP` applied to one block: the mapped type, None when the type is
      not a key; a list or object as type raises TypeError (it cannot be a key). */
  function MappedType(b: Block): Result<Option<string>>
  {
    var t :- BlockType(b);
    if Unhashable(t) then Failure("TypeError")
    else if t.JStr? && t.s in SchemaTypeMap then Success(Some(SchemaTypeMap[t.s]))
    else Success(None)
  }

  /** `_check_schema_types`: the outcome of the first block that maps to a type or
      raises; Success(None) when every block is passed over. */
  function CheckSchemaTypes(jsonld: seq<Block>): (r: Result<Option<string>>)
    ensures r == Success(None) <==> forall j :: 0 <= j < |jsonld| ==> MappedType(jsonld[j]) == Success(None)
    ensures r != Success(None) ==>
      exists k :: 0 <= k < |jsonld| && r == MappedType(jsonld[k]) &&
        forall j :: 0 <= j < k ==> MappedType(jsonld[j]) == Success(None)
  {
    if jsonld == [] then Success(None)
    else
      var m := MappedType(jsonld[0]);
      if m != Success(None) then m
      else
        var r := CheckSchemaTypes(jsonld[1..]);
        assert forall j :: 1 <= j < |jsonld| ==> jsonld[1..][j - 1] == jsonld[j];
        if r != Success(None) then
          var k :| 0 <= k < |jsonld| - 1 && r == MappedType(jsonld[1..][k]) &&
            forall j :: 0 <= j < k ==> MappedType(jsonld[1..][j]) == Success(None);
          assert r == MappedType(jsonld[k + 1]);
          r
        else r
  }

  predicate AnyContains(s: string, patterns: seq<string>)
  {
    exists i :: 0 <= i < |patterns| && Contains(s, patterns[i])
  }

  /** The type of the first rule, from index `k` on, one of whose fragments occurs in `s`. */
  function FirstRuleFrom(s: string, rules: seq<(string, seq<string>)>, k: nat): (r: Option<string>)
    requires k <= |rules|
    ensures r.None? <==> forall j :: k <= j < |rules| ==> !AnyContains(s, rules[j].1)
    ensures r.Some? ==> exists m :: k <= m < |rules| && AnyContains(s, rules[m].1) && r.value == rules[m].0 &&
                          forall j :: k <= j < m ==> !AnyContains(s, rules[j].1)
    decreases |rules| - k
  {
    if k == |rules| then None
    else if AnyContains(s, rules[k].1) then Some(rules[k].0)
    else FirstRuleFrom(s, rules, k + 1)
  }

  /** `_check_url_patterns`: the URL's first matching rule, on the lower-cased URL. */
  function CheckUrlPatterns(url: string): (r: Option<string>)
    ensures r.None? <==> forall j :: 0 <= j < |UrlRules| ==> !AnyContains(Lower(url), UrlRules[j].1)
    ensures r.Some? ==> exists m :: 0 <= m < |UrlRules| && AnyContains(Lower(url), UrlRules[m].1) &&
                          r.value == UrlRules[m].0 &&
                          forall j :: 0 <= j < m ==> !AnyContains(Lower(url), UrlRules[j].1)
  {
    FirstRuleFrom(Lower(url), UrlRules, 0)
  }

  /** `text.count(kw)`; Python counts an empty pattern once per gap. */
  function CountOf(text: string, kw: string): nat
  {
    if kw == [] then |text| + 1 else CountOcc(text, kw)
  }

  /** The total number of occurrences of the keywords in `text`. */
  function KeywordHits(text: string, kws: seq<string>): nat
  {
    if kws == [] then 0 else KeywordHits(text, kws[..|kws| - 1]) + CountOf(text, kws[|kws| - 1])
  }

  /** `min(n // 3, 3)`. */
  function Normalize(n: nat): (r: nat)
    ensures r <= 3
    ensures r == 0 <==> n < 3
    ensures n >= 9 ==> r == 3
  {
    if n / 3 < 3 then n / 3 else 3
  }

  /** The heuristic score vector of a page text. */
  function HeuristicScores(text: string): TypeScores
  {
    var t := Lower(text);
    TypeScores(Normalize(KeywordHits(t, InformationalKeywords)), Normalize(KeywordHits(t, ExperientialKeywords)),
               Normalize(KeywordHits(t, TransactionalKeywords)), Normalize(0))
  }

  /** The running total over the first `i` keywords. */
  method CountKeywords(text: string, kws: seq<string>) returns (n: nat)
    ensures n == KeywordHits(text, kws)
  {
    n := 0;
    for i := 0 to |kws|
      invariant n == KeywordHits(text, kws[..i])
    {
      assert kws[..i + 1][..i] == kws[..i];
      n := n + CountOf(text, kws[i]);
    }
    assert kws[..|kws|] == kws;
  }

  /** `_analyze_content_heuristics`: per type, a third of its keyword occurrences in
      the lower-cased text, capped at 3; navigational has no keywords and stays 0. */
  method AnalyzeContentHeuristics(text: string) returns (h: TypeScores)
    ensures h == HeuristicScores(text)
    ensures h.navigational == 0
    ensures forall t :: t in TypeOrder ==> h.Get(t) <= 3
    ensures h.informational > 0 <==> KeywordHits(Lower(text), InformationalKeywords) >= 3
  {
    var lowered := Lower(text);
    var experiential := CountKeywords(lowered, ExperientialKeywords);
    var informational := CountKeywords(lowered, InformationalKeywords);
    var transactional := CountKeywords(lowered, TransactionalKeywords);
    h := TypeScores(Normalize(informational), Normalize(experiential), Normalize(transactional), Normalize(0));
  }

  /** The buttons' lower-cased texts joined by spaces. */
  function ButtonText(buttons: seq<string>): string
  {
    Join(" ", LowerAll(buttons))
  }

  function LowerAll(ss: seq<string>): (r: seq<string>)
    ensures |r| == |ss|
  {
    if ss == [] then [] else [Lower(ss[0])] + LowerAll(ss[1..])
  }

  /** The structural rules in the order the source tests them; rule `k` selects
      `StructuralTypes[k]`. */
  const StructuralTypes: seq<string> := [Experiential, Transactional, Informational, Navigational]

  predicate StructuralRule(sig: PageSignals, k: nat)
  {
    if k == 0 then sig.imageCount + sig.videoCount > 10
    else if k == 1 then (sig.formCount > 0 || |sig.buttonTexts| > 5) && AnyContains(ButtonText(sig.buttonTexts), PurchaseWords)
    else if k == 2 then sig.headingCount > 5 && sig.listCount > 3
    else if k == 3 then sig.linkCount > 50
    else false
  }

  function FirstStructuralFrom(sig: PageSignals, k: nat): (r: Option<string>)
    requires k <= 4
    ensures r.None? <==> forall j :: k <= j < 4 ==> !StructuralRule(sig, j)
    ensures r.Some? ==> exists m :: k <= m < 4 && StructuralRule(sig, m) && r.value == StructuralTypes[m] &&
                          forall j :: k <= j < m ==> !StructuralRule(sig, j)
    decreases 4 - k
  {
    if k == 4 then None
    else if StructuralRule(sig, k) then Some(StructuralTypes[k])
    else FirstStructuralFrom(sig, k + 1)
  }

  /** `_check_structural_patterns`: the type of the first structural rule that fires. */
  function CheckStructuralPatterns(sig: PageSignals): (r: Option<string>)
    ensures r.None? <==> forall j :: 0 <= j < 4 ==> !StructuralRule(sig, j)
    ensures r.Some? ==> exists m :: 0 <= m < 4 && StructuralRule(sig, m) && r.value == StructuralTypes[m] &&
                          forall j :: 0 <= j < m ==> !StructuralRule(sig, j)
  {
    FirstStructuralFrom(sig, 0)
  }

  /** `_get_type_description`. */
  function TypeDescription(t: string): string
  {
    if t == Informational then "Educational content that answers questions and provides information"
    else if t == Experiential then "Experience-focused content that tells stories and evokes emotion"
    else if t == Transactional then "Commerce-focused content for products and services"
    else if t == Navigational then "Hub or index page for navigation and discovery"
    else "Unknown content type"
  }

  /** `max(scores, key=scores.get)`: the first key, in `keys` order, whose score is
      maximal (a later key replaces the best only when strictly greater). */
  function MaxKey(s: TypeScores, keys: seq<string>): (t: string)
    requires keys != []
    ensures t in keys
    ensures forall k :: 0 <= k < |keys| ==> s.Get(keys[k]) <= s.Get(t)
  {
    if |keys| == 1 then keys[0]
    else
      var front := keys[..|keys| - 1];
      var b := MaxKey(s, front);
      var last := keys[|keys| - 1];
      assert forall k :: 0 <= k < |keys| - 1 ==> keys[k] == front[k];
      if s.Get(last) > s.Get(b) then last else b
  }

  /** The key `MaxKey` picks is the first maximal one: every key before it scores less. */
  lemma {:induction false} MaxKeyIsFirst(s: TypeScores, keys: seq<string>) returns (m: nat)
    requires keys != []
    ensures m < |keys| && keys[m] == MaxKey(s, keys)
    ensures forall k :: 0 <= k < m ==> s.Get(keys[k]) < s.Get(MaxKey(s, keys))
  {
    if |keys| == 1 {
      m := 0;
    } else {
      var front := keys[..|keys| - 1];
      var b := MaxKey(s, front);
      m := MaxKeyIsFirst(s, front);
      assert forall k :: 0 <= k < |keys| - 1 ==> keys[k] == front[k];
      if s.Get(keys[|keys| - 1]) > s.Get(b) {
        m := |keys| - 1;
      }
    }
  }

  /** `max(scores.values())`. */
  function Top(s: TypeScores): nat
  {
    s.Get(MaxKey(s, TypeOrder))
  }

  /** The confidence band of a maximal score. */
  function ConfidenceOf(top: nat): string
  {
    if top >= 3 then "high" else if top >= 2 then "medium" else "low"
  }

  /** One signal: when `found` names a type, `points` are added to it and `prefix + type`
      is recorded. */
  function AddSignal(scores: TypeScores, signals: seq<string>, found: Option<string>, prefix: string, points: nat)
    : (TypeScores, seq<string>)
  {
    if found.Some? && found.value in TypeOrder
    then (scores.Add(found.value, points), signals + [prefix + found.value])
    else (scores, signals)
  }

  /** The heuristic signals of the first `i` types, in `TypeOrder`. */
  function AddHeuristics(scores: TypeScores, signals: seq<string>, h: TypeScores, i: nat): (TypeScores, seq<string>)
    requires i <= |TypeOrder|
  {
    if i == 0 then (scores, signals)
    else
      var p := AddHeuristics(scores, signals, h, i - 1);
      var t := TypeOrder[i - 1];
      if h.Get(t) > 0
      then (p.0.Add(t, h.Get(t)), p.1 + ["heuristic:" + t + ":" + NatToString(h.Get(t))])
      else p
  }

  /** The score vector and signal list once every signal but the meta tag is in. */
  function Signals(sig: PageSignals, schemaType: Option<string>): (TypeScores, seq<string>)
  {
    var p1 := AddSignal(NoScores, [], schemaType, "schema:", 3);
    var p2 := AddSignal(p1.0, p1.1, CheckUrlPatterns(sig.url), "url:", 1);
    var p3 := AddHeuristics(p2.0, p2.1, HeuristicScores(sig.text), |TypeOrder|);
    AddSignal(p3.0, p3.1, CheckStructuralPatterns(sig), "structure:", 1)
  }

  /** The result `classify` returns for a score vector and signal list. */
  function Decide(scores: TypeScores, signals: seq<string>): Classification
  {
    var finalType := if Top(scores) == 0 then Informational else MaxKey(scores, TypeOrder);
    var confidence := if Top(scores) == 0 then "low" else ConfidenceOf(scores.Get(finalType));
    Classification(finalType, confidence, if signals == [] then "default" else signals[0], signals,
                   Some(scores), TypeDescription(finalType))
  }

  /** What `classify` returns, or the exception it raises. */
  function ClassifySpec(sig: PageSignals): Result<Classification>
  {
    var meta := CheckMetaTag(sig.metaContent);
    if meta.Some? then
      Success(Classification(meta.value, "high", "explicit_meta_tag", ["meta_tag:" + meta.value], None,
                             TypeDescription(meta.value)))
    else
      var schemaType := CheckSchemaTypes(sig.jsonld);
      if schemaType.Failure? then Failure(schemaType.error)
      else
        var p := Signals(sig, schemaType.value);
        Success(Decide(p.0, p.1))
  }

  /** `classify`: builds the score vector and the signal list step by step. */
  method Classify(sig: PageSignals) returns (r: Result<Classification>)
    ensures r == ClassifySpec(sig)
  {
    var signals: seq<string> := [];
    var scores := NoScores;
    var metaType := CheckMetaTag(sig.metaContent);
    if metaType.Some? {
      signals := signals + ["meta_tag:" + metaType.value];
      assert signals == ["meta_tag:" + metaType.value];
      return Success(Classification(metaType.value, "high", "explicit_meta_tag", signals, None,
                                    TypeDescription(metaType.value)));
    }
    var schemaType := CheckSchemaTypes(sig.jsonld);
    if schemaType.Failure? {
      return Failure(schemaType.error);
    }
    if schemaType.value.Some? && schemaType.value.value in TypeOrder {
      signals := signals + ["schema:" + schemaType.value.value];
      scores := scores.Add(schemaType.value.value, 3);
    }
    var urlType := CheckUrlPatterns(sig.url);
    if urlType.Some? && urlType.value in TypeOrder {
      signals := signals + ["url:" + urlType.value];
      scores := scores.Add(urlType.value, 1);
    }
    assert (scores, signals) == AddSignal(AddSignal(NoScores, [], schemaType.value, "schema:", 3).0,
                                          AddSignal(NoScores, [], schemaType.value, "schema:", 3).1,
                                          urlType, "url:", 1);
    var heuristic := AnalyzeContentHeuristics(sig.text);
    scores, signals := AddHeuristicSignals(scores, signals, heuristic);
    var structureType := CheckStructuralPatterns(sig);
    if structureType.Some? && structureType.value in TypeOrder {
      signals := signals + ["structure:" + structureType.value];
      scores := scores.Add(structureType.value, 1);
    }
    assert (scores, signals) == Signals(sig, schemaType.value);
    r := Success(Decide(scores, signals));
  }

  /** The heuristic loop of `classify`: each type with a positive heuristic score, in
      key order, gets that score added and a signal recorded. */
  method AddHeuristicSignals(scores0: TypeScores, signals0: seq<string>, heuristic: TypeScores)
    returns (scores: TypeScores, signals: seq<string>)
    ensures (scores, signals) == AddHeuristics(scores0, signals0, heuristic, |TypeOrder|)
  {
    scores, signals := scores0, signals0;
    for i := 0 to |TypeOrder|
      invariant (scores, signals) == AddHeuristics(scores0, signals0, heuristic, i)
    {
      var t := TypeOrder[i];
      if heuristic.Get(t) > 0 {
        signals := signals + ["heuristic:" + t + ":" + NatToString(heuristic.Get(t))];
        scores := scores.Add(t, heuristic.Get(t));
      }
    }
  }

  /** Every mapped schema type, URL rule type and structural type is one of the four keys. */
  lemma SignalTypesKnown(sig: PageSignals)
    ensures forall k :: k in SchemaTypeMap ==> SchemaTypeMap[k] in TypeOrder
    ensures CheckUrlPatterns(sig.url).Some? ==> CheckUrlPatterns(sig.url).value in TypeOrder
    ensures CheckStructuralPatterns(sig).Some? ==> CheckStructuralPatterns(sig).value in TypeOrder
  {
    if CheckUrlPatterns(sig.url).Some? {
      var m :| 0 <= m < |UrlRules| && CheckUrlPatterns(sig.url).value == UrlRules[m].0;
    }
    if CheckStructuralPatterns(sig).Some? {
      var m :| 0 <= m < 4 && CheckStructuralPatterns(sig).value == StructuralTypes[m];
    }
  }

  /** A recognised meta value decides the result with high confidence; the schema,
      URL, keyword and structural signals are not consulted, so even a block that
      would raise is never read. */
  lemma MetaTagDecides(sig: PageSignals)
    requires sig.metaContent.Some? && Lower(sig.metaContent.value) in TypeOrder
    ensures ClassifySpec(sig).Success?
    ensures ClassifySpec(sig).value.contentType == Lower(sig.metaContent.value)
    ensures ClassifySpec(sig).value.confidence == "high"
    ensures ClassifySpec(sig).value.primarySignal == "explicit_meta_tag"
    ensures ClassifySpec(sig).value.scores.None?
  {
  }

  /** Without a recognised meta tag, classification raises exactly when the schema
      check does. */
  lemma ClassifyFails(sig: PageSignals)
    requires CheckMetaTag(sig.metaContent).None?
    ensures ClassifySpec(sig).Failure? <==> CheckSchemaTypes(sig.jsonld).Failure?
  {
  }

  /** The final type: informational with low confidence for an all-zero vector,
      otherwise the first type, in key order, with the maximal score, and the
      confidence band of that score. */
  lemma DecideIsFirstMax(scores: TypeScores, signals: seq<string>)
    ensures scores.IsZero() ==> Decide(scores, signals).contentType == Informational &&
                                Decide(scores, signals).confidence == "low"
    ensures !scores.IsZero() ==>
      var d := Decide(scores, signals);
      d.contentType in TypeOrder &&
      (forall u :: u in TypeOrder ==> scores.Get(u) <= scores.Get(d.contentType)) &&
      (exists m :: 0 <= m < |TypeOrder| && TypeOrder[m] == d.contentType &&
                   forall k :: 0 <= k < m ==> scores.Get(TypeOrder[k]) < scores.Get(d.contentType)) &&
      d.confidence == (if scores.Get(d.contentType) >= 3 then "high"
                       else if scores.Get(d.contentType) >= 2 then "medium" else "low")
  {
    var m := MaxKeyIsFirst(scores, TypeOrder);
    if scores.IsZero() {
      TopZero(scores);
    } else {
      TopPositive(scores);
    }
  }

  lemma TopZero(scores: TypeScores)
    requires scores.IsZero()
    ensures Top(scores) == 0
  {
    assert scores.Get(MaxKey(scores, TypeOrder)) == 0;
  }

  lemma TopPositive(scores: TypeScores)
    requires !scores.IsZero()
    ensures Top(scores) > 0
  {
    var t := MaxKey(scores, TypeOrder);
    assert scores.Get(Informational) > 0 || scores.Get(Experiential) > 0 ||
           scores.Get(Transactional) > 0 || scores.Get(Navigational) > 0;
    assert TypeOrder[0] == Informational && TypeOrder[1] == Experiential;
    assert TypeOrder[2] == Transactional && TypeOrder[3] == Navigational;
    assert scores.Get(TypeOrder[0]) <= scores.Get(t) && scores.Get(TypeOrder[1]) <= scores.Get(t);
    assert scores.Get(TypeOrder[2]) <= scores.Get(t) && scores.Get(TypeOrder[3]) <= scores.Get(t);
  }

  /** Each signal step records a signal exactly when it adds points. */
  lemma AddSignalKeepsPairing(scores: TypeScores, signals: seq<string>, found: Option<string>, prefix: string, points: nat)
    requires points > 0
    requires signals == [] <==> scores.IsZero()
    ensures var p := AddSignal(scores, signals, found, prefix, points); p.1 == [] <==> p.0.IsZero()
  {
  }

  lemma {:induction false} AddHeuristicsKeepsPairing(scores: TypeScores, signals: seq<string>, h: TypeScores, i: nat)
    requires i <= |TypeOrder|
    requires signals == [] <==> scores.IsZero()
    ensures var p := AddHeuristics(scores, signals, h, i); p.1 == [] <==> p.0.IsZero()
  {
    if i > 0 {
      AddHeuristicsKeepsPairing(scores, signals, h, i - 1);
    }
  }

  /** The signal list is empty exactly when the score vector is all zero, so the
      primary signal is 'default' exactly when the type fell back to informational. */
  lemma SignalsIffScores(sig: PageSignals)
    requires CheckMetaTag(sig.metaContent).None? && CheckSchemaTypes(sig.jsonld).Success?
    ensures ClassifySpec(sig).Success?
    ensures var c := ClassifySpec(sig).value;
            c.scores.Some? && (c.allSignals == [] <==> c.scores.value.IsZero())
  {
    var schemaType := CheckSchemaTypes(sig.jsonld).value;
    var p1 := AddSignal(NoScores, [], schemaType, "schema:", 3);
    AddSignalKeepsPairing(NoScores, [], schemaType, "schema:", 3);
    var p2 := AddSignal(p1.0, p1.1, CheckUrlPatterns(sig.url), "url:", 1);
    AddSignalKeepsPairing(p1.0, p1.1, CheckUrlPatterns(sig.url), "url:", 1);
    AddHeuristicsKeepsPairing(p2.0, p2.1, HeuristicScores(sig.text), |TypeOrder|);
    var p3 := AddHeuristics(p2.0, p2.1, HeuristicScores(sig.text), |TypeOrder|);
    AddSignalKeepsPairing(p3.0, p3.1, CheckStructuralPatterns(sig), "structure:", 1);
  }
}

=== FILE: content_profiles.dfy ===
/** Per-content-type scoring profiles (backend/scoring/content_profiles.py): a
    category-weight table and a table of adjustments for each content type, and the
    registry that maps a type name to its profile. Nothing in the scoring engine
    applies these weights; they are a lookup only. */
module ContentProfiles {
  import opened Wrappers

  const Informational: string := "informational"
  const Experiential: string := "experiential"
  const Transactional: string := "transactional"
  const Navigational: string := "navigational"

  /** An adjustment value: the tables hold flags and word counts. */
  datatype Adjustment = Flag(b: bool) | Count(n: int)

  datatype ScoringProfile = ScoringProfile(name: string, categoryWeights: map<string, real>, adjustments: map<string, Adjustment>)
  {
    /** `get_weight`: the category's weight, 1.0 for a category not in the table. */
    function GetWeight(category: string): (w: real)
      ensures category in categoryWeights ==> w == categoryWeights[category]
      ensures category !in categoryWeights ==> w == 1.0
    {
      if category in categoryWeights then categoryWeights[category] else 1.0
    }

    /** `get_adjustment(key, default)`; `None` stands for Python's None. */
    function GetAdjustment(key: string, default: Option<Adjustment>): (a: Option<Adjustment>)
      ensures key in adjustments ==> a == Some(adjustments[key])
      ensures key !in adjustments ==> a == default
    {
      if key in adjustments then Some(adjustments[key]) else default
    }
  }

  /** `ScoringProfile(name, weights, adjustments)`: missing or empty adjustments
      become the empty table. */
  function MakeProfile(name: string, weights: map<string, real>, adjustments: Option<map<string, Adjustment>>): (p: ScoringProfile)
    ensures p.name == name && p.categoryWeights == weights
    ensures adjustments.None? ==> p.adjustments == map[]
    ensures adjustments.Some? ==> p.adjustments == adjustments.value
  {
    ScoringProfile(name, weights, if adjustments.Some? && adjustments.value != map[] then adjustments.value else map[])
  }

  function Weights(a: real, s: real, au: real, c: real, ci: real, t: real): map<string, real>
  {
    map["answerability" := a, "structured_data" := s, "authority" := au,
        "content_quality" := c, "citationability" := ci, "technical" := t]
  }

  const Categories: seq<string> :=
    ["answerability", "structured_data", "authority", "content_quality", "citationability", "technical"]

  const DefaultProfile: ScoringProfile :=
    MakeProfile("default", Weights(1.0, 1.0, 1.0, 1.0, 1.0, 1.0), None)

  const InformationalProfile: ScoringProfile :=
    MakeProfile(Informational, Weights(1.3, 1.0, 1.2, 1.2, 1.2, 1.0),
      Some(map["require_questions" := Flag(true), "require_answers" := Flag(true),
               "min_word_count" := Count(300), "prefer_h2_questions" := Flag(true)]))

  const ExperientialProfile: ScoringProfile :=
    MakeProfile(Experiential, Weights(0.5, 1.3, 0.9, 1.1, 0.6, 1.0),
      Some(map["allow_narrative_style" := Flag(true), "value_imagery" := Flag(true),
               "value_emotional_language" := Flag(true), "prefer_event_place_schema" := Flag(true),
               "min_word_count" := Count(200), "prefer_storytelling" := Flag(true)]))

  const TransactionalProfile: ScoringProfile :=
    MakeProfile(Transactional, Weights(0.8, 1.4, 1.1, 0.9, 0.7, 1.2),
      Some(map["require_product_schema" := Flag(true), "value_reviews" := Flag(true),
               "value_pricing_clarity" := Flag(true), "value_cta" := Flag(true),
               "min_word_count" := Count(100)]))

  const NavigationalProfile: ScoringProfile :=
    MakeProfile(Navigational, Weights(0.6, 1.2, 0.8, 0.7, 0.5, 1.3),
      Some(map["allow_thin_content" := Flag(true), "value_link_structure" := Flag(true),
               "value_breadcrumbs" := Flag(true), "min_word_count" := Count(50)]))

  /** The registry `PROFILES`. */
  const Profiles: map<string, ScoringProfile> :=
    map[Informational := InformationalProfile, Experiential := ExperientialProfile,
        Transactional := TransactionalProfile, Navigational := NavigationalProfile,
        "default" := DefaultProfile]

  /** `get_profile`: the registered profile, DEFAULT_PROFILE for any other name. */
  function GetProfile(contentType: string): (p: ScoringProfile)
    ensures contentType in Profiles ==> p == Profiles[contentType]
    ensures contentType !in Profiles ==> p == DefaultProfile
    ensures p.name == (if contentType in Profiles then contentType else "default")
  {
    if contentType in Profiles then Profiles[contentType] else DefaultProfile
  }

  /** `get_profile_by_name`, an alias of `get_profile`. */
  function GetProfileByName(name: string): (p: ScoringProfile)
    ensures p == GetProfile(name)
  {
    GetProfile(name)
  }

  /** The registry holds exactly the four type names and 'default'. */
  lemma RegistryKeys()
    ensures Profiles.Keys == {Informational, Experiential, Transactional, Navigational, "default"}
  {
  }

  /** Every profile weighs exactly the six categories; the default profile weighs each
      at 1.0, and every weight of every profile lies between 0.5 and 1.4. */
  lemma WeightRanges(name: string, category: string)
    requires name in Profiles
    ensures Profiles[name].categoryWeights.Keys == set c | c in Categories
    ensures category in Categories ==> 0.5 <= Profiles[name].GetWeight(category) <= 1.4
    ensures name == "default" ==> Profiles[name].GetWeight(category) == 1.0
    ensures category !in Categories ==> Profiles[name].GetWeight(category) == 1.0
  {
  }
}

=== FILE: content_quality.dfy ===
/** The content-quality category (10 points): depth, unique value and freshness
    (backend/scoring/content_quality.py). The clock and the date parser are
    replaced by `ageOf`, which gives the age in whole days of a date value, or None
    where parsing fails. */
module ContentQuality {
  import opened Wrappers
  import opened Json
  import opened Numbers
  import opened PageModel
  import opened Scores

  const MaxScore: real := 10.0

  /** Age in days of a date value as of now; None where the date does not parse. */
  type AgeOracle = Json -> Option<int>

  predicate LacksLevel(h: Heading) { h.level.None? }
  predicate IsH2(h: Heading) { h.level == Some(2) }

  /** 2 points for 2000+ words, 1 for 1000+. */
  function WordTier(words: nat): (r: int)
    ensures 0 <= r <= 2
    ensures words >= 2000 ==> r == 2
  {
    if words >= 2000 then 2 else if words >= 1000 then 1 else 0
  }

  /** 2 points for 8+ level-2 headings, 1 for 5+. */
  function SectionTier(h2s: nat): (r: int)
    ensures 0 <= r <= 2
  {
    if h2s >= 8 then 2 else if h2s >= 5 then 1 else 0
  }

  /** The depth sub-score; counting the level-2 headings reads every heading's
      level, so a heading record without one raises KeyError. */
  function DepthScore(p: PageData): (r: Result<real>)
    ensures r.Failure? <==> AnyWhere(p.headings, LacksLevel)
    ensures r.Success? ==> r.value == (WordTier(p.wordCount) + SectionTier(CountWhere(p.headings, IsH2))) as real
    ensures r.Success? ==> 0.0 <= r.value <= 4.0
  {
    if AnyWhere(p.headings, LacksLevel) then Failure("KeyError")
    else Success((WordTier(p.wordCount) + SectionTier(CountWhere(p.headings, IsH2))) as real)
  }

  /** A point for a table, a point for three or more lists and one unconditional point. */
  function UniquenessScore(p: PageData): (r: real)
    ensures 1.0 <= r <= 3.0
    ensures r == 1.0 + (if |p.tables| >= 1 then 1.0 else 0.0) + (if |p.lists| >= 3 then 1.0 else 0.0)
  {
    var score := (if |p.tables| >= 1 then 1 else 0) + (if |p.lists| >= 3 then 1 else 0);
    (score + 1) as real
  }

  /** 3/2/1/0 points for an age of at most 90/180/365 days or older. */
  function FreshnessTier(days: int): (r: int)
    ensures 0 <= r <= 3
    ensures days <= 90 ==> r == 3
    ensures days > 365 ==> r == 0
  {
    if days <= 90 then 3 else if days <= 180 then 2 else if days <= 365 then 1 else 0
  }

  /** Older content never scores higher. */
  lemma FreshnessTierMonotone(d1: int, d2: int)
    requires d1 <= d2
    ensures FreshnessTier(d2) <= FreshnessTier(d1)
  {
  }

  /** `dates.get('modified') or dates.get('published')`. */
  function LastModified(d: Dates): (r: Json)
    ensures Truthy(d.modified) ==> r == d.modified
    ensures !Truthy(d.modified) ==> r == d.published
  {
    if Truthy(d.modified) then d.modified else d.published
  }

  function FreshnessScore(p: PageData, ageOf: AgeOracle): (r: real)
    ensures 0.0 <= r <= 3.0
    ensures !Truthy(p.dates.modified) && !Truthy(p.dates.published) ==> r == 0.0
    ensures Truthy(LastModified(p.dates)) && ageOf(LastModified(p.dates)).None? ==> r == 0.0
    ensures Truthy(LastModified(p.dates)) && ageOf(LastModified(p.dates)).Some? ==>
              r == FreshnessTier(ageOf(LastModified(p.dates)).value) as real
  {
    var last := LastModified(p.dates);
    if !Truthy(last) then 0.0
    else match ageOf(last)
      case None => 0.0
      case Some(days) => FreshnessTier(days) as real
  }

  function SubScores(depth: real, p: PageData, ageOf: AgeOracle): seq<SubScore>
  {
    [SubScore("content_depth", depth),
     SubScore("unique_value_proposition", UniquenessScore(p)),
     SubScore("freshness", FreshnessScore(p, ageOf))]
  }

  /** `ContentQualityScorer.calculate`: fails exactly where the depth sub-score does;
      otherwise the sum of the three sub-scores, between 1 and 10. */
  function Calculate(p: PageData, ageOf: AgeOracle): (r: Result<CategoryScore>)
    ensures r.Failure? <==> AnyWhere(p.headings, LacksLevel)
    ensures r.Success? ==> r.value.max == MaxScore
    ensures r.Success? ==> r.value.score == DepthScore(p).value + UniquenessScore(p) + FreshnessScore(p, ageOf)
    ensures r.Success? ==> 1.0 <= r.value.score <= MaxScore
  {
    var depth := DepthScore(p);
    if depth.Failure? then Failure(depth.error)
    else
      var subs := SubScores(depth.value, p, ageOf);
      TenthOfInt(depth.value.Floor);
      TenthOfInt(UniquenessScore(p).Floor);
      TenthOfInt(FreshnessScore(p, ageOf).Floor);
      assert FreshnessScore(p, ageOf) == FreshnessScore(p, ageOf).Floor as real;
      SumSubs3(subs[0], subs[1], subs[2]);
      Success(Report(subs, MaxScore))
  }
}

=== FILE: dicts.dfy ===
/** Python dicts with string keys as association lists: iteration follows insertion
    order, assigning to a present key replaces its value where it stands, and a new
    key goes to the end. */
module Dicts {
  import opened Wrappers
  import opened Sorting

  type Dict<V> = seq<(string, V)>

  /** The keys, in iteration order. */
  function Keys<V>(d: Dict<V>): seq<string>
  {
    seq(|d|, i requires 0 <= i < |d| => d[i].0)
  }

  /** Where `k` stands, if it is a key. */
  function IndexOf<V>(d: Dict<V>, k: string): (r: Option<nat>)
    ensures r.Some? ==> r.value < |d| && d[r.value].0 == k && forall j :: 0 <= j < r.value ==> d[j].0 != k
    ensures r.None? <==> k !in Keys(d)
  {
    if d == [] then None
    else if d[0].0 == k then assert Keys(d)[0] == k; Some(0)
    else
      assert Keys(d) == [d[0].0] + Keys(d[1..]);
      match IndexOf(d[1..], k)
      case None => None
      case Some(j) => Some(j + 1)
  }

  /** `d.get(k)`. */
  function Get<V>(d: Dict<V>, k: string): Option<V>
  {
    match IndexOf(d, k)
    case None => None
    case Some(i) => Some(d[i].1)
  }

  /** `d[k] = v`. */
  function Put<V>(d: Dict<V>, k: string, v: V): Dict<V>
  {
    match IndexOf(d, k)
    case None => d + [(k, v)]
    case Some(i) => d[i := (k, v)]
  }

  /** The first position holding `k` is what `IndexOf` finds. */
  lemma IndexOfIs<V>(d: Dict<V>, k: string, i: nat)
    requires i < |d| && d[i].0 == k && forall j :: 0 <= j < i ==> d[j].0 != k
    ensures IndexOf(d, k) == Some(i)
  {
    assert Keys(d)[i] == k;
  }

  /** Lookups depend on the keys alone. */
  lemma SameKeysIndex<V>(a: Dict<V>, b: Dict<V>, k: string)
    requires Keys(a) == Keys(b)
    ensures IndexOf(a, k) == IndexOf(b, k)
  {
    var r := IndexOf(a, k);
    if r.Some? {
      assert Keys(b)[r.value] == Keys(a)[r.value];
      forall j | 0 <= j < r.value
        ensures b[j].0 != k
      {
        assert Keys(b)[j] == Keys(a)[j];
      }
      IndexOfIs(b, k, r.value);
    }
  }

  /** With distinct keys, each entry is what its key looks up. */
  lemma GetEntry<V>(d: Dict<V>, i: nat)
    requires i < |d| && NoDuplicates(Keys(d))
    ensures Get(d, d[i].0) == Some(d[i].1)
  {
    var k := d[i].0;
    assert Keys(d)[i] == k;
    var r := IndexOf(d, k);
    assert r.value <= i;
    assert Keys(d)[r.value] == k;
    assert r.value == i;
  }

  /** Assignment to a new key: the key is found at the end, every other lookup is
      unchanged. */
  lemma PutNew<V>(d: Dict<V>, k: string, v: V, k': string)
    requires k !in Keys(d)
    ensures Get(d + [(k, v)], k') == if k' == k then Some(v) else Get(d, k')
  {
    var p := d + [(k, v)];
    assert Keys(p) == Keys(d) + [k];
    if k' == k {
      forall j | 0 <= j < |d|
        ensures p[j].0 != k
      {
        assert Keys(d)[j] == d[j].0;
      }
      IndexOfIs(p, k, |d|);
    } else {
      var r := IndexOf(d, k');
      if r.Some? {
        IndexOfIs(p, k', r.value);
      } else {
        assert k' !in Keys(p);
      }
    }
  }

  /** Assignment to a present key: the keys stay as they are. */
  lemma PutPresent<V>(d: Dict<V>, k: string, v: V, k': string)
    requires k in Keys(d)
    ensures Keys(Put(d, k, v)) == Keys(d)
    ensures Get(Put(d, k, v), k') == if k' == k then Some(v) else Get(d, k')
  {
    var i := IndexOf(d, k).value;
    var p := d[i := (k, v)];
    assert Keys(p) == Keys(d);
    SameKeysIndex(p, d, k');
  }

  /** The laws of assignment: the key gains the value, every other key is unchanged,
      and the keys keep their order with a new key at the end. */
  lemma PutFacts<V>(d: Dict<V>, k: string, v: V)
    ensures forall k' :: Get(Put(d, k, v), k') == if k' == k then Some(v) else Get(d, k')
    ensures Keys(Put(d, k, v)) == if k in Keys(d) then Keys(d) else Keys(d) + [k]
    ensures NoDuplicates(Keys(d)) ==> NoDuplicates(Keys(Put(d, k, v)))
  {
    forall k' | true
      ensures Get(Put(d, k, v), k') == if k' == k then Some(v) else Get(d, k')
    {
      if k in Keys(d) {
        PutPresent(d, k, v, k');
      } else {
        PutNew(d, k, v, k');
      }
    }
    if k in Keys(d) {
      PutPresent(d, k, v, k);
    } else {
      assert Keys(d + [(k, v)]) == Keys(d) + [k];
    }
  }

  /** A dict's items, assigned one after the other: `d.update(entries)`. */
  function PutAll<V>(d: Dict<V>, entries: Dict<V>): Dict<V>
  {
    if entries == [] then d
    else Put(PutAll(d, entries[..|entries| - 1]), entries[|entries| - 1].0, entries[|entries| - 1].1)
  }

  /** Assigning keys that are all new appends them in order. */
  lemma {:induction false} PutAllFresh<V>(d: Dict<V>, entries: Dict<V>)
    requires NoDuplicates(Keys(d) + Keys(entries))
    ensures PutAll(d, entries) == d + entries
  {
    if entries != [] {
      var front := entries[..|entries| - 1];
      var (k, v) := entries[|entries| - 1];
      assert Keys(d) + Keys(front) == (Keys(d) + Keys(entries))[..|d| + |front|];
      PutAllFresh(d, front);
      assert k !in Keys(d + front) by {
        assert Keys(d + front) == Keys(d) + Keys(front);
        assert (Keys(d) + Keys(entries))[|d| + |front|] == k;
      }
      assert d + entries == (d + front) + [(k, v)];
    }
  }

  /** The values paired with `k`, in order. */
  function ValuesOf<V>(pairs: Dict<V>, k: string): (r: seq<V>)
    ensures r != [] <==> k in Keys(pairs)
  {
    if pairs == [] then []
    else
      var front := pairs[..|pairs| - 1];
      assert Keys(pairs) == Keys(front) + [pairs[|pairs| - 1].0];
      ValuesOf(front, k) + if pairs[|pairs| - 1].0 == k then [pairs[|pairs| - 1].1] else []
  }

  /** `groups.setdefault(k, []).append(v)`. */
  function AddTo<V>(groups: Dict<seq<V>>, k: string, v: V): Dict<seq<V>>
  {
    Put(groups, k, Get(groups, k).GetOr([]) + [v])
  }

  /** The pairs grouped by key, one pair at a time. */
  function Grouped<V>(pairs: Dict<V>): Dict<seq<V>>
  {
    if pairs == [] then []
    else AddTo(Grouped(pairs[..|pairs| - 1]), pairs[|pairs| - 1].0, pairs[|pairs| - 1].1)
  }

  /** Grouping lists each key once, in order of first appearance. */
  lemma {:induction false} GroupedKeys<V>(pairs: Dict<V>)
    ensures Keys(Grouped(pairs)) == Dedup(Keys(pairs))
  {
    if pairs != [] {
      var front := pairs[..|pairs| - 1];
      var (k, v) := pairs[|pairs| - 1];
      GroupedKeys(front);
      var g := Grouped(front);
      PutFacts(g, k, Get(g, k).GetOr([]) + [v]);
      assert Keys(pairs)[..|pairs| - 1] == Keys(front);
      assert Keys(pairs)[|pairs| - 1] == k;
    }
  }

  /** Each key of the pairs looks up the list of all values paired with it. */
  lemma {:induction false} GroupedGet<V>(pairs: Dict<V>, key: string)
    ensures Get(Grouped(pairs), key) == if key in Keys(pairs) then Some(ValuesOf(pairs, key)) else None
  {
    if pairs != [] {
      var front := pairs[..|pairs| - 1];
      var (k, v) := pairs[|pairs| - 1];
      assert Keys(pairs) == Keys(front) + [k];
      GroupedGet(front, key);
      GroupedGet(front, k);
      var g := Grouped(front);
      var w := Get(g, k).GetOr([]) + [v];
      assert Grouped(pairs) == Put(g, k, w);
      if k in Keys(g) {
        PutPresent(g, k, w, key);
      } else {
        PutNew(g, k, w, key);
      }
      assert ValuesOf(pairs, key) == ValuesOf(front, key) + if k == key then [v] else [];
      if key == k {
        assert Get(Grouped(pairs), key) == Some(w);
        assert w == ValuesOf(front, k) + [v];
      } else {
        assert Get(Grouped(pairs), key) == Get(g, key);
        assert key in Keys(pairs) <==> key in Keys(front);
        assert ValuesOf(front, key) + [] == ValuesOf(front, key);
      }
    }
  }

  /** Every entry of a grouping holds the non-empty list of the values paired with
      its key. */
  lemma GroupedEntries<V>(pairs: Dict<V>)
    ensures NoDuplicates(Keys(Grouped(pairs)))
    ensures forall i :: 0 <= i < |Grouped(pairs)| ==>
      Grouped(pairs)[i].1 == ValuesOf(pairs, Grouped(pairs)[i].0) && Grouped(pairs)[i].1 != []
  {
    var g := Grouped(pairs);
    GroupedKeys(pairs);
    forall i | 0 <= i < |g|
      ensures g[i].1 == ValuesOf(pairs, g[i].0) && g[i].1 != []
    {
      GetEntry(g, i);
      GroupedGet(pairs, g[i].0);
      assert Keys(g)[i] == g[i].0;
    }
  }

  /** The grouping loop. */
  method GroupBy<V>(pairs: Dict<V>) returns (groups: Dict<seq<V>>)
    ensures groups == Grouped(pairs)
  {
    groups := [];
    for i := 0 to |pairs|
      invariant groups == Grouped(pairs[..i])
    {
      assert pairs[..i + 1][..i] == pairs[..i];
      var (k, v) := pairs[i];
      var existing := Get(groups, k);
      var values := if existing.Some? then existing.value else [];
      groups := Put(groups, k, values + [v]);
    }
    assert pairs[..|pairs|] == pairs;
  }
}

=== FILE: dom.dfy ===
/** The parsed HTML document the extractors walk: a tree of elements and text
    strings, as the HTML library hands it over, and the few traversals the source
    uses on it (searching descendants in document order, the element siblings that
    follow a node, the stripped text of a subtree, removing every element of some
    tags). */
module Dom {
  import opened Wrappers
  import opened Strings
  import Sorting

  /** A node of the parsed document. `classes` holds the element's class list. */
  datatype Node =
    | Text(s: string)
    | Element(tag: string, attrs: map<string, string>, classes: seq<string>, children: seq<Node>)

  /** The tag name the library gives the document root. */
  const DocumentTag: string := "[document]"

  predicate AllElements(ns: seq<Node>)
  {
    forall i :: 0 <= i < |ns| ==> ns[i].Element?
  }

  /** Every element strictly below `n`, in document (pre-)order: what `find_all` searches. */
  function Descendants(n: Node): (r: seq<Node>)
    ensures AllElements(r)
    decreases n, 1
  {
    if n.Text? then [] else DescendantsOf(n.children)
  }

  function DescendantsOf(ns: seq<Node>): (r: seq<Node>)
    ensures AllElements(r)
    decreases ns, 0
  {
    if ns == [] then []
    else (if ns[0].Element? then [ns[0]] + Descendants(ns[0]) else []) + DescendantsOf(ns[1..])
  }

  /** An element together with the siblings that follow it under the same parent. */
  datatype Located = Located(node: Node, following: seq<Node>)

  /** `Descendants`, each element paired with its following siblings. */
  function LocatedIn(n: Node): seq<Located>
    decreases n, 1
  {
    if n.Text? then [] else LocatedOf(n.children)
  }

  function LocatedOf(ns: seq<Node>): seq<Located>
    decreases ns, 0
  {
    if ns == [] then []
    else (if ns[0].Element? then [Located(ns[0], ns[1..])] + LocatedIn(ns[0]) else []) + LocatedOf(ns[1..])
  }

  predicate SameNodes(ls: seq<Located>, ns: seq<Node>)
  {
    |ls| == |ns| && forall i :: 0 <= i < |ns| ==> ls[i].node == ns[i]
  }

  lemma SameNodesAppend(l1: seq<Located>, n1: seq<Node>, l2: seq<Located>, n2: seq<Node>)
    requires SameNodes(l1, n1) && SameNodes(l2, n2)
    ensures SameNodes(l1 + l2, n1 + n2)
  {
  }

  lemma {:induction false} LocatedInNodes(n: Node)
    ensures SameNodes(LocatedIn(n), Descendants(n))
    decreases n, 1
  {
    if n.Element? {
      LocatedOfNodes(n.children);
    }
  }

  /** The located walk visits exactly the descendants, in the same order. */
  lemma {:induction false} LocatedOfNodes(ns: seq<Node>)
    ensures SameNodes(LocatedOf(ns), DescendantsOf(ns))
    decreases ns, 0
  {
    if ns != [] {
      LocatedOfNodes(ns[1..]);
      if ns[0].Element? {
        LocatedInNodes(ns[0]);
        SameNodesAppend([Located(ns[0], ns[1..])], [ns[0]], LocatedIn(ns[0]), Descendants(ns[0]));
        SameNodesAppend([Located(ns[0], ns[1..])] + LocatedIn(ns[0]), [ns[0]] + Descendants(ns[0]),
                        LocatedOf(ns[1..]), DescendantsOf(ns[1..]));
      } else {
        assert [] + LocatedOf(ns[1..]) == LocatedOf(ns[1..]);
        assert [] + DescendantsOf(ns[1..]) == DescendantsOf(ns[1..]);
      }
    }
  }

  predicate HasTagIn(n: Node, tags: set<string>)
  {
    n.Element? && n.tag in tags
  }

  /** The elements of `ns` whose tag is one of `tags`, in order. */
  function WithTags(ns: seq<Node>, tags: set<string>): (r: seq<Node>)
    ensures |r| <= |ns|
    ensures forall i :: 0 <= i < |r| ==> HasTagIn(r[i], tags)
    ensures forall x :: x in ns && HasTagIn(x, tags) ==> x in r
  {
    if ns == [] then []
    else
      assert ns == ns[..|ns| - 1] + [ns[|ns| - 1]];
      WithTags(ns[..|ns| - 1], tags) + (if HasTagIn(ns[|ns| - 1], tags) then [ns[|ns| - 1]] else [])
  }

  /** The tag test as a predicate value. */
  function Tagged(tags: set<string>): Node -> bool
  {
    x => HasTagIn(x, tags)
  }

  /** The selection keeps document order: it is the order-preserving filter of `ns`,
      taken front to back. */
  lemma {:induction false} WithTagsInOrder(ns: seq<Node>, tags: set<string>)
    ensures WithTags(ns, tags) == Sorting.Filter(ns, Tagged(tags))
  {
    if ns != [] {
      var front, last := ns[..|ns| - 1], ns[|ns| - 1];
      WithTagsInOrder(front, tags);
      assert ns == front + [last];
      Sorting.FilterAppend(front, [last], Tagged(tags));
    }
  }

  /** `n.find_all(tags)`: every descendant carrying one of the tags, and nothing else,
      in document order. */
  function FindAll(n: Node, tags: set<string>): (r: seq<Node>)
    ensures forall i :: 0 <= i < |r| ==> HasTagIn(r[i], tags)
    ensures forall x :: x in Descendants(n) && HasTagIn(x, tags) ==> x in r
  {
    WithTags(Descendants(n), tags)
  }

  /** `find_all` lists the tagged descendants in document order. */
  lemma FindAllInOrder(n: Node, tags: set<string>)
    ensures FindAll(n, tags) == Sorting.Filter(Descendants(n), Tagged(tags))
  {
    WithTagsInOrder(Descendants(n), tags);
  }

  /** The first element of `ns` satisfying a tag test. */
  function FirstWithTags(ns: seq<Node>, tags: set<string>): (r: Option<Node>)
    ensures r.Some? ==> r.value in ns && HasTagIn(r.value, tags)
    ensures r.None? ==> forall i :: 0 <= i < |ns| ==> !HasTagIn(ns[i], tags)
  {
    if ns == [] then None
    else if HasTagIn(ns[0], tags) then Some(ns[0])
    else FirstWithTags(ns[1..], tags)
  }

  /** `n.find(tags)`. */
  function Find(n: Node, tags: set<string>): Option<Node>
  {
    FirstWithTags(Descendants(n), tags)
  }

  /** The element children of `n`: what `find_all(..., recursive=False)` searches. */
  function ChildElements(n: Node): (r: seq<Node>)
    ensures AllElements(r)
  {
    if n.Text? then [] else Elements(n.children)
  }

  function Elements(ns: seq<Node>): (r: seq<Node>)
    ensures AllElements(r) && |r| <= |ns|
  {
    if ns == [] then [] else (if ns[0].Element? then [ns[0]] else []) + Elements(ns[1..])
  }

  /** `tag.get(name)`. */
  function Attr(n: Node, name: string): Option<string>
  {
    if n.Element? && name in n.attrs then Some(n.attrs[name]) else None
  }

  /** Every text string of the subtree, in document order. */
  function AllStrings(n: Node): seq<string>
    decreases n, 1
  {
    if n.Text? then [n.s] else AllStringsOf(n.children)
  }

  function AllStringsOf(ns: seq<Node>): seq<string>
    decreases ns, 0
  {
    if ns == [] then [] else AllStrings(ns[0]) + AllStringsOf(ns[1..])
  }

  /** The strings with surrounding whitespace removed, empty ones dropped. */
  function StrippedNonEmpty(ss: seq<string>): (r: seq<string>)
    ensures forall i :: 0 <= i < |r| ==> r[i] != []
  {
    if ss == [] then []
    else StrippedNonEmpty(ss[..|ss| - 1]) + (if Strip(ss[|ss| - 1]) == [] then [] else [Strip(ss[|ss| - 1])])
  }

  /** `n.get_text(separator=sep, strip=True)`. */
  function GetText(n: Node, sep: string): string
  {
    Join(sep, StrippedNonEmpty(AllStrings(n)))
  }

  /** `n.get_text(strip=True)`. */
  function TextOf(n: Node): string
  {
    GetText(n, "")
  }

  /** The stripped texts of the given elements: `[x.get_text(strip=True) for x in ns]`. */
  function Texts(ns: seq<Node>): (r: seq<string>)
    ensures |r| == |ns|
    ensures forall i :: 0 <= i < |ns| ==> r[i] == TextOf(ns[i])
  {
    if ns == [] then [] else [TextOf(ns[0])] + Texts(ns[1..])
  }

  /** `n.string`: the text of an element whose only child is a string, else None. */
  function StringOf(n: Node): Option<string>
  {
    if n.Element? && |n.children| == 1 && n.children[0].Text? then Some(n.children[0].s) else None
  }

  /** The tree with every element whose tag is in `tags` removed together with its
      subtree (`decompose` applied to each of them). */
  function RemoveTags(n: Node, tags: set<string>): (r: Node)
    ensures r.Text? == n.Text?
    ensures r.Element? ==> r.tag == n.tag && r.attrs == n.attrs && r.classes == n.classes
    decreases n, 1
  {
    if n.Text? then n else n.(children := RemoveTagsOf(n.children, tags))
  }

  function RemoveTagsOf(ns: seq<Node>, tags: set<string>): seq<Node>
    decreases ns, 0
  {
    if ns == [] then []
    else (if HasTagIn(ns[0], tags) then [] else [RemoveTags(ns[0], tags)]) + RemoveTagsOf(ns[1..], tags)
  }

  predicate NoneTagged(ns: seq<Node>, tags: set<string>)
  {
    forall i :: 0 <= i < |ns| ==> !HasTagIn(ns[i], tags)
  }

  lemma {:induction false} RemoveTagsClean(n: Node, tags: set<string>)
    ensures NoneTagged(Descendants(RemoveTags(n, tags)), tags)
    decreases n, 1
  {
    if n.Element? {
      RemoveTagsOfClean(n.children, tags);
    }
  }

  /** After removal no element of the removed tags is left anywhere below. */
  lemma {:induction false} RemoveTagsOfClean(ns: seq<Node>, tags: set<string>)
    ensures NoneTagged(DescendantsOf(RemoveTagsOf(ns, tags)), tags)
    decreases ns, 0
  {
    if ns != [] {
      var rest := RemoveTagsOf(ns[1..], tags);
      RemoveTagsOfClean(ns[1..], tags);
      if HasTagIn(ns[0], tags) {
        assert RemoveTagsOf(ns, tags) == [] + rest;
        assert [] + rest == rest;
      } else {
        var c := RemoveTags(ns[0], tags);
        RemoveTagsClean(ns[0], tags);
        assert RemoveTagsOf(ns, tags) == [c] + rest;
        assert ([c] + rest)[0] == c && ([c] + rest)[1..] == rest;
        var d := DescendantsOf([c] + rest);
        if c.Element? {
          assert d == ([c] + Descendants(c)) + DescendantsOf(rest);
        } else {
          assert d == [] + DescendantsOf(rest);
        }
      }
    }
  }

  lemma NoneTaggedAppend(a: seq<Node>, b: seq<Node>, tags: set<string>)
    ensures NoneTagged(a + b, tags) <==> NoneTagged(a, tags) && NoneTagged(b, tags)
  {
    if NoneTagged(a + b, tags) {
      forall i | 0 <= i < |a|
        ensures !HasTagIn(a[i], tags)
      {
        assert (a + b)[i] == a[i];
      }
      forall i | 0 <= i < |b|
        ensures !HasTagIn(b[i], tags)
      {
        assert (a + b)[|a| + i] == b[i];
      }
    }
  }

  /** A forest holds no element of `tags` exactly when its first tree does not,
      root included, and the rest of the forest does not either. */
  lemma DescendantsOfCons(ns: seq<Node>, tags: set<string>)
    requires ns != []
    ensures NoneTagged(DescendantsOf(ns), tags) <==>
      !HasTagIn(ns[0], tags) && NoneTagged(Descendants(ns[0]), tags) && NoneTagged(DescendantsOf(ns[1..]), tags)
  {
    var head := if ns[0].Element? then [ns[0]] + Descendants(ns[0]) else [];
    NoneTaggedAppend(head, DescendantsOf(ns[1..]), tags);
    if ns[0].Element? {
      NoneTaggedAppend([ns[0]], Descendants(ns[0]), tags);
    }
  }

  /** Removing elements never brings in an element of other tags. */
  lemma {:induction false} RemoveTagsKeepsUntagged(n: Node, removed: set<string>, tags: set<string>)
    requires NoneTagged(Descendants(n), tags)
    ensures NoneTagged(Descendants(RemoveTags(n, removed)), tags)
    decreases n, 1
  {
    if n.Element? {
      RemoveTagsOfKeepsUntagged(n.children, removed, tags);
    }
  }

  lemma {:induction false} RemoveTagsOfKeepsUntagged(ns: seq<Node>, removed: set<string>, tags: set<string>)
    requires NoneTagged(DescendantsOf(ns), tags)
    ensures NoneTagged(DescendantsOf(RemoveTagsOf(ns, removed)), tags)
    decreases ns, 0
  {
    if ns != [] {
      DescendantsOfCons(ns, tags);
      RemoveTagsOfKeepsUntagged(ns[1..], removed, tags);
      var rest := RemoveTagsOf(ns[1..], removed);
      if HasTagIn(ns[0], removed) {
        assert RemoveTagsOf(ns, removed) == [] + rest;
        assert [] + rest == rest;
      } else {
        var c := RemoveTags(ns[0], removed);
        RemoveTagsKeepsUntagged(ns[0], removed, tags);
        var r := [c] + rest;
        assert RemoveTagsOf(ns, removed) == r;
        assert r[0] == c && r[1..] == rest;
        DescendantsOfCons(r, tags);
      }
    }
  }
}

=== FILE: domain_crawler.dfy ===
/** The domain-level audit (backend/crawler/domain_crawler.py, class
    DomainAuditOrchestrator): every discovered URL is audited, in batches, and the
    per-page results are averaged into one domain score. URL discovery and the page
    audit itself are inputs. */
module DomainCrawler {
  import opened Wrappers
  import opened Numbers
  import opened Sorting
  import opened Calculator

  /** One entry of `page_results`: an audit result, or the record of an audit that raised. */
  datatype PageResult =
    | Audited(url: string, overallScore: real, grade: string, breakdown: seq<BucketEntry>)
    | Errored(url: string, error: string)

  /** `r['overall_score']`; the record of a failed audit carries 0. */
  function ScoreOf(r: PageResult): real
  {
    if r.Audited? then r.overallScore else 0.0
  }

  /** `r.get('breakdown', {})`. */
  function BreakdownOf(r: PageResult): seq<BucketEntry>
  {
    if r.Audited? then r.breakdown else []
  }

  /** The page audit, as a function of the URL; a failure carries the exception text. */
  type Audit = string -> Result<PageResult>

  function ResultFor(url: string, audit: Audit): PageResult
  {
    match audit(url)
    case Success(r) => r
    case Failure(e) => Errored(url, e)
  }

  /** `page_results` for the discovered `urls`: one entry per URL, in URL order. */
  function PageResults(urls: seq<string>, audit: Audit): (r: seq<PageResult>)
    ensures |r| == |urls|
    ensures forall k :: 0 <= k < |urls| ==> r[k] == ResultFor(urls[k], audit)
  {
    if urls == [] then [] else PageResults(urls[..|urls| - 1], audit) + [ResultFor(urls[|urls| - 1], audit)]
  }

  /** A failed audit is recorded under its own URL with score 0. */
  lemma FailedPagesRecorded(urls: seq<string>, audit: Audit, k: nat)
    requires k < |urls| && audit(urls[k]).Failure?
    ensures PageResults(urls, audit)[k] == Errored(urls[k], audit(urls[k]).error)
    ensures ScoreOf(PageResults(urls, audit)[k]) == 0.0
  {
  }

  /** The audit loop of `audit_domain`: batches of `maxConcurrent` URLs, each batch's
      results appended in URL order. */
  method AuditPages(urls: seq<string>, audit: Audit, maxConcurrent: nat) returns (results: seq<PageResult>)
    requires maxConcurrent > 0
    ensures results == PageResults(urls, audit)
  {
    results := [];
    var i := 0;
    while i < |urls|
      invariant 0 <= i <= |urls|
      invariant results == PageResults(urls[..i], audit)
      decreases |urls| - i
    {
      var end := if i + maxConcurrent < |urls| then i + maxConcurrent else |urls|;
      var batch := urls[i..end];
      for j := 0 to |batch|
        invariant results == PageResults(urls[..i + j], audit)
      {
        assert urls[..i + j + 1][..i + j] == urls[..i + j];
        results := results + [ResultFor(batch[j], audit)];
      }
      i := end;
    }
    assert urls[..|urls|] == urls;
  }

  /** A domain-level category: the mean of the valid pages' scores in that category. */
  datatype CategoryAverage = CategoryAverage(name: string, score: real, max: real, percentage: real)

  /** What `_aggregate_results` (and `audit_domain` for an empty discovery) returns. */
  datatype DomainResult =
    | NoUrls(domain: string)
    | NoValidPages(domain: string, pagesAudited: nat)
    | Aggregated(domain: string, overallScore: real, grade: string, pagesAudited: nat,
                 pagesSuccessful: nat, breakdown: seq<CategoryAverage>, pageResults: seq<PageResult>,
                 bestPage: PageResult, worstPage: PageResult)

  /** The valid results: those with a positive overall score. */
  predicate IsValid(r: PageResult) { ScoreOf(r) > 0.0 }

  /** The domain grade: six bands, coarser than the page grade. */
  function DomainGrade(avg: real): (g: string)
    ensures g in ["A+", "A", "B+", "B", "C", "F"]
    ensures g == "F" <==> avg < 50.0
    ensures g == "A+" <==> avg >= 90.0
  {
    if avg >= 90.0 then "A+"
    else if avg >= 80.0 then "A"
    else if avg >= 70.0 then "B+"
    else if avg >= 60.0 then "B"
    else if avg >= 50.0 then "C"
    else "F"
  }

  function DomainGradeRank(g: string): nat
  {
    if g == "A+" then 5 else if g == "A" then 4 else if g == "B+" then 3
    else if g == "B" then 2 else if g == "C" then 1 else 0
  }

  /** A higher average never gets a lower domain grade. */
  lemma DomainGradeMonotone(a: real, b: real)
    requires a <= b
    ensures DomainGradeRank(DomainGrade(a)) <= DomainGradeRank(DomainGrade(b))
  {
  }

  /** The two grading functions disagree: an average of 82 is an "A" for a domain but an "A-"
      for a page. */
  lemma GradersDiffer()
    ensures DomainGrade(82.0) == "A" && Grade(82.0) == "A-"
  {
  }

  /** `max(rs, key=overall_score)`: the first result with the highest score. */
  function BestIndex(rs: seq<PageResult>): (i: nat)
    requires rs != []
    ensures i < |rs|
    ensures forall k :: 0 <= k < |rs| ==> ScoreOf(rs[k]) <= ScoreOf(rs[i])
    ensures forall k :: 0 <= k < i ==> ScoreOf(rs[k]) < ScoreOf(rs[i])
  {
    if |rs| == 1 then 0
    else
      var j := BestIndex(rs[..|rs| - 1]);
      if ScoreOf(rs[|rs| - 1]) > ScoreOf(rs[j]) then |rs| - 1 else j
  }

  /** `min(rs, key=overall_score)`: the first result with the lowest score. */
  function WorstIndex(rs: seq<PageResult>): (i: nat)
    requires rs != []
    ensures i < |rs|
    ensures forall k :: 0 <= k < |rs| ==> ScoreOf(rs[i]) <= ScoreOf(rs[k])
    ensures forall k :: 0 <= k < i ==> ScoreOf(rs[i]) < ScoreOf(rs[k])
  {
    if |rs| == 1 then 0
    else
      var j := WorstIndex(rs[..|rs| - 1]);
      if ScoreOf(rs[|rs| - 1]) < ScoreOf(rs[j]) then |rs| - 1 else j
  }

  function Scores(rs: seq<PageResult>): (r: seq<real>)
    ensures |r| == |rs| && forall k :: 0 <= k < |rs| ==> r[k] == ScoreOf(rs[k])
  {
    if rs == [] then [] else Scores(rs[..|rs| - 1]) + [ScoreOf(rs[|rs| - 1])]
  }

  /** `breakdown[category]`: the entry named `name`, if any. */
  function Lookup(b: seq<BucketEntry>, name: string): (r: Option<BucketEntry>)
    ensures r.Some? ==> r.value in b && r.value.name == name
    ensures r.None? ==> forall k :: 0 <= k < |b| ==> b[k].name != name
  {
    FindKey(b, (e: BucketEntry) => e.name, name)
  }

  /** The scores of `name` over the results whose breakdown has it, in order. */
  function CategoryScores(rs: seq<PageResult>, name: string): (r: seq<real>)
    ensures |r| <= |rs|
  {
    if rs == [] then []
    else
      var last := Lookup(BreakdownOf(rs[|rs| - 1]), name);
      CategoryScores(rs[..|rs| - 1], name) + (if last.Some? then [last.value.score] else [])
  }

  /** A result whose breakdown has the category contributes to its scores. */
  lemma {:induction false} CategoryScoresNonEmpty(rs: seq<PageResult>, name: string, k: nat)
    requires k < |rs| && Lookup(BreakdownOf(rs[k]), name).Some?
    ensures CategoryScores(rs, name) != []
  {
    if k < |rs| - 1 {
      CategoryScoresNonEmpty(rs[..|rs| - 1], name, k);
    }
  }

  /** The breakdown over the categories of `cats` (the first valid result's), each the
      mean over the valid results that have it; a zero maximum raises. */
  function Averages(cats: seq<BucketEntry>, valid: seq<PageResult>): (r: Result<seq<CategoryAverage>>)
    requires valid != [] && forall c :: c in cats ==> Lookup(BreakdownOf(valid[0]), c.name).Some?
    ensures r.Success? ==> |r.value| == |cats|
    ensures r.Success? ==> forall k :: 0 <= k < |cats| ==> r.value[k].name == cats[k].name && r.value[k].max == cats[k].max
    ensures r.Success? ==> forall k :: 0 <= k < |cats| ==>
      CategoryScores(valid, cats[k].name) != [] &&
      r.value[k].score == RoundTenth(Mean(CategoryScores(valid, cats[k].name)))
    ensures r.Failure? <==> exists c :: c in cats && c.max == 0.0
  {
    if cats == [] then Success([])
    else
      var c := cats[|cats| - 1];
      var front :- Averages(cats[..|cats| - 1], valid);
      var scores := CategoryScores(valid, c.name);
      assert scores != [] by {
        CategoryScoresNonEmpty(valid, c.name, 0);
      }
      if scores == [] then Success(front)
      else if c.max == 0.0 then Failure("ZeroDivisionError")
      else
        var mean := Mean(scores);
        Success(front + [CategoryAverage(c.name, RoundTenth(mean), c.max, RoundTenth(mean / c.max * 100.0))])
  }

  /** Every category of the first valid result is found in that result. */
  lemma {:induction false} LookupFindsOwn(b: seq<BucketEntry>)
    ensures forall c :: c in b ==> Lookup(b, c.name).Some?
  {
    if b != [] {
      LookupFindsOwn(b[1..]);
    }
  }

  /** `_aggregate_results`. */
  function AggregateResults(domain: string, results: seq<PageResult>): (r: Result<DomainResult>)
    ensures r.Success? ==> !r.value.NoUrls?
    ensures r.Success? && r.value.Aggregated? ==>
      r.value.pagesAudited == |results| && r.value.pagesSuccessful == |Filter(results, IsValid)| &&
      r.value.pagesSuccessful <= r.value.pagesAudited && r.value.pageResults == Filter(results, IsValid)
    ensures Filter(results, IsValid) == [] <==> r == Success(NoValidPages(domain, |results|))
  {
    var valid := Filter(results, IsValid);
    if valid == [] then Success(NoValidPages(domain, |results|))
    else
      var avg := Mean(Scores(valid));
      LookupFindsOwn(BreakdownOf(valid[0]));
      var breakdown :- Averages(BreakdownOf(valid[0]), valid);
      Success(Aggregated(domain, RoundTenth(avg), DomainGrade(avg), |results|, |valid|, breakdown, valid,
                         valid[BestIndex(valid)], valid[WorstIndex(valid)]))
  }

  /** The domain score is the rounded mean of the valid pages' scores, and it lies
      between the (rounded) worst and best page scores. */
  lemma AggregateBounds(domain: string, results: seq<PageResult>)
    requires AggregateResults(domain, results).Success?
    requires AggregateResults(domain, results).value.Aggregated?
    ensures var a := AggregateResults(domain, results).value;
      a.overallScore == RoundTenth(Mean(Scores(Filter(results, IsValid)))) &&
      RoundTenth(ScoreOf(a.worstPage)) <= a.overallScore <= RoundTenth(ScoreOf(a.bestPage)) &&
      a.worstPage in results && a.bestPage in results && ScoreOf(a.worstPage) > 0.0
  {
    var valid := Filter(results, IsValid);
    var s := Scores(valid);
    var lo := ScoreOf(valid[WorstIndex(valid)]);
    var hi := ScoreOf(valid[BestIndex(valid)]);
    MeanBounds(s, lo, hi);
    RoundTenthMonotone(lo, Mean(s));
    RoundTenthMonotone(Mean(s), hi);
  }

  /** `audit_domain`: no URL gives the empty-discovery result, otherwise every URL is
      audited and the results aggregated. */
  function DomainAudit(domain: string, urls: seq<string>, audit: Audit): (r: Result<DomainResult>)
    ensures urls == [] <==> r == Success(NoUrls(domain))
    ensures r.Success? && r.value.Aggregated? ==> r.value.pagesAudited == |urls|
    ensures r.Success? && r.value.NoValidPages? ==> r.value.pagesAudited == |urls|
  {
    if urls == [] then Success(NoUrls(domain)) else AggregateResults(domain, PageResults(urls, audit))
  }

  /** `audit_domain`, with the batch loop. */
  method AuditDomain(domain: string, urls: seq<string>, audit: Audit, maxConcurrent: nat)
    returns (r: Result<DomainResult>)
    requires maxConcurrent > 0
    ensures r == DomainAudit(domain, urls, audit)
  {
    if urls == [] {
      return Success(NoUrls(domain));
    }
    var results := AuditPages(urls, audit, maxConcurrent);
    r := AggregateResults(domain, results);
  }
}

=== FILE: geo_scorer.dfy ===
/** The site-level GEO (generative engine optimisation) score of
    backend/scoring/geo_scorer.py: five components, with maxima 30, 25, 20, 15 and 10,
    whose scores add up to a score out of 100, a one-sentence summary and at most
    five recommended actions. */
module GeoScorer {
  import opened Wrappers
  import opened Strings
  import opened Numbers
  import opened Sorting
  import opened GeoTopics

  const BrandFoundationMax := 30
  const TopicCoverageMax := 25
  const ConsistencyMax := 20
  const AiRecallMax := 15
  const TrustMax := 10

  /** The evidence lines the components report, one constructor per message with the
      values the message interpolates. */
  datatype Evidence =
    | Reason(text: string)
    | CanonicalPage(url: string) | BrandDefinition(url: string) | NoCanonicalPage
    | OrgSchema(pages: nat) | NoOrgSchema
    | BrandMentions(mentioned: nat, total: nat)
    | KnowledgeFocused(pages: nat) | KnowledgeFew(pages: nat) | NoKnowledgePages
    | TopicsStrong(topics: nat) | TopicsGood(topics: nat) | TopicsModerate(topics: nat) | TopicsLimited(topics: nat)
    | DepthExcellent(topics: nat) | DepthGood(topics: nat) | DepthModerate(topics: nat) | DepthWeak
    | OrphanExperiential
    | MixBalanced | MixKnowledge | MixExperiential | MixLimited
    | SinglePage
    | BrandConsistencyExcellent(ratio: real) | BrandConsistencyGood(ratio: real) | BrandConsistencyWeak(ratio: real)
    | ToneConsistent | ToneVaried
    | NoOutliers | FewOutliers | ManyOutliers(outliers: nat)
    | ComparativeMany(pages: nat) | ComparativeSome(pages: nat) | NoComparative
    | DistinctBrand(name: string) | GenericBrand(name: string)
    | QaMany(pages: nat) | QaSome(pages: nat) | NoQa
    | Https | NoHttps | Localhost
    | AuthorsStrong(pages: nat, total: nat) | AuthorsPartial(pages: nat, total: nat) | AuthorsWeak(pages: nat, total: nat)
    | DatesMany(pages: nat, total: nat) | DatesSome(pages: nat, total: nat) | DatesMissing(pages: nat, total: nat)

  /** A component: its score (capped at its maximum), the maximum, the evidence. */
  datatype Component = Component(score: int, max: int, evidence: seq<Evidence>)

  /** A signal's points and its evidence. */
  datatype Signal = Signal(points: int, evidence: seq<Evidence>)

  /** `round(min(score, max_score), 1)` on whole points. */
  function Capped(score: int, max: int): (r: int)
    ensures r <= max && r <= score && (r == score || r == max)
  {
    if score < max then score else max
  }

  predicate IsKnowledge(p: GeoPage) { p.intent == Some("KNOWLEDGE") }
  predicate IsExperiential(p: GeoPage) { p.intent == Some("EXPERIENTIAL") }

  /** `brand_name.lower() in page['pageSummary'].lower()`. */
  predicate MentionsBrand(p: GeoPage, brand: string)
  {
    Contains(Lower(p.summary), Lower(brand))
  }

  function CountWhere(pages: seq<GeoPage>, p: GeoPage -> bool): (n: nat)
    ensures n <= |pages|
  {
    |Filter(pages, p)|
  }

  /** `count / len(pages) if pages else 0`. */
  function Ratio(count: nat, total: nat): real
  {
    if total == 0 then 0.0 else count as real / total as real
  }

  // ---------------------------------------------------------------------------
  // Brand name

  function StripWww(s: string): string
  {
    if StartsWith(s, "www.") then s[4..] else s
  }

  /** `re.sub(r'^https?://(www\.)?', '', url)`. */
  function StripScheme(url: string): string
  {
    if StartsWith(url, "https://") then StripWww(url[8..])
    else if StartsWith(url, "http://") then StripWww(url[7..])
    else url
  }

  /** `_extract_brand_name`: the first dot-separated label of the host, capitalised. */
  function BrandName(url: string): (r: string)
    ensures |r| == |Before(Before(StripScheme(url), '/'), '.')|
  {
    SplitHead(StripScheme(url), '/');
    SplitHead(Split(StripScheme(url), '/')[0], '.');
    Capitalize(Split(Split(StripScheme(url), '/')[0], '.')[0])
  }

  /** The brand name holds no '.' and no '/'. */
  lemma BrandNameIsOneLabel(url: string)
    ensures '.' !in BrandName(url) && '/' !in BrandName(url)
  {
    var hostLabel := Split(Split(StripScheme(url), '/')[0], '.')[0];
    SplitHead(StripScheme(url), '/');
    SplitHead(Split(StripScheme(url), '/')[0], '.');
    BeforeSubset(Before(StripScheme(url), '/'), '.');
    assert '.' !in hostLabel && '/' !in hostLabel;
    var r := BrandName(url);
    assert r == Capitalize(hostLabel);
    forall i | 0 <= i < |r|
      ensures r[i] != '.' && r[i] != '/'
    {
      assert hostLabel[i] in hostLabel;
      if i > 0 {
        assert r[i] == r[1..][i - 1] == Lower(hostLabel[1..])[i - 1];
        assert hostLabel[1..][i - 1] == hostLabel[i];
      }
    }
  }

  lemma {:induction false} BeforeSubset(s: string, sep: char)
    ensures forall c :: c in Before(s, sep) ==> c in s
  {
    if s != [] && s[0] != sep {
      BeforeSubset(s[1..], sep);
    }
  }

  lemma StripSchemeOfHost(scheme: string, www: string, hostLabel: string, rest: string)
    requires scheme == "https://" || scheme == "http://"
    requires www == "www." || (www == "" && hostLabel != "www")
    requires '.' !in hostLabel
    ensures StripScheme(scheme + www + hostLabel + "." + rest) == hostLabel + "." + rest
  {
    var host := hostLabel + "." + rest;
    var url := scheme + (www + host);
    assert scheme + www + hostLabel + "." + rest == url;
    assert url[|scheme|..] == www + host;
    if scheme == "https://" {
      assert url[..8] == "https://";
    } else {
      assert url[4] == ':';
      assert url[..7] == "http://";
    }
    if www == "" {
      WwwPrefixLabel(hostLabel, rest);
    } else {
      assert (www + host)[..4] == "www.";
      assert (www + host)[4..] == host;
    }
  }

  /** A host whose first label is not "www" does not start with "www.". */
  lemma WwwPrefixLabel(hostLabel: string, rest: string)
    requires '.' !in hostLabel
    ensures StartsWith(hostLabel + "." + rest, "www.") ==> hostLabel == "www"
  {
    var host := hostLabel + "." + rest;
    assert host == hostLabel + ("." + rest);
    BeforeAppend(hostLabel, "." + rest, '.');
    assert Before("." + rest, '.') == [];
    if StartsWith(host, "www.") {
      assert host == "www" + ("." + host[4..]);
      BeforeAppend("www", "." + host[4..], '.');
      assert Before("." + host[4..], '.') == [];
    }
  }

  /** The scheme and a leading "www." are dropped and the first label of the host is
      kept: `https://www.example.com/blog` and `http://example.org` give "Example". */
  lemma BrandNameOfHost(scheme: string, www: string, hostLabel: string, rest: string)
    requires scheme == "https://" || scheme == "http://"
    requires www == "www." || (www == "" && hostLabel != "www")
    requires '.' !in hostLabel && '/' !in hostLabel
    ensures BrandName(scheme + www + hostLabel + "." + rest) == Capitalize(hostLabel)
  {
    var url := scheme + www + hostLabel + "." + rest;
    StripSchemeOfHost(scheme, www, hostLabel, rest);
    assert hostLabel + "." + rest == (hostLabel + ".") + rest;
    BeforeAppend(hostLabel + ".", rest, '/');
    assert hostLabel + "." + Before(rest, '/') == hostLabel + ("." + Before(rest, '/'));
    BeforeAppend(hostLabel, "." + Before(rest, '/'), '.');
    assert Before("." + Before(rest, '/'), '.') == [];
    SplitHead(StripScheme(url), '/');
    SplitHead(Split(StripScheme(url), '/')[0], '.');
  }

  // ---------------------------------------------------------------------------
  // Component 1: brand knowledge foundation (30)

  /** An about, who-we-are or what-is URL. */
  predicate CanonicalUrl(p: GeoPage)
  {
    var u := Lower(p.url);
    Contains(u, "/about") || Contains(u, "/who-we-are") || Contains(u, "/what-is")
  }

  /** A summary that names the brand and says what or who it is about. */
  predicate DefinesBrand(p: GeoPage, brand: string)
  {
    var s := Lower(p.summary);
    Contains(s, Lower(brand)) && (Contains(s, "about") || Contains(s, "what is"))
  }

  predicate Hit(p: GeoPage, brand: string)
  {
    CanonicalUrl(p) || DefinesBrand(p, brand)
  }

  /** The canonical-page signal: decided by the first page that is a hit. */
  function CanonicalSignal(pages: seq<GeoPage>, brand: string): (r: Signal)
    ensures r.points == 0 || r.points == 8 || r.points == 10
  {
    if pages == [] then Signal(0, [NoCanonicalPage])
    else if CanonicalUrl(pages[0]) then Signal(10, [CanonicalPage(pages[0].url)])
    else if DefinesBrand(pages[0], brand) then Signal(8, [BrandDefinition(pages[0].url)])
    else CanonicalSignal(pages[1..], brand)
  }

  /** The index of the first page that is a hit, if any. */
  function FirstHit(pages: seq<GeoPage>, brand: string): (r: Option<nat>)
    ensures r.Some? ==>
      (r.value < |pages| && Hit(pages[r.value], brand) && forall j :: 0 <= j < r.value ==> !Hit(pages[j], brand))
    ensures r.None? ==> forall i :: 0 <= i < |pages| ==> !Hit(pages[i], brand)
  {
    if pages == [] then None
    else if Hit(pages[0], brand) then Some(0)
    else
      match FirstHit(pages[1..], brand)
      case None => None
      case Some(i) => Some(i + 1)
  }

  /** The scan stops at the first hit: 10 points and that page's URL when it is an
      about page, 8 when it only defines the brand, 0 when no page is a hit. */
  lemma {:induction false} CanonicalSignalFirstHit(pages: seq<GeoPage>, brand: string)
    ensures FirstHit(pages, brand).None? ==> CanonicalSignal(pages, brand) == Signal(0, [NoCanonicalPage])
    ensures FirstHit(pages, brand).Some? ==>
      var p := pages[FirstHit(pages, brand).value];
      CanonicalSignal(pages, brand) ==
        if CanonicalUrl(p) then Signal(10, [CanonicalPage(p.url)]) else Signal(8, [BrandDefinition(p.url)])
  {
    if pages != [] && !Hit(pages[0], brand) {
      CanonicalSignalFirstHit(pages[1..], brand);
    }
  }

  /** Organization schema: four points per page carrying it, at most eight. */
  function OrgSignal(count: nat): (r: Signal)
    ensures count == 0 ==> r.points == 0
    ensures count > 0 ==> r.points == if 4 * count < 8 then 4 * count else 8
  {
    if count > 0 then Signal(if 4 * count < 8 then 4 * count else 8, [OrgSchema(count)])
    else Signal(0, [NoOrgSchema])
  }

  /** `int(mention_ratio * 7)`: the brand-mention share of seven points, rounded down. */
  function MentionSignal(mentioned: nat, total: nat): (r: Signal)
    requires mentioned <= total
    ensures 0 <= r.points <= 7
    ensures total > 0 ==> r.points == Trunc(Ratio(mentioned, total) * 7.0)
  {
    MentionPointsBound(mentioned, total);
    Signal(if total == 0 then 0 else Trunc(Ratio(mentioned, total) * 7.0), [BrandMentions(mentioned, total)])
  }

  lemma MentionPointsBound(mentioned: nat, total: nat)
    requires mentioned <= total
    ensures total > 0 ==> 0 <= Trunc(Ratio(mentioned, total) * 7.0) <= 7
  {
    if total > 0 {
      var q := mentioned as real / total as real;
      assert q * total as real == mentioned as real;
      assert 0.0 <= q <= 1.0;
    }
  }

  /** Knowledge-intent pages: 5 points for five or more, 4 for three, 2 for one. */
  function KnowledgeSignal(count: nat): (r: Signal)
    ensures r.points == if count >= 5 then 5 else if count >= 3 then 4 else if count >= 1 then 2 else 0
  {
    if count >= 5 then Signal(5, [KnowledgeFocused(count)])
    else if count >= 3 then Signal(4, [KnowledgeFocused(count)])
    else if count >= 1 then Signal(2, [KnowledgeFew(count)])
    else Signal(0, [NoKnowledgePages])
  }

  function OrgCount(pages: seq<GeoPage>): nat { CountWhere(pages, (p: GeoPage) => p.hasOrgSchema) }
  function MentionCount(pages: seq<GeoPage>, brand: string): nat { CountWhere(pages, p => MentionsBrand(p, brand)) }
  function KnowledgeCount(pages: seq<GeoPage>): nat { CountWhere(pages, IsKnowledge) }

  /** Three signals added up into a component, capped at its maximum. */
  function Combine3(a: Signal, b: Signal, c: Signal, max: int): Component
  {
    Component(Capped(a.points + b.points + c.points, max), max, a.evidence + b.evidence + c.evidence)
  }

  /** Four signals added up into a component, capped at its maximum. */
  function Combine4(a: Signal, b: Signal, c: Signal, d: Signal, max: int): Component
  {
    Component(Capped(a.points + b.points + c.points + d.points, max), max,
              a.evidence + b.evidence + c.evidence + d.evidence)
  }

  /** `_score_brand_foundation`: the four signals never exceed the maximum together. */
  function BrandFoundation(pages: seq<GeoPage>, brand: string): (c: Component)
    ensures c.max == BrandFoundationMax && 0 <= c.score <= c.max
    ensures c.score == CanonicalSignal(pages, brand).points + OrgSignal(OrgCount(pages)).points +
      MentionSignal(MentionCount(pages, brand), |pages|).points + KnowledgeSignal(KnowledgeCount(pages)).points
  {
    Combine4(CanonicalSignal(pages, brand), OrgSignal(OrgCount(pages)),
             MentionSignal(MentionCount(pages, brand), |pages|), KnowledgeSignal(KnowledgeCount(pages)),
             BrandFoundationMax)
  }

  /** `_score_brand_foundation`, with the page scan that stops at the first hit. */
  method ScoreBrandFoundation(pages: seq<GeoPage>, brand: string) returns (c: Component)
    ensures c == BrandFoundation(pages, brand)
  {
    var canonical := Signal(0, [NoCanonicalPage]);
    var i := 0;
    while i < |pages|
      invariant 0 <= i <= |pages|
      invariant CanonicalSignal(pages[i..], brand) == CanonicalSignal(pages, brand)
    {
      var page := pages[i];
      assert pages[i..][1..] == pages[i + 1..];
      if CanonicalUrl(page) {
        canonical := Signal(10, [CanonicalPage(page.url)]);
        break;
      }
      if DefinesBrand(page, brand) {
        canonical := Signal(8, [BrandDefinition(page.url)]);
        break;
      }
      i := i + 1;
    }
    assert canonical == CanonicalSignal(pages, brand);
    c := BrandFoundation(pages, brand);
  }

  // ---------------------------------------------------------------------------
  // Component 2: topic ownership and coverage (25)

  /** Topic diversity: 10, 7, 4 or 2 points for 8, 5, 3 or fewer topics. */
  function DiversitySignal(topics: nat): (r: Signal)
    ensures r.points == if topics >= 8 then 10 else if topics >= 5 then 7 else if topics >= 3 then 4 else 2
  {
    if topics >= 8 then Signal(10, [TopicsStrong(topics)])
    else if topics >= 5 then Signal(7, [TopicsGood(topics)])
    else if topics >= 3 then Signal(4, [TopicsModerate(topics)])
    else Signal(2, [TopicsLimited(topics)])
  }

  /** A page belongs to a topic's group when the topic occurs in its URL or summary. */
  predicate MentionsTopic(p: GeoPage, t: string)
  {
    Contains(Lower(p.url), t) || Contains(Lower(p.summary), t)
  }

  /** `len(topic_groups[t])`. */
  function GroupSize(pages: seq<GeoPage>, t: string): (n: nat)
    ensures n <= |pages|
  {
    if pages == [] then 0
    else GroupSize(pages[..|pages| - 1], t) + (if MentionsTopic(pages[|pages| - 1], t) then 1 else 0)
  }

  /** The topics reinforced by more than one page, in topic order. */
  function MultiTopics(pages: seq<GeoPage>, topics: seq<string>): (r: seq<string>)
    ensures forall t :: t in r ==> t in topics && GroupSize(pages, t) > 1
  {
    if topics == [] then []
    else
      var t := topics[|topics| - 1];
      MultiTopics(pages, topics[..|topics| - 1]) + (if GroupSize(pages, t) > 1 then [t] else [])
  }

  /** The pages of all those groups, counted per group. */
  function GroupTotal(pages: seq<GeoPage>, ts: seq<string>): nat
  {
    if ts == [] then 0 else GroupTotal(pages, ts[..|ts| - 1]) + GroupSize(pages, ts[|ts| - 1])
  }

  /** Hub-and-spoke depth before the orphan penalty. */
  function DepthBase(pages: seq<GeoPage>, topics: seq<string>): Signal
  {
    var multi := MultiTopics(pages, topics);
    if multi != [] then
      var avg := GroupTotal(pages, multi) as real / |multi| as real;
      if avg >= 3.0 then Signal(10, [DepthExcellent(|multi|)])
      else if avg >= 2.0 then Signal(7, [DepthGood(|multi|)])
      else Signal(4, [DepthModerate(|multi|)])
    else Signal(2, [DepthWeak])
  }

  lemma {:induction false} GroupTotalLower(pages: seq<GeoPage>, ts: seq<string>)
    requires forall t :: t in ts ==> GroupSize(pages, t) > 1
    ensures GroupTotal(pages, ts) >= 2 * |ts|
  {
    if ts != [] {
      GroupTotalLower(pages, ts[..|ts| - 1]);
      assert ts[|ts| - 1] in ts;
    }
  }

  /** Every reinforced group has at least two pages, so their mean size is at least two
      and the "moderate depth" branch (4 points) is never taken. */
  lemma ModerateDepthUnreachable(pages: seq<GeoPage>, topics: seq<string>)
    ensures DepthBase(pages, topics).points == 2 || DepthBase(pages, topics).points == 7 ||
            DepthBase(pages, topics).points == 10
  {
    var multi := MultiTopics(pages, topics);
    if multi != [] {
      GroupTotalLower(pages, multi);
      QuotientAtLeast(GroupTotal(pages, multi) as real, |multi| as real, 2.0);
    }
  }

  lemma QuotientAtLeast(a: real, n: real, k: real)
    requires n > 0.0 && a >= k * n
    ensures a / n >= k
  {
  }

  /** Experiential pages without a single knowledge page. */
  predicate Orphaned(pages: seq<GeoPage>)
  {
    CountWhere(pages, IsExperiential) > 0 && KnowledgeCount(pages) == 0
  }

  /** `_analyze_topic_depth`. */
  function TopicDepth(pages: seq<GeoPage>, topics: seq<string>): (r: Signal)
    ensures 0 <= r.points <= 10
  {
    var base := DepthBase(pages, topics);
    if Orphaned(pages) then Signal(if base.points - 2 < 0 then 0 else base.points - 2, base.evidence + [OrphanExperiential])
    else base
  }

  /** Orphaned experiential content costs exactly two points (the floor at zero never
      applies, as the depth is at least two), and nothing else changes the depth. */
  lemma TopicDepthPenalty(pages: seq<GeoPage>, topics: seq<string>)
    ensures Orphaned(pages) ==> TopicDepth(pages, topics).points == DepthBase(pages, topics).points - 2
    ensures !Orphaned(pages) ==> TopicDepth(pages, topics) == DepthBase(pages, topics)
    ensures TopicDepth(pages, topics).points in {0, 2, 5, 7, 8, 10}
  {
    ModerateDepthUnreachable(pages, topics);
  }

  /** One more page adds itself to the group of each topic it mentions. */
  lemma GroupSizeStep(pages: seq<GeoPage>, i: nat, t: string)
    requires i < |pages|
    ensures GroupSize(pages[..i + 1], t) == GroupSize(pages[..i], t) + (if MentionsTopic(pages[i], t) then 1 else 0)
  {
    assert pages[..i + 1][..i] == pages[..i];
  }

  /** The group sizes of all topics after the loop over the pages, one per topic. */
  method GroupSizes(pages: seq<GeoPage>, topics: seq<string>) returns (sizes: seq<nat>)
    ensures |sizes| == |topics| && forall j :: 0 <= j < |topics| ==> sizes[j] == GroupSize(pages, topics[j])
  {
    sizes := seq(|topics|, _ => 0);
    for i := 0 to |pages|
      invariant |sizes| == |topics| && forall j :: 0 <= j < |topics| ==> sizes[j] == GroupSize(pages[..i], topics[j])
    {
      var page := pages[i];
      var old_sizes := sizes;
      for k := 0 to |topics|
        invariant |sizes| == |topics|
        invariant forall j :: 0 <= j < k ==> sizes[j] == GroupSize(pages[..i + 1], topics[j])
        invariant forall j :: k <= j < |topics| ==> sizes[j] == old_sizes[j]
      {
        GroupSizeStep(pages, i, topics[k]);
        if MentionsTopic(page, topics[k]) {
          sizes := sizes[k := sizes[k] + 1];
        }
      }
    }
    assert pages[..|pages|] == pages;
  }

  /** `_analyze_topic_depth`: the grouping loop, the reinforced topics and the penalty. */
  method AnalyzeTopicDepth(pages: seq<GeoPage>, topics: seq<string>) returns (r: Signal)
    ensures r == TopicDepth(pages, topics)
  {
    var sizes := GroupSizes(pages, topics);
    var multi: seq<string> := [];
    var total := 0;
    for j := 0 to |topics|
      invariant multi == MultiTopics(pages, topics[..j]) && total == GroupTotal(pages, multi)
    {
      assert topics[..j + 1][..j] == topics[..j] && topics[..j + 1][j] == topics[j];
      if sizes[j] > 1 {
        var grown := multi + [topics[j]];
        assert grown[..|grown| - 1] == multi;
        multi := grown;
        total := total + sizes[j];
      }
    }
    assert topics[..|topics|] == topics;
    var base;
    if multi != [] {
      var avg := total as real / |multi| as real;
      if avg >= 3.0 {
        base := Signal(10, [DepthExcellent(|multi|)]);
      } else if avg >= 2.0 {
        base := Signal(7, [DepthGood(|multi|)]);
      } else {
        base := Signal(4, [DepthModerate(|multi|)]);
      }
    } else {
      base := Signal(2, [DepthWeak]);
    }
    if CountWhere(pages, IsExperiential) > 0 && KnowledgeCount(pages) == 0 {
      r := Signal(if base.points - 2 < 0 then 0 else base.points - 2, base.evidence + [OrphanExperiential]);
    } else {
      r := base;
    }
  }

  /** Intent mix: 5 points for knowledge and experiential pages, 3 for one of them, 1 otherwise. */
  function MixSignal(pages: seq<GeoPage>): (r: Signal)
    ensures r.points == if KnowledgeCount(pages) > 0 && CountWhere(pages, IsExperiential) > 0 then 5
                        else if KnowledgeCount(pages) > 0 || CountWhere(pages, IsExperiential) > 0 then 3
                        else 1
  {
    var k := KnowledgeCount(pages) > 0;
    var e := CountWhere(pages, IsExperiential) > 0;
    if k && e then Signal(5, [MixBalanced])
    else if k then Signal(3, [MixKnowledge])
    else if e then Signal(3, [MixExperiential])
    else Signal(1, [MixLimited])
  }

  /** `_score_topic_coverage` for the extracted topics. */
  function TopicCoverage(pages: seq<GeoPage>, topics: seq<string>): (c: Component)
    ensures c.max == TopicCoverageMax && 0 <= c.score <= c.max
    ensures c.score == DiversitySignal(|topics|).points + TopicDepth(pages, topics).points + MixSignal(pages).points
  {
    Combine3(DiversitySignal(|topics|), TopicDepth(pages, topics), MixSignal(pages), TopicCoverageMax)
  }

  // ---------------------------------------------------------------------------
  // Component 3: cross-page consistency (20)

  /** Brand consistency: 8, 5 or 2 points for a mention ratio of 0.8, 0.5 or less. */
  function BrandConsistencySignal(ratio: real): (r: Signal)
    ensures r.points == if ratio >= 0.8 then 8 else if ratio >= 0.5 then 5 else 2
  {
    if ratio >= 0.8 then Signal(8, [BrandConsistencyExcellent(ratio)])
    else if ratio >= 0.5 then Signal(5, [BrandConsistencyGood(ratio)])
    else Signal(2, [BrandConsistencyWeak(ratio)])
  }

  /** `page.get('pageIntent', 'UNKNOWN')`. */
  function IntentKey(p: GeoPage): string
  {
    if p.intent.Some? then p.intent.value else "UNKNOWN"
  }

  /** The keys of `intent_groups`. */
  function IntentKeys(pages: seq<GeoPage>): set<string>
  {
    if pages == [] then {} else IntentKeys(pages[..|pages| - 1]) + {IntentKey(pages[|pages| - 1])}
  }

  /** `intent_groups[key]`: the summary lengths of the pages with that intent, in page order. */
  function SummaryLengths(pages: seq<GeoPage>, key: string): seq<real>
  {
    if pages == [] then []
    else
      var p := pages[|pages| - 1];
      SummaryLengths(pages[..|pages| - 1], key) + (if IntentKey(p) == key then [|p.summary| as real] else [])
  }

  lemma {:induction false} SummaryLengthsNonEmpty(pages: seq<GeoPage>, key: string)
    ensures key in IntentKeys(pages) <==> SummaryLengths(pages, key) != []
  {
    if pages != [] {
      SummaryLengthsNonEmpty(pages[..|pages| - 1], key);
    }
  }

  /** The population variance. */
  function Variance(ls: seq<real>): real
    requires ls != []
  {
    var avg := Mean(ls);
    SumBy(ls, l => (l - avg) * (l - avg)) / |ls| as real
  }

  /** `std_dev > avg_len * 0.5`: the lengths are non-negative, so their mean is too and
      the comparison of the square root with half the mean is that of the variance
      with a quarter of the squared mean. */
  predicate HighVariance(ls: seq<real>)
    requires ls != []
  {
    Variance(ls) > 0.25 * Mean(ls) * Mean(ls)
  }

  predicate Inconsistent(ls: seq<real>)
  {
    |ls| > 1 && HighVariance(ls)
  }

  /** No intent group of two or more pages varies too much in summary length. */
  predicate ToneConsistentFor(pages: seq<GeoPage>)
  {
    forall key :: key in IntentKeys(pages) ==> !Inconsistent(SummaryLengths(pages, key))
  }

  function ToneSignal(consistent: bool): (r: Signal)
    ensures r.points == if consistent then 7 else 4
  {
    if consistent then Signal(7, [ToneConsistent]) else Signal(4, [ToneVaried])
  }

  function AeoScores(pages: seq<GeoPage>): (r: seq<real>)
    ensures |r| == |pages| && forall i :: 0 <= i < |pages| ==> r[i] == pages[i].aeoScore
  {
    if pages == [] then [] else [pages[0].aeoScore] + AeoScores(pages[1..])
  }

  function Abs(x: real): real { if x < 0.0 then -x else x }

  /** The AEO scores more than 30 points from their mean. */
  function Outliers(scores: seq<real>): seq<real>
    requires scores != []
  {
    var avg := Mean(scores);
    Filter(scores, s => Abs(s - avg) > 30.0)
  }

  /** No outliers: 5 points; one: 3; more: 1. */
  function OutlierSignal(outliers: nat): (r: Signal)
    ensures r.points == if outliers == 0 then 5 else if outliers <= 1 then 3 else 1
  {
    if outliers == 0 then Signal(5, [NoOutliers])
    else if outliers <= 1 then Signal(3, [FewOutliers])
    else Signal(1, [ManyOutliers(outliers)])
  }

  /** `_score_consistency`. */
  function Consistency(pages: seq<GeoPage>, brand: string): (c: Component)
    ensures c.max == ConsistencyMax && 0 <= c.score <= c.max
    ensures |pages| < 2 ==> c.score == 10
    ensures |pages| >= 2 ==>
      (c.score == BrandConsistencySignal(Ratio(MentionCount(pages, brand), |pages|)).points +
                  ToneSignal(ToneConsistentFor(pages)).points + OutlierSignal(|Outliers(AeoScores(pages))|).points)
  {
    if |pages| < 2 then Component(10, ConsistencyMax, [SinglePage])
    else
      Combine3(BrandConsistencySignal(Ratio(MentionCount(pages, brand), |pages|)),
               ToneSignal(ToneConsistentFor(pages)), OutlierSignal(|Outliers(AeoScores(pages))|), ConsistencyMax)
  }

  /** The `intent_groups` dict after the loop over the pages. */
  predicate GroupsOf(groups: map<string, seq<real>>, pages: seq<GeoPage>)
  {
    groups.Keys == IntentKeys(pages) && forall key :: key in groups ==> groups[key] == SummaryLengths(pages, key)
  }

  /** The grouping loop of `_score_consistency`. */
  method GroupByIntent(pages: seq<GeoPage>) returns (groups: map<string, seq<real>>)
    ensures GroupsOf(groups, pages)
  {
    groups := map[];
    for i := 0 to |pages|
      invariant GroupsOf(groups, pages[..i])
    {
      var p := pages[i];
      var prefix := pages[..i + 1];
      assert prefix[..i] == pages[..i] && prefix[i] == p;
      var key := IntentKey(p);
      SummaryLengthsNonEmpty(pages[..i], key);
      var lengths := if key in groups then groups[key] else [];
      groups := groups[key := lengths + [|p.summary| as real]];
    }
    assert pages[..|pages|] == pages;
  }

  /** No group among `keys` varies too much. */
  predicate ConsistentOn(groups: map<string, seq<real>>, keys: set<string>)
  {
    forall key :: key in keys && key in groups ==> !Inconsistent(groups[key])
  }

  /** One group's check: two lengths or more, and a standard deviation above half the mean. */
  method VariesTooMuch(lengths: seq<real>) returns (bad: bool)
    ensures bad == Inconsistent(lengths)
  {
    bad := false;
    if |lengths| > 1 {
      var avg := Mean(lengths);
      var variance := Variance(lengths);
      if variance > 0.25 * avg * avg {
        bad := true;
      }
    }
  }

  lemma ConsistentOnAdd(groups: map<string, seq<real>>, done: set<string>, key: string)
    requires key in groups
    ensures ConsistentOn(groups, done + {key}) == (ConsistentOn(groups, done) && !Inconsistent(groups[key]))
  {
  }

  lemma ConsistentOnGroups(groups: map<string, seq<real>>, pages: seq<GeoPage>)
    requires GroupsOf(groups, pages)
    ensures ConsistentOn(groups, groups.Keys) == ToneConsistentFor(pages)
  {
  }

  /** The tone check of `_score_consistency`, group by group in whatever order the dict
      yields them. */
  method CheckTone(pages: seq<GeoPage>) returns (consistent: bool)
    ensures consistent == ToneConsistentFor(pages)
  {
    var groups := GroupByIntent(pages);
    ConsistentOnGroups(groups, pages);
    consistent := true;
    var done: set<string> := {};
    var todo := groups.Keys;
    while todo != {}
      invariant todo + done == groups.Keys
      invariant consistent == ConsistentOn(groups, done)
      decreases |todo|
    {
      var key :| key in todo;
      var bad := VariesTooMuch(groups[key]);
      if bad {
        consistent := false;
      }
      ConsistentOnAdd(groups, done, key);
      done := done + {key};
      todo := todo - {key};
    }
  }

  /** `_score_consistency`: a single page gets 10; otherwise the three signals. */
  method ScoreConsistency(pages: seq<GeoPage>, brand: string) returns (c: Component)
    ensures c == Consistency(pages, brand)
  {
    if |pages| < 2 {
      return Component(10, ConsistencyMax, [SinglePage]);
    }
    var tone := CheckTone(pages);
    c := Combine3(BrandConsistencySignal(Ratio(MentionCount(pages, brand), |pages|)),
                  ToneSignal(tone), OutlierSignal(|Outliers(AeoScores(pages))|), ConsistencyMax);
  }

  // ---------------------------------------------------------------------------
  // Component 4: AI recall signals (15)

  const ComparativeWords: seq<string> := ["compare", "vs", "versus", "best", "top", "list", "guide"]

  predicate Comparative(p: GeoPage)
  {
    exists w :: w in ComparativeWords && Contains(Lower(p.summary), w)
  }

  /** The URLs of the comparative pages, in page order. */
  function ComparativeUrls(pages: seq<GeoPage>): (r: seq<string>)
    ensures |r| == CountWhere(pages, Comparative)
  {
    if pages == [] then []
    else
      assert pages == [pages[0]] + pages[1..];
      (if Comparative(pages[0]) then [pages[0].url] else []) + ComparativeUrls(pages[1..])
  }

  /** Comparative content: 6 points for three pages or more, 3 for one. */
  function ComparativeSignal(count: nat): (r: Signal)
    ensures r.points == if count >= 3 then 6 else if count >= 1 then 3 else 0
  {
    if count >= 3 then Signal(6, [ComparativeMany(count)])
    else if count >= 1 then Signal(3, [ComparativeSome(count)])
    else Signal(0, [NoComparative])
  }

  const GenericWords: set<string> := {"company", "business", "services", "solutions", "group", "corp", "inc"}

  /** A brand name that is not a generic word: 5 points, 2 otherwise. */
  function DistinctSignal(brand: string): (r: Signal)
    ensures r.points == if Lower(brand) in GenericWords then 2 else 5
  {
    if Lower(brand) !in GenericWords then Signal(5, [DistinctBrand(brand)]) else Signal(2, [GenericBrand(brand)])
  }

  predicate AnswersQuestions(p: GeoPage)
  {
    IsKnowledge(p) && p.aeoScore > 50.0
  }

  /** Knowledge pages scoring above 50: 4 points for three or more, 2 for one. */
  function QaSignal(count: nat): (r: Signal)
    ensures r.points == if count >= 3 then 4 else if count >= 1 then 2 else 0
  {
    if count >= 3 then Signal(4, [QaMany(count)])
    else if count >= 1 then Signal(2, [QaSome(count)])
    else Signal(0, [NoQa])
  }

  /** `_score_ai_recall`. */
  function AiRecall(pages: seq<GeoPage>, brand: string): (c: Component)
    ensures c.max == AiRecallMax && 0 <= c.score <= c.max
    ensures c.score == ComparativeSignal(CountWhere(pages, Comparative)).points + DistinctSignal(brand).points +
      QaSignal(CountWhere(pages, AnswersQuestions)).points
  {
    Combine3(ComparativeSignal(|ComparativeUrls(pages)|), DistinctSignal(brand),
             QaSignal(CountWhere(pages, AnswersQuestions)), AiRecallMax)
  }

  /** `_score_ai_recall`, with the loop that collects the comparative pages. */
  method ScoreAiRecall(pages: seq<GeoPage>, brand: string) returns (c: Component)
    ensures c == AiRecall(pages, brand)
  {
    var comparative: seq<string> := [];
    for i := 0 to |pages|
      invariant comparative + ComparativeUrls(pages[i..]) == ComparativeUrls(pages)
    {
      assert pages[i..] == [pages[i]] + pages[i + 1..];
      if Comparative(pages[i]) {
        comparative := comparative + [pages[i].url];
      }
    }
    c := Combine3(ComparativeSignal(|comparative|), DistinctSignal(brand),
                  QaSignal(CountWhere(pages, AnswersQuestions)), AiRecallMax);
  }

  // ---------------------------------------------------------------------------
  // Component 5: contextual trust signals (10)

  /** HTTPS: 3 points for an https site, and for any localhost URL. */
  function HttpsSignal(siteUrl: string): (r: Signal)
    ensures r.points == if Contains(siteUrl, "localhost") || StartsWith(siteUrl, "https://") then 3 else 0
  {
    if !Contains(siteUrl, "localhost") then
      if StartsWith(siteUrl, "https://") then Signal(3, [Https]) else Signal(0, [NoHttps])
    else Signal(3, [Localhost])
  }

  /** Authorship: 4 points when half the pages name an author, 2 from a fifth. */
  function AuthorSignal(count: nat, total: nat): (r: Signal)
    ensures r.points == if Ratio(count, total) >= 0.5 then 4 else if Ratio(count, total) >= 0.2 then 2 else 0
  {
    var ratio := Ratio(count, total);
    if ratio >= 0.5 then Signal(4, [AuthorsStrong(count, total)])
    else if ratio >= 0.2 then Signal(2, [AuthorsPartial(count, total)])
    else Signal(0, [AuthorsWeak(count, total)])
  }

  /** Dates: 3 points when half the pages are dated, 2 from a fifth. */
  function DateSignal(count: nat, total: nat): (r: Signal)
    ensures r.points == if Ratio(count, total) >= 0.5 then 3 else if Ratio(count, total) >= 0.2 then 2 else 0
  {
    var ratio := Ratio(count, total);
    if ratio >= 0.5 then Signal(3, [DatesMany(count, total)])
    else if ratio >= 0.2 then Signal(2, [DatesSome(count, total)])
    else Signal(0, [DatesMissing(count, total)])
  }

  /** `_score_trust`. */
  function Trust(pages: seq<GeoPage>, siteUrl: string): (c: Component)
    ensures c.max == TrustMax && 0 <= c.score <= c.max
    ensures c.score == HttpsSignal(siteUrl).points + AuthorSignal(CountWhere(pages, (p: GeoPage) => p.hasAuthor), |pages|).points +
      DateSignal(CountWhere(pages, (p: GeoPage) => p.hasDates), |pages|).points
  {
    Combine3(HttpsSignal(siteUrl), AuthorSignal(CountWhere(pages, (p: GeoPage) => p.hasAuthor), |pages|),
             DateSignal(CountWhere(pages, (p: GeoPage) => p.hasDates), |pages|), TrustMax)
  }

  // ---------------------------------------------------------------------------
  // Summary, recommendations and the whole score

  datatype Components = Components(brandFoundation: Component, topicCoverage: Component, consistency: Component,
                                   aiRecall: Component, trust: Component)
  {
    /** The components in the dict's order. */
    function AsList(): seq<Component>
    {
      [brandFoundation, topicCoverage, consistency, aiRecall, trust]
    }

    /** Every maximum is the scorer's constant for that component. */
    predicate WellFormed()
    {
      brandFoundation.max == BrandFoundationMax && topicCoverage.max == TopicCoverageMax &&
      consistency.max == ConsistencyMax && aiRecall.max == AiRecallMax && trust.max == TrustMax
    }

    function Total(): int
    {
      brandFoundation.score + topicCoverage.score + consistency.score + aiRecall.score + trust.score
    }
  }

  /** The component names with '_' shown as ' ', in the dict's order. */
  const ComponentLabels: seq<string> := ["brand foundation", "topic coverage", "consistency", "ai recall", "trust"]

  function Percent(c: Component): real
    requires c.max != 0
  {
    c.score as real / c.max as real * 100.0
  }

  /** The labels of the components whose share passes `p`, in order. */
  function LabelsWhere(cs: seq<Component>, labels: seq<string>, p: real -> bool): (r: seq<string>)
    requires |cs| == |labels| && forall i :: 0 <= i < |cs| ==> cs[i].max != 0
    ensures forall l :: l in r ==> l in labels
  {
    if cs == [] then []
    else (if p(Percent(cs[0])) then [labels[0]] else []) + LabelsWhere(cs[1..], labels[1..], p)
  }

  function Intents(pages: seq<GeoPage>): (r: seq<Option<string>>)
    ensures |r| == |pages| && forall i :: 0 <= i < |pages| ==> r[i] == pages[i].intent
  {
    if pages == [] then [] else [pages[0].intent] + Intents(pages[1..])
  }

  /** `Counter(intents).most_common(1)[0][0]`: the most frequent intent, the first seen
      among equals (an absent intent counts as a value of its own). */
  function PrimaryIntent(pages: seq<GeoPage>): Option<string>
    requires pages != []
  {
    var intents := Intents(pages);
    assert intents[0] in intents;
    SortDesc(Dedup(intents), x => multiset(intents)[x] as real)[0]
  }

  /** The primary intent is one of the pages' intents and no intent is more frequent;
      among equally frequent intents it is the first in page order. */
  lemma PrimaryIntentMostCommon(pages: seq<GeoPage>)
    requires pages != []
    ensures PrimaryIntent(pages) in Intents(pages)
    ensures forall x :: x in Intents(pages) ==>
      multiset(Intents(pages))[x] <= multiset(Intents(pages))[PrimaryIntent(pages)]
    ensures forall i ::
      (0 <= i < |pages| &&
       multiset(Intents(pages))[Intents(pages)[i]] == multiset(Intents(pages))[PrimaryIntent(pages)]) ==>
      PrimaryIntent(pages) in Intents(pages)[..i + 1]
  {
    PrimaryIntentCounts(pages);
    forall i | 0 <= i < |pages| &&
      multiset(Intents(pages))[Intents(pages)[i]] == multiset(Intents(pages))[PrimaryIntent(pages)]
      ensures PrimaryIntent(pages) in Intents(pages)[..i + 1]
    {
      PrimaryIntentFirst(pages, i);
    }
  }

  /** `most_common` ranks equal counts in first-seen order, so an intent as frequent as
      the primary one never occurs before it. */
  lemma PrimaryIntentFirst(pages: seq<GeoPage>, i: nat)
    requires i < |pages|
    requires multiset(Intents(pages))[Intents(pages)[i]] == multiset(Intents(pages))[PrimaryIntent(pages)]
    ensures PrimaryIntent(pages) in Intents(pages)[..i + 1]
  {
    var intents := Intents(pages);
    var key := x => multiset(intents)[x] as real;
    var d := Dedup(intents);
    var sorted := SortDesc(d, key);
    assert intents[0] in intents;
    var v := key(sorted[0]);
    var tied := KeyIs(key, v);
    assert Filter(sorted, tied)[0] == sorted[0];
    SortDescStable(d, key, v);
    DedupFilterFirst(intents, tied, i);
  }

  /** The first two facts of `PrimaryIntentMostCommon`. */
  lemma PrimaryIntentCounts(pages: seq<GeoPage>)
    requires pages != []
    ensures PrimaryIntent(pages) in Intents(pages)
    ensures forall x :: x in Intents(pages) ==>
      multiset(Intents(pages))[x] <= multiset(Intents(pages))[PrimaryIntent(pages)]
  {
    var intents := Intents(pages);
    var key := x => multiset(intents)[x] as real;
    var d := Dedup(intents);
    var sorted := SortDesc(d, key);
    assert intents[0] in intents;
    SortDescSorted(d, key);
    assert sorted[0] in multiset(d);
    forall x | x in intents
      ensures multiset(intents)[x] <= multiset(intents)[sorted[0]]
    {
      assert x in multiset(sorted);
      var k :| 0 <= k < |sorted| && sorted[k] == x;
      if k > 0 {
        assert key(sorted[0]) >= key(sorted[k]);
      }
    }
  }

  function ToneWord(total: int): string
  {
    if total >= 70 then "excellent" else if total >= 50 then "strong" else if total >= 30 then "moderate" else "limited"
  }

  /** The clauses of the summary: readiness, the primary intent, up to two strengths
      and up to two weaknesses. */
  function SummaryParts(pages: seq<GeoPage>, cs: Components, brand: string): (r: seq<string>)
    requires pages != [] && cs.WellFormed()
    ensures r != [] && r[0] == brand + " shows " + ToneWord(cs.Total()) + " GEO readiness"
  {
    var primary := PrimaryIntent(pages);
    var strengths := LabelsWhere(cs.AsList(), ComponentLabels, pct => pct >= 70.0);
    var weaknesses := LabelsWhere(cs.AsList(), ComponentLabels, pct => pct < 40.0);
    [brand + " shows " + ToneWord(cs.Total()) + " GEO readiness"] +
      (if primary == Some("EXPERIENTIAL") then ["with a focus on experiential content"]
       else if primary == Some("KNOWLEDGE") then ["with strong knowledge-focused content"] else []) +
      (if strengths != [] then ["particularly in " + Join(", ", Take(strengths, 2))] else []) +
      (if weaknesses != [] then ["but would benefit from improvements in " + Join(", ", Take(weaknesses, 2))] else [])
  }

  /** `_generate_summary`. */
  function Summary(pages: seq<GeoPage>, cs: Components, brand: string): string
    requires pages != [] && cs.WellFormed()
  {
    Join(". ", SummaryParts(pages, cs, brand)) + "."
  }

  lemma {:induction false} JoinStartsWith(sep: string, parts: seq<string>)
    requires parts != []
    ensures StartsWith(Join(sep, parts), parts[0])
  {
    if |parts| > 1 {
      assert Join(sep, parts) == parts[0] + (sep + Join(sep, parts[1..]));
    }
  }

  /** The summary opens with the brand and the readiness word for the total, and is one
      sentence-terminated string. */
  lemma SummaryShape(pages: seq<GeoPage>, cs: Components, brand: string)
    requires pages != [] && cs.WellFormed()
    ensures StartsWith(Summary(pages, cs, brand), brand + " shows " + ToneWord(cs.Total()) + " GEO readiness")
    ensures Summary(pages, cs, brand)[|Summary(pages, cs, brand)| - 1] == '.'
  {
    var parts := SummaryParts(pages, cs, brand);
    JoinStartsWith(". ", parts);
    var j := Join(". ", parts);
    assert (j + ".")[..|parts[0]|] == j[..|parts[0]|];
  }

  /** A component below 60% of its maximum. */
  predicate Weak(c: Component)
    requires c.max != 0
  {
    Percent(c) < 60.0
  }

  const Actions: seq<string> := [
    "Create a canonical 'About' or brand definition page",
    "Add Organization schema markup across key pages",
    "Expand topic coverage with knowledge-style hub pages",
    "Create content clusters (hub + spoke) for key topics",
    "Improve brand name consistency across pages",
    "Standardize content quality and tone",
    "Add comparative/list-style content (e.g., 'Best X for Y')",
    "Create Q&A-focused pages for common queries",
    "Add author information to content pages",
    "Include publication/update dates on all pages"]

  /** The two actions of each weak component, in component order. */
  function AllActions(cs: Components): (r: seq<string>)
    requires cs.WellFormed()
  {
    (if Weak(cs.brandFoundation) then Actions[0..2] else []) +
    (if Weak(cs.topicCoverage) then Actions[2..4] else []) +
    (if Weak(cs.consistency) then Actions[4..6] else []) +
    (if Weak(cs.aiRecall) then Actions[6..8] else []) +
    (if Weak(cs.trust) then Actions[8..10] else [])
  }

  /** `_generate_recommendations`: the first five of those actions. */
  function Recommendations(cs: Components): (r: seq<string>)
    requires cs.WellFormed()
  {
    Take(AllActions(cs), 5)
  }

  /** At most five actions, each a listed one; none exactly when every component is at
      60% of its maximum or more; a weak brand foundation always comes first. */
  lemma RecommendationsFacts(cs: Components)
    requires cs.WellFormed()
    ensures |Recommendations(cs)| <= 5
    ensures forall a :: a in Recommendations(cs) ==> a in Actions
    ensures Recommendations(cs) == [] <==>
      !(Weak(cs.brandFoundation) || Weak(cs.topicCoverage) || Weak(cs.consistency) || Weak(cs.aiRecall) || Weak(cs.trust))
    ensures Weak(cs.brandFoundation) ==> Recommendations(cs)[..2] == Actions[0..2]
  {
    var all := AllActions(cs);
    forall a | a in Recommendations(cs)
      ensures a in Actions
    {
      assert a in all;
    }
  }

  /** The site data: its URL and pages. */
  datatype GeoSite = GeoSite(siteUrl: string, pages: seq<GeoPage>)

  datatype GeoResult = GeoResult(geoScore: int, components: Components, summary: string,
                                 actions: seq<string>, brandName: string, pagesAnalyzed: nat)

  /** `_empty_score`. */
  function EmptyScore(reason: string): GeoResult
  {
    GeoResult(0, Components(Component(0, BrandFoundationMax, [Reason(reason)]),
                            Component(0, TopicCoverageMax, [Reason(reason)]),
                            Component(0, ConsistencyMax, [Reason(reason)]),
                            Component(0, AiRecallMax, [Reason(reason)]),
                            Component(0, TrustMax, [Reason(reason)])),
              reason, ["Provide page data to calculate GEO score"], "Unknown", 0)
  }

  /** Every component score lies between zero and its maximum. */
  predicate Bounded(cs: Components)
  {
    0 <= cs.brandFoundation.score <= cs.brandFoundation.max && 0 <= cs.topicCoverage.score <= cs.topicCoverage.max &&
    0 <= cs.consistency.score <= cs.consistency.max && 0 <= cs.aiRecall.score <= cs.aiRecall.max &&
    0 <= cs.trust.score <= cs.trust.max
  }

  predicate AllZero(cs: Components)
  {
    cs.brandFoundation.score == 0 && cs.topicCoverage.score == 0 && cs.consistency.score == 0 &&
    cs.aiRecall.score == 0 && cs.trust.score == 0
  }

  /** The five components of a site with pages. */
  function ScoredComponents(pages: seq<GeoPage>, brand: string, topics: seq<string>, siteUrl: string): (cs: Components)
    ensures cs.WellFormed() && Bounded(cs) && 0 <= cs.Total() <= 100
  {
    Components(BrandFoundation(pages, brand), TopicCoverage(pages, topics),
               Consistency(pages, brand), AiRecall(pages, brand), Trust(pages, siteUrl))
  }

  /** `calculate_geo_score`, the set order of the topic extraction given: no pages give
      the empty score; otherwise the total of the five components, each within its
      maximum, so at most 100. */
  function GeoScoreOf(site: GeoSite, order: SetOrder): (r: GeoResult)
    ensures r.components.WellFormed() && Bounded(r.components)
    ensures site.pages == [] ==>
      (r.geoScore == 0 && r.pagesAnalyzed == 0 && r.brandName == "Unknown" && AllZero(r.components))
    ensures site.pages != [] ==> r.pagesAnalyzed == |site.pages| && r.brandName == BrandName(site.siteUrl)
    ensures r.geoScore == r.components.Total() && 0 <= r.geoScore <= 100
    ensures |r.actions| <= 5
  {
    var pages := site.pages;
    if pages == [] then EmptyScore("No pages provided")
    else
      var brand := BrandName(site.siteUrl);
      var cs := ScoredComponents(pages, brand, Topics(pages, order), site.siteUrl);
      GeoResult(cs.Total(), cs, Summary(pages, cs, brand), Recommendations(cs), brand, |pages|)
  }

  /** `GEOScorer.calculate_geo_score`. */
  method CalculateGeoScore(site: GeoSite, order: SetOrder) returns (r: GeoResult)
    ensures r == GeoScoreOf(site, order)
  {
    var pages := site.pages;
    if pages == [] {
      return EmptyScore("No pages provided");
    }
    var brand := BrandName(site.siteUrl);
    var brandFoundation := ScoreBrandFoundation(pages, brand);
    var topics := ExtractTopics(pages, order);
    var depth := AnalyzeTopicDepth(pages, topics);
    var topicCoverage := Combine3(DiversitySignal(|topics|), depth, MixSignal(pages), TopicCoverageMax);
    var consistency := ScoreConsistency(pages, brand);
    var aiRecall := ScoreAiRecall(pages, brand);
    var trust := Trust(pages, site.siteUrl);
    var cs := Components(brandFoundation, topicCoverage, consistency, aiRecall, trust);
    assert cs == ScoredComponents(pages, brand, topics, site.siteUrl);
    r := GeoResult(cs.Total(), cs, Summary(pages, cs, brand), Recommendations(cs), brand, |pages|);
  }
}

=== FILE: geo_topics.dfy ===
/** Topic extraction of the site-level GEO scorer (backend/scoring/geo_scorer.py,
    `_extract_topics`): keywords drawn from the URL path segments and the summaries
    of a site's pages, collected into a set of which at most fifteen are kept. */
module GeoTopics {
  import opened Wrappers
  import opened Strings
  import opened Sorting

  /** One page of the site data. Absent keys take the defaults of the scorer's `.get`
      calls: summary "", AEO score 0, no intent, no authority signals. The raw HTML
      is never read by the scorer and is not part of the record. */
  datatype GeoPage = GeoPage(url: string, aeoScore: real, intent: Option<string>, summary: string,
                             hasAuthor: bool, hasOrgSchema: bool, hasDates: bool)

  /** A path segment kept as a topic: longer than three characters, not a scheme or `www`. */
  predicate IsTopicSegment(s: string)
  {
    |s| > 3 && s != "http:" && s != "https:" && s != "www"
  }

  /** The first five topic segments of the lower-cased URL split on '/'. */
  function UrlTopics(url: string): (r: seq<string>)
    ensures |r| <= 5
    ensures forall t :: t in r ==> t in Split(Lower(url), '/') && IsTopicSegment(t)
  {
    var kept := Filter(Split(Lower(url), '/'), IsTopicSegment);
    assert forall t :: t in Take(kept, 5) ==> t in kept;
    Take(kept, 5)
  }

  /** The maximal runs of word characters (`\w`) of `s`; `cur` is the run in progress. */
  function WordRunsFrom(s: string, cur: string): seq<string>
    decreases |s|
  {
    if s == [] then (if cur == [] then [] else [cur])
    else if IsWordChar(s[0]) then WordRunsFrom(s[1..], cur + [s[0]])
    else (if cur == [] then [] else [cur]) + WordRunsFrom(s[1..], [])
  }

  /** A match of `\b[a-z]{4,}\b`: a whole word-character run made of at least four
      lower-case letters (a run of letters that touches a digit, an underscore or an
      upper-case letter has no word boundary where the match would need one). */
  predicate IsKeyword(w: string)
  {
    |w| >= 4 && forall i :: 0 <= i < |w| ==> IsAsciiLower(w[i])
  }

  const StopWords: set<string> := {"this", "that", "with", "from", "have", "been", "were",
    "said", "each", "which", "their", "about", "would", "there"}

  predicate Meaningful(w: string)
  {
    IsKeyword(w) && w !in StopWords
  }

  /** `re.findall(r'\b[a-z]{4,}\b', s)` less the stop words. */
  function MeaningfulWords(s: string): (r: seq<string>)
    ensures forall w :: w in r ==> Meaningful(w)
  {
    Filter(WordRunsFrom(s, []), Meaningful)
  }

  /** `Counter(words)[w]`, as the sort key of `most_common`. */
  function Occurrences(words: seq<string>): string -> real
  {
    w => multiset(words)[w] as real
  }

  /** `[w for w, c in Counter(words).most_common(10) if c > 1]`: the ten most frequent
      distinct words, ties in order of first occurrence, then those seen more than once. */
  function FrequentWords(words: seq<string>): (r: seq<string>)
    ensures forall w :: w in r ==> w in words
  {
    var ranked := SortDesc(Dedup(words), Occurrences(words));
    assert forall w :: w in Take(ranked, 10) ==> w in multiset(ranked);
    Filter(Take(ranked, 10), w => multiset(words)[w] > 1)
  }

  /** At most ten words, each repeated in the input; when there are at most ten distinct
      words, every repeated one is kept; a repeated word left out means ten were kept,
      each occurring at least as often as it. */
  lemma FrequentWordsFacts(words: seq<string>)
    ensures |FrequentWords(words)| <= 10
    ensures forall w :: w in FrequentWords(words) ==> w in words && multiset(words)[w] > 1
    ensures |Dedup(words)| <= 10 ==>
      forall w :: w in words && multiset(words)[w] > 1 ==> w in FrequentWords(words)
    ensures forall w :: w in words && multiset(words)[w] > 1 && w !in FrequentWords(words) ==>
      |FrequentWords(words)| == 10 &&
      forall v :: v in FrequentWords(words) ==> multiset(words)[w] <= multiset(words)[v]
  {
    FrequentWordsKeep(words);
    forall w | w in words && multiset(words)[w] > 1 && w !in FrequentWords(words)
      ensures |FrequentWords(words)| == 10 &&
        forall v :: v in FrequentWords(words) ==> multiset(words)[w] <= multiset(words)[v]
    {
      FrequentWordLeftOut(words, w);
    }
  }

  /** The `most_common(10)` cut: a repeated word that is not kept ranks below ten words
      that occur at least as often, so all ten pass the `c > 1` filter. */
  lemma FrequentWordLeftOut(words: seq<string>, w: string)
    requires w in words && multiset(words)[w] > 1 && w !in FrequentWords(words)
    ensures |FrequentWords(words)| == 10
    ensures forall v :: v in FrequentWords(words) ==> multiset(words)[w] <= multiset(words)[v]
  {
    var order := Dedup(words);
    var key := Occurrences(words);
    var ranked := SortDesc(order, key);
    var top := Take(ranked, 10);
    var p := (u: string) => multiset(words)[u] > 1;
    assert FrequentWords(words) == Filter(top, p);
    SortDescTop(order, key, 10, w);
    SortDescSorted(order, key);
    if w in ranked[..if 10 < |order| then 10 else |order|] {
      assert top == ranked[..if 10 < |order| then 10 else |order|];
      FilterKeeps(top, p, w);
      assert false;
    }
    assert top == ranked[..10];
    forall i | 0 <= i < |top|
      ensures p(top[i]) && key(top[i]) >= key(w)
    {
      assert key(ranked[i]) >= key(ranked[9]);
    }
    FilterAll(top, p);
    forall v | v in FrequentWords(words)
      ensures multiset(words)[w] <= multiset(words)[v]
    {
      var i :| 0 <= i < |top| && top[i] == v;
    }
  }

  /** The first three facts of `FrequentWordsFacts`. */
  lemma FrequentWordsKeep(words: seq<string>)
    ensures |FrequentWords(words)| <= 10
    ensures forall w :: w in FrequentWords(words) ==> w in words && multiset(words)[w] > 1
    ensures |Dedup(words)| <= 10 ==>
      forall w :: w in words && multiset(words)[w] > 1 ==> w in FrequentWords(words)
  {
    var ranked := SortDesc(Dedup(words), Occurrences(words));
    var top := Take(ranked, 10);
    var p := (w: string) => multiset(words)[w] > 1;
    forall w | w in FrequentWords(words)
      ensures w in words && multiset(words)[w] > 1
    {
      assert w in top;
      assert w in multiset(ranked);
    }
    if |Dedup(words)| <= 10 {
      assert top == ranked;
      forall w | w in words && multiset(words)[w] > 1
        ensures w in FrequentWords(words)
      {
        assert w in multiset(Dedup(words));
        assert w in ranked;
        FilterKeeps(top, p, w);
      }
    }
  }

  /** The topics one page contributes: its URL segments, then its frequent summary words. */
  function PageTopics(p: GeoPage): (r: seq<string>)
    ensures forall t :: t in r ==> |t| > 3
  {
    UrlTopics(p.url) + FrequentWords(MeaningfulWords(Lower(p.summary)))
  }

  /** The members of a list, as a set. */
  function Members(xs: seq<string>): (r: set<string>)
    ensures forall x :: x in r <==> x in xs
  {
    set x | x in xs
  }

  lemma MembersAppend(a: seq<string>, b: seq<string>)
    ensures Members(a + b) == Members(a) + Members(b)
  {
  }

  /** The `topics` set after the loop over the pages. */
  function TopicSet(pages: seq<GeoPage>): (r: set<string>)
    ensures forall t :: t in r ==> |t| > 3
  {
    if pages == [] then {}
    else TopicSet(pages[..|pages| - 1]) + Members(PageTopics(pages[|pages| - 1]))
  }

  /** The iteration order of a Python set, which the language leaves unspecified
      (string hashing is randomised per process); it is passed in. */
  type SetOrder = set<string> -> seq<string>

  /** `xs` lists the members of `s`, each once. */
  predicate ListsSet(xs: seq<string>, s: set<string>)
  {
    NoDuplicates(xs) && (forall x :: x in xs ==> x in s) && (forall x :: x in s ==> x in xs)
  }

  /** `list(topics)[:15]`. */
  function Topics(pages: seq<GeoPage>, order: SetOrder): seq<string>
  {
    Take(order(TopicSet(pages)), 15)
  }

  /** A list without duplicates has as many elements as the set of its members. */
  lemma {:induction false} DistinctCard(xs: seq<string>)
    requires NoDuplicates(xs)
    ensures |set x | x in xs| == |xs|
  {
    if xs != [] {
      var front := xs[..|xs| - 1];
      DistinctCard(front);
      assert (set x | x in xs) == (set x | x in front) + {xs[|xs| - 1]};
      assert xs[|xs| - 1] !in front;
    }
  }

  /** With a genuine set order: at most fifteen distinct topics, all from the set and
      longer than three characters, and the whole set when it has fifteen or fewer. */
  lemma TopicsFacts(pages: seq<GeoPage>, order: SetOrder)
    requires ListsSet(order(TopicSet(pages)), TopicSet(pages))
    ensures NoDuplicates(Topics(pages, order))
    ensures |Topics(pages, order)| == if |TopicSet(pages)| <= 15 then |TopicSet(pages)| else 15
    ensures forall t :: t in Topics(pages, order) ==> t in TopicSet(pages) && |t| > 3
    ensures |TopicSet(pages)| <= 15 ==> forall t :: t in TopicSet(pages) ==> t in Topics(pages, order)
  {
    var s := TopicSet(pages);
    var xs := order(s);
    DistinctCard(xs);
    assert (set x | x in xs) == s;
    var r := Topics(pages, order);
    forall t | t in r
      ensures t in s
    {
      assert t in xs;
    }
  }

  /** One more page adds its URL segments and its frequent words. */
  lemma TopicSetStep(pages: seq<GeoPage>, i: nat)
    requires i < |pages|
    ensures TopicSet(pages[..i + 1]) ==
      TopicSet(pages[..i]) + Members(UrlTopics(pages[i].url)) + Members(FrequentWords(MeaningfulWords(Lower(pages[i].summary))))
  {
    assert pages[..i + 1][..i] == pages[..i];
    MembersAppend(UrlTopics(pages[i].url), FrequentWords(MeaningfulWords(Lower(pages[i].summary))));
  }

  /** `_extract_topics`: the set is grown page by page, then listed and cut to fifteen. */
  method ExtractTopics(pages: seq<GeoPage>, order: SetOrder) returns (r: seq<string>)
    ensures r == Topics(pages, order)
  {
    var topics: set<string> := {};
    for i := 0 to |pages|
      invariant topics == TopicSet(pages[..i])
    {
      var page := pages[i];
      var segments := UrlTopics(page.url);
      var words := FrequentWords(MeaningfulWords(Lower(page.summary)));
      TopicSetStep(pages, i);
      topics := topics + Members(segments);
      topics := topics + Members(words);
    }
    assert pages[..|pages|] == pages;
    r := Take(order(topics), 15);
  }
}

=== FILE: hybrid_fetcher.dfy ===
/** The fetch strategy of backend/crawler/hybrid_fetcher.py: known JavaScript-heavy
    domains go to the browser, every other page is fetched over HTTP first and
    re-fetched with the browser when the HTML looks unusable. Both fetchers are
    oracles passed in as functions of the URL. */
module HybridFetch {
  import opened Wrappers
  import opened Strings

  /** What a fetcher returns (the fields of the fetchers' PageData this logic reads). */
  datatype FetchedPage = FetchedPage(url: string, html: string, statusCode: int, error: Option<string>)

  /** `if page_data.error`: a present, non-empty error message. */
  predicate Failed(p: FetchedPage)
  {
    p.error.Some? && p.error.value != ""
  }

  const JsHeavySites: set<string> := {
    "medium.com", "substack.com", "buzzfeed.com", "vox.com",
    "healthline.com", "webmd.com", "mayoclinic.org",
    "amazon.com", "etsy.com", "shopify.com",
    "blogger.com", "wordpress.com", "wix.com", "squarespace.com", "notion.so",
    "vercel.app", "netlify.app", "github.io"
  }

  /** The last two dot-separated labels of a domain, when it has at least two. */
  function ParentDomain(domain: string): Option<string>
  {
    var parts := Split(domain, '.');
    if |parts| >= 2 then Some(Join(".", parts[|parts| - 2..])) else None
  }

  /** `_requires_javascript`: the domain with every "www." removed, or its parent
      domain, is a known JavaScript-heavy site. */
  predicate RequiresJavascript(domain: string)
  {
    var d := RemoveAll(domain, "www.");
    d in JsHeavySites || (ParentDomain(d).Some? && ParentDomain(d).value in JsHeavySites)
  }

  lemma {:induction false} SplitFromAppend(a: string, b: string, sep: char, cur: string)
    ensures SplitFrom(a + [sep] + b, sep, cur) == SplitFrom(a, sep, cur) + SplitFrom(b, sep, [])
    decreases |a|
  {
    if a == [] {
      assert a + [sep] + b == [sep] + b;
      assert ([sep] + b)[1..] == b;
    } else if a[0] == sep {
      SplitFromAppend(a[1..], b, sep, []);
      assert (a + [sep] + b)[1..] == a[1..] + [sep] + b;
    } else {
      SplitFromAppend(a[1..], b, sep, cur + [a[0]]);
      assert (a + [sep] + b)[1..] == a[1..] + [sep] + b;
    }
  }

  /** Any subdomain of a listed two-label site (`blog.medium.com`, `www.vox.com`)
      is routed to the browser. */
  lemma SubdomainRequiresJavascript(domain: string, sub: string, site: string)
    requires site in JsHeavySites && |Split(site, '.')| == 2
    requires RemoveAll(domain, "www.") == sub + "." + site
    ensures RequiresJavascript(domain)
  {
    var d := sub + "." + site;
    SplitFromAppend(sub, site, '.', []);
    var parts := Split(d, '.');
    assert parts == Split(sub, '.') + Split(site, '.');
    assert parts[|parts| - 2..] == Split(site, '.');
    SplitJoin(site, '.');
  }

  /** The markers whose presence suggests a page that needs JavaScript to render. */
  const JsMarkers: seq<string> := ["noscript", "javascript is required", "please enable javascript",
    "this site requires javascript", "__next_data__", "window.__initial"]

  const EssentialTags: seq<string> := ["<p", "<h1", "<h2", "<article", "<main"]

  const SpaMarkers: seq<string> := ["loading...", "please wait", "initializing",
    "<div id=\"root\"></div>", "<div id=\"app\"></div>"]

  /** How many of `pats` occur in `s`. */
  function CountPresent(pats: seq<string>, s: string): (n: nat)
    ensures n <= |pats|
  {
    if pats == [] then 0
    else CountPresent(pats[..|pats| - 1], s) + (if Contains(s, pats[|pats| - 1]) then 1 else 0)
  }

  datatype Quality = Quality(score: int, reasons: seq<string>)

  predicate TooShort(html: string) { |html| < 1000 }
  predicate JsRequired(html: string) { CountPresent(JsMarkers, Lower(html)) >= 2 }
  predicate MissingStructure(html: string) { |EssentialTags| - CountPresent(EssentialTags, Lower(html)) >= 4 }
  predicate SpaLoading(html: string) { CountPresent(SpaMarkers, Lower(html)) >= 2 }

  predicate AnyPenalty(html: string)
  {
    TooShort(html) || JsRequired(html) || MissingStructure(html) || SpaLoading(html)
  }

  /** The reasons recorded for the penalties that fired, in check order. */
  function Penalties(html: string): (r: seq<string>)
    ensures |r| <= 4
    ensures "too_short" in r <==> TooShort(html)
    ensures "js_required" in r <==> JsRequired(html)
    ensures "missing_structure" in r <==> MissingStructure(html)
    ensures "spa_loading_screen" in r <==> SpaLoading(html)
    ensures r == [] <==> !AnyPenalty(html)
  {
    (if TooShort(html) then ["too_short"] else []) +
    (if JsRequired(html) then ["js_required"] else []) +
    (if MissingStructure(html) then ["missing_structure"] else []) +
    (if SpaLoading(html) then ["spa_loading_screen"] else [])
  }

  /** The score before the bonuses: 100 less each penalty. */
  function PenalisedScore(html: string): int
  {
    100 - (if TooShort(html) then 30 else 0) - (if JsRequired(html) then 40 else 0)
        - (if MissingStructure(html) then 30 else 0) - (if SpaLoading(html) then 20 else 0)
  }

  /** A bonus of ten, capped at 100. */
  function Bonus(score: int, applies: bool): (r: int)
    ensures score <= 100 ==> score <= r <= 100
  {
    if applies then (if score + 10 < 100 then score + 10 else 100) else score
  }

  /** What `_assess_content_quality` returns. */
  function QualityOf(page: FetchedPage): (q: Quality)
    ensures 0 <= q.score <= 100
    ensures Failed(page) ==> q == Quality(0, ["fetch_error"])
    ensures !Failed(page) ==> (q.reasons == ["good_quality"] <==> !AnyPenalty(page.html))
    ensures !Failed(page) ==> q.reasons == Penalties(page.html) || q.reasons == ["good_quality"]
    ensures !Failed(page) && !AnyPenalty(page.html) ==> q.score == 100
    ensures (!Failed(page) && TooShort(page.html) && JsRequired(page.html) &&
             MissingStructure(page.html) && SpaLoading(page.html)) ==> q.score == 0
  {
    if Failed(page) then Quality(0, ["fetch_error"])
    else
      var html := page.html;
      var s := Bonus(Bonus(PenalisedScore(html), |html| > 10000), CountOcc(html, "<p") > 10);
      var reasons := Penalties(html);
      Quality(if s < 0 then 0 else s, if reasons == [] then ["good_quality"] else reasons)
  }

  /** `_assess_content_quality`, check by check. */
  method AssessContentQuality(page: FetchedPage) returns (q: Quality)
    ensures q == QualityOf(page)
  {
    if Failed(page) {
      return Quality(0, ["fetch_error"]);
    }
    var html := page.html;
    var score := 100;
    var reasons: seq<string> := [];
    if TooShort(html) {
      score := score - 30;
      reasons := reasons + ["too_short"];
    }
    if JsRequired(html) {
      score := score - 40;
      reasons := reasons + ["js_required"];
    }
    if MissingStructure(html) {
      score := score - 30;
      reasons := reasons + ["missing_structure"];
    }
    if SpaLoading(html) {
      score := score - 20;
      reasons := reasons + ["spa_loading_screen"];
    }
    assert score == PenalisedScore(html);
    assert reasons == Penalties(html);
    score := Bonus(score, |html| > 10000);
    score := Bonus(score, CountOcc(html, "<p") > 10);
    q := Quality(if score < 0 then 0 else score, if reasons == [] then ["good_quality"] else reasons);
  }

  /** `fetch` is given the HTTP fetcher and the browser fetcher as functions. */
  type HttpFetch = string -> FetchedPage
  type BrowserFetch = (string, bool) -> FetchedPage

  /** The HTTP page is poor enough to try the browser. */
  predicate Poor(p: FetchedPage)
  {
    QualityOf(p).score < 30
  }

  /** Whether `fetch` calls the browser for `url`. */
  predicate UsesBrowser(url: string, netloc: string -> string, http: HttpFetch)
  {
    RequiresJavascript(netloc(url)) || Failed(http(url)) || Poor(http(url))
  }

  /** The page `fetch` returns. */
  function FetchOutcome(url: string, screenshot: bool, netloc: string -> string,
                        http: HttpFetch, browser: BrowserFetch): (r: FetchedPage)
    ensures r == http(url) || r == browser(url, screenshot)
    ensures RequiresJavascript(netloc(url)) ==> r == browser(url, screenshot)
    ensures !RequiresJavascript(netloc(url)) && !Failed(http(url)) ==>
      QualityOf(r).score >= QualityOf(http(url)).score
    ensures !UsesBrowser(url, netloc, http) ==> r == http(url)
  {
    if RequiresJavascript(netloc(url)) then browser(url, screenshot)
    else
      var h := http(url);
      if Failed(h) then browser(url, screenshot)
      else if QualityOf(h).score < 30 then
        var b := browser(url, screenshot);
        if QualityOf(b).score > QualityOf(h).score then b else h
      else h
  }

  /** When the HTTP page was poor, the browser page is returned exactly when it scores
      strictly higher. */
  lemma BrowserWinsOnlyWhenBetter(url: string, screenshot: bool, netloc: string -> string,
                                  http: HttpFetch, browser: BrowserFetch)
    requires !RequiresJavascript(netloc(url)) && !Failed(http(url)) && Poor(http(url))
    requires http(url) != browser(url, screenshot)
    ensures FetchOutcome(url, screenshot, netloc, http, browser) == browser(url, screenshot) <==>
      QualityOf(browser(url, screenshot)).score > QualityOf(http(url)).score
  {
  }

  /** `HybridFetcher`: the browser fetcher is created on first use only. */
  class HybridFetcher {
    /** `playwright_fetcher is not None`. */
    var browserStarted: bool
    /** How many browser fetchers this instance has created. */
    var browserStarts: nat
    var forcePlaywright: bool

    predicate Valid()
      reads this
    {
      browserStarts == if browserStarted then 1 else 0
    }

    constructor()
      ensures Valid() && !browserStarted && !forcePlaywright
    {
      browserStarted := false;
      browserStarts := 0;
      forcePlaywright := false;
    }

    /** `_fetch_with_playwright`. */
    method FetchWithBrowser(url: string, screenshot: bool, browser: BrowserFetch) returns (p: FetchedPage)
      requires Valid()
      modifies this
      ensures Valid() && browserStarted && browserStarts == 1
      ensures p == browser(url, screenshot)
      ensures forcePlaywright == old(forcePlaywright)
    {
      if !browserStarted {
        browserStarted := true;
        browserStarts := browserStarts + 1;
      }
      p := browser(url, screenshot);
    }

    /** `fetch`: the browser for known JavaScript-heavy domains, otherwise HTTP first
        and the better of the two when the HTTP page is poor. */
    method Fetch(url: string, screenshot: bool, netloc: string -> string, http: HttpFetch, browser: BrowserFetch)
      returns (p: FetchedPage)
      requires Valid()
      modifies this
      ensures Valid()
      ensures p == FetchOutcome(url, screenshot, netloc, http, browser)
      ensures browserStarted == (old(browserStarted) || UsesBrowser(url, netloc, http))
      ensures forcePlaywright == old(forcePlaywright)
    {
      var domain := netloc(url);
      if RequiresJavascript(domain) {
        p := FetchWithBrowser(url, screenshot, browser);
        return;
      }
      var h := http(url);
      if Failed(h) {
        p := FetchWithBrowser(url, screenshot, browser);
        return;
      }
      var quality := AssessContentQuality(h);
      if quality.score < 30 {
        var b := FetchWithBrowser(url, screenshot, browser);
        var browserQuality := AssessContentQuality(b);
        p := if browserQuality.score > quality.score then b else h;
        return;
      }
      p := h;
    }
  }
}

=== FILE: json.dfy ===
/** Parsed JSON values, as `json.loads` returns them, and Python's truthiness on them. */
module Json {

  /** A JSON value; an object is a map from keys to values. Key order is not kept
      here: where it matters, the parser that built the object supplies it. */
  datatype Json =
    | JNull
    | JBool(b: bool)
    | JNum(n: real)
    | JStr(s: string)
    | JArr(items: seq<Json>)
    | JObj(fields: map<string, Json>)

  /** `bool(v)` in Python: None, False, zero and empty containers are false. */
  predicate Truthy(v: Json)
  {
    match v
    case JNull => false
    case JBool(b) => b
    case JNum(n) => n != 0.0
    case JStr(s) => s != []
    case JArr(items) => items != []
    case JObj(fields) => fields != map[]
  }

  /** `d.get(key, default)`. */
  function Get(d: map<string, Json>, key: string, default: Json): (r: Json)
    ensures key in d ==> r == d[key]
    ensures key !in d ==> r == default
  {
    if key in d then d[key] else default
  }

  /** Python's `isinstance(v, (list, dict))`: the values that cannot be dictionary keys. */
  predicate Unhashable(v: Json)
  {
    v.JArr? || v.JObj?
  }
}

=== FILE: numbers.dfy ===
/** Python's numeric helpers used by the scorers, on exact reals: `round(x, 1)`
    (round half to even on the tenths digit), `int(x)` (truncation toward zero),
    sums and means. */
module Numbers {

  /** `x` is a whole number of tenths. */
  predicate IsTenth(x: real)
  {
    (x * 10.0).Floor as real == x * 10.0
  }

  /** `round(y)`: nearest integer, ties to the even neighbour. */
  function RoundHalfEven(y: real): (r: int)
    ensures y - 0.5 <= r as real <= y + 0.5
  {
    var f := y.Floor;
    var d := y - f as real;
    if d < 0.5 then f
    else if d > 0.5 then f + 1
    else if f % 2 == 0 then f
    else f + 1
  }

  /** `round(x, 1)`. */
  function RoundTenth(x: real): (r: real)
    ensures IsTenth(r)
    ensures x - 0.05 <= r <= x + 0.05
  {
    var k := RoundHalfEven(x * 10.0);
    assert (k as real / 10.0) * 10.0 == k as real;
    k as real / 10.0
  }

  lemma RoundHalfEvenOfInt(y: real)
    requires y.Floor as real == y
    ensures RoundHalfEven(y) as real == y
  {
  }

  /** Rounding a value that already has one decimal leaves it unchanged. */
  lemma RoundTenthOfTenth(x: real)
    requires IsTenth(x)
    ensures RoundTenth(x) == x
  {
    RoundHalfEvenOfInt(x * 10.0);
  }

  lemma RoundHalfEvenMonotone(a: real, b: real)
    requires a <= b
    ensures RoundHalfEven(a) <= RoundHalfEven(b)
  {
    var fa, fb := a.Floor, b.Floor;
    if fa < fb {
      assert RoundHalfEven(a) <= fa + 1 <= fb <= RoundHalfEven(b);
    }
  }

  /** `round(x, 1)` never reverses an order. */
  lemma RoundTenthMonotone(a: real, b: real)
    requires a <= b
    ensures RoundTenth(a) <= RoundTenth(b)
  {
    RoundHalfEvenMonotone(a * 10.0, b * 10.0);
  }

  lemma RoundHalfEvenNeg(y: real)
    ensures RoundHalfEven(-y) == -RoundHalfEven(y)
  {
    var f := y.Floor;
    var d := y - f as real;
    if d == 0.0 {
      assert (-y).Floor == -f;
    } else {
      assert (-y).Floor == -f - 1;
      assert -y - (-f - 1) as real == 1.0 - d;
    }
  }

  /** Rounding is symmetric about zero: `round(-x, 1) == -round(x, 1)`. */
  lemma RoundTenthNeg(x: real)
    ensures RoundTenth(-x) == -RoundTenth(x)
  {
    RoundHalfEvenNeg(x * 10.0);
    assert -x * 10.0 == -(x * 10.0);
  }

  /** Whole numbers are tenths. */
  lemma TenthOfInt(k: int)
    ensures IsTenth(k as real)
  {
    assert (k as real * 10.0) == (k * 10) as real;
  }

  /** A whole multiple of a tenth is a tenth. */
  lemma TenthMul(n: int, c: real)
    requires IsTenth(c)
    ensures IsTenth(n as real * c)
  {
    var kc := (c * 10.0).Floor;
    assert c * 10.0 == kc as real;
    assert (n as real * c) * 10.0 == n as real * (c * 10.0);
    assert n as real * kc as real == (n * kc) as real;
    assert (n as real * c) * 10.0 == (n * kc) as real;
    assert ((n * kc) as real).Floor == n * kc;
  }

  /** Tenths are closed under addition. */
  lemma TenthAdd(a: real, b: real)
    requires IsTenth(a) && IsTenth(b)
    ensures IsTenth(a + b)
  {
    var ka, kb := (a * 10.0).Floor, (b * 10.0).Floor;
    assert (a + b) * 10.0 == (ka + kb) as real;
  }

  /** `int(x)`: truncation toward zero. */
  function Trunc(x: real): (r: int)
    ensures x >= 0.0 ==> 0 <= r && r as real <= x < r as real + 1.0
    ensures x < 0.0 ==> r <= 0 && r as real - 1.0 < x <= r as real
  {
    if x >= 0.0 then x.Floor else -((-x).Floor)
  }

  function Min(a: real, b: real): (r: real)
    ensures r <= a && r <= b && (r == a || r == b)
  {
    if a <= b then a else b
  }

  function Max(a: real, b: real): (r: real)
    ensures r >= a && r >= b && (r == a || r == b)
  {
    if a >= b then a else b
  }

  /** `sum(f(x) for x in s)`. */
  function SumBy<T>(s: seq<T>, f: T -> real): real
  {
    if s == [] then 0.0 else SumBy(s[..|s| - 1], f) + f(s[|s| - 1])
  }

  function Sum(s: seq<real>): real
  {
    if s == [] then 0.0 else Sum(s[..|s| - 1]) + s[|s| - 1]
  }

  lemma {:induction false} SumBounds(s: seq<real>, lo: real, hi: real)
    requires forall i :: 0 <= i < |s| ==> lo <= s[i] <= hi
    ensures |s| as real * lo <= Sum(s) <= |s| as real * hi
  {
    if s != [] {
      SumBounds(s[..|s| - 1], lo, hi);
    }
  }

  /** `sum(s) / len(s)`. */
  function Mean(s: seq<real>): real
    requires s != []
  {
    Sum(s) / |s| as real
  }

  /** A mean lies between the smallest and largest bounds of its values. */
  lemma MeanBounds(s: seq<real>, lo: real, hi: real)
    requires s != []
    requires forall i :: 0 <= i < |s| ==> lo <= s[i] <= hi
    ensures lo <= Mean(s) <= hi
  {
    SumBounds(s, lo, hi);
    var n := |s| as real;
    assert n * lo <= Sum(s) <= n * hi;
    assert lo == (n * lo) / n && hi == (n * hi) / n;
  }
}

=== FILE: orchestrator.dfy ===
/** The extraction orchestrator (backend/crawler/orchestrator.py): it runs the parser
    and the extractors over one fetched page and assembles the page record, with
    the author, date and external-link helpers and the feature vector. The fetch
    itself, the HTML and JSON parsers, URL parsing and the clock are parameters. */
module Orchestrator {
  import opened Wrappers
  import opened Json
  import opened Strings
  import opened Dom
  import opened PageModel
  import opened Sorting
  import opened Schema
  import opened Semantic
  import opened Parser

  /** What the fetcher hands over: the parsed document, the status, the timings and
      the error message, if any. */
  datatype FetchResult = FetchResult(document: Node, statusCode: int, performance: Performance, error: Option<string>)

  /** A fetch error is reported by a non-empty error message. */
  predicate FetchFailed(f: FetchResult)
  {
    f.error.Some? && f.error.value != ""
  }

  /** `urlparse(url).netloc`. */
  type Netloc = string -> string

  /** The first position of `s` whose element satisfies `p`. */
  function FirstIndex<T>(s: seq<T>, p: T -> bool): (r: Option<nat>)
    ensures r.Some? ==> r.value < |s| && p(s[r.value]) && forall j :: 0 <= j < r.value ==> !p(s[j])
    ensures r.None? ==> forall j :: 0 <= j < |s| ==> !p(s[j])
  {
    if s == [] then None
    else if p(s[0]) then Some(0)
    else
      match FirstIndex(s[1..], p)
      case None => None
      case Some(i) => Some(i + 1)
  }

  const ArticleTypes: seq<Json> := [JStr("Article"), JStr("BlogPosting"), JStr("NewsArticle")]

  predicate IsArticle(b: Block)
  {
    Get(b, "@type", JNull) in ArticleTypes
  }

  predicate HasArticleAuthor(b: Block)
  {
    IsArticle(b) && Truthy(Get(b, "author", JNull))
  }

  /** The name carried by an author value: a dictionary's 'name', a string itself,
      None for anything else. */
  function AuthorName(a: Json): Json
  {
    if a.JObj? then Get(a.fields, "name", JNull)
    else if a.JStr? then a
    else JNull
  }

  predicate IsMetaAuthor(n: Node)
  {
    HasTagIn(n, {"meta"}) && Attr(n, "name") == Some("author")
  }

  /** The content of a meta element as JSON: None when it has no content attribute. */
  function ContentOf(n: Node): Json
  {
    match Attr(n, "content")
    case Some(c) => JStr(c)
    case None => JNull
  }

  /** What `_extract_author_info` returns. */
  function AuthorInfo(soup: Node, blocks: seq<Block>): (r: Author)
    ensures "jsonld" in r.sources <==> exists i :: 0 <= i < |blocks| && HasArticleAuthor(blocks[i])
    ensures r.found <==>
      (exists i :: 0 <= i < |blocks| && HasArticleAuthor(blocks[i])) ||
      (exists i :: 0 <= i < |Descendants(soup)| && IsMetaAuthor(Descendants(soup)[i]))
    ensures "meta" in r.sources ==> exists i :: 0 <= i < |Descendants(soup)| && IsMetaAuthor(Descendants(soup)[i])
    ensures |r.sources| <= 2
  {
    var fromLd := match FirstIndex(blocks, HasArticleAuthor)
      case None => Author(false, JNull, [])
      case Some(i) => Author(true, AuthorName(Get(blocks[i], "author", JNull)), ["jsonld"]);
    if Truthy(fromLd.name) then fromLd
    else
      match FirstIndex(Descendants(soup), IsMetaAuthor)
      case None => fromLd
      case Some(m) => Author(true, ContentOf(Descendants(soup)[m]), fromLd.sources + ["meta"])
  }

  /** `_extract_author_info`: the block loop stops at the first article block with an author. */
  method ExtractAuthorInfo(soup: Node, blocks: seq<Block>) returns (author: Author)
    ensures author == AuthorInfo(soup, blocks)
  {
    author := Author(false, JNull, []);
    var i := 0;
    while i < |blocks|
      invariant 0 <= i <= |blocks|
      invariant forall j :: 0 <= j < i ==> !HasArticleAuthor(blocks[j])
      invariant author == Author(false, JNull, [])
    {
      if IsArticle(blocks[i]) {
        var a := Get(blocks[i], "author", JNull);
        if Truthy(a) {
          author := Author(true, AuthorName(a), ["jsonld"]);
          break;
        }
      }
      i := i + 1;
    }
    if !Truthy(author.name) {
      var d := Descendants(soup);
      var meta := FirstIndex(d, IsMetaAuthor);
      if meta.Some? {
        author := Author(true, ContentOf(d[meta.value]), author.sources + ["meta"]);
      }
    }
  }

  /** What `_extract_dates` returns: the dates of the first article block only. */
  function DatesOf(blocks: seq<Block>): (r: Dates)
    ensures r.sources == [] || r.sources == ["jsonld"]
    ensures r.sources == ["jsonld"] <==>
      exists i :: 0 <= i < |blocks| && IsArticle(blocks[i]) && "datePublished" in blocks[i] &&
        forall j :: 0 <= j < i ==> !IsArticle(blocks[j])
    ensures (forall i :: 0 <= i < |blocks| ==> !IsArticle(blocks[i])) ==> r == Dates(JNull, JNull, [])
  {
    match FirstIndex(blocks, IsArticle)
    case None => Dates(JNull, JNull, [])
    case Some(i) =>
      var b := blocks[i];
      Dates(Get(b, "datePublished", JNull), Get(b, "dateModified", JNull),
            if "datePublished" in b then ["jsonld"] else [])
  }

  /** `_extract_dates`. */
  method ExtractDates(blocks: seq<Block>) returns (dates: Dates)
    ensures dates == DatesOf(blocks)
  {
    dates := Dates(JNull, JNull, []);
    var i := 0;
    while i < |blocks|
      invariant 0 <= i <= |blocks|
      invariant forall j :: 0 <= j < i ==> !IsArticle(blocks[j])
      invariant dates == Dates(JNull, JNull, [])
    {
      if IsArticle(blocks[i]) {
        var b := blocks[i];
        if "datePublished" in b {
          dates := dates.(published := b["datePublished"], sources := dates.sources + ["jsonld"]);
        }
        if "dateModified" in b {
          dates := dates.(modified := b["dateModified"]);
        }
        break;
      }
      i := i + 1;
    }
  }

  /** An `a` element with an href attribute. */
  predicate IsLink(n: Node)
  {
    HasTagIn(n, {"a"}) && Attr(n, "href").Some?
  }

  /** The hrefs among `ns` that start with "http" and point at a host other than `base`. */
  function LinkCandidates(ns: seq<Node>, base: string, netloc: Netloc): (r: seq<string>)
    ensures forall i :: 0 <= i < |r| ==> StartsWith(r[i], "http") && netloc(r[i]) != base
  {
    if ns == [] then []
    else
      var n := ns[|ns| - 1];
      LinkCandidates(ns[..|ns| - 1], base, netloc) +
        (if IsLink(n) && StartsWith(Attr(n, "href").value, "http") && netloc(Attr(n, "href").value) != base
         then [Attr(n, "href").value] else [])
  }

  /** What `_extract_external_links` returns, in first-occurrence order (the source
      takes them in a set's iteration order). */
  function ExternalLinksOf(soup: Node, url: string, netloc: Netloc): seq<string>
  {
    Take(Dedup(LinkCandidates(Descendants(soup), netloc(url), netloc)), 50)
  }

  /** `_extract_external_links`. */
  method ExtractExternalLinks(soup: Node, url: string, netloc: Netloc) returns (links: seq<string>)
    ensures links == ExternalLinksOf(soup, url, netloc)
    ensures |links| <= 50 && NoDuplicates(links)
    ensures forall i :: 0 <= i < |links| ==> StartsWith(links[i], "http") && netloc(links[i]) != netloc(url)
  {
    var base := netloc(url);
    var d := Descendants(soup);
    var found: seq<string> := [];
    for i := 0 to |d|
      invariant found == LinkCandidates(d[..i], base, netloc)
    {
      assert d[..i + 1][..i] == d[..i];
      if IsLink(d[i]) {
        var href := Attr(d[i], "href").value;
        if StartsWith(href, "http") && netloc(href) != base {
          found := found + [href];
        }
      }
    }
    assert d[..|d|] == d;
    var unique := Dedup(found);
    links := Take(unique, 50);
    forall i | 0 <= i < |links|
      ensures links[i] in found
    {
      assert links[i] == unique[i];
    }
  }

  /** With at most fifty distinct candidates, no external link is lost. */
  lemma ExternalLinksComplete(soup: Node, url: string, netloc: Netloc)
    requires |Dedup(LinkCandidates(Descendants(soup), netloc(url), netloc))| <= 50
    ensures forall h :: h in LinkCandidates(Descendants(soup), netloc(url), netloc) ==> h in ExternalLinksOf(soup, url, netloc)
  {
  }

  /** `_compute_features`. */
  function ComputeFeatures(patterns: seq<AnswerPattern>, questions: seq<Question>, blocks: seq<Block>,
                           author: Author, dates: Dates, links: seq<string>, topics: Topics,
                           headings: seq<Heading>, tables: seq<Table>, lists: seq<ListBlock>,
                           url: string, meta: map<string, Option<string>>): (f: Features)
    ensures f.hasTldr <==> exists i :: 0 <= i < |patterns| && patterns[i].kind == "tldr"
    ensures f.isHttps <==> StartsWith(url, "https://")
    ensures f.hasMetaDescription <==> "description" in meta && meta["description"].Some? && meta["description"].value != ""
    ensures f.hasPublishDate <==> Truthy(dates.published)
    ensures f.answerBlockCount == |patterns| && f.questionCount == |questions| && f.jsonldBlockCount == |blocks| &&
            f.externalLinkCount == |links| && f.headingCount == |headings| && f.tableCount == |tables| &&
            f.listCount == |lists| && f.wordCount == topics.totalWords && f.hasAuthor == author.found
  {
    Features(
      answerBlockCount := |patterns|,
      questionCount := |questions|,
      hasTldr := AnyWhere(patterns, (p: AnswerPattern) => p.kind == "tldr"),
      jsonldBlockCount := |blocks|,
      hasAuthor := author.found,
      hasPublishDate := Truthy(dates.published),
      externalLinkCount := |links|,
      wordCount := topics.totalWords,
      headingCount := |headings|,
      tableCount := |tables|,
      listCount := |lists|,
      isHttps := StartsWith(url, "https://"),
      hasMetaDescription := "description" in meta && meta["description"].Some? && meta["description"].value != "")
  }

  /** A JSON-LD script element. */
  predicate IsJsonLdScript(n: Node)
  {
    HasTagIn(n, {"script"}) && Attr(n, "type") == Some("application/ld+json")
  }

  /** The `.string` of every JSON-LD script among `ns`, in order. */
  function ScriptStrings(ns: seq<Node>): (r: seq<Option<string>>)
    ensures |r| <= |ns|
    ensures NoneTagged(ns, {"script"}) ==> r == []
  {
    if ns == [] then []
    else
      var n := ns[|ns| - 1];
      assert NoneTagged(ns, {"script"}) ==> NoneTagged(ns[..|ns| - 1], {"script"});
      ScriptStrings(ns[..|ns| - 1]) + (if IsJsonLdScript(n) then [StringOf(n)] else [])
  }

  /** The flattened items as blocks. A non-object item fails the extraction here; the
      later passes raise on it only when they reach it with `.get` (items containing
      "error" are skipped, and some passes stop at an earlier block). */
  function AsBlocks(items: seq<Json>): (r: Result<seq<Block>>)
    ensures r.Success? ==> |r.value| == |items| && forall i :: 0 <= i < |items| ==> items[i] == JObj(r.value[i])
  {
    if items == [] then Success([])
    else if !items[0].JObj? then Failure("AttributeError")
    else
      var rest :- AsBlocks(items[1..]);
      Success([items[0].fields] + rest)
  }

  /** The JSON-LD blocks found in `root`. */
  function JsonldOf(root: Node, parse: JsonParser): Result<seq<Block>>
  {
    var items :- ExtractWith(ScriptStrings(Descendants(root)), ItemsOf(parse));
    AsBlocks(items)
  }

  /** The document the extractors see: after `remove_noise` and `get_main_content`,
      together with the main text. */
  function ParsedPage(document: Node): (Node, string)
  {
    MainContent(RemoveTags(document, NoiseTags))
  }

  /** What `extract` produces for a fetched page. With `corrected` false this is the
      program as written: the schema extractor searches `ParsedPage(document).0` and
      question headings are matched by the anchored patterns. With `corrected` true
      the schema extractor searches the unparsed document and a question phrase may
      stand anywhere in a heading. */
  function ExtractFrom(url: string, fetched: FetchResult, parse: JsonParser, netloc: Netloc,
                       fetchedAt: string, corrected: bool): (r: Result<PageData>)
    ensures FetchFailed(fetched) ==> r.Failure?
    ensures r.Success? ==>
      var (soup, main) := ParsedPage(fetched.document);
      JsonldOf(if corrected then fetched.document else soup, parse) == Success(r.value.jsonld) &&
      r.value.questions == QuestionsSpec(soup, main, corrected) &&
      r.value.wordCount == |Words(main)| && r.value.isHttps == StartsWith(url, "https://") &&
      r.value.features.jsonldBlockCount == |r.value.jsonld|
  {
    if FetchFailed(fetched) then Failure("Failed to fetch page: " + fetched.error.value)
    else
      var (soup, main) := ParsedPage(fetched.document);
      var blocks :- JsonldOf(if corrected then fetched.document else soup, parse);
      var faq :- FaqSpec(blocks);
      var headings := HeadingsOf(soup);
      var lists := ListsOf(soup);
      var tables := TablesOf(soup);
      var questions := QuestionsSpec(soup, main, corrected);
      var patterns := AnswerPatternsSpec(soup);
      var topics := TopicsSpec(main);
      var meta := MetaTagsOf(soup);
      var author := AuthorInfo(soup, blocks);
      var dates := DatesOf(blocks);
      var links := ExternalLinksOf(soup, url, netloc);
      Success(PageData(
        url := url,
        fetchedAt := fetchedAt,
        statusCode := fetched.statusCode,
        title := TitleOf(soup),
        metaDescription := if "description" in meta && meta["description"].Some? then meta["description"].value else "",
        mainContent := main,
        wordCount := |Words(main)|,
        headings := headings,
        paragraphs := ParagraphsOf(soup),
        lists := lists,
        tables := tables,
        questions := questions,
        answerPatterns := patterns,
        keyTakeaways := KeyTakeawaysSpec(soup),
        topics := topics,
        jsonld := blocks,
        schemaTypes := Dedup(TypesOf(blocks)),
        faqSchema := faq,
        schemaValidation := ValidateAllSpec(blocks),
        author := author,
        dates := dates,
        externalLinks := links,
        performance := fetched.performance,
        isHttps := StartsWith(url, "https://"),
        features := ComputeFeatures(patterns, questions, blocks, author, dates, links, topics,
                                    headings, tables, lists, url, meta),
        microdataCount := 0,
        ogTags := map[],
        twitterCard := map[],
        aiCitationData := None))
  }

  /** The extraction as written never sees a JSON-LD block: the noise removal has
      already deleted every script element from the document the schema extractor
      searches. */
  lemma AsWrittenLosesJsonld(url: string, fetched: FetchResult, parse: JsonParser, netloc: Netloc, fetchedAt: string)
    requires ExtractFrom(url, fetched, parse, netloc, fetchedAt, false).Success?
    ensures ExtractFrom(url, fetched, parse, netloc, fetchedAt, false).value.jsonld == []
  {
    var soup0 := RemoveTags(fetched.document, NoiseTags);
    RemoveTagsClean(fetched.document, NoiseTags);
    NoneTaggedSubset(Descendants(soup0), NoiseTags, {"script"});
    MainContentKeepsUntagged(soup0, {"script"});
    var soup := ParsedPage(fetched.document).0;
    assert ScriptStrings(Descendants(soup)) == [];
  }

  lemma NoneTaggedSubset(ns: seq<Node>, tags: set<string>, fewer: set<string>)
    requires NoneTagged(ns, tags) && fewer <= tags
    ensures NoneTagged(ns, fewer)
  {
    forall i | 0 <= i < |ns|
      ensures !HasTagIn(ns[i], fewer)
    {
      assert !HasTagIn(ns[i], tags);
    }
  }

  lemma ArticleScript(parse: JsonParser)
    requires parse.loads("{}") == Some(JObj(map["@type" := JStr("Article")]))
    ensures ExtractWith([Some("{}")], ItemsOf(parse)) == Success([JObj(map["@type" := JStr("Article")])])
  {
    ParsedScript("{}", parse);
  }

  /** A page holding one JSON-LD script: its block reaches the corrected model but
      not the extraction as written. */
  lemma ScriptIsFound(parse: JsonParser)
    requires parse.loads("{}") == Some(JObj(map["@type" := JStr("Article")]))
    ensures var script := Element("script", map["type" := "application/ld+json"], [], [Text("{}")]);
      var doc := Element(DocumentTag, map[], [], [script]);
      JsonldOf(doc, parse) == Success([map["@type" := JStr("Article")]]) &&
      JsonldOf(ParsedPage(doc).0, parse) == Success([])
  {
    var script := Element("script", map["type" := "application/ld+json"], [], [Text("{}")]);
    var doc := Element(DocumentTag, map[], [], [script]);
    assert Descendants(script) == [] by {
      assert DescendantsOf([Text("{}")]) == [] + DescendantsOf([]);
    }
    assert Descendants(doc) == [script] by {
      assert DescendantsOf([script]) == ([script] + Descendants(script)) + DescendantsOf([]);
    }
    assert ScriptStrings([script]) == [Some("{}")] by {
      assert [script][..0] == [];
    }
    var m := map["@type" := JStr("Article")];
    ArticleScript(parse);
    assert AsBlocks([JObj(m)]) == Success([m]) by {
      assert [JObj(m)][1..] == [];
      assert AsBlocks([]) == Success([]);
      assert [JObj(m)][0].fields == m;
      assert [m] + [] == [m];
    }
    var soup0 := RemoveTags(doc, NoiseTags);
    RemoveTagsClean(doc, NoiseTags);
    NoneTaggedSubset(Descendants(soup0), NoiseTags, {"script"});
    MainContentKeepsUntagged(soup0, {"script"});
    assert ScriptStrings(Descendants(ParsedPage(doc).0)) == [];
  }

  /** `extract`: the parser, then the structure, semantic and schema passes, then the
      metadata helpers and the feature vector; as written or corrected. */
  method Extract(url: string, fetched: FetchResult, parse: JsonParser, netloc: Netloc, fetchedAt: string,
                 corrected: bool)
    returns (r: Result<PageData>)
    ensures r == ExtractFrom(url, fetched, parse, netloc, fetchedAt, corrected)
  {
    if FetchFailed(fetched) {
      return Failure("Failed to fetch page: " + fetched.error.value);
    }
    var parser := new ContentParser(fetched.document);
    var main := parser.GetMainContent();
    // `soup` is the parser's own document, so it sees the main-content cleaning.
    var soup := parser.soup;
    assert (soup, main) == ParsedPage(fetched.document);
    var headings := parser.ExtractHeadings();
    var paragraphs := parser.ExtractParagraphs();
    var lists := parser.ExtractLists();
    var tables := parser.ExtractTables();
    var questions := ExtractQuestions(soup, main, corrected);
    var patterns := ExtractAnswerPatterns(soup);
    var takeaways := ExtractKeyTakeaways(soup);
    var topics := ExtractTopics(main);
    var blocks := ExtractBlocks(if corrected then fetched.document else soup, parse);
    if blocks.Failure? {
      return Failure(blocks.error);
    }
    var types := DetectSchemaTypes(blocks.value);
    var faq := ExtractFaqSchema(blocks.value);
    if faq.Failure? {
      return Failure(faq.error);
    }
    var validations := ValidateAllSchemas(blocks.value);
    var meta := parser.ExtractMetaTags();
    var author := ExtractAuthorInfo(soup, blocks.value);
    var dates := ExtractDates(blocks.value);
    var links := ExtractExternalLinks(soup, url, netloc);
    var features := ComputeFeatures(patterns, questions, blocks.value, author, dates, links, topics,
                                    headings, tables, lists, url, meta);
    r := Success(PageData(
      url := url,
      fetchedAt := fetchedAt,
      statusCode := fetched.statusCode,
      title := parser.Title(),
      metaDescription := if "description" in meta && meta["description"].Some? then meta["description"].value else "",
      mainContent := main,
      wordCount := |Words(main)|,
      headings := headings,
      paragraphs := paragraphs,
      lists := lists,
      tables := tables,
      questions := questions,
      answerPatterns := patterns,
      keyTakeaways := takeaways,
      topics := topics,
      jsonld := blocks.value,
      schemaTypes := types,
      faqSchema := faq.value,
      schemaValidation := validations,
      author := author,
      dates := dates,
      externalLinks := links,
      performance := fetched.performance,
      isHttps := StartsWith(url, "https://"),
      features := features,
      microdataCount := 0,
      ogTags := map[],
      twitterCard := map[],
      aiCitationData := None));
  }

  /** The JSON-LD pass of `extract`, over the unparsed document. */
  method ExtractBlocks(document: Node, parse: JsonParser) returns (r: Result<seq<Block>>)
    ensures r == JsonldOf(document, parse)
  {
    var items := ExtractJsonld(ScriptStrings(Descendants(document)), parse);
    if items.Failure? {
      return Failure(items.error);
    }
    r := AsBlocks(items.value);
  }
}

=== FILE: page_model.dfy ===
/** The records that flow from the extractors to the scorers: the fields of
    `ExtractedPageData` (backend/crawler/orchestrator.py) that any scorer reads,
    plus the keys the scorers look up but the extractor never fills
    (`microdata`, `og_tags`, `twitter_card`, `ai_citation_data`). */
module PageModel {
  import opened Wrappers
  import opened Json
  import opened Strings

  /** A JSON-LD block as the extractors handle it: a JSON object. */
  type Block = map<string, Json>

  /** A heading record; `level` is `None` for a record without a 'level' key, which
      the scorers index directly and so fail on. */
  datatype Heading = Heading(level: Option<int>, text: string, id: string, classes: seq<string>)

  datatype Paragraph = Paragraph(text: string, wordCount: nat, hasEmphasis: bool)

  /** A `ul`/`ol` list: its tag name and the texts of its direct items. */
  datatype ListBlock = ListBlock(kind: string, items: seq<string>)
  {
    function ItemCount(): nat { |items| }
  }

  datatype Table = Table(headers: seq<string>, rows: seq<seq<string>>, colCount: nat)
  {
    function RowCount(): nat { |rows| }
  }

  /** A question found on the page: `kind` is "heading" or "inline"; `level` is the
      heading's tag name for heading questions; `answer` is None for inline ones. */
  datatype Question = Question(text: string, kind: string, level: Option<string>, answer: Option<string>)

  /** An answer block: `kind` is "definition_box", "tldr" or "blockquote"; `classes`
      is recorded for definition boxes only. */
  datatype AnswerPattern = AnswerPattern(kind: string, content: string, classes: Option<seq<string>>)

  datatype Topics = Topics(mainKeywords: seq<string>, keywordDensity: map<string, nat>, totalWords: nat)

  /** One FAQ entry; question and answer are whatever JSON the block held. */
  datatype QaPair = QaPair(question: Json, answer: Json, valid: bool)

  datatype FaqSchema = FaqSchema(found: bool, qaPairs: seq<QaPair>, validPairs: nat)

  /** The outcome of `validate_schema` for one block. */
  datatype Validation =
    | Invalid(invalidType: Json)
    | Checked(schemaType: Json, required: seq<string>, present: seq<string>,
              missing: seq<string>, completeness: real)
  {
    predicate Valid() { Checked? && missing == [] }

    /** `v.get('completeness', 0)`. */
    function CompletenessOr0(): real { if Checked? then completeness else 0.0 }
  }

  /** `name` is `JNull` where the source holds None. */
  datatype Author = Author(found: bool, name: Json, sources: seq<string>)

  /** `published` and `modified` are `JNull` where the source holds None. */
  datatype Dates = Dates(published: Json, modified: Json, sources: seq<string>)

  /** The fetcher's timings; only time-to-first-byte is read, and it may be absent. */
  datatype Performance = Performance(ttfb: Option<real>)

  datatype Features = Features(
    answerBlockCount: nat,
    questionCount: nat,
    hasTldr: bool,
    jsonldBlockCount: nat,
    hasAuthor: bool,
    hasPublishDate: bool,
    externalLinkCount: nat,
    wordCount: nat,
    headingCount: nat,
    tableCount: nat,
    listCount: nat,
    isHttps: bool,
    hasMetaDescription: bool)

  /** `ai_citation_data`: its optional 'ai_citation_score'. */
  datatype AiCitationData = AiCitationData(citationScore: Option<real>)

  datatype PageData = PageData(
    url: string,
    fetchedAt: string,
    statusCode: int,
    title: string,
    metaDescription: string,
    mainContent: string,
    wordCount: nat,
    headings: seq<Heading>,
    paragraphs: seq<Paragraph>,
    lists: seq<ListBlock>,
    tables: seq<Table>,
    questions: seq<Question>,
    answerPatterns: seq<AnswerPattern>,
    keyTakeaways: seq<string>,
    topics: Topics,
    jsonld: seq<Block>,
    schemaTypes: seq<Json>,
    faqSchema: FaqSchema,
    schemaValidation: seq<Validation>,
    author: Author,
    dates: Dates,
    externalLinks: seq<string>,
    performance: Performance,
    isHttps: bool,
    features: Features,
    microdataCount: nat,
    ogTags: map<string, string>,
    twitterCard: map<string, string>,
    aiCitationData: Option<AiCitationData>)

  function NoFeatures(): Features
  {
    Features(0, 0, false, 0, false, false, 0, 0, 0, 0, 0, false, false)
  }

  /** The page record of an input dictionary with no keys: every lookup the scorers
      make takes its default. */
  function EmptyPage(): PageData
  {
    PageData("", "", 0, "", "", "", 0, [], [], [], [], [], [], [], Topics([], map[], 0),
             [], [], FaqSchema(false, [], 0), [], Author(false, JNull, []), Dates(JNull, JNull, []),
             [], Performance(None), false, NoFeatures(), 0, map[], map[], None)
  }

  /** The number of elements of `s` satisfying `p`: `sum(1 for x in s if p(x))`. */
  function CountWhere<T>(s: seq<T>, p: T -> bool): (n: nat)
    ensures n <= |s|
  {
    if s == [] then 0 else CountWhere(s[..|s| - 1], p) + (if p(s[|s| - 1]) then 1 else 0)
  }

  /** `any(p(x) for x in s)`. */
  predicate AnyWhere<T>(s: seq<T>, p: T -> bool)
  {
    exists i :: 0 <= i < |s| && p(s[i])
  }

  lemma {:induction false} CountWherePositive<T>(s: seq<T>, p: T -> bool)
    ensures CountWhere(s, p) > 0 <==> AnyWhere(s, p)
  {
    if s != [] {
      CountWherePositive(s[..|s| - 1], p);
      if AnyWhere(s[..|s| - 1], p) {
        var i :| 0 <= i < |s| - 1 && p(s[..|s| - 1][i]);
        assert p(s[i]);
      }
      if AnyWhere(s, p) && !p(s[|s| - 1]) {
        var i :| 0 <= i < |s| && p(s[i]);
        assert s[..|s| - 1][i] == s[i];
      }
    }
  }
}

=== FILE: parser.dfy ===
/** The HTML content parser (backend/crawler/parser.py). The parser owns the parsed
    document and changes it in place: construction removes the noise elements, and
    reading the main content removes the navigation inside the main area. Every
    extraction then reads the document as it stands. */
module Parser {
  import opened Wrappers
  import opened Strings
  import opened Dom
  import opened PageModel

  /** The elements `remove_noise` decomposes, with everything below them. */
  const NoiseTags: set<string> := {"script", "style", "nav", "footer"}

  /** The names `get_main_content` removes inside the main area; the last two are
      searched as tag names, so they only match elements of those literal names. */
  const MainNoiseTags: set<string> := {"nav", "aside", ".sidebar", ".navigation"}

  /** The number of main-area selectors. */
  const MainRules: nat := 7

  /** Selector `k` of `get_main_content`, in the order they are tried. */
  predicate MainRule(k: nat, n: Node)
  {
    n.Element? &&
    if k == 0 then n.tag == "main"
    else if k == 1 then n.tag == "article"
    else if k == 2 then n.tag == "div" && Attr(n, "id") == Some("content")
    else if k == 3 then n.tag == "div" && Attr(n, "id") == Some("mw-content-text")
    else if k == 4 then n.tag == "div" && Attr(n, "role") == Some("main")
    else if k == 5 then n.tag == "div" && exists i :: 0 <= i < |n.classes| && Contains(Lower(n.classes[i]), "content")
    else n.tag == "body"
  }

  /** The first element of `ns` that selector `k` accepts. */
  function FirstByRule(ns: seq<Node>, k: nat): (r: Option<Node>)
    ensures r.Some? ==> r.value in ns && MainRule(k, r.value)
    ensures r.None? ==> forall i :: 0 <= i < |ns| ==> !MainRule(k, ns[i])
  {
    if ns == [] then None
    else if MainRule(k, ns[0]) then Some(ns[0])
    else FirstByRule(ns[1..], k)
  }

  /** The main area among the document-order elements `ns`, trying selectors from
      `k` on: the first selector with a match, and its first match. */
  function SelectMain(ns: seq<Node>, k: nat): (r: Option<(nat, Node)>)
    requires k <= MainRules
    ensures r.Some? ==> k <= r.value.0 < MainRules && MainRule(r.value.0, r.value.1) && r.value.1 in ns
    ensures r.Some? ==> forall j, i :: k <= j < r.value.0 && 0 <= i < |ns| ==> !MainRule(j, ns[i])
    ensures r.None? ==> forall j, i :: k <= j < MainRules && 0 <= i < |ns| ==> !MainRule(j, ns[i])
    decreases MainRules - k
  {
    if k == MainRules then None
    else
      match FirstByRule(ns, k)
      case Some(n) => Some((k, n))
      case None => SelectMain(ns, k + 1)
  }

  /** The children `ns` with the first element (in document order) that selector
      `k` accepts cleaned of `MainNoiseTags`; the flag tells whether one was found. */
  function CleanFirstIn(ns: seq<Node>, k: nat): (r: (seq<Node>, bool))
    ensures !r.1 ==> r.0 == ns
    decreases ns, 0
  {
    if ns == [] then ([], false)
    else if MainRule(k, ns[0]) then ([RemoveTags(ns[0], MainNoiseTags)] + ns[1..], true)
    else
      var below := CleanFirstBelow(ns[0], k);
      if below.1 then ([below.0] + ns[1..], true)
      else
        var rest := CleanFirstIn(ns[1..], k);
        assert !rest.1 ==> [ns[0]] + rest.0 == ns;
        ([ns[0]] + rest.0, rest.1)
  }

  function CleanFirstBelow(n: Node, k: nat): (r: (Node, bool))
    ensures !r.1 ==> r.0 == n
    ensures r.0.Element? == n.Element? && (n.Element? ==> r.0.tag == n.tag)
    decreases n, 1
  {
    if n.Text? then (n, false)
    else
      var c := CleanFirstIn(n.children, k);
      (n.(children := c.0), c.1)
  }

  /** Cleaning the main area never brings in an element of other tags. */
  lemma {:induction false} CleanFirstBelowKeepsUntagged(n: Node, k: nat, tags: set<string>)
    requires NoneTagged(Descendants(n), tags)
    ensures NoneTagged(Descendants(CleanFirstBelow(n, k).0), tags)
    decreases n, 1
  {
    if n.Element? {
      CleanFirstInKeepsUntagged(n.children, k, tags);
    }
  }

  lemma {:induction false} CleanFirstInKeepsUntagged(ns: seq<Node>, k: nat, tags: set<string>)
    requires NoneTagged(DescendantsOf(ns), tags)
    ensures NoneTagged(DescendantsOf(CleanFirstIn(ns, k).0), tags)
    decreases ns, 0
  {
    if ns != [] {
      DescendantsOfCons(ns, tags);
      var r := CleanFirstIn(ns, k).0;
      if MainRule(k, ns[0]) {
        RemoveTagsKeepsUntagged(ns[0], MainNoiseTags, tags);
        assert r[0] == RemoveTags(ns[0], MainNoiseTags) && r[1..] == ns[1..];
        DescendantsOfCons(r, tags);
      } else if CleanFirstBelow(ns[0], k).1 {
        CleanFirstBelowKeepsUntagged(ns[0], k, tags);
        assert r[0] == CleanFirstBelow(ns[0], k).0 && r[1..] == ns[1..];
        DescendantsOfCons(r, tags);
      } else {
        CleanFirstInKeepsUntagged(ns[1..], k, tags);
        assert r[0] == ns[0] && r[1..] == CleanFirstIn(ns[1..], k).0;
        DescendantsOfCons(r, tags);
      }
    }
  }

  /** `get_main_content` leaves no element of tags the document lacked. */
  lemma MainContentKeepsUntagged(soup: Node, tags: set<string>)
    requires NoneTagged(Descendants(soup), tags)
    ensures NoneTagged(Descendants(MainContent(soup).0), tags)
  {
    match SelectMain(Descendants(soup), 0)
    case None =>
    case Some((k, main)) => CleanFirstBelowKeepsUntagged(soup, k, tags);
  }

  /** What `get_main_content` returns and the document it leaves behind. */
  function MainContent(soup: Node): (Node, string)
  {
    match SelectMain(Descendants(soup), 0)
    case None => (soup, "")
    case Some((k, main)) => (CleanFirstBelow(soup, k).0, GetText(RemoveTags(main, MainNoiseTags), " "))
  }

  /** Without any main-area candidate the main content is empty and the document
      is left as it was. */
  lemma NoMainArea(soup: Node)
    requires forall j, i :: 0 <= j < MainRules && 0 <= i < |Descendants(soup)| ==> !MainRule(j, Descendants(soup)[i])
    ensures MainContent(soup) == (soup, "")
  {
  }

  /** `get_title`: the first `<title>`'s text, else the first h1's, else "". */
  function TitleOf(soup: Node): string
  {
    match Find(soup, {"title"})
    case Some(t) => TextOf(t)
    case None =>
      match Find(soup, {"h1"})
      case Some(h) => TextOf(h)
      case None => ""
  }

  /** The title is the text of a title element whenever there is one, else the text
      of an h1 whenever there is one, else empty. */
  lemma TitleSource(soup: Node)
    ensures var d := Descendants(soup);
      var t := TitleOf(soup);
      ((exists i :: 0 <= i < |d| && HasTagIn(d[i], {"title"})) ==>
         exists i :: 0 <= i < |d| && HasTagIn(d[i], {"title"}) && t == TextOf(d[i])) &&
      ((forall i :: 0 <= i < |d| ==> !HasTagIn(d[i], {"title"})) && (exists i :: 0 <= i < |d| && HasTagIn(d[i], {"h1"})) ==>
         exists i :: 0 <= i < |d| && HasTagIn(d[i], {"h1"}) && t == TextOf(d[i])) &&
      ((forall i :: 0 <= i < |d| ==> !HasTagIn(d[i], {"title", "h1"})) ==> t == "")
  {
    var d := Descendants(soup);
    if (forall i :: 0 <= i < |d| ==> !HasTagIn(d[i], {"title", "h1"})) {
      forall i | 0 <= i < |d|
        ensures !HasTagIn(d[i], {"title"}) && !HasTagIn(d[i], {"h1"})
      {
        assert !HasTagIn(d[i], {"title", "h1"});
      }
    }
  }

  const HeadingTagNames: seq<string> := ["h1", "h2", "h3", "h4", "h5", "h6"]

  /** The record of one heading element. */
  function HeadingRecord(n: Node, level: int): Heading
  {
    Heading(Some(level), TextOf(n), Attr(n, "id").GetOr(""), if n.Element? then n.classes else [])
  }

  /** The level-`level` headings among `ns`, in order. */
  function HeadingsAt(ns: seq<Node>, level: nat): (r: seq<Heading>)
    requires 1 <= level <= 6
    ensures |r| <= |ns|
    ensures forall i :: 0 <= i < |r| ==> r[i].level == Some(level)
  {
    if ns == [] then []
    else
      var n := ns[|ns| - 1];
      HeadingsAt(ns[..|ns| - 1], level) +
        (if HasTagIn(n, {HeadingTagNames[level - 1]}) then [HeadingRecord(n, level)] else [])
  }

  /** The headings of levels 1 to `k`, level by level. */
  function HeadingsUpTo(ns: seq<Node>, k: nat): seq<Heading>
    requires k <= 6
  {
    if k == 0 then [] else HeadingsUpTo(ns, k - 1) + HeadingsAt(ns, k)
  }

  /** What `extract_headings` returns. */
  function HeadingsOf(soup: Node): seq<Heading>
  {
    HeadingsUpTo(Descendants(soup), 6)
  }

  /** Every record has a level between 1 and `k`, and levels never decrease. */
  predicate LevelsGrouped(h: seq<Heading>, k: int)
  {
    (forall i :: 0 <= i < |h| ==> h[i].level.Some? && 1 <= h[i].level.value <= k) &&
    (forall i, j :: 0 <= i < j < |h| ==> h[i].level.value <= h[j].level.value)
  }

  /** Headings come grouped by level ascending, every level between 1 and 6. */
  lemma {:induction false} HeadingsGrouped(ns: seq<Node>, k: nat)
    requires k <= 6
    ensures LevelsGrouped(HeadingsUpTo(ns, k), k)
  {
    if k > 0 {
      HeadingsGrouped(ns, k - 1);
      var front, block := HeadingsUpTo(ns, k - 1), HeadingsAt(ns, k);
      var h := front + block;
      forall i | 0 <= i < |h|
        ensures h[i].level.Some? && 1 <= h[i].level.value <= k
      {
        if i >= |front| {
          assert h[i] == block[i - |front|];
        } else {
          assert h[i] == front[i];
        }
      }
      forall i, j | 0 <= i < j < |h|
        ensures h[i].level.value <= h[j].level.value
      {
        if j >= |front| {
          assert h[j] == block[j - |front|];
          if i >= |front| {
            assert h[i] == block[i - |front|];
          } else {
            assert h[i] == front[i];
          }
        } else {
          assert h[i] == front[i] && h[j] == front[j];
        }
      }
    }
  }

  /** The element the paragraph pass searches: the first main, else article, else body. */
  function ParagraphArea(soup: Node): Option<Node>
  {
    match Find(soup, {"main"})
    case Some(m) => Some(m)
    case None =>
      match Find(soup, {"article"})
      case Some(a) => Some(a)
      case None => Find(soup, {"body"})
  }

  const EmphasisTags: set<string> := {"strong", "b", "em", "i"}

  /** The kept paragraphs among the p elements `ps`: stripped text longer than 20
      characters, with its word count and whether it holds an emphasis element. */
  function ParagraphRecords(ps: seq<Node>): (r: seq<Paragraph>)
    ensures |r| <= |ps|
    ensures forall i :: 0 <= i < |r| ==> |r[i].text| > 20 && r[i].wordCount == |Words(r[i].text)|
  {
    if ps == [] then []
    else
      var p := ps[|ps| - 1];
      var text := TextOf(p);
      ParagraphRecords(ps[..|ps| - 1]) +
        (if |text| > 20 then [Paragraph(text, |Words(text)|, Find(p, EmphasisTags).Some?)] else [])
  }

  /** What `extract_paragraphs` returns. */
  function ParagraphsOf(soup: Node): seq<Paragraph>
  {
    match ParagraphArea(soup)
    case None => []
    case Some(area) => ParagraphRecords(FindAll(area, {"p"}))
  }

  /** The texts of the direct `li` children of a list. */
  function ListItems(n: Node): seq<string>
  {
    Texts(WithTags(ChildElements(n), {"li"}))
  }

  /** The kept lists among `ls`: those with at least two direct items. */
  function ListRecords(ls: seq<Node>): (r: seq<ListBlock>)
    ensures |r| <= |ls|
    ensures forall i :: 0 <= i < |r| ==> r[i].ItemCount() >= 2
  {
    if ls == [] then []
    else
      var l := ls[|ls| - 1];
      ListRecords(ls[..|ls| - 1]) +
        (if l.Element? && |ListItems(l)| >= 2 then [ListBlock(l.tag, ListItems(l))] else [])
  }

  /** What `extract_lists` returns. */
  function ListsOf(soup: Node): seq<ListBlock>
  {
    ListRecords(FindAll(soup, {"ul", "ol"}))
  }

  /** The non-empty rows of `td` texts of the rows `trs`. */
  function RowCells(trs: seq<Node>): (r: seq<seq<string>>)
    ensures |r| <= |trs|
    ensures forall i :: 0 <= i < |r| ==> r[i] != []
  {
    if trs == [] then []
    else
      var cells := Texts(FindAll(trs[|trs| - 1], {"td"}));
      RowCells(trs[..|trs| - 1]) + (if cells != [] then [cells] else [])
  }

  /** The record of one table element, None when it has no row of cells. */
  function TableOf(t: Node): (r: Option<Table>)
    ensures r.Some? ==>
      r.value.rows != [] &&
      r.value.colCount == if r.value.headers != [] then |r.value.headers| else |r.value.rows[0]|
  {
    var headers := Texts(FindAll(t, {"th"}));
    var rows := RowCells(FindAll(t, {"tr"}));
    if rows == [] then None
    else Some(Table(headers, rows, if headers != [] then |headers| else |rows[0]|))
  }

  function TableRecords(ts: seq<Node>): (r: seq<Table>)
    ensures |r| <= |ts|
    ensures forall i :: 0 <= i < |r| ==>
      r[i].rows != [] &&
      (forall j :: 0 <= j < |r[i].rows| ==> r[i].rows[j] != []) &&
      r[i].colCount == if r[i].headers != [] then |r[i].headers| else |r[i].rows[0]|
  {
    if ts == [] then []
    else
      var t := TableOf(ts[|ts| - 1]);
      TableRecords(ts[..|ts| - 1]) + (if t.Some? then [t.value] else [])
  }

  /** What `extract_tables` returns. */
  function TablesOf(soup: Node): seq<Table>
  {
    TableRecords(FindAll(soup, {"table"}))
  }

  /** The entry one meta element contributes: its key is `name`, or `property` when
      `name` is absent or empty, and both key and content must be non-empty. */
  function MetaPair(m: Node): Option<(string, string)>
  {
    var key := if Attr(m, "name").Some? && Attr(m, "name").value != "" then Attr(m, "name") else Attr(m, "property");
    var content := Attr(m, "content");
    if key.Some? && key.value != "" && content.Some? && content.value != "" then Some((key.value, content.value))
    else None
  }

  /** The table filled by the meta elements `ms` in order, a later entry replacing
      an earlier one with the same key. */
  function MetaFrom(ms: seq<Node>): map<string, Option<string>>
  {
    if ms == [] then map[]
    else
      var m := MetaFrom(ms[..|ms| - 1]);
      var pair := MetaPair(ms[|ms| - 1]);
      if pair.Some? then m[pair.value.0 := Some(pair.value.1)] else m
  }

  /** A key is in the table exactly when some meta element contributes it. */
  lemma {:induction false} MetaFromKeys(ms: seq<Node>, k: string)
    ensures k in MetaFrom(ms) <==> exists i :: 0 <= i < |ms| && MetaPair(ms[i]).Some? && MetaPair(ms[i]).value.0 == k
  {
    if ms != [] {
      var front := ms[..|ms| - 1];
      MetaFromKeys(front, k);
      assert forall i :: 0 <= i < |front| ==> ms[i] == front[i];
    }
  }

  /** No meta element after position `i` of `ms` contributes key `k`. */
  predicate NoLaterKey(ms: seq<Node>, i: nat, k: string)
  {
    forall j :: i < j < |ms| ==> MetaPair(ms[j]).None? || MetaPair(ms[j]).value.0 != k
  }

  /** Every entry holds the content of the LAST meta element with that key: the
      element at position `i`. */
  lemma {:induction false} MetaLastWins(ms: seq<Node>, k: string) returns (i: nat)
    requires k in MetaFrom(ms)
    ensures MetaFrom(ms)[k].Some?
    ensures i < |ms| && MetaPair(ms[i]) == Some((k, MetaFrom(ms)[k].value)) && NoLaterKey(ms, i, k)
  {
    var front := ms[..|ms| - 1];
    var pair := MetaPair(ms[|ms| - 1]);
    assert MetaFrom(ms) == if pair.Some? then MetaFrom(front)[pair.value.0 := Some(pair.value.1)] else MetaFrom(front);
    if pair.Some? && pair.value.0 == k {
      i := |ms| - 1;
    } else {
      assert MetaFrom(ms)[k] == MetaFrom(front)[k];
      i := MetaLastWins(front, k);
      assert ms[i] == front[i];
      forall j | i < j < |ms|
        ensures MetaPair(ms[j]).None? || MetaPair(ms[j]).value.0 != k
      {
        if j < |front| {
          assert ms[j] == front[j];
        }
      }
    }
  }

  /** `link` with `canonical` among its rel values. */
  predicate IsCanonicalLink(n: Node)
  {
    HasTagIn(n, {"link"}) && Attr(n, "rel").Some? && "canonical" in Words(Attr(n, "rel").value)
  }

  function FirstCanonical(ns: seq<Node>): (r: Option<Node>)
    ensures r.Some? ==> r.value in ns && IsCanonicalLink(r.value)
    ensures r.None? ==> forall i :: 0 <= i < |ns| ==> !IsCanonicalLink(ns[i])
  {
    if ns == [] then None
    else if IsCanonicalLink(ns[0]) then Some(ns[0])
    else FirstCanonical(ns[1..])
  }

  /** What `extract_meta_tags` returns; the canonical entry holds the link's href,
      absent (None) when the link has none. */
  function MetaTagsOf(soup: Node): (r: map<string, Option<string>>)
  {
    var m := MetaFrom(FindAll(soup, {"meta"}));
    match FirstCanonical(Descendants(soup))
    case None => m
    case Some(link) => m["canonical" := Attr(link, "href")]
  }

  /** The meta table: 'canonical' is the first canonical link's href when there is
      such a link; every other entry is the non-empty content of the last meta
      element with that key. */
  lemma MetaTagsFacts(soup: Node, k: string)
    ensures var r := MetaTagsOf(soup);
      var ms := FindAll(soup, {"meta"});
      (FirstCanonical(Descendants(soup)).Some? ==>
         "canonical" in r && r["canonical"] == Attr(FirstCanonical(Descendants(soup)).value, "href")) &&
      (k in r && (k != "canonical" || FirstCanonical(Descendants(soup)).None?) ==>
         r[k].Some? && r[k].value != "" &&
         exists i :: 0 <= i < |ms| && MetaPair(ms[i]) == Some((k, r[k].value)) && NoLaterKey(ms, i, k))
  {
    var ms := FindAll(soup, {"meta"});
    var r := MetaTagsOf(soup);
    if k in r && (k != "canonical" || FirstCanonical(Descendants(soup)).None?) {
      assert r[k] == MetaFrom(ms)[k];
      var i := MetaLastWins(ms, k);
    }
  }

  /** The parser and the document it owns. */
  class ContentParser {
    var soup: Node

    /** Parsing followed by `remove_noise`. */
    constructor(doc: Node)
      ensures soup == RemoveTags(doc, NoiseTags)
      ensures NoneTagged(Descendants(soup), NoiseTags)
    {
      soup := RemoveTags(doc, NoiseTags);
      RemoveTagsClean(doc, NoiseTags);
    }

    /** `get_main_content`: the text of the main area, whose navigation elements are
        removed from the document. */
    method GetMainContent() returns (text: string)
      modifies this
      ensures (soup, text) == MainContent(old(soup))
    {
      var selected := SelectMain(Descendants(soup), 0);
      if selected.None? {
        return "";
      }
      var (k, main) := selected.value;
      soup := CleanFirstBelow(soup, k).0;
      text := GetText(RemoveTags(main, MainNoiseTags), " ");
    }

    /** `get_title`. */
    function Title(): string
      reads this
    {
      TitleOf(soup)
    }

    /** `extract_headings`: all h1, then all h2, and so on, each level in document order. */
    method ExtractHeadings() returns (headings: seq<Heading>)
      ensures headings == HeadingsOf(soup)
      ensures forall i :: 0 <= i < |headings| ==> headings[i].level.Some? && 1 <= headings[i].level.value <= 6
      ensures forall i, j :: 0 <= i < j < |headings| ==> headings[i].level.value <= headings[j].level.value
    {
      var d := Descendants(soup);
      headings := CollectHeadings(d);
      HeadingsGrouped(d, 6);
    }

    /** `extract_paragraphs`. */
    method ExtractParagraphs() returns (paragraphs: seq<Paragraph>)
      ensures paragraphs == ParagraphsOf(soup)
      ensures forall i :: 0 <= i < |paragraphs| ==>
        |paragraphs[i].text| > 20 && paragraphs[i].wordCount == |Words(paragraphs[i].text)|
    {
      var area := ParagraphArea(soup);
      if area.Some? {
        paragraphs := CollectParagraphs(FindAll(area.value, {"p"}));
      } else {
        paragraphs := [];
      }
    }

    /** `extract_lists`. */
    method ExtractLists() returns (lists: seq<ListBlock>)
      ensures lists == ListsOf(soup)
      ensures forall i :: 0 <= i < |lists| ==> lists[i].ItemCount() >= 2
    {
      lists := CollectLists(FindAll(soup, {"ul", "ol"}));
    }

    /** `extract_tables`. */
    method ExtractTables() returns (tables: seq<Table>)
      ensures tables == TablesOf(soup)
      ensures forall i :: 0 <= i < |tables| ==>
        tables[i].rows != [] &&
        tables[i].colCount == if tables[i].headers != [] then |tables[i].headers| else |tables[i].rows[0]|
    {
      tables := CollectTables(FindAll(soup, {"table"}));
    }

    /** `extract_meta_tags`. */
    method ExtractMetaTags() returns (meta: map<string, Option<string>>)
      ensures meta == MetaTagsOf(soup)
    {
      var ms := FindAll(soup, {"meta"});
      meta := map[];
      for i := 0 to |ms|
        invariant meta == MetaFrom(ms[..i])
      {
        assert ms[..i + 1][..i] == ms[..i];
        var pair := MetaPair(ms[i]);
        if pair.Some? {
          meta := meta[pair.value.0 := Some(pair.value.1)];
        }
      }
      assert ms[..|ms|] == ms;
      var canonical := FirstCanonical(Descendants(soup));
      if canonical.Some? {
        meta := meta["canonical" := Attr(canonical.value, "href")];
      }
    }
  }

  /** One pass of `extract_headings`: the headings of one level, in document order. */
  method CollectHeadingsAt(d: seq<Node>, level: nat) returns (headings: seq<Heading>)
    requires 1 <= level <= 6
    ensures headings == HeadingsAt(d, level)
  {
    headings := [];
    for i := 0 to |d|
      invariant headings == HeadingsAt(d[..i], level)
    {
      assert d[..i + 1][..i] == d[..i];
      if HasTagIn(d[i], {HeadingTagNames[level - 1]}) {
        headings := headings + [HeadingRecord(d[i], level)];
      }
    }
    assert d[..|d|] == d;
  }

  /** The level loop of `extract_headings`. */
  method CollectHeadings(d: seq<Node>) returns (headings: seq<Heading>)
    ensures headings == HeadingsUpTo(d, 6)
  {
    headings := [];
    for level := 1 to 7
      invariant headings == HeadingsUpTo(d, level - 1)
    {
      var more := CollectHeadingsAt(d, level);
      headings := headings + more;
    }
  }

  /** The paragraph loop of `extract_paragraphs`. */
  method CollectParagraphs(ps: seq<Node>) returns (paragraphs: seq<Paragraph>)
    ensures paragraphs == ParagraphRecords(ps)
  {
    paragraphs := [];
    for i := 0 to |ps|
      invariant paragraphs == ParagraphRecords(ps[..i])
    {
      assert ps[..i + 1][..i] == ps[..i];
      var text := TextOf(ps[i]);
      if |text| > 20 {
        paragraphs := paragraphs + [Paragraph(text, |Words(text)|, Find(ps[i], EmphasisTags).Some?)];
      }
    }
    assert ps[..|ps|] == ps;
  }

  /** The loop of `extract_lists`. */
  method CollectLists(ls: seq<Node>) returns (lists: seq<ListBlock>)
    ensures lists == ListRecords(ls)
  {
    lists := [];
    for i := 0 to |ls|
      invariant lists == ListRecords(ls[..i])
    {
      assert ls[..i + 1][..i] == ls[..i];
      var items := ListItems(ls[i]);
      if ls[i].Element? && |items| >= 2 {
        lists := lists + [ListBlock(ls[i].tag, items)];
      }
    }
    assert ls[..|ls|] == ls;
  }

  /** The table loop of `extract_tables`. */
  method CollectTables(ts: seq<Node>) returns (tables: seq<Table>)
    ensures tables == TableRecords(ts)
  {
    tables := [];
    for i := 0 to |ts|
      invariant tables == TableRecords(ts[..i])
    {
      assert ts[..i + 1][..i] == ts[..i];
      var headers := Texts(FindAll(ts[i], {"th"}));
      var rows := CollectRows(FindAll(ts[i], {"tr"}));
      if rows != [] {
        tables := tables + [Table(headers, rows, if headers != [] then |headers| else |rows[0]|)];
      }
    }
    assert ts[..|ts|] == ts;
  }

  /** The row pass of `extract_tables` for one table. */
  method CollectRows(trs: seq<Node>) returns (rows: seq<seq<string>>)
    ensures rows == RowCells(trs)
    ensures forall i :: 0 <= i < |rows| ==> rows[i] != []
  {
    rows := [];
    for i := 0 to |trs|
      invariant rows == RowCells(trs[..i])
    {
      assert trs[..i + 1][..i] == trs[..i];
      var cells := Texts(FindAll(trs[i], {"td"}));
      if cells != [] {
        rows := rows + [cells];
      }
    }
    assert trs[..|trs|] == trs;
  }
}

=== FILE: progress_tracker.dfy ===
/** Progress tracking for domain audits (backend/progress_tracker.py): a job's
    progress record, the listener queues that receive every update, and the stored
    final results. The clock is a parameter (`now`); the listener queues are objects
    whose contents the tracker extends. */
module ProgressTracking {
  import opened Wrappers
  import opened Json

  /** `ProgressUpdate`, as the value offered to the listeners. */
  datatype Progress = Progress(
    jobId: string, status: string, currentStep: string, totalUrls: int, urlsDiscovered: int,
    pagesAudited: int, currentUrl: Option<string>, percentage: real, message: string,
    timestamp: string, result: Option<Json>)

  /** `to_dict` keys, in field order. */
  const FieldNames: seq<string> := ["job_id", "status", "current_step", "total_urls", "urls_discovered",
    "pages_audited", "current_url", "percentage", "message", "timestamp", "result"]

  predicate IsFinal(status: string) { status == "completed" || status == "failed" }

  function OptJson(s: Option<string>): Json
  {
    if s.Some? then JStr(s.value) else JNull
  }

  /** `ProgressUpdate.to_dict`: every field by name, except that the result is left out
      unless the job has finished. */
  function ToDict(p: Progress): (d: seq<(string, Json)>)
    ensures |d| == if IsFinal(p.status) then 11 else 10
    ensures forall k :: 0 <= k < |d| ==> d[k].0 == FieldNames[k]
    ensures IsFinal(p.status) ==> d[10] == ("result", if p.result.Some? then p.result.value else JNull)
  {
    var fields := [("job_id", JStr(p.jobId)), ("status", JStr(p.status)), ("current_step", JStr(p.currentStep)),
      ("total_urls", JNum(p.totalUrls as real)), ("urls_discovered", JNum(p.urlsDiscovered as real)),
      ("pages_audited", JNum(p.pagesAudited as real)), ("current_url", OptJson(p.currentUrl)),
      ("percentage", JNum(p.percentage)), ("message", JStr(p.message)), ("timestamp", JStr(p.timestamp))];
    if IsFinal(p.status) then fields + [("result", if p.result.Some? then p.result.value else JNull)]
    else fields
  }

  /** One keyword argument of `update`. `job_id` cannot be passed (it is the positional
      parameter), and a name that is not an attribute is ignored. */
  datatype Setting =
    | SetStatus(status: string)
    | SetCurrentStep(step: string)
    | SetTotalUrls(total: int)
    | SetUrlsDiscovered(discovered: int)
    | SetPagesAudited(audited: int)
    | SetCurrentUrl(url: Option<string>)
    | SetPercentage(pct: real)
    | SetMessage(msg: string)
    | SetTimestamp(ts: string)
    | SetResult(res: Option<Json>)
    | Unrecognised(name: string)

  /** `setattr(progress, key, value)` when `hasattr(progress, key)`. */
  function Apply(p: Progress, s: Setting): (r: Progress)
    ensures s.Unrecognised? ==> r == p
    ensures r.jobId == p.jobId
  {
    match s
    case SetStatus(v) => p.(status := v)
    case SetCurrentStep(v) => p.(currentStep := v)
    case SetTotalUrls(v) => p.(totalUrls := v)
    case SetUrlsDiscovered(v) => p.(urlsDiscovered := v)
    case SetPagesAudited(v) => p.(pagesAudited := v)
    case SetCurrentUrl(v) => p.(currentUrl := v)
    case SetPercentage(v) => p.(percentage := v)
    case SetMessage(v) => p.(message := v)
    case SetTimestamp(v) => p.(timestamp := v)
    case SetResult(v) => p.(result := v)
    case Unrecognised(_) => p
  }

  function ApplyAll(p: Progress, settings: seq<Setting>): (r: Progress)
    ensures r.jobId == p.jobId
  {
    if settings == [] then p else Apply(ApplyAll(p, settings[..|settings| - 1]), settings[|settings| - 1])
  }

  /** The percentage rule of `update`: recomputed from the counts while discovering
      or auditing, 100 once completed, left as assigned otherwise or when there is no
      URL total. */
  function Recompute(p: Progress): (r: Progress)
    ensures r == p.(percentage := r.percentage)
    ensures p.totalUrls <= 0 || !(p.status in {"discovering", "auditing", "completed"}) ==> r == p
    ensures p.totalUrls > 0 && p.status == "completed" ==> r.percentage == 100.0
  {
    if p.totalUrls > 0 then
      if p.status == "discovering" then
        var x := p.urlsDiscovered as real / (if p.totalUrls > 1 then p.totalUrls else 1) as real * 10.0;
        p.(percentage := if x < 10.0 then x else 10.0)
      else if p.status == "auditing" then
        p.(percentage := 10.0 + p.pagesAudited as real / p.totalUrls as real * 90.0)
      else if p.status == "completed" then p.(percentage := 100.0)
      else p
    else p
  }

  /** The record after `update(job_id, **settings)` at time `now`. */
  function Updated(p: Progress, settings: seq<Setting>, now: string): Progress
  {
    Recompute(ApplyAll(p, settings).(timestamp := now))
  }

  /** With counts that make sense, the discovery phase stays within 0..10 and the
      audit phase within 10..100. */
  lemma PercentageBounds(p: Progress)
    requires p.totalUrls > 0 && 0 <= p.urlsDiscovered && 0 <= p.pagesAudited <= p.totalUrls
    ensures p.status == "discovering" ==> 0.0 <= Recompute(p).percentage <= 10.0
    ensures p.status == "auditing" ==> 10.0 <= Recompute(p).percentage <= 100.0
  {
    if p.status == "auditing" {
      var f := p.pagesAudited as real / p.totalUrls as real;
      assert 0.0 <= f <= 1.0 by {
        assert p.pagesAudited as real <= p.totalUrls as real;
      }
    }
  }

  /** The settings `complete_job` passes to `update`. */
  function CompletionSettings(success: bool, message: string): seq<Setting>
  {
    [SetStatus(if success then "completed" else "failed"),
     SetCurrentStep(if success then "Done" else "Failed"),
     SetPercentage(100.0),
     SetMessage(if message != "" then message else if success then "Audit completed successfully" else "Audit failed")]
  }

  /** After `complete_job` the job is finished at 100 percent, whether it succeeded or
      not, and the result becomes visible in `to_dict`. */
  lemma CompletionIsFinal(p: Progress, success: bool, message: string, now: string)
    ensures var u := Updated(p, CompletionSettings(success, message), now);
      u.status == (if success then "completed" else "failed") && u.percentage == 100.0 &&
      u.message != "" && |ToDict(u)| == 11
  {
    var s := CompletionSettings(success, message);
    assert s[..1][..0] == [] && s[..2][..1] == s[..1] && s[..3][..2] == s[..2] && s[..4][..3] == s[..3];
    assert s[..4] == s && |s| == 4;
    assert ApplyAll(p, s[..1][..0]) == p;
    var a1 := ApplyAll(p, s[..1]);
    assert a1 == Apply(p, s[0]);
    var a2 := ApplyAll(p, s[..2]);
    assert a2 == Apply(a1, s[1]);
    var a3 := ApplyAll(p, s[..3]);
    assert a3 == Apply(a2, s[2]) && a3.percentage == 100.0;
    var a := ApplyAll(p, s);
    assert a == Apply(a3, s[3]);
  }

  /** `queue.put_nowait(progress)` under `except QueueFull: pass`: a bounded queue that
      is full drops the update; a queue created with maxsize 0 is unbounded. */
  function Offer(items: seq<Progress>, maxsize: nat, p: Progress): (r: seq<Progress>)
    ensures r == items || r == items + [p]
    ensures r == items <==> maxsize > 0 && |items| >= maxsize
  {
    if maxsize > 0 && |items| >= maxsize then items else items + [p]
  }

  /** The contents of a queue offered `p` `k` times in a row. */
  function OfferTimes(items: seq<Progress>, maxsize: nat, p: Progress, k: nat): seq<Progress>
  {
    if k == 0 then items else Offer(OfferTimes(items, maxsize, p, k - 1), maxsize, p)
  }

  /** A bounded queue never grows past its bound; an unbounded one keeps every offer. */
  lemma {:induction false} OfferTimesBounds(items: seq<Progress>, maxsize: nat, p: Progress, k: nat)
    ensures maxsize > 0 && |items| <= maxsize ==> |OfferTimes(items, maxsize, p, k)| <= maxsize
    ensures maxsize == 0 ==> |OfferTimes(items, maxsize, p, k)| == |items| + k
    ensures |OfferTimes(items, maxsize, p, k)| >= |items|
    ensures OfferTimes(items, maxsize, p, k)[..|items|] == items
  {
    if k > 0 {
      OfferTimesBounds(items, maxsize, p, k - 1);
      var before := OfferTimes(items, maxsize, p, k - 1);
      assert (before + [p])[..|items|] == before[..|items|];
    }
  }

  /** A listener's `asyncio.Queue`. */
  class Queue {
    const maxsize: nat
    var items: seq<Progress>

    constructor(maxsize: nat)
      ensures this.maxsize == maxsize && items == []
    {
      this.maxsize := maxsize;
      items := [];
    }
  }

  /** `ProgressTracker`. */
  class ProgressTracker {
    var progress: map<string, Progress>
    var listeners: map<string, seq<Queue>>
    var results: map<string, Json>

    constructor()
      ensures progress == map[] && listeners == map[] && results == map[]
    {
      progress := map[];
      listeners := map[];
      results := map[];
    }

    /** The queues listening to `jobId`. */
    function QueuesOf(jobId: string): set<Queue>
      reads this
    {
      if jobId in listeners then set q | q in listeners[jobId] else {}
    }

    /** `create_job`: a fresh record, replacing any job with the same id, and no listener. */
    method CreateJob(jobId: string, totalUrls: int, now: string)
      modifies this
      ensures progress == old(progress)[jobId := Progress(jobId, "discovering", "Discovering URLs...", totalUrls,
        0, 0, None, 0.0, "Starting domain audit", now, None)]
      ensures listeners == old(listeners)[jobId := []]
      ensures results == old(results)
    {
      progress := progress[jobId := Progress(jobId, "discovering", "Discovering URLs...", totalUrls,
        0, 0, None, 0.0, "Starting domain audit", now, None)];
      listeners := listeners[jobId := []];
    }

    /** `update`: nothing happens for an unknown job; otherwise the settings are applied,
        the timestamp and percentage refreshed and every listener offered the record. */
    method Update(jobId: string, settings: seq<Setting>, now: string)
      modifies this, QueuesOf(jobId)
      ensures jobId !in old(progress) ==> progress == old(progress)
      ensures jobId in old(progress) ==> progress == old(progress)[jobId := Updated(old(progress)[jobId], settings, now)]
      ensures listeners == old(listeners) && results == old(results)
      ensures forall q :: q in old(QueuesOf(jobId)) ==>
        q.items == if jobId in old(progress)
          then OfferTimes(old(q.items), q.maxsize, progress[jobId], multiset(listeners[jobId])[q])
          else old(q.items)
    {
      if jobId !in progress {
        return;
      }
      progress := progress[jobId := Updated(progress[jobId], settings, now)];
      NotifyListeners(jobId);
    }

    /** `_notify_listeners`: each registered queue is offered the record, once per
        registration. */
    method NotifyListeners(jobId: string)
      requires jobId in progress
      modifies QueuesOf(jobId)
      ensures forall q :: q in QueuesOf(jobId) ==>
        q.items == OfferTimes(old(q.items), q.maxsize, progress[jobId], multiset(listeners[jobId])[q])
    {
      if jobId !in listeners {
        return;
      }
      var p := progress[jobId];
      var ls := listeners[jobId];
      for i := 0 to |ls|
        invariant forall q :: q in QueuesOf(jobId) ==>
          q.items == OfferTimes(old(q.items), q.maxsize, p, multiset(ls[..i])[q])
      {
        var q := ls[i];
        assert ls[..i + 1] == ls[..i] + [q];
        q.items := Offer(q.items, q.maxsize, p);
      }
      assert ls[..|ls|] == ls;
    }

    function GetProgress(jobId: string): (r: Option<Progress>)
      reads this
      ensures r.Some? <==> jobId in progress
      ensures r.Some? ==> r.value == progress[jobId]
    {
      if jobId in progress then Some(progress[jobId]) else None
    }

    /** `add_listener`. */
    method AddListener(jobId: string, q: Queue)
      modifies this
      ensures listeners == old(listeners)[jobId := (if jobId in old(listeners) then old(listeners)[jobId] else []) + [q]]
      ensures progress == old(progress) && results == old(results)
    {
      var current := if jobId in listeners then listeners[jobId] else [];
      listeners := listeners[jobId := current + [q]];
    }

    /** `remove_listener`: the first registration of `q`, if there is one, is dropped. */
    method RemoveListener(jobId: string, q: Queue)
      modifies this
      ensures jobId in old(listeners) ==> listeners == old(listeners)[jobId := RemoveFirst(old(listeners)[jobId], q)]
      ensures jobId !in old(listeners) ==> listeners == old(listeners)
      ensures progress == old(progress) && results == old(results)
    {
      if jobId in listeners && q in listeners[jobId] {
        listeners := listeners[jobId := RemoveFirst(listeners[jobId], q)];
      }
    }

    /** `complete_job`. */
    method CompleteJob(jobId: string, success: bool, message: string, now: string)
      modifies this, QueuesOf(jobId)
      ensures jobId in old(progress) ==>
        progress == old(progress)[jobId := Updated(old(progress)[jobId], CompletionSettings(success, message), now)]
      ensures jobId !in old(progress) ==> progress == old(progress)
      ensures listeners == old(listeners) && results == old(results)
    {
      Update(jobId, CompletionSettings(success, message), now);
    }

    /** `store_result`: kept apart, and attached to the record when the job exists. */
    method StoreResult(jobId: string, result: Json)
      modifies this
      ensures results == old(results)[jobId := result]
      ensures jobId in old(progress) ==> progress == old(progress)[jobId := old(progress)[jobId].(result := Some(result))]
      ensures jobId !in old(progress) ==> progress == old(progress)
      ensures listeners == old(listeners)
    {
      results := results[jobId := result];
      if jobId in progress {
        progress := progress[jobId := progress[jobId].(result := Some(result))];
      }
    }

    function GetResult(jobId: string): (r: Option<Json>)
      reads this
      ensures r.Some? <==> jobId in results
      ensures r.Some? ==> r.value == results[jobId]
    {
      if jobId in results then Some(results[jobId]) else None
    }

    /** `cleanup`: the job disappears from all three maps, and nothing else changes. */
    method Cleanup(jobId: string)
      modifies this
      ensures progress == old(progress) - {jobId}
      ensures listeners == old(listeners) - {jobId}
      ensures results == old(results) - {jobId}
    {
      progress := progress - {jobId};
      listeners := listeners - {jobId};
      results := results - {jobId};
    }
  }

  /** `list.remove(x)` when `x` is present: its first occurrence is taken out. */
  function RemoveFirst<T(==)>(s: seq<T>, x: T): (r: seq<T>)
    ensures x in s ==> |r| == |s| - 1 && multiset(r) == multiset(s) - multiset{x}
    ensures x !in s ==> r == s
  {
    if s == [] then []
    else
      assert s == [s[0]] + s[1..];
      if s[0] == x then s[1..]
      else [s[0]] + RemoveFirst(s[1..], x)
  }
}

=== FILE: recommendation_generator.dfy ===
/** Tip-based recommendations (backend/reporting/recommendation_generator.py): each
    scored sub-category that the tip table knows gets up to three tips from the tier
    its category's percentage falls in; the result is ranked by priority. */
module RecommendationGenerator {
  import opened Wrappers
  import opened Strings
  import opened Sorting
  import opened Scores
  import opened Calculator
  import opened PageModel
  import Answerability
  import StructuredData
  import Authority
  import ContentQuality
  import Citationability
  import Technical

  /** The tips for one sub-category, by performance tier. */
  datatype SubTips = SubTips(key: string, title: string, low: seq<string>, medium: seq<string>, high: seq<string>)

  datatype CategoryTips = CategoryTips(key: string, title: string, description: string, subs: seq<SubTips>)

  /** `_initialize_category_tips`, one entry per category. */
  const AnswerabilityTips: CategoryTips := CategoryTips("answerability", "Answerability",
    "How well your content directly answers user questions",
    [
    SubTips("direct_answer_presence", "Direct Answer Presence",
      ["Add clear, direct answers at the beginning of your content",
       "Use \"The answer is...\" or \"Yes/No\" patterns when appropriate",
       "Create summary boxes or callout sections with key answers",
       "Structure content with answer-first approach (inverted pyramid)"],
      ["Enhance existing answers with more specificity",
       "Add featured snippets-friendly answer blocks (40-60 words)",
       "Use definition lists (<dl>) for term-answer pairs"],
      ["Maintain answer quality and freshness",
       "Consider adding video/audio answers for complex topics"]),
    SubTips("question_coverage", "Question Coverage",
      ["Research common questions in your topic using AnswerThePublic or Google's \"People Also Ask\"",
       "Add FAQ section with 10+ relevant questions",
       "Use question-style headings (H2/H3)",
       "Address who, what, when, where, why, and how questions"],
      ["Expand FAQ with long-tail question variations",
       "Add comparison questions (\"X vs Y\")",
       "Include troubleshooting questions"],
      ["Keep questions updated based on search trends",
       "Add user-submitted questions section"]),
    SubTips("answer_conciseness", "Answer Conciseness",
      ["Add TL;DR or summary sections",
       "Break long paragraphs into shorter chunks (3-4 sentences max)",
       "Use bullet points and numbered lists",
       "Keep paragraphs under 100 words"],
      ["Add \"Quick Answer\" boxes for featured snippets",
       "Use tables for comparison data",
       "Add visual summaries (infographics, charts)"],
      ["Optimize for voice search with 29-word answers",
       "Test readability with Hemingway Editor"]),
    SubTips("answer_block_formatting", "Answer Block Formatting",
      ["Use <blockquote> tags for highlighted answers",
       "Add CSS styling for answer blocks (background color, borders)",
       "Implement accordion/toggle for long answers",
       "Use semantic HTML5 elements (<article>, <section>)"],
      ["Add icons or emojis for visual emphasis",
       "Implement sticky/floating answer summaries",
       "Use color coding for different answer types"],
      ["A/B test different formatting styles",
       "Add interactive elements (calculators, tools)"])
    ])

  const StructuredDataTips: CategoryTips := CategoryTips("structured_data", "Structured Data",
    "Schema.org markup that helps search engines understand your content",
    [
    SubTips("faq_schema", "FAQ Schema",
      ["Add FAQPage schema with JSON-LD",
       "Mark up at least 5 Q&A pairs",
       "Use Google's Rich Results Test to validate",
       "Follow schema.org/FAQPage guidelines"],
      ["Expand to 10+ FAQ items",
       "Add acceptedAnswer with detailed text",
       "Include question upvoteCount if applicable"],
      ["Keep FAQ schema updated",
       "Monitor rich results performance in Search Console"]),
    SubTips("howto_schema", "HowTo Schema",
      ["Add HowTo schema for instructional content",
       "Include step-by-step instructions with HowToStep",
       "Add totalTime and supply/tool information",
       "Include images for each step"],
      ["Add video instructions with VideoObject",
       "Include tips and warnings in HowToTip/Direction",
       "Add estimated cost information"],
      ["Create video content for better engagement",
       "Add user ratings and reviews"]),
    SubTips("article_schema", "Article Schema",
      ["Add Article or BlogPosting schema",
       "Include headline, datePublished, dateModified",
       "Add author with Person schema",
       "Include publisher with Organization schema and logo"],
      ["Add articleBody or articleSection",
       "Include wordCount and image schema",
       "Add breadcrumb schema for navigation"],
      ["Implement SpeakableSpecification for voice search",
       "Add AggregateRating if applicable"]),
    SubTips("breadcrumb_schema", "Breadcrumb Schema",
      ["Add BreadcrumbList schema",
       "Include all navigation levels",
       "Use position property for ordering",
       "Link to actual URLs with item.id"],
      ["Ensure breadcrumbs visible in UI",
       "Add markup to all internal pages",
       "Test with Rich Results Test"],
      ["Monitor breadcrumb appearance in SERPs",
       "A/B test breadcrumb styles"])
    ])

  const AuthorityTips: CategoryTips := CategoryTips("authority", "Authority",
    "Trust signals and credibility indicators",
    [
    SubTips("author_info", "Author Information",
      ["Add author bylines to all articles",
       "Create author bio pages with credentials",
       "Include author photos and contact info",
       "Link to author social profiles (LinkedIn, Twitter)"],
      ["Add detailed author expertise and credentials",
       "Include years of experience and education",
       "List certifications and awards",
       "Add author schema with sameAs links"],
      ["Create comprehensive author portfolio pages",
       "Get authors verified on social media",
       "Publish author bylines on external sites"]),
    SubTips("citations", "Citations & Sources",
      ["Add at least 3-5 external citations per article",
       "Link to authoritative sources (.gov, .edu, established organizations)",
       "Use inline citations with [1] notation",
       "Add \"References\" or \"Sources\" section at bottom"],
      ["Cite academic papers and research studies",
       "Link to primary sources, not secondary",
       "Use rel=\"nofollow\" for untrusted sources",
       "Add publication dates to citations"],
      ["Implement Citation schema markup",
       "Update broken citation links regularly",
       "Add DOI links for academic sources"]),
    SubTips("dates", "Date Information",
      ["Add published date to all content",
       "Show last updated/modified date prominently",
       "Use <time> tag with datetime attribute",
       "Include dates in schema markup (datePublished, dateModified)"],
      ["Add \"Last Reviewed\" dates for evergreen content",
       "Show update history or changelog",
       "Display dates near headline for visibility"],
      ["Implement automated freshness updates",
       "Add scheduled review reminders",
       "Highlight recent updates in UI"]),
    SubTips("expertise_signals", "Expertise Signals",
      ["Add \"About\" page with team credentials",
       "Include editorial policy or methodology",
       "Display contact information prominently",
       "Add trust badges or certifications"],
      ["Get expert reviews or endorsements",
       "Add case studies or portfolio work",
       "Include client testimonials",
       "Display industry memberships"],
      ["Earn authoritative backlinks",
       "Get featured in major publications",
       "Speak at industry conferences"])
    ])

  const ContentQualityTips: CategoryTips := CategoryTips("content_quality", "Content Quality",
    "Depth, uniqueness, and value of your content",
    [
    SubTips("word_count", "Content Depth",
      ["Expand content to at least 1000+ words for informational pages",
       "Cover topic comprehensively (sub-topics, variations)",
       "Add examples, case studies, or statistics",
       "Include \"Related Questions\" sections"],
      ["Create pillar content (2000-3000+ words)",
       "Add multimedia (images, videos, infographics)",
       "Include expert quotes or interviews",
       "Cover advanced and beginner aspects"],
      ["Create ultimate guides (5000+ words)",
       "Add original research or data",
       "Include downloadable resources (PDFs, templates)"]),
    SubTips("headings", "Heading Structure",
      ["Add H1 tag (only one per page)",
       "Use H2 for main sections (at least 5-7)",
       "Use H3 for sub-sections",
       "Make headings descriptive and keyword-rich"],
      ["Follow proper hierarchy (don't skip levels)",
       "Include questions in some headings",
       "Front-load keywords in headings",
       "Keep headings under 70 characters"],
      ["A/B test heading variations",
       "Optimize for featured snippet targeting",
       "Add table of contents with jump links"]),
    SubTips("uniqueness", "Content Uniqueness",
      ["Avoid duplicate content (check with Copyscape)",
       "Add original insights or perspectives",
       "Include personal experiences or examples",
       "Write in unique brand voice"],
      ["Conduct original research or surveys",
       "Create custom graphics and diagrams",
       "Add expert commentary",
       "Include data analysis or trends"],
      ["Publish industry-first content",
       "Create proprietary tools or calculators",
       "Earn citations from other sites"]),
    SubTips("freshness", "Content Freshness",
      ["Update content at least annually",
       "Add current year to titles when relevant",
       "Remove outdated information",
       "Update statistics and data points"],
      ["Set up content review schedule",
       "Add \"What's New\" sections",
       "Update screenshots and examples",
       "Revise for current best practices"],
      ["Implement real-time data updates",
       "Add trending topics sections",
       "Monitor competitors for new angles"])
    ])

  const CitationabilityTips: CategoryTips := CategoryTips("citationability", "Citationability",
    "How easy it is for others to cite and reference your content",
    [
    SubTips("facts_density", "Facts & Data Density",
      ["Add at least 10-15 factual statements per 1000 words",
       "Include statistics with sources",
       "Add data points and percentages",
       "Use specific numbers instead of vague terms"],
      ["Create data visualizations (charts, graphs)",
       "Add comparison tables",
       "Include year-over-year trends",
       "Provide downloadable datasets"],
      ["Conduct original research studies",
       "Publish annual industry reports",
       "Create citation-worthy statistics"]),
    SubTips("tables", "Data Tables",
      ["Add at least 2-3 data tables per article",
       "Use <table> with proper <thead>, <tbody>",
       "Make tables responsive/scrollable on mobile",
       "Add descriptive <caption> to tables"],
      ["Add sortable columns with JavaScript",
       "Include download options (CSV, Excel)",
       "Add search/filter functionality",
       "Use color coding for data visualization"],
      ["Create interactive data explorers",
       "Add real-time data updates",
       "Implement Table schema markup"]),
    SubTips("clarity", "Content Clarity",
      ["Use simple, clear language (8th-grade reading level)",
       "Define technical terms on first use",
       "Break complex ideas into steps",
       "Use active voice over passive"],
      ["Add glossary for technical terms",
       "Use analogies and metaphors",
       "Include visual explanations",
       "Test with readability tools"],
      ["Add tooltips for complex terms",
       "Create beginner-friendly summaries",
       "Implement progressive disclosure"])
    ])

  const TechnicalTips: CategoryTips := CategoryTips("technical", "Technical SEO",
    "Technical aspects affecting crawling and indexing",
    [
    SubTips("page_speed", "Page Speed",
      ["Optimize images (compress, use WebP format)",
       "Enable browser caching",
       "Minify CSS, JavaScript, HTML",
       "Use CDN for static assets"],
      ["Implement lazy loading for images",
       "Remove render-blocking resources",
       "Enable Gzip/Brotli compression",
       "Reduce server response time (TTFB < 200ms)"],
      ["Achieve Core Web Vitals targets (LCP < 2.5s, FID < 100ms, CLS < 0.1)",
       "Implement HTTP/3 and QUIC",
       "Use Edge computing for dynamic content"]),
    SubTips("mobile_friendly", "Mobile Friendliness",
      ["Implement responsive design",
       "Use viewport meta tag",
       "Ensure text is readable without zooming (16px min)",
       "Make buttons/links large enough (48x48px min)"],
      ["Test on real mobile devices",
       "Optimize for touch interactions",
       "Reduce mobile page weight",
       "Use mobile-friendly navigation"],
      ["Implement AMP or similar",
       "Optimize for foldable devices",
       "Test on slow 3G connections"]),
    SubTips("https", "HTTPS & Security",
      ["Install SSL certificate",
       "Redirect HTTP to HTTPS (301)",
       "Update internal links to HTTPS",
       "Fix mixed content warnings"],
      ["Implement HSTS header",
       "Use strong cipher suites",
       "Enable HTTP/2 or HTTP/3",
       "Add security headers (CSP, X-Frame-Options)"],
      ["Implement Certificate Transparency",
       "Use OCSP stapling",
       "Regular security audits"]),
    SubTips("crawlability", "Crawlability",
      ["Create XML sitemap",
       "Submit sitemap to Google Search Console",
       "Fix robots.txt issues",
       "Ensure important pages are linkable"],
      ["Optimize internal linking structure",
       "Fix broken links (404s)",
       "Add canonical tags",
       "Implement proper URL structure"],
      ["Monitor crawl budget",
       "Implement IndexNow protocol",
       "Use log file analysis"])
    ])

  /** The dict, in its order. */
  const TipTable: seq<CategoryTips> := [
    AnswerabilityTips,
    StructuredDataTips,
    AuthorityTips,
    ContentQualityTips,
    CitationabilityTips,
    TechnicalTips]

  /** `category in self.category_tips` and the entry it selects. */
  function FindCategory(t: seq<CategoryTips>, key: string): (r: Option<CategoryTips>)
    ensures r.Some? ==> r.value in t && r.value.key == key
    ensures r.None? ==> forall k :: 0 <= k < |t| ==> t[k].key != key
  {
    FindKey(t, (c: CategoryTips) => c.key, key)
  }

  /** `sub_cat in info['sub_categories']` and the entry it selects. */
  function FindSub(subs: seq<SubTips>, key: string): (r: Option<SubTips>)
    ensures r.Some? ==> r.value in subs && r.value.key == key
    ensures r.None? ==> forall k :: 0 <= k < |subs| ==> subs[k].key != key
  {
    FindKey(subs, (s: SubTips) => s.key, key)
  }

  datatype Level = Low | Medium | High

  /** The tier a category percentage falls in. */
  function LevelOf(percentage: real): (l: Level)
    ensures l == Low <==> percentage < 50.0
    ensures l == Medium <==> 50.0 <= percentage < 75.0
    ensures l == High <==> percentage >= 75.0
  {
    if percentage < 50.0 then Low else if percentage < 75.0 then Medium else High
  }

  /** The priority of a tier: the weaker the category, the more urgent its tips. */
  function PriorityOf(l: Level): (p: int)
    ensures p == (if l == Low then 100 else if l == Medium then 75 else 50)
  {
    match l
    case Low => 100
    case Medium => 75
    case High => 50
  }

  function TipsAt(s: SubTips, l: Level): seq<string>
  {
    match l
    case Low => s.low
    case Medium => s.medium
    case High => s.high
  }

  datatype TipRecommendation = TipRecommendation(
    category: string, subCategory: string, title: string, currentScore: real, maxScore: real,
    percentage: real, priority: int, tips: seq<string>)

  /** `score_data.get('percentage', 0)`: the entry of a scorer that raised has none. */
  function PercentageOf(e: BucketEntry): real
  {
    if e.percentage.Some? then e.percentage.value else 0.0
  }

  /** The recommendation for one sub-score of a category, if the table has tips for it. */
  function SubRecommendation(e: BucketEntry, c: CategoryTips, s: SubScore): Option<TipRecommendation>
  {
    match FindSub(c.subs, s.name)
    case None => None
    case Some(info) =>
      var level := LevelOf(PercentageOf(e));
      var tips := TipsAt(info, level);
      if tips == [] then None
      else Some(TipRecommendation(e.name, s.name, "Improve " + info.title, e.score, e.max,
                                  PercentageOf(e), PriorityOf(level), Take(tips, 3)))
  }

  function SubRecommendations(e: BucketEntry, c: CategoryTips, subs: seq<SubScore>): seq<TipRecommendation>
  {
    if subs == [] then []
    else
      var last := SubRecommendation(e, c, subs[|subs| - 1]);
      SubRecommendations(e, c, subs[..|subs| - 1]) + (if last.Some? then [last.value] else [])
  }

  /** The recommendations of one breakdown entry; a category the table does not know
      contributes none. */
  function EntryRecommendations(e: BucketEntry): seq<TipRecommendation>
  {
    match FindCategory(TipTable, e.name)
    case None => []
    case Some(c) => SubRecommendations(e, c, e.subScores)
  }

  /** Every recommendation the loops append, in breakdown and sub-score order. */
  function AllRecommendations(b: seq<BucketEntry>): seq<TipRecommendation>
  {
    if b == [] then [] else AllRecommendations(b[..|b| - 1]) + EntryRecommendations(b[|b| - 1])
  }

  function PriorityKey(r: TipRecommendation): real { r.priority as real }

  /** What `generate_recommendations(scores, top_n)` returns. */
  function Recommendations(scores: AuditScore, topN: int): seq<TipRecommendation>
  {
    PySliceTo(SortDesc(AllRecommendations(scores.breakdown), PriorityKey), topN)
  }

  /** A recommendation is well formed when it names a category and a sub-category of
      the table and carries the first (at most three) tips of the tier its category
      percentage selects, with that tier's priority. */
  predicate FromTable(r: TipRecommendation)
  {
    var c := FindCategory(TipTable, r.category);
    c.Some? && FindSub(c.value.subs, r.subCategory).Some? &&
    var level := LevelOf(r.percentage);
    r.priority == PriorityOf(level) &&
    r.tips == Take(TipsAt(FindSub(c.value.subs, r.subCategory).value, level), 3) &&
    0 < |r.tips| <= 3
  }

  lemma {:induction false} SubRecommendationsFromTable(e: BucketEntry, c: CategoryTips, subs: seq<SubScore>)
    requires FindCategory(TipTable, e.name) == Some(c)
    ensures forall r :: r in SubRecommendations(e, c, subs) ==> FromTable(r) && r.category == e.name
  {
    if subs != [] {
      SubRecommendationsFromTable(e, c, subs[..|subs| - 1]);
    }
  }

  lemma {:induction false} AllFromTable(b: seq<BucketEntry>)
    ensures forall r :: r in AllRecommendations(b) ==> FromTable(r)
  {
    if b != [] {
      AllFromTable(b[..|b| - 1]);
      var e := b[|b| - 1];
      if FindCategory(TipTable, e.name).Some? {
        SubRecommendationsFromTable(e, FindCategory(TipTable, e.name).value, e.subScores);
      }
    }
  }

  /** The ranked recommendations: highest priority first, at most `top_n` of them, all
      drawn from the table; they are the first ones of a stable sort, in which the
      recommendations of any one priority keep the order they were generated in. */
  lemma RecommendationsFacts(scores: AuditScore, topN: int)
    ensures topN >= 0 ==> |Recommendations(scores, topN)| <= topN
    ensures SortedDesc(Recommendations(scores, topN), PriorityKey)
    ensures forall r :: r in Recommendations(scores, topN) ==> FromTable(r)
    ensures var sorted := SortDesc(AllRecommendations(scores.breakdown), PriorityKey);
      Recommendations(scores, topN) == sorted[..|Recommendations(scores, topN)|] &&
      forall v :: Filter(sorted, KeyIs(PriorityKey, v)) == Filter(AllRecommendations(scores.breakdown), KeyIs(PriorityKey, v))
  {
    var all := AllRecommendations(scores.breakdown);
    var sorted := SortDesc(all, PriorityKey);
    SortDescSorted(all, PriorityKey);
    forall v | true
      ensures Filter(sorted, KeyIs(PriorityKey, v)) == Filter(all, KeyIs(PriorityKey, v))
    {
      SortDescStable(all, PriorityKey, v);
    }
    AllFromTable(scores.breakdown);
    var r := Recommendations(scores, topN);
    forall i, j | 0 <= i < j < |r|
      ensures PriorityKey(r[i]) >= PriorityKey(r[j])
    {
      assert r[i] == sorted[i] && r[j] == sorted[j];
    }
    forall x | x in r
      ensures FromTable(x)
    {
      assert x in sorted;
      assert x in multiset(sorted);
    }
  }

  /** The lookup finds the first entry with the key. */
  lemma {:induction false} FindCategoryAt(t: seq<CategoryTips>, key: string, i: nat)
    requires i < |t| && t[i].key == key
    requires forall j :: 0 <= j < i ==> t[j].key != key
    ensures FindCategory(t, key) == Some(t[i])
  {
    if i > 0 {
      FindCategoryAt(t[1..], key, i - 1);
    }
  }

  /** The sub-category keys of a table entry, in order. */
  function SubKeys(subs: seq<SubTips>): (r: seq<string>)
    ensures |r| == |subs| && forall k :: 0 <= k < |subs| ==> r[k] == subs[k].key
  {
    if subs == [] then [] else [subs[0].key] + SubKeys(subs[1..])
  }

  /** The table has tips for sub-category `sub` of `category`. */
  predicate HasTips(category: string, sub: string)
  {
    FindCategory(TipTable, category).Some? && FindSub(FindCategory(TipTable, category).value.subs, sub).Some?
  }

  /** Tips exist exactly for the sub-category keys the category's entry lists. */
  lemma HasTipsIffKey(category: string, sub: string)
    requires FindCategory(TipTable, category).Some?
    ensures HasTips(category, sub) <==> sub in SubKeys(FindCategory(TipTable, category).value.subs)
  {
    var subs := FindCategory(TipTable, category).value.subs;
    if sub in SubKeys(subs) {
      var k :| 0 <= k < |subs| && SubKeys(subs)[k] == sub;
      assert subs[k].key == sub;
    }
  }

  lemma AnswerabilityKeys()
    ensures FindCategory(TipTable, "answerability").Some?
    ensures SubKeys(FindCategory(TipTable, "answerability").value.subs) == ["direct_answer_presence", "question_coverage", "answer_conciseness", "answer_block_formatting"]
  {
    assert AnswerabilityTips.key == "answerability";
    FindCategoryAt(TipTable, "answerability", 0);
  }

  lemma StructuredDataKeys()
    ensures FindCategory(TipTable, "structured_data").Some?
    ensures SubKeys(FindCategory(TipTable, "structured_data").value.subs) == ["faq_schema", "howto_schema", "article_schema", "breadcrumb_schema"]
  {
    assert AnswerabilityTips.key == "answerability";
    assert StructuredDataTips.key == "structured_data";
    FindCategoryAt(TipTable, "structured_data", 1);
  }

  lemma AuthorityKeys()
    ensures FindCategory(TipTable, "authority").Some?
    ensures SubKeys(FindCategory(TipTable, "authority").value.subs) == ["author_info", "citations", "dates", "expertise_signals"]
  {
    assert AnswerabilityTips.key == "answerability";
    assert StructuredDataTips.key == "structured_data";
    assert AuthorityTips.key == "authority";
    FindCategoryAt(TipTable, "authority", 2);
  }

  lemma ContentQualityKeys()
    ensures FindCategory(TipTable, "content_quality").Some?
    ensures SubKeys(FindCategory(TipTable, "content_quality").value.subs) == ["word_count", "headings", "uniqueness", "freshness"]
  {
    assert AnswerabilityTips.key == "answerability";
    assert StructuredDataTips.key == "structured_data";
    assert AuthorityTips.key == "authority";
    assert ContentQualityTips.key == "content_quality";
    FindCategoryAt(TipTable, "content_quality", 3);
  }

  lemma CitationabilityKeys()
    ensures FindCategory(TipTable, "citationability").Some?
    ensures SubKeys(FindCategory(TipTable, "citationability").value.subs) == ["facts_density", "tables", "clarity"]
  {
    assert AnswerabilityTips.key == "answerability";
    assert StructuredDataTips.key == "structured_data";
    assert AuthorityTips.key == "authority";
    assert ContentQualityTips.key == "content_quality";
    assert CitationabilityTips.key == "citationability";
    FindCategoryAt(TipTable, "citationability", 4);
  }

  lemma TechnicalKeys()
    ensures FindCategory(TipTable, "technical").Some?
    ensures SubKeys(FindCategory(TipTable, "technical").value.subs) == ["page_speed", "mobile_friendly", "https", "crawlability"]
  {
    assert AnswerabilityTips.key == "answerability";
    assert StructuredDataTips.key == "structured_data";
    assert AuthorityTips.key == "authority";
    assert ContentQualityTips.key == "content_quality";
    assert CitationabilityTips.key == "citationability";
    assert TechnicalTips.key == "technical";
    FindCategoryAt(TipTable, "technical", 5);
  }

  /** Tips exist for a name exactly when the category lists it among its keys. */
  lemma TipsAmong(category: string, names: seq<string>, keys: seq<string>)
    requires FindCategory(TipTable, category).Some?
    requires SubKeys(FindCategory(TipTable, category).value.subs) == keys
    ensures forall n :: n in names ==> (HasTips(category, n) <==> n in keys)
  {
    forall n | n in names ensures HasTips(category, n) <==> n in keys { HasTipsIffKey(category, n); }
  }

  const AnswerabilityNames := ["direct_answer_presence", "question_coverage", "answer_conciseness", "answer_block_formatting"]
  const StructuredDataNames := ["basic_presence", "schema_quality", "advanced_features", "social_metadata"]
  const AuthorityNames := ["author_information", "publication_date", "citations_sources", "organization_info"]
  const ContentQualityNames := ["content_depth", "unique_value_proposition", "freshness"]
  const CitationabilityNames := ["clear_statements_of_fact", "data_tables_lists", "https_security", "no_intrusive_elements"]
  const TechnicalNames := ["page_performance", "mobile_friendliness", "semantic_html", "internal_linking", "meta_description"]

  lemma StructuredDataUnlisted()
    ensures forall n :: n in StructuredDataNames ==> n !in ["faq_schema", "howto_schema", "article_schema", "breadcrumb_schema"]
  {
  }

  lemma AuthorityUnlisted()
    ensures forall n :: n in AuthorityNames ==> n !in ["author_info", "citations", "dates", "expertise_signals"]
  {
  }

  lemma ContentQualityListed()
    ensures forall n :: n in ContentQualityNames ==>
      (n in ["word_count", "headings", "uniqueness", "freshness"] <==> n == "freshness")
  {
  }

  lemma CitationabilityUnlisted()
    ensures forall n :: n in CitationabilityNames ==> n !in ["facts_density", "tables", "clarity"]
  {
  }

  lemma TechnicalUnlisted()
    ensures forall n :: n in TechnicalNames ==> n !in ["page_speed", "mobile_friendly", "https", "crawlability"]
  {
  }

  /** The table is keyed by sub-category names the scorers do not use: of everything
      the calculator reports, only the four answerability sub-scores and content
      quality's freshness can ever receive tips. */
  lemma AnswerabilityHasTips(p: PageData)
    ensures forall s :: s in Answerability.SubScores(p) ==> HasTips("answerability", s.name)
  {
    AnswerabilityKeys();
    TipsAmong("answerability", AnswerabilityNames, AnswerabilityNames);
    assert forall s :: s in Answerability.SubScores(p) ==> s.name in AnswerabilityNames;
  }

  lemma StructuredDataNamesHaveNoTips()
    ensures forall n :: n in StructuredDataNames ==> !HasTips("structured_data", n)
  {
    StructuredDataKeys();
    TipsAmong("structured_data", StructuredDataNames, ["faq_schema", "howto_schema", "article_schema", "breadcrumb_schema"]);
    StructuredDataUnlisted();
  }

  lemma StructuredDataHasNoTips(p: PageData)
    ensures forall s :: s in StructuredData.SubScores(p) ==> !HasTips("structured_data", s.name)
  {
    StructuredDataNamesHaveNoTips();
    assert forall s :: s in StructuredData.SubScores(p) ==> s.name in StructuredDataNames;
  }

  lemma AuthorityNamesHaveNoTips()
    ensures forall n :: n in AuthorityNames ==> !HasTips("authority", n)
  {
    AuthorityKeys();
    TipsAmong("authority", AuthorityNames, ["author_info", "citations", "dates", "expertise_signals"]);
    AuthorityUnlisted();
  }

  lemma AuthorityHasNoTips(p: PageData)
    ensures forall s :: s in Authority.SubScores(p) ==> !HasTips("authority", s.name)
  {
    AuthorityNamesHaveNoTips();
    assert forall s :: s in Authority.SubScores(p) ==> s.name in AuthorityNames;
  }

  lemma ContentQualityNamesTips()
    ensures forall n :: n in ContentQualityNames ==> (HasTips("content_quality", n) <==> n == "freshness")
  {
    ContentQualityKeys();
    TipsAmong("content_quality", ContentQualityNames, ["word_count", "headings", "uniqueness", "freshness"]);
    ContentQualityListed();
  }

  lemma ContentQualityTipsOnlyFreshness(depth: real, p: PageData, ageOf: ContentQuality.AgeOracle)
    ensures forall s :: s in ContentQuality.SubScores(depth, p, ageOf) ==>
      (HasTips("content_quality", s.name) <==> s.name == "freshness")
  {
    ContentQualityNamesTips();
    assert forall s :: s in ContentQuality.SubScores(depth, p, ageOf) ==> s.name in ContentQualityNames;
  }

  lemma CitationabilityNamesHaveNoTips()
    ensures forall n :: n in CitationabilityNames ==> !HasTips("citationability", n)
  {
    CitationabilityKeys();
    TipsAmong("citationability", CitationabilityNames, ["facts_density", "tables", "clarity"]);
    CitationabilityUnlisted();
  }

  lemma CitationabilityHasNoTips(p: PageData)
    ensures forall s :: s in Citationability.SubScores(p) ==> !HasTips("citationability", s.name)
  {
    CitationabilityNamesHaveNoTips();
    assert forall s :: s in Citationability.SubScores(p) ==> s.name in CitationabilityNames;
  }

  lemma TechnicalNamesHaveNoTips()
    ensures forall n :: n in TechnicalNames ==> !HasTips("technical", n)
  {
    TechnicalKeys();
    TipsAmong("technical", TechnicalNames, ["page_speed", "mobile_friendly", "https", "crawlability"]);
    TechnicalUnlisted();
  }

  lemma TechnicalHasNoTips(p: PageData, semantic: real)
    ensures forall s :: s in Technical.SubScores(p, semantic) ==> !HasTips("technical", s.name)
  {
    TechnicalNamesHaveNoTips();
    assert forall s :: s in Technical.SubScores(p, semantic) ==> s.name in TechnicalNames;
  }

  /** A category outside the table yields nothing, whatever its sub-scores. */
  lemma UnknownCategoryIgnored(e: BucketEntry)
    requires FindCategory(TipTable, e.name).None?
    ensures EntryRecommendations(e) == []
  {
  }

  /** The inner loop of `generate_recommendations`, over one category's sub-scores. */
  method CollectSubRecommendations(e: BucketEntry, c: CategoryTips) returns (recs: seq<TipRecommendation>)
    ensures recs == SubRecommendations(e, c, e.subScores)
  {
    var subs := e.subScores;
    recs := [];
    for j := 0 to |subs|
      invariant recs == SubRecommendations(e, c, subs[..j])
    {
      assert subs[..j + 1][..j] == subs[..j];
      var rec := SubRecommendation(e, c, subs[j]);
      if rec.Some? {
        recs := recs + [rec.value];
      }
    }
    assert subs[..|subs|] == subs;
  }

  /** `generate_recommendations`: the loop over the breakdown, the stable sort by
      priority and the `top_n` cut. */
  method GenerateRecommendations(scores: AuditScore, topN: int) returns (r: seq<TipRecommendation>)
    ensures r == Recommendations(scores, topN)
  {
    var b := scores.breakdown;
    var recs: seq<TipRecommendation> := [];
    for i := 0 to |b|
      invariant recs == AllRecommendations(b[..i])
    {
      assert b[..i + 1][..i] == b[..i];
      var c := FindCategory(TipTable, b[i].name);
      if c.Some? {
        var part := CollectSubRecommendations(b[i], c.value);
        recs := recs + part;
      }
    }
    assert b[..|b|] == b;
    recs := SortDesc(recs, PriorityKey);
    r := PySliceTo(recs, topN);
  }

  /** `get_category_overview`: the table's title and description, or the category name
      and a placeholder for a category the table does not know. */
  function CategoryOverview(category: string): (r: (string, string))
    ensures FindCategory(TipTable, category).None? ==> r == (category, "No description available")
    ensures FindCategory(TipTable, category).Some? ==>
      r == (FindCategory(TipTable, category).value.title, FindCategory(TipTable, category).value.description)
  {
    match FindCategory(TipTable, category)
    case None => (category, "No description available")
    case Some(c) => (c.title, c.description)
  }
}

=== FILE: run_benchmark.dfy ===
/** The benchmark runner of run_benchmark.py: each benchmark site is audited, the
    audited ones are recorded with their error against the expected score, and the
    report summarises the errors overall, per benchmark category and per scoring
    category, and derives calibration advice. The audit API is an oracle from a URL
    to its response. */
module Benchmark {
  import opened Wrappers
  import opened Numbers
  import opened Sorting
  import opened Strings
  import opened Dicts

  function Abs(x: real): real { if x < 0.0 then -x else x }

  /** A site of the benchmark file, with its expected overall score and its expected
      score per scoring category. */
  datatype Site = Site(name: string, url: string, expectedScore: real, expectations: Dict<real>)

  /** The fields of an audit response the runner reads: `overall_score`, `grade` and
      each breakdown category's `score`; an absent field is None. */
  datatype AuditResponse = AuditResponse(
    overallScore: Option<real>, grade: Option<string>, breakdown: map<string, Option<real>>)

  /** The audit API: None when every attempt failed (or the response was empty). */
  type AuditApi = string -> Option<AuditResponse>

  // ---------------------------------------------------------------------------
  // Per-category differences of one site

  datatype CategoryDiff = CategoryDiff(expected: real, actual: real, difference: real, percentageError: real)

  /** `abs(diff / expected * 100) if expected > 0 else 0`: the error as a percentage
      of a positive expectation. */
  function PercentageError(diff: real, expected: real): (r: real)
    ensures r >= 0.0
    ensures expected <= 0.0 ==> r == 0.0
    ensures expected > 0.0 ==> r * expected == Abs(diff) * 100.0
  {
    if expected > 0.0 then
      var q := diff / expected;
      assert q * expected == diff;
      Abs(q * 100.0)
    else 0.0
  }

  /** `actual.get(category, {}).get('score', 0)`: a category or score missing from
      the breakdown counts as 0. */
  function ActualScore(actual: map<string, Option<real>>, category: string): (r: real)
    ensures (category !in actual || actual[category].None?) ==> r == 0.0
    ensures category in actual && actual[category].Some? ==> r == actual[category].value
  {
    if category in actual then actual[category].GetOr(0.0) else 0.0
  }

  function DiffOf(expected: real, actual: real): CategoryDiff
  {
    CategoryDiff(expected, actual, actual - expected, PercentageError(actual - expected, expected))
  }

  /** `d` compares `expected` with `actual`. */
  predicate Compares(d: CategoryDiff, expected: real, actual: real)
  {
    d.expected == expected && d.actual == actual && d.difference == actual - expected &&
    d.percentageError == PercentageError(d.difference, expected)
  }

  /** What `_analyze_category_differences` returns: each expected category assigned
      in turn. */
  function CategoryDifferences(expected: Dict<real>, actual: map<string, Option<real>>): Dict<CategoryDiff>
  {
    if expected == [] then []
    else
      var (c, e) := expected[|expected| - 1];
      Put(CategoryDifferences(expected[..|expected| - 1], actual), c, DiffOf(e, ActualScore(actual, c)))
  }

  /** One entry per expected category, in the expectations' order, comparing the
      expected score with the breakdown's. */
  lemma {:induction false} CategoryDifferencesFacts(expected: Dict<real>, actual: map<string, Option<real>>)
    requires NoDuplicates(Keys(expected))
    ensures |CategoryDifferences(expected, actual)| == |expected|
    ensures Keys(CategoryDifferences(expected, actual)) == Keys(expected)
    ensures forall i :: 0 <= i < |expected| ==>
      Compares(CategoryDifferences(expected, actual)[i].1, expected[i].1, ActualScore(actual, expected[i].0))
  {
    if expected != [] {
      var front := expected[..|expected| - 1];
      var (c, e) := expected[|expected| - 1];
      assert Keys(front) == Keys(expected)[..|front|];
      CategoryDifferencesFacts(front, actual);
      var d := CategoryDifferences(front, actual);
      assert c !in Keys(d) by {
        assert Keys(expected)[|front|] == c;
      }
      assert CategoryDifferences(expected, actual) == d + [(c, DiffOf(e, ActualScore(actual, c)))];
      assert Keys(expected) == Keys(front) + [c];
    }
  }

  /** `_analyze_category_differences`. */
  method AnalyzeCategoryDifferences(expected: Dict<real>, actual: map<string, Option<real>>)
    returns (differences: Dict<CategoryDiff>)
    ensures differences == CategoryDifferences(expected, actual)
  {
    differences := [];
    for i := 0 to |expected|
      invariant differences == CategoryDifferences(expected[..i], actual)
    {
      assert expected[..i + 1][..i] == expected[..i];
      var (category, expectedScore) := expected[i];
      var actualScore := ActualScore(actual, category);
      var diff := actualScore - expectedScore;
      differences := Put(differences, category, CategoryDiff(expectedScore, actualScore, diff, PercentageError(diff, expectedScore)));
    }
    assert expected[..|expected|] == expected;
  }

  // ---------------------------------------------------------------------------
  // Recorded results

  datatype BenchmarkResult = BenchmarkResult(
    category: string, name: string, url: string,
    expectedScore: real, actualScore: real, difference: real, percentageError: real,
    expectedBreakdown: Dict<real>, actualBreakdown: map<string, Option<real>>,
    grade: string, categoryDifferences: Dict<CategoryDiff>)

  /** The difference and its percentage agree with the two scores. */
  predicate Consistent(r: BenchmarkResult)
  {
    r.difference == r.actualScore - r.expectedScore &&
    r.percentageError == PercentageError(r.difference, r.expectedScore)
  }

  /** The record of a site whose audit succeeded; a missing overall score counts as
      0 and a missing grade as "N/A". */
  function ResultFor(category: string, site: Site, audit: AuditResponse): (r: BenchmarkResult)
    ensures Consistent(r)
    ensures r.category == category && r.name == site.name && r.url == site.url
    ensures r.expectedScore == site.expectedScore && r.actualScore == audit.overallScore.GetOr(0.0)
    ensures r.grade == audit.grade.GetOr("N/A")
    ensures r.categoryDifferences == CategoryDifferences(site.expectations, audit.breakdown)
  {
    var actual := audit.overallScore.GetOr(0.0);
    var diff := actual - site.expectedScore;
    BenchmarkResult(category, site.name, site.url, site.expectedScore, actual, diff,
                    PercentageError(diff, site.expectedScore), site.expectations, audit.breakdown,
                    audit.grade.GetOr("N/A"), CategoryDifferences(site.expectations, audit.breakdown))
  }

  /** The sites whose audit succeeded. */
  function Audited(audit: AuditApi): Site -> bool
  {
    (s: Site) => audit(s.url).Some?
  }

  /** The results `run_benchmark_category` records, in the sites' order. */
  function CategoryResults(category: string, sites: seq<Site>, audit: AuditApi): seq<BenchmarkResult>
  {
    if sites == [] then []
    else
      var s := sites[|sites| - 1];
      CategoryResults(category, sites[..|sites| - 1], audit) +
        match audit(s.url)
        case None => []
        case Some(a) => [ResultFor(category, s, a)]
  }

  /** One result per site whose audit succeeded, each the record of such a site. */
  lemma {:induction false} CategoryResultsFacts(category: string, sites: seq<Site>, audit: AuditApi)
    ensures |CategoryResults(category, sites, audit)| == |Filter(sites, Audited(audit))|
    ensures forall x :: x in CategoryResults(category, sites, audit) ==>
      exists s :: s in sites && audit(s.url).Some? && x == ResultFor(category, s, audit(s.url).value)
  {
    if sites != [] {
      var front := sites[..|sites| - 1];
      var s := sites[|sites| - 1];
      assert sites == front + [s];
      FilterAppend(front, [s], Audited(audit));
      CategoryResultsFacts(category, front, audit);
    }
  }

  /** The results of every category, in the file's order. */
  function AllResults(categories: Dict<seq<Site>>, audit: AuditApi): seq<BenchmarkResult>
  {
    if categories == [] then []
    else
      var (name, sites) := categories[|categories| - 1];
      AllResults(categories[..|categories| - 1], audit) + CategoryResults(name, sites, audit)
  }

  /** One more category appends its results. */
  lemma AllResultsStep(categories: Dict<seq<Site>>, i: nat, audit: AuditApi)
    requires i < |categories|
    ensures AllResults(categories[..i + 1], audit) ==
      AllResults(categories[..i], audit) + CategoryResults(categories[i].0, categories[i].1, audit)
  {
    assert categories[..i + 1][..i] == categories[..i];
  }

  /** The runner's results after one more category. */
  lemma AppendCategory(start: seq<BenchmarkResult>, categories: Dict<seq<Site>>, i: nat, audit: AuditApi,
                       before: seq<BenchmarkResult>, got: seq<BenchmarkResult>)
    requires i < |categories|
    requires before == start + AllResults(categories[..i], audit)
    requires got == CategoryResults(categories[i].0, categories[i].1, audit)
    ensures before + got == start + AllResults(categories[..i + 1], audit)
  {
    AllResultsStep(categories, i, audit);
  }

  // ---------------------------------------------------------------------------
  // Summary

  function Expected(r: BenchmarkResult): real { r.expectedScore }
  function Actual(r: BenchmarkResult): real { r.actualScore }
  function Difference(r: BenchmarkResult): real { r.difference }
  function AbsError(r: BenchmarkResult): real { Abs(r.difference) }

  /** The test "the result is within `limit` points". */
  function WithinLimit(limit: real): BenchmarkResult -> bool
  {
    (r: BenchmarkResult) => Abs(r.difference) <= limit
  }

  function WithinCount(rs: seq<BenchmarkResult>, limit: real): nat
  {
    |Filter(rs, WithinLimit(limit))|
  }

  /** A wider tolerance admits at least as many results. */
  lemma {:induction false} WithinMonotone(rs: seq<BenchmarkResult>, a: real, b: real)
    requires a <= b
    ensures WithinCount(rs, a) <= WithinCount(rs, b)
    ensures WithinCount(rs, b) <= |rs|
  {
    if rs != [] {
      WithinMonotone(rs[1..], a, b);
    }
  }

  datatype Accuracy = Accuracy(count: nat, percentage: real)

  function AccuracyOf(count: nat, total: nat): Accuracy
    requires total > 0
  {
    Accuracy(count, RoundTenth(count as real / total as real * 100.0))
  }

  datatype Bias = Underscoring | Overscoring | Neutral

  function BiasOf(averageDifference: real): Bias
  {
    if averageDifference < 0.0 then Underscoring
    else if averageDifference > 0.0 then Overscoring
    else Neutral
  }

  datatype Summary = Summary(
    totalSitesTested: nat, averageExpectedScore: real, averageActualScore: real,
    averageDifference: real, averageAbsoluteError: real,
    within5: Accuracy, within10: Accuracy, within15: Accuracy, systematicBias: Bias)

  /** What `_generate_summary` returns; the bias is judged on the unrounded average. */
  function SummaryOf(rs: seq<BenchmarkResult>): Summary
    requires rs != []
  {
    var n := |rs| as real;
    var averageDifference := SumBy(rs, Difference) / n;
    Summary(|rs|, RoundTenth(SumBy(rs, Expected) / n), RoundTenth(SumBy(rs, Actual) / n),
            RoundTenth(averageDifference), RoundTenth(SumBy(rs, AbsError) / n),
            AccuracyOf(WithinCount(rs, 5.0), |rs|), AccuracyOf(WithinCount(rs, 10.0), |rs|),
            AccuracyOf(WithinCount(rs, 15.0), |rs|), BiasOf(averageDifference))
  }

  lemma PercentOrder(a: nat, b: nat, total: nat)
    requires 0 < total && a <= b <= total
    ensures 0.0 <= a as real / total as real * 100.0 <= b as real / total as real * 100.0 <= 100.0
  {
    var n := total as real;
    var x, y := a as real / n, b as real / n;
    assert x * n == a as real && y * n == b as real;
    assert 0.0 <= x <= y <= 1.0;
  }

  lemma PercentageBounds(a: nat, b: nat, total: nat)
    requires 0 < total && a <= b <= total
    ensures 0.0 <= AccuracyOf(a, total).percentage <= AccuracyOf(b, total).percentage <= 100.0
  {
    var pa, pb := a as real / total as real * 100.0, b as real / total as real * 100.0;
    PercentOrder(a, b, total);
    RoundTenthMonotone(0.0, pa);
    RoundTenthMonotone(pa, pb);
    RoundTenthMonotone(pb, 100.0);
    TenthOfInt(0);
    TenthOfInt(100);
    RoundTenthOfTenth(0.0);
    RoundTenthOfTenth(100.0);
  }

  /** The accuracy bands are nested: within 5 points ≤ within 10 ≤ within 15 ≤ all
      sites, and their percentages are ordered the same way within 0..100. */
  lemma SummaryCounts(rs: seq<BenchmarkResult>)
    requires rs != []
    ensures SummaryOf(rs).totalSitesTested == |rs|
    ensures SummaryOf(rs).within5.count <= SummaryOf(rs).within10.count <= SummaryOf(rs).within15.count <= |rs|
    ensures 0.0 <= SummaryOf(rs).within5.percentage <= SummaryOf(rs).within10.percentage
    ensures SummaryOf(rs).within10.percentage <= SummaryOf(rs).within15.percentage <= 100.0
  {
    WithinMonotone(rs, 5.0, 10.0);
    WithinMonotone(rs, 10.0, 15.0);
    var w5, w10, w15 := WithinCount(rs, 5.0), WithinCount(rs, 10.0), WithinCount(rs, 15.0);
    PercentageBounds(w5, w10, |rs|);
    PercentageBounds(w10, w15, |rs|);
  }

  /** With consistent records the summed difference is the summed actual score less
      the summed expected score. */
  lemma {:induction false} SumDifferenceSplit(rs: seq<BenchmarkResult>)
    requires forall i :: 0 <= i < |rs| ==> Consistent(rs[i])
    ensures SumBy(rs, Difference) == SumBy(rs, Actual) - SumBy(rs, Expected)
  {
    if rs != [] {
      SumDifferenceSplit(rs[..|rs| - 1]);
    }
  }

  /** The summed difference lies within the summed absolute error either way. */
  lemma {:induction false} SumAbsBound(rs: seq<BenchmarkResult>)
    ensures -SumBy(rs, AbsError) <= SumBy(rs, Difference) <= SumBy(rs, AbsError)
  {
    if rs != [] {
      SumAbsBound(rs[..|rs| - 1]);
    }
  }

  /** Rounded averages keep `|mean| <= mean of absolute values`. */
  lemma RoundedMeanAbs(s: real, a: real, n: real)
    requires n > 0.0 && -a <= s <= a
    ensures Abs(RoundTenth(s / n)) <= RoundTenth(a / n)
  {
    DivKeepsBounds(s, a, n);
    RoundedAbs(s / n, a / n);
  }

  /** Dividing by a positive number keeps `-a <= s <= a`. */
  lemma DivKeepsBounds(s: real, a: real, n: real)
    requires n > 0.0 && -a <= s <= a
    ensures -(a / n) <= s / n <= a / n
  {
    var x, y := s / n, a / n;
    assert (y - x) * n == a - s;
    assert (x + y) * n == s + a;
    NonNegativeFactor(y - x, n);
    NonNegativeFactor(x + y, n);
  }

  lemma NonNegativeFactor(z: real, n: real)
    requires n > 0.0 && z * n >= 0.0
    ensures z >= 0.0
  {
  }

  /** Rounding keeps `|x| <= y`. */
  lemma RoundedAbs(x: real, y: real)
    requires -y <= x <= y
    ensures Abs(RoundTenth(x)) <= RoundTenth(y)
  {
    RoundTenthMonotone(x, y);
    RoundTenthMonotone(-x, y);
    RoundTenthNeg(x);
  }

  /** The systematic bias is "underscoring" exactly when the scorer's average is below
      the expected average, "overscoring" when above, "neutral" when equal; and the
      average difference never exceeds the average absolute error in size. */
  lemma SummaryBias(rs: seq<BenchmarkResult>)
    requires rs != []
    requires forall i :: 0 <= i < |rs| ==> Consistent(rs[i])
    ensures SummaryOf(rs).systematicBias == Underscoring <==> SumBy(rs, Actual) < SumBy(rs, Expected)
    ensures SummaryOf(rs).systematicBias == Overscoring <==> SumBy(rs, Actual) > SumBy(rs, Expected)
    ensures SummaryOf(rs).systematicBias == Neutral <==> SumBy(rs, Actual) == SumBy(rs, Expected)
    ensures Abs(SummaryOf(rs).averageDifference) <= SummaryOf(rs).averageAbsoluteError
  {
    SumDifferenceSplit(rs);
    SumAbsBound(rs);
    var n := |rs| as real;
    var d := SumBy(rs, Difference);
    BiasSign(d, n);
    RoundedMeanAbs(d, SumBy(rs, AbsError), n);
  }

  /** The bias of a mean is the sign of the sum. */
  lemma BiasSign(d: real, n: real)
    requires n > 0.0
    ensures BiasOf(d / n) == if d < 0.0 then Underscoring else if d > 0.0 then Overscoring else Neutral
  {
    assert d / n < 0.0 <==> d < 0.0;
    assert d / n > 0.0 <==> d > 0.0;
  }

  // ---------------------------------------------------------------------------
  // Analysis by benchmark category

  datatype CategoryStats = CategoryStats(
    sites: seq<string>, differences: seq<real>, expectedScores: seq<real>, actualScores: seq<real>,
    averageExpected: real, averageActual: real, averageDifference: real, averageAbsError: real)

  function Project(rs: seq<BenchmarkResult>, f: BenchmarkResult -> real): seq<real>
  {
    seq(|rs|, i requires 0 <= i < |rs| => f(rs[i]))
  }

  /** The statistics of one category's results. */
  function StatsOf(group: seq<BenchmarkResult>): (s: CategoryStats)
    requires group != []
    ensures |s.sites| == |s.differences| == |s.expectedScores| == |s.actualScores| == |group|
    ensures Abs(s.averageDifference) <= s.averageAbsError
  {
    var n := |group| as real;
    SumAbsBound(group);
    RoundedMeanAbs(SumBy(group, Difference), SumBy(group, AbsError), n);
    CategoryStats(seq(|group|, i requires 0 <= i < |group| => group[i].name),
                  Project(group, Difference), Project(group, Expected), Project(group, Actual),
                  RoundTenth(SumBy(group, Expected) / n), RoundTenth(SumBy(group, Actual) / n),
                  RoundTenth(SumBy(group, Difference) / n), RoundTenth(SumBy(group, AbsError) / n))
  }

  function CategoryPairs(rs: seq<BenchmarkResult>): Dict<BenchmarkResult>
  {
    seq(|rs|, i requires 0 <= i < |rs| => (rs[i].category, rs[i]))
  }

  function Categories(rs: seq<BenchmarkResult>): seq<string>
  {
    seq(|rs|, i requires 0 <= i < |rs| => rs[i].category)
  }

  predicate NonEmptyGroups<V>(g: Dict<seq<V>>)
  {
    forall i :: 0 <= i < |g| ==> g[i].1 != []
  }

  function StatsAll(groups: Dict<seq<BenchmarkResult>>): Dict<CategoryStats>
    requires NonEmptyGroups(groups)
  {
    seq(|groups|, i requires 0 <= i < |groups| => (groups[i].0, StatsOf(groups[i].1)))
  }

  /** What `_analyze_by_category` returns. */
  function CategoryAnalysis(rs: seq<BenchmarkResult>): Dict<CategoryStats>
  {
    GroupedEntries(CategoryPairs(rs));
    StatsAll(Grouped(CategoryPairs(rs)))
  }

  function InCategory(c: string): BenchmarkResult -> bool
  {
    (r: BenchmarkResult) => r.category == c
  }

  lemma {:induction false} CategoryValues(rs: seq<BenchmarkResult>, c: string)
    ensures ValuesOf(CategoryPairs(rs), c) == Filter(rs, InCategory(c))
  {
    if rs != [] {
      var front := rs[..|rs| - 1];
      assert CategoryPairs(rs)[..|rs| - 1] == CategoryPairs(front);
      CategoryValues(front, c);
      assert rs == front + [rs[|rs| - 1]];
      FilterAppend(front, [rs[|rs| - 1]], InCategory(c));
    }
  }

  /** Each benchmark category appears once, in order of first appearance, with the
      statistics of exactly the results recorded for it. */
  lemma CategoryAnalysisFacts(rs: seq<BenchmarkResult>)
    ensures Keys(CategoryAnalysis(rs)) == Dedup(Categories(rs))
    ensures forall i :: 0 <= i < |CategoryAnalysis(rs)| ==>
      Filter(rs, InCategory(CategoryAnalysis(rs)[i].0)) != [] &&
      CategoryAnalysis(rs)[i].1 == StatsOf(Filter(rs, InCategory(CategoryAnalysis(rs)[i].0)))
  {
    var pairs := CategoryPairs(rs);
    var g := Grouped(pairs);
    GroupedEntries(pairs);
    GroupedKeys(pairs);
    assert Keys(pairs) == Categories(rs);
    assert Keys(CategoryAnalysis(rs)) == Keys(g);
    forall i | 0 <= i < |g|
      ensures g[i].1 == Filter(rs, InCategory(g[i].0))
    {
      CategoryValues(rs, g[i].0);
    }
  }

  // ---------------------------------------------------------------------------
  // Scoring issues

  /** The (scoring category, difference) pairs of every result, in order. */
  function DiffPairs(rs: seq<BenchmarkResult>): Dict<real>
  {
    if rs == [] then []
    else
      var d := rs[|rs| - 1].categoryDifferences;
      DiffPairs(rs[..|rs| - 1]) + seq(|d|, i requires 0 <= i < |d| => (d[i].0, d[i].1.difference))
  }

  datatype CategoryIssue = CategoryIssue(category: string, average: real)
  datatype SiteError = SiteError(name: string, expected: real, actual: real, difference: real)
  datatype Issues = Issues(
    consistentlyLow: seq<CategoryIssue>, consistentlyHigh: seq<CategoryIssue>, largestErrors: seq<SiteError>)

  /** The `if avg < -5` / `elif avg > 5` test: `low` selects the first branch. */
  predicate Flag(diffs: seq<real>, low: bool)
    requires diffs != []
  {
    if low then Mean(diffs) < -5.0 else !(Mean(diffs) < -5.0) && Mean(diffs) > 5.0
  }

  /** The categories of one branch with their rounded average. */
  function Flagged(g: Dict<seq<real>>, low: bool): seq<CategoryIssue>
    requires NonEmptyGroups(g)
  {
    if g == [] then []
    else
      var (c, diffs) := g[|g| - 1];
      Flagged(g[..|g| - 1], low) + if Flag(diffs, low) then [CategoryIssue(c, RoundTenth(Mean(diffs)))] else []
  }

  function IssueCategories(xs: seq<CategoryIssue>): seq<string>
  {
    seq(|xs|, i requires 0 <= i < |xs| => xs[i].category)
  }

  /** The entry `g[i]` is flagged as `x`. */
  predicate FlaggedAs(g: Dict<seq<real>>, i: int, x: CategoryIssue, low: bool)
    requires NonEmptyGroups(g)
  {
    0 <= i < |g| && g[i].0 == x.category && Flag(g[i].1, low) && x.average == RoundTenth(Mean(g[i].1))
  }

  /** Each flagged category is an entry whose average passes the test, every such
      entry is flagged, and no category is flagged twice. */
  lemma {:induction false} FlaggedFacts(g: Dict<seq<real>>, low: bool)
    requires NonEmptyGroups(g)
    ensures forall x :: x in Flagged(g, low) ==> exists i :: FlaggedAs(g, i, x, low)
    ensures forall i :: 0 <= i < |g| && Flag(g[i].1, low) ==> CategoryIssue(g[i].0, RoundTenth(Mean(g[i].1))) in Flagged(g, low)
    ensures forall x :: x in Flagged(g, low) ==> x.category in Keys(g)
    ensures NoDuplicates(Keys(g)) ==> NoDuplicates(IssueCategories(Flagged(g, low)))
  {
    if g != [] {
      var front := g[..|g| - 1];
      var (c, diffs) := g[|g| - 1];
      FlaggedFacts(front, low);
      var f := Flagged(front, low);
      var r := Flagged(g, low);
      forall x | x in r
        ensures exists i :: FlaggedAs(g, i, x, low)
      {
        if x in f {
          var i :| FlaggedAs(front, i, x, low);
          assert FlaggedAs(g, i, x, low);
        } else {
          assert FlaggedAs(g, |g| - 1, x, low);
        }
      }
      forall x | x in r
        ensures x.category in Keys(g)
      {
        var i :| FlaggedAs(g, i, x, low);
        assert Keys(g)[i] == x.category;
      }
      if NoDuplicates(Keys(g)) {
        assert Keys(front) == Keys(g)[..|front|];
        assert c !in Keys(front) by {
          assert Keys(g)[|front|] == c;
        }
        assert forall x :: x in f ==> x.category != c;
        assert IssueCategories(r) == IssueCategories(f) + if Flag(diffs, low) then [c] else [];
      }
    }
  }

  /** No category is flagged by both branches. */
  lemma NotBoth(g: Dict<seq<real>>, x: CategoryIssue, y: CategoryIssue)
    requires NonEmptyGroups(g) && NoDuplicates(Keys(g))
    requires x in Flagged(g, true) && y in Flagged(g, false)
    ensures x.category != y.category
  {
    FlaggedFacts(g, true);
    FlaggedFacts(g, false);
    var p :| FlaggedAs(g, p, x, true);
    var q :| FlaggedAs(g, q, y, false);
    assert Keys(g)[p] == x.category && Keys(g)[q] == y.category;
    assert Flag(g[p].1, true) && Flag(g[q].1, false);
    assert p != q;
  }

  /** The low and the high branch never flag the same category. */
  lemma FlaggedDisjoint(g: Dict<seq<real>>)
    requires NonEmptyGroups(g) && NoDuplicates(Keys(g))
    ensures NoDuplicates(IssueCategories(Flagged(g, true)) + IssueCategories(Flagged(g, false)))
  {
    FlaggedFacts(g, true);
    FlaggedFacts(g, false);
    var lo, hi := Flagged(g, true), Flagged(g, false);
    var a, b := IssueCategories(lo), IssueCategories(hi);
    forall c | c in a
      ensures c !in b
    {
      var i :| 0 <= i < |a| && a[i] == c;
      if c in b {
        var j :| 0 <= j < |b| && b[j] == c;
        NotBoth(g, lo[i], hi[j]);
      }
    }
    NoDuplicatesConcat(a, b);
  }

  function SiteErrorOf(r: BenchmarkResult): SiteError
  {
    SiteError(r.name, r.expectedScore, r.actualScore, r.difference)
  }

  /** The five results with the largest absolute error, largest first; ties keep the
      results' order. */
  function LargestErrors(rs: seq<BenchmarkResult>): seq<SiteError>
  {
    var top := Take(SortDesc(rs, AbsError), 5);
    seq(|top|, i requires 0 <= i < |top| => SiteErrorOf(top[i]))
  }

  /** What `_identify_scoring_issues` returns. */
  function IssuesOf(rs: seq<BenchmarkResult>): Issues
  {
    var g := Grouped(DiffPairs(rs));
    GroupedEntries(DiffPairs(rs));
    Issues(Flagged(g, true), Flagged(g, false), LargestErrors(rs))
  }

  /** At most five sites, ordered by absolute error, largest first; every result is
      listed or has an error no larger than the last one listed. */
  lemma LargestErrorsFacts(rs: seq<BenchmarkResult>)
    ensures |LargestErrors(rs)| == if |rs| < 5 then |rs| else 5
    ensures forall i, j :: 0 <= i < j < |LargestErrors(rs)| ==>
      Abs(LargestErrors(rs)[i].difference) >= Abs(LargestErrors(rs)[j].difference)
    ensures forall x :: x in rs ==>
      SiteErrorOf(x) in LargestErrors(rs) ||
      (|LargestErrors(rs)| == 5 && Abs(x.difference) <= Abs(LargestErrors(rs)[4].difference))
  {
    var sorted := SortDesc(rs, AbsError);
    SortDescSorted(rs, AbsError);
    var top := Take(sorted, 5);
    var l := LargestErrors(rs);
    forall i, j | 0 <= i < j < |l|
      ensures Abs(l[i].difference) >= Abs(l[j].difference)
    {
      assert AbsError(sorted[i]) >= AbsError(sorted[j]);
    }
    forall x | x in rs
      ensures SiteErrorOf(x) in l || (|l| == 5 && Abs(x.difference) <= Abs(l[4].difference))
    {
      assert x in multiset(sorted);
      var k :| 0 <= k < |sorted| && sorted[k] == x;
      if k < 5 {
        assert l[k] == SiteErrorOf(x);
      } else {
        assert AbsError(sorted[4]) >= AbsError(sorted[k]);
      }
    }
  }

  /** Categories averaging more than five points under their expectation are
      consistently low, more than five over consistently high; the two lists are
      disjoint, each names a category at most once, and the rounded averages stay
      beyond the threshold. */
  lemma IssuesFacts(rs: seq<BenchmarkResult>)
    ensures forall x :: x in IssuesOf(rs).consistentlyLow ==> x.average <= -5.0
    ensures forall x :: x in IssuesOf(rs).consistentlyHigh ==> x.average >= 5.0
    ensures NoDuplicates(IssueCategories(IssuesOf(rs).consistentlyLow) + IssueCategories(IssuesOf(rs).consistentlyHigh))
    ensures forall c :: c in Keys(DiffPairs(rs)) && Mean(ValuesOf(DiffPairs(rs), c)) < -5.0 ==>
      CategoryIssue(c, RoundTenth(Mean(ValuesOf(DiffPairs(rs), c)))) in IssuesOf(rs).consistentlyLow
    ensures forall c :: c in Keys(DiffPairs(rs)) && Mean(ValuesOf(DiffPairs(rs), c)) > 5.0 ==>
      CategoryIssue(c, RoundTenth(Mean(ValuesOf(DiffPairs(rs), c)))) in IssuesOf(rs).consistentlyHigh
  {
    var pairs := DiffPairs(rs);
    var g := Grouped(pairs);
    GroupedEntries(pairs);
    FlaggedFacts(g, true);
    FlaggedFacts(g, false);
    FlaggedDisjoint(g);
    TenthOfInt(5);
    TenthOfInt(-5);
    RoundTenthOfTenth(5.0);
    RoundTenthOfTenth(-5.0);
    forall x | x in Flagged(g, true)
      ensures x.average <= -5.0
    {
      var i :| FlaggedAs(g, i, x, true);
      RoundTenthMonotone(Mean(g[i].1), -5.0);
    }
    forall x | x in Flagged(g, false)
      ensures x.average >= 5.0
    {
      var i :| FlaggedAs(g, i, x, false);
      RoundTenthMonotone(5.0, Mean(g[i].1));
    }
    GroupedKeys(pairs);
    forall c | c in Keys(pairs)
      ensures exists i :: 0 <= i < |g| && g[i].0 == c && g[i].1 == ValuesOf(pairs, c)
    {
      assert c in Keys(g);
      var i :| 0 <= i < |Keys(g)| && Keys(g)[i] == c;
      assert g[i].0 == c;
    }
  }

  // ---------------------------------------------------------------------------
  // Calibration recommendations

  /** A rendered `"Underscoring by {x:.1f} points"` / `"Overscoring by …"` message. */
  datatype Gap = UnderscoringBy(points: real) | OverscoringBy(points: real)

  datatype PriorityIssue = PriorityIssue(issue: Gap, action: string, severity: string)
  datatype Adjustment = Adjustment(currentIssue: Gap, suggestedAction: string, priority: string)
  datatype Calibration = Calibration(priority: seq<PriorityIssue>, weightAdjustments: Dict<Adjustment>)

  const ReviewAction := "Review all scoring formulas for excessive strictness or leniency"
  const LenientAction := "Increase max_score or make formulas more lenient"
  const StricterAction := "Decrease max_score or make formulas stricter"

  /** The CRITICAL entry for an average difference of more than ten points. */
  function PriorityFor(averageDifference: real): seq<PriorityIssue>
  {
    if Abs(averageDifference) > 10.0 then
      var gap := if averageDifference < 0.0 then UnderscoringBy(Abs(averageDifference))
                 else OverscoringBy(Abs(averageDifference));
      [PriorityIssue(gap, ReviewAction, "CRITICAL")]
    else []
  }

  function LowAdjustments(low: seq<CategoryIssue>): Dict<Adjustment>
  {
    seq(|low|, i requires 0 <= i < |low| =>
      (low[i].category, Adjustment(UnderscoringBy(Abs(low[i].average)), LenientAction, "HIGH")))
  }

  function HighAdjustments(high: seq<CategoryIssue>): Dict<Adjustment>
  {
    seq(|high|, i requires 0 <= i < |high| =>
      (high[i].category, Adjustment(OverscoringBy(high[i].average), StricterAction, "MEDIUM")))
  }

  /** What `_generate_calibration_recommendations` returns (its `formula_changes` list
      is always empty). */
  function CalibrationOf(rs: seq<BenchmarkResult>): Calibration
    requires rs != []
  {
    var issues := IssuesOf(rs);
    Calibration(PriorityFor(SummaryOf(rs).averageDifference),
                PutAll(PutAll([], LowAdjustments(issues.consistentlyLow)), HighAdjustments(issues.consistentlyHigh)))
  }

  /** A CRITICAL recommendation is made exactly when the rounded average difference
      exceeds ten points, and its direction agrees with the systematic bias. */
  lemma CalibrationPriority(rs: seq<BenchmarkResult>)
    requires rs != []
    ensures |CalibrationOf(rs).priority| <= 1
    ensures CalibrationOf(rs).priority != [] <==> Abs(SummaryOf(rs).averageDifference) > 10.0
    ensures CalibrationOf(rs).priority != [] ==> CalibrationOf(rs).priority[0].severity == "CRITICAL"
    ensures CalibrationOf(rs).priority != [] && CalibrationOf(rs).priority[0].issue.UnderscoringBy? ==>
      SummaryOf(rs).systematicBias == Underscoring
    ensures CalibrationOf(rs).priority != [] && CalibrationOf(rs).priority[0].issue.OverscoringBy? ==>
      SummaryOf(rs).systematicBias == Overscoring
  {
    var avg := SumBy(rs, Difference) / |rs| as real;
    assert SummaryOf(rs).averageDifference == RoundTenth(avg);
    assert avg - 0.05 <= RoundTenth(avg) <= avg + 0.05;
  }

  /** Every consistently low category gets a HIGH adjustment and every consistently
      high one a MEDIUM adjustment, the low ones first, none overwritten. */
  lemma AdjustmentsFacts(low: seq<CategoryIssue>, high: seq<CategoryIssue>)
    requires NoDuplicates(IssueCategories(low) + IssueCategories(high))
    ensures PutAll(PutAll([], LowAdjustments(low)), HighAdjustments(high)) == LowAdjustments(low) + HighAdjustments(high)
    ensures forall i :: 0 <= i < |LowAdjustments(low) + HighAdjustments(high)| ==>
      ((LowAdjustments(low) + HighAdjustments(high))[i].1.priority == "HIGH" <==>
       (LowAdjustments(low) + HighAdjustments(high))[i].0 in IssueCategories(low))
  {
    var lo, hi := LowAdjustments(low), HighAdjustments(high);
    var cats := IssueCategories(low) + IssueCategories(high);
    assert Keys(lo) == IssueCategories(low);
    assert Keys(hi) == IssueCategories(high);
    assert [] + Keys(lo) == cats[..|lo|];
    PutAllFresh([], lo);
    assert [] + lo == lo;
    assert Keys(lo) + Keys(hi) == cats;
    PutAllFresh(lo, hi);
    var wa: Dict<Adjustment> := lo + hi;
    forall i | 0 <= i < |wa|
      ensures wa[i].1.priority == "HIGH" <==> wa[i].0 in IssueCategories(low)
    {
      if i < |lo| {
        assert wa[i] == lo[i];
        assert IssueCategories(low)[i] == wa[i].0;
      } else {
        assert cats[i] == wa[i].0 && wa[i] == hi[i - |lo|];
        forall j | 0 <= j < |lo|
          ensures IssueCategories(low)[j] != wa[i].0
        {
          assert cats[j] == IssueCategories(low)[j];
        }
      }
    }
  }

  /** The weight adjustments of the report: HIGH for the consistently low categories,
      then MEDIUM for the consistently high ones. */
  lemma CalibrationAdjustments(rs: seq<BenchmarkResult>)
    requires rs != []
    ensures CalibrationOf(rs).weightAdjustments ==
      LowAdjustments(IssuesOf(rs).consistentlyLow) + HighAdjustments(IssuesOf(rs).consistentlyHigh)
    ensures forall i :: 0 <= i < |CalibrationOf(rs).weightAdjustments| ==>
      (CalibrationOf(rs).weightAdjustments[i].1.priority == "HIGH" <==>
       CalibrationOf(rs).weightAdjustments[i].0 in IssueCategories(IssuesOf(rs).consistentlyLow))
  {
    IssuesFacts(rs);
    AdjustmentsFacts(IssuesOf(rs).consistentlyLow, IssuesOf(rs).consistentlyHigh);
  }

  // ---------------------------------------------------------------------------
  // The report

  datatype Report = Report(
    summary: Summary, categoryAnalysis: Dict<CategoryStats>, scoringIssues: Issues,
    calibration: Calibration, detailedResults: seq<BenchmarkResult>)

  /** What `generate_report` returns; `{}` (None) when nothing was recorded. */
  function ReportOf(rs: seq<BenchmarkResult>): (r: Option<Report>)
    ensures r.None? <==> rs == []
    ensures r.Some? ==> r.value.detailedResults == rs && r.value.summary.totalSitesTested == |rs|
  {
    if rs == [] then None
    else Some(Report(SummaryOf(rs), CategoryAnalysis(rs), IssuesOf(rs), CalibrationOf(rs), rs))
  }

  /** `BenchmarkRunner`: the results recorded so far. */
  class BenchmarkRunner {
    var apiUrl: string
    var results: seq<BenchmarkResult>

    predicate Valid()
      reads this
    {
      forall i :: 0 <= i < |results| ==> Consistent(results[i])
    }

    constructor(apiUrl: string)
      ensures this.apiUrl == apiUrl && results == [] && Valid()
    {
      this.apiUrl := apiUrl;
      results := [];
    }

    /** `run_benchmark_category`: each site is audited; a successful audit is
        recorded here and in the runner's results. */
    method RunCategory(category: string, sites: seq<Site>, audit: AuditApi)
      returns (categoryResults: seq<BenchmarkResult>)
      requires Valid()
      modifies this
      ensures Valid()
      ensures categoryResults == CategoryResults(category, sites, audit)
      ensures results == old(results) + categoryResults
      ensures apiUrl == old(apiUrl)
    {
      categoryResults := [];
      for i := 0 to |sites|
        invariant categoryResults == CategoryResults(category, sites[..i], audit)
        invariant results == old(results) + categoryResults
        invariant Valid() && apiUrl == old(apiUrl)
      {
        assert sites[..i + 1][..i] == sites[..i];
        var site := sites[i];
        var response := audit(site.url);
        if response.Some? {
          var a := response.value;
          var actualScore := a.overallScore.GetOr(0.0);
          var difference := actualScore - site.expectedScore;
          var differences := AnalyzeCategoryDifferences(site.expectations, a.breakdown);
          var result := BenchmarkResult(category, site.name, site.url, site.expectedScore, actualScore,
                                        difference, PercentageError(difference, site.expectedScore),
                                        site.expectations, a.breakdown, a.grade.GetOr("N/A"), differences);
          categoryResults := categoryResults + [result];
          results := results + [result];
        }
      }
      assert sites[..|sites|] == sites;
    }

    /** `run_all_benchmarks`: every category in turn. */
    method RunAllBenchmarks(categories: Dict<seq<Site>>, audit: AuditApi) returns (all: seq<BenchmarkResult>)
      requires Valid()
      modifies this
      ensures Valid()
      ensures results == old(results) + AllResults(categories, audit) && all == results
      ensures apiUrl == old(apiUrl)
    {
      for i := 0 to |categories|
        invariant Valid() && apiUrl == old(apiUrl)
        invariant results == old(results) + AllResults(categories[..i], audit)
      {
        ghost var before := results;
        var got := RunCategory(categories[i].0, categories[i].1, audit);
        AppendCategory(old(results), categories, i, audit, before, got);
      }
      assert categories[..|categories|] == categories;
      all := results;
    }

    /** `_analyze_by_category`: the results grouped by category, then the averages. */
    method AnalyzeByCategory() returns (analysis: Dict<CategoryStats>)
      ensures analysis == CategoryAnalysis(results)
    {
      var groups := GroupBy(CategoryPairs(results));
      GroupedEntries(CategoryPairs(results));
      analysis := [];
      for i := 0 to |groups|
        invariant analysis == StatsAll(groups)[..i]
      {
        var (category, group) := groups[i];
        analysis := analysis + [(category, StatsOf(group))];
      }
    }

    /** `_identify_scoring_issues`. */
    method IdentifyScoringIssues() returns (issues: Issues)
      ensures issues == IssuesOf(results)
    {
      var groups := GroupBy(DiffPairs(results));
      GroupedEntries(DiffPairs(results));
      var low, high := [], [];
      for i := 0 to |groups|
        invariant low == Flagged(groups[..i], true) && high == Flagged(groups[..i], false)
      {
        assert groups[..i + 1][..i] == groups[..i];
        var (category, diffs) := groups[i];
        var average := Sum(diffs) / |diffs| as real;
        if average < -5.0 {
          low := low + [CategoryIssue(category, RoundTenth(average))];
        } else if average > 5.0 {
          high := high + [CategoryIssue(category, RoundTenth(average))];
        }
      }
      assert groups[..|groups|] == groups;
      issues := Issues(low, high, LargestErrors(results));
    }

    /** `_generate_calibration_recommendations`. */
    method GenerateCalibrationRecommendations() returns (c: Calibration)
      requires results != []
      ensures c == CalibrationOf(results)
    {
      var averageDifference := SummaryOf(results).averageDifference;
      var priority := [];
      if Abs(averageDifference) > 10.0 {
        var gap := if averageDifference < 0.0 then UnderscoringBy(Abs(averageDifference))
                   else OverscoringBy(Abs(averageDifference));
        priority := [PriorityIssue(gap, ReviewAction, "CRITICAL")];
      }
      var issues := IdentifyScoringIssues();
      var low, high := issues.consistentlyLow, issues.consistentlyHigh;
      var adjustments: Dict<Adjustment> := [];
      for i := 0 to |low|
        invariant adjustments == PutAll([], LowAdjustments(low)[..i])
      {
        assert LowAdjustments(low)[..i + 1][..i] == LowAdjustments(low)[..i];
        adjustments := Put(adjustments, low[i].category,
                           Adjustment(UnderscoringBy(Abs(low[i].average)), LenientAction, "HIGH"));
      }
      assert LowAdjustments(low)[..|low|] == LowAdjustments(low);
      var afterLow := adjustments;
      for i := 0 to |high|
        invariant adjustments == PutAll(afterLow, HighAdjustments(high)[..i])
      {
        assert HighAdjustments(high)[..i + 1][..i] == HighAdjustments(high)[..i];
        adjustments := Put(adjustments, high[i].category,
                           Adjustment(OverscoringBy(high[i].average), StricterAction, "MEDIUM"));
      }
      assert HighAdjustments(high)[..|high|] == HighAdjustments(high);
      c := Calibration(priority, adjustments);
    }

    /** `generate_report`: nothing to report without results. */
    method GenerateReport() returns (report: Option<Report>)
      ensures report == ReportOf(results)
    {
      if results == [] {
        return None;
      }
      var summary := SummaryOf(results);
      var analysis := AnalyzeByCategory();
      var issues := IdentifyScoringIssues();
      var calibration := GenerateCalibrationRecommendations();
      report := Some(Report(summary, analysis, issues, calibration, results));
    }
  }
}

=== FILE: schema.dfy ===
/** Structured-data extraction (backend/crawler/extractors/schema.py): JSON-LD
    scripts are parsed and flattened into a list of blocks; schema types are listed
    once each; the first FAQPage block yields question/answer pairs; every block is
    checked against the fields its type requires. `json.loads` is a parameter. */
module Schema {
  import opened Wrappers
  import opened Json
  import opened Strings
  import opened PageModel
  import opened Sorting

  /** `REQUIRED_FIELDS`. */
  const RequiredFields: map<string, seq<string>> := map[
    "Article" := ["headline", "author", "datePublished"],
    "BlogPosting" := ["headline", "author", "datePublished"],
    "Person" := ["name"],
    "Organization" := ["name"],
    "FAQPage" := ["mainEntity"],
    "HowTo" := ["name", "step"],
    "Product" := ["name", "offers"]]

  /** `json.loads`: `loads` gives the value of a script's text, None where it raises
      a decode error; `keyOrder` gives the keys of an object it built in their
      insertion order, the order in which iterating over the dict yields them. */
  datatype JsonParser = JsonParser(loads: string -> Option<Json>, keyOrder: map<string, Json> -> seq<string>)

  /** The block recorded for a script that does not parse. */
  function ErrorPlaceholder(raw: string): (b: Json)
    ensures b.JObj? && "error" in b.fields && "raw" in b.fields
    ensures b.fields["raw"].JStr? && |b.fields["raw"].s| <= 200
  {
    JObj(map["error" := JStr("Invalid JSON"), "raw" := JStr(Take(raw, 200))])
  }

  /** The one-character strings of `s`: what iterating over a string yields. */
  function Chars(s: string): (r: seq<Json>)
    ensures |r| == |s|
  {
    if s == [] then [] else [JStr([s[0]])] + Chars(s[1..])
  }

  /** The keys of a dict, as the string values iterating over it yields. */
  function KeyStrings(keys: seq<string>): (r: seq<Json>)
    ensures |r| == |keys| && forall i :: 0 <= i < |keys| ==> r[i] == JStr(keys[i])
  {
    if keys == [] then [] else [JStr(keys[0])] + KeyStrings(keys[1..])
  }

  /** `list.extend(v)`: a list adds its elements, a string its characters, a dict its
      keys in insertion order; other values raise TypeError. */
  function ExtendWith(v: Json, keyOrder: map<string, Json> -> seq<string>): Result<seq<Json>>
  {
    match v
    case JArr(items) => Success(items)
    case JStr(s) => Success(Chars(s))
    case JObj(fields) => Success(KeyStrings(keyOrder(fields)))
    case _ => Failure("TypeError")
  }

  /** What one parsed script contributes: the members of its `@graph`, the elements
      of a top-level list, or else the value itself. */
  function Flatten(data: Json, keyOrder: map<string, Json> -> seq<string>): Result<seq<Json>>
  {
    if data.JObj? && "@graph" in data.fields then ExtendWith(data.fields["@graph"], keyOrder)
    else if data.JArr? then Success(data.items)
    else Success([data])
  }

  /** The blocks one script contributes. A script without a single text child (an
      empty one) is recorded like a script that does not parse. */
  function ScriptItems(text: Option<string>, parse: JsonParser): Result<seq<Json>>
  {
    if text.None? then Success([ErrorPlaceholder("")])
    else match parse.loads(text.value)
      case None => Success([ErrorPlaceholder(text.value)])
      case Some(data) => Flatten(data, parse.keyOrder)
  }

  /** The script loop as written: `json.loads(None)` raises TypeError, which the
      `except` clause does not catch, so one empty script aborts the extraction. */
  function ScriptItemsAsWritten(text: Option<string>, parse: JsonParser): Result<seq<Json>>
  {
    if text.None? then Failure("TypeError") else ScriptItems(text, parse)
  }

  function ItemsOf(parse: JsonParser): Option<string> -> Result<seq<Json>>
  {
    t => ScriptItems(t, parse)
  }

  function ItemsAsWrittenOf(parse: JsonParser): Option<string> -> Result<seq<Json>>
  {
    t => ScriptItemsAsWritten(t, parse)
  }

  /** The blocks of the scripts in order, or the first exception raised. */
  function ExtractWith(scripts: seq<Option<string>>, items: Option<string> -> Result<seq<Json>>): Result<seq<Json>>
  {
    if scripts == [] then Success([])
    else
      var front :- ExtractWith(scripts[..|scripts| - 1], items);
      var last :- items(scripts[|scripts| - 1]);
      Success(front + last)
  }

  /** `extract_jsonld`; each script is given by its text (None for an empty one). */
  method ExtractJsonld(scripts: seq<Option<string>>, parse: JsonParser) returns (r: Result<seq<Json>>)
    ensures r == ExtractWith(scripts, ItemsOf(parse))
  {
    var blocks: seq<Json> := [];
    for i := 0 to |scripts|
      invariant ExtractWith(scripts[..i], ItemsOf(parse)) == Success(blocks)
    {
      assert scripts[..i + 1][..i] == scripts[..i];
      var items := ScriptItems(scripts[i], parse);
      if items.Failure? {
        assert ExtractWith(scripts[..i + 1], ItemsOf(parse)).Failure?;
        ExtractPrefixFails(scripts, ItemsOf(parse), i + 1);
        return Failure(items.error);
      }
      blocks := blocks + items.value;
    }
    assert scripts[..|scripts|] == scripts;
    r := Success(blocks);
  }

  /** Once a prefix of the scripts raises, the whole extraction raises the same. */
  lemma {:induction false} ExtractPrefixFails(scripts: seq<Option<string>>, items: Option<string> -> Result<seq<Json>>, n: nat)
    requires n <= |scripts| && ExtractWith(scripts[..n], items).Failure?
    ensures ExtractWith(scripts, items) == ExtractWith(scripts[..n], items)
    decreases |scripts| - n
  {
    if n < |scripts| {
      assert scripts[..n + 1][..n] == scripts[..n];
      ExtractPrefixFails(scripts, items, n + 1);
    } else {
      assert scripts[..n] == scripts;
    }
  }

  /** Scripts are processed independently: the blocks of two runs of scripts are the
      blocks of the first run followed by those of the second. */
  lemma {:induction false} ExtractAppend(a: seq<Option<string>>, b: seq<Option<string>>, parse: JsonParser)
    requires ExtractWith(a, ItemsOf(parse)).Success? && ExtractWith(b, ItemsOf(parse)).Success?
    ensures ExtractWith(a + b, ItemsOf(parse)) ==
            Success(ExtractWith(a, ItemsOf(parse)).value + ExtractWith(b, ItemsOf(parse)).value)
  {
    var f := ItemsOf(parse);
    if b == [] {
      assert a + b == a;
      assert ExtractWith(a, f).value + [] == ExtractWith(a, f).value;
    } else {
      var b', x := b[..|b| - 1], b[|b| - 1];
      assert (a + b)[..|a + b| - 1] == a + b';
      assert (a + b)[|a + b| - 1] == x;
      assert ExtractWith(b', f).Success? && f(x).Success?;
      assert ExtractWith(b, f).value == ExtractWith(b', f).value + f(x).value;
      ExtractAppend(a, b', parse);
      assert ExtractWith(a + b, f).value == ExtractWith(a + b', f).value + f(x).value;
      var va, vb', vx := ExtractWith(a, f).value, ExtractWith(b', f).value, f(x).value;
      assert (va + vb') + vx == va + (vb' + vx);
    }
  }

  /** A script that does not parse contributes exactly one placeholder, whose raw
      text is at most 200 characters of the script. */
  lemma MalformedScript(text: string, parse: JsonParser)
    requires parse.loads(text).None?
    ensures ExtractWith([Some(text)], ItemsOf(parse)) == Success([ErrorPlaceholder(text)])
  {
    var one: seq<Option<string>> := [Some(text)];
    assert one[..0] == [] && one[0] == Some(text);
    assert ItemsOf(parse)(Some(text)) == Success([ErrorPlaceholder(text)]);
    assert ExtractWith([], ItemsOf(parse)) == Success([]);
    assert [] + [ErrorPlaceholder(text)] == [ErrorPlaceholder(text)];
  }

  /** Flattening: a `@graph` contributes what `extend` takes from it (the members of
      a list, the characters of a string, the keys of a dict, a TypeError for a
      number, boolean or null), a top-level list its elements, any other value
      itself. */
  lemma ParsedScript(text: string, parse: JsonParser)
    requires parse.loads(text).Some?
    ensures var d := parse.loads(text).value;
      ExtractWith([Some(text)], ItemsOf(parse)) ==
        if d.JObj? && "@graph" in d.fields then
          var g := d.fields["@graph"];
          if g.JArr? then Success(g.items)
          else if g.JStr? then Success(Chars(g.s))
          else if g.JObj? then Success(KeyStrings(parse.keyOrder(g.fields)))
          else Failure("TypeError")
        else if d.JArr? then Success(d.items)
        else Success([d])
  {
    var one: seq<Option<string>> := [Some(text)];
    assert one[..0] == [] && one[0] == Some(text);
    assert ItemsOf(parse)(Some(text)) == Flatten(parse.loads(text).value, parse.keyOrder);
    assert ExtractWith([], ItemsOf(parse)) == Success([]);
    var fl := Flatten(parse.loads(text).value, parse.keyOrder);
    if fl.Success? {
      assert [] + fl.value == fl.value;
    }
  }

  /** A dict-valued `@graph` adds one string block per key of the dict, each once,
      when the parser's key order lists the dict's keys. */
  lemma DictGraphKeys(g: map<string, Json>, keyOrder: map<string, Json> -> seq<string>)
    requires NoDuplicates(keyOrder(g)) && forall k :: k in keyOrder(g) <==> k in g
    ensures ExtendWith(JObj(g), keyOrder).Success?
    ensures var blocks := ExtendWith(JObj(g), keyOrder).value;
      NoDuplicates(blocks) && forall b :: b in blocks <==> b.JStr? && b.s in g
  {
    var ks := keyOrder(g);
    var blocks := KeyStrings(ks);
    forall b
      ensures b in blocks <==> b.JStr? && b.s in g
    {
      if b in blocks {
        var i :| 0 <= i < |blocks| && blocks[i] == b;
        assert ks[i] in ks;
      }
      if b.JStr? && b.s in g {
        var i :| 0 <= i < |ks| && ks[i] == b.s;
        assert blocks[i] == b;
      }
    }
  }

  /** The discrepancy: one empty script makes the extraction as written raise,
      whereas the intended behaviour records a placeholder and goes on. */
  lemma EmptyScriptAborts(parse: JsonParser, rest: seq<Option<string>>)
    requires ExtractWith(rest, ItemsOf(parse)).Success?
    ensures ExtractWith([None] + rest, ItemsAsWrittenOf(parse)) == Failure("TypeError")
    ensures ExtractWith([None] + rest, ItemsOf(parse)) ==
            Success([ErrorPlaceholder("")] + ExtractWith(rest, ItemsOf(parse)).value)
  {
    var none: seq<Option<string>> := [None];
    assert none[..0] == [];
    assert ExtractWith([None], ItemsAsWrittenOf(parse)) == Failure("TypeError");
    ExtractPrefixFails([None] + rest, ItemsAsWrittenOf(parse), 1);
    assert ([None] + rest)[..1] == [None];
    assert ItemsOf(parse)(None) == Success([ErrorPlaceholder("")]);
    assert [] + [ErrorPlaceholder("")] == [ErrorPlaceholder("")];
    assert ExtractWith([None], ItemsOf(parse)) == Success([ErrorPlaceholder("")]);
    ExtractAppend([None], rest, parse);
  }

  /** `'error' in block`: the placeholder of a script that did not parse. */
  predicate IsErrorBlock(b: Block)
  {
    "error" in b
  }

  /** `block.get('@type', 'Unknown')`. */
  function TypeOrUnknown(b: Block): Json
  {
    Get(b, "@type", JStr("Unknown"))
  }

  /** The types of the blocks that are not error placeholders, in order. */
  function TypesOf(blocks: seq<Block>): (r: seq<Json>)
    ensures forall x :: x in r <==> exists i :: 0 <= i < |blocks| && !IsErrorBlock(blocks[i]) && TypeOrUnknown(blocks[i]) == x
  {
    if blocks == [] then []
    else
      var front := blocks[..|blocks| - 1];
      var last := blocks[|blocks| - 1];
      assert forall i :: 0 <= i < |front| ==> front[i] == blocks[i];
      TypesOf(front) + (if IsErrorBlock(last) then [] else [TypeOrUnknown(last)])
  }

  /** `detect_schema_types`: every type of a non-error block, once each. */
  method DetectSchemaTypes(blocks: seq<Block>) returns (types: seq<Json>)
    ensures types == Dedup(TypesOf(blocks))
    ensures NoDuplicates(types)
    ensures forall x :: x in types <==>
              exists i :: 0 <= i < |blocks| && !IsErrorBlock(blocks[i]) && TypeOrUnknown(blocks[i]) == x
  {
    types := [];
    for i := 0 to |blocks|
      invariant types == Dedup(TypesOf(blocks[..i]))
    {
      assert blocks[..i + 1][..i] == blocks[..i];
      if !IsErrorBlock(blocks[i]) {
        var t := TypeOrUnknown(blocks[i]);
        var before := TypesOf(blocks[..i]);
        assert TypesOf(blocks[..i + 1]) == before + [t];
        assert (before + [t])[..|before|] == before && (before + [t])[|before|] == t;
        if t !in types {
          types := types + [t];
        }
      } else {
        assert TypesOf(blocks[..i + 1]) == TypesOf(blocks[..i]) + [];
        assert TypesOf(blocks[..i]) + [] == TypesOf(blocks[..i]);
      }
    }
    assert blocks[..|blocks|] == blocks;
  }

  /** What `for entity in v` iterates over: a list's elements, a string's characters,
      a dictionary's keys (only an empty one gets past the `.get` that follows);
      numbers, booleans and None raise TypeError. */
  function Entities(v: Json): Result<seq<Json>>
  {
    match v
    case JArr(items) => Success(items)
    case JStr(s) => Success(Chars(s))
    case JObj(f) => if f == map[] then Success([]) else Failure("AttributeError")
    case _ => Failure("TypeError")
  }

  /** `v[:n]` on a string or list; other values raise. */
  function Clip(v: Json, n: nat): (r: Result<Json>)
    ensures r.Success? <==> v.JStr? || v.JArr?
    ensures r.Success? && v.JStr? ==> r.value.JStr? && |r.value.s| <= n
  {
    match v
    case JStr(s) => Success(JStr(Take(s, n)))
    case JArr(items) => Success(JArr(Take(items, n)))
    case _ => Failure("TypeError")
  }

  /** One FAQ entry: the question is the entity's `name`, the answer the `text` of its
      `acceptedAnswer` (empty when that is not an object), cut to 200 characters; the
      pair is valid when both question and the uncut answer are non-empty. */
  function QaPairOf(entity: Json): (r: Result<QaPair>)
    ensures r.Success? && r.value.answer.JStr? ==> |r.value.answer.s| <= 200
  {
    if !entity.JObj? then Failure("AttributeError")
    else
      var question := Get(entity.fields, "name", JStr(""));
      var accepted := Get(entity.fields, "acceptedAnswer", JObj(map[]));
      var answer := if accepted.JObj? then Get(accepted.fields, "text", JStr("")) else JStr("");
      var clipped :- Clip(answer, 200);
      Success(QaPair(question, clipped, Truthy(question) && Truthy(answer)))
  }

  function QaPairs(entities: seq<Json>): (r: Result<seq<QaPair>>)
    ensures r.Success? ==> |r.value| == |entities|
  {
    if entities == [] then Success([])
    else
      var front :- QaPairs(entities[..|entities| - 1]);
      var last :- QaPairOf(entities[|entities| - 1]);
      Success(front + [last])
  }

  predicate IsValidPair(q: QaPair) { q.valid }

  /** The FAQ record of one FAQPage block. */
  function FaqOf(b: Block): Result<FaqSchema>
  {
    var entities :- Entities(Get(b, "mainEntity", JArr([])));
    var pairs :- QaPairs(entities);
    Success(FaqSchema(true, pairs, CountWhere(pairs, IsValidPair)))
  }

  predicate IsFaqPage(b: Block)
  {
    Get(b, "@type", JNull) == JStr("FAQPage")
  }

  const NoFaq: FaqSchema := FaqSchema(false, [], 0)

  /** What `extract_faq_schema` returns: the record of the first FAQPage block only. */
  function FaqSpec(blocks: seq<Block>): (r: Result<FaqSchema>)
    ensures r.Success? ==> r.value.validPairs <= |r.value.qaPairs|
    ensures (forall i :: 0 <= i < |blocks| ==> !IsFaqPage(blocks[i])) ==> r == Success(NoFaq)
    ensures r.Success? && !r.value.found ==> r.value == NoFaq
  {
    if blocks == [] then Success(NoFaq)
    else if IsFaqPage(blocks[0]) then FaqOf(blocks[0])
    else
      assert forall i :: 0 <= i < |blocks| - 1 ==> blocks[1..][i] == blocks[i + 1];
      FaqSpec(blocks[1..])
  }

  /** The FAQ record is the one of the first FAQPage block; later FAQPage blocks are
      never read. */
  lemma {:induction false} FaqFirstBlock(blocks: seq<Block>, k: nat)
    requires k < |blocks| && IsFaqPage(blocks[k])
    requires forall j :: 0 <= j < k ==> !IsFaqPage(blocks[j])
    ensures FaqSpec(blocks) == FaqOf(blocks[k])
  {
    if k > 0 {
      FaqFirstBlock(blocks[1..], k - 1);
    }
  }

  /** The pairs of the entities, stopping at the first entity that raises. */
  method CollectPairs(entities: seq<Json>) returns (r: Result<seq<QaPair>>)
    ensures r == QaPairs(entities)
  {
    var pairs: seq<QaPair> := [];
    for i := 0 to |entities|
      invariant QaPairs(entities[..i]) == Success(pairs)
    {
      assert entities[..i + 1][..i] == entities[..i];
      var pair := QaPairOf(entities[i]);
      if pair.Failure? {
        QaPairsPrefixFails(entities, i + 1);
        return Failure(pair.error);
      }
      pairs := pairs + [pair.value];
    }
    assert entities[..|entities|] == entities;
    r := Success(pairs);
  }

  lemma {:induction false} QaPairsPrefixFails(entities: seq<Json>, n: nat)
    requires n <= |entities| && QaPairs(entities[..n]).Failure?
    ensures QaPairs(entities) == QaPairs(entities[..n])
    decreases |entities| - n
  {
    if n < |entities| {
      assert entities[..n + 1][..n] == entities[..n];
      QaPairsPrefixFails(entities, n + 1);
    } else {
      assert entities[..n] == entities;
    }
  }

  /** `extract_faq_schema`. */
  method ExtractFaqSchema(blocks: seq<Block>) returns (r: Result<FaqSchema>)
    ensures r == FaqSpec(blocks)
  {
    for i := 0 to |blocks|
      invariant FaqSpec(blocks[i..]) == FaqSpec(blocks)
    {
      assert blocks[i..][1..] == blocks[i + 1..];
      if IsFaqPage(blocks[i]) {
        var entities := Entities(Get(blocks[i], "mainEntity", JArr([])));
        if entities.Failure? {
          return Failure(entities.error);
        }
        var pairs := CollectPairs(entities.value);
        if pairs.Failure? {
          return Failure(pairs.error);
        }
        return Success(FaqSchema(true, pairs.value, CountWhere(pairs.value, IsValidPair)));
      }
    }
    r := Success(NoFaq);
  }

  /** The required fields the block has, in required order. */
  function PresentFields(required: seq<string>, b: Block): (r: seq<string>)
    ensures |r| <= |required|
    ensures forall f :: f in r <==> f in required && f in b
  {
    if required == [] then []
    else PresentFields(required[..|required| - 1], b) + (if required[|required| - 1] in b then [required[|required| - 1]] else [])
  }

  /** The required fields the block lacks, in required order. */
  function MissingFields(required: seq<string>, b: Block): (r: seq<string>)
    ensures forall f :: f in r <==> f in required && f !in b
  {
    if required == [] then []
    else MissingFields(required[..|required| - 1], b) + (if required[|required| - 1] !in b then [required[|required| - 1]] else [])
  }

  lemma {:induction false} FieldsPartition(required: seq<string>, b: Block)
    ensures |PresentFields(required, b)| + |MissingFields(required, b)| == |required|
    ensures multiset(PresentFields(required, b)) + multiset(MissingFields(required, b)) == multiset(required)
  {
    if required != [] {
      var front := required[..|required| - 1];
      var last := required[|required| - 1];
      FieldsPartition(front, b);
      assert required == front + [last];
      assert multiset(required) == multiset(front) + multiset{last};
      if last in b {
        assert PresentFields(required, b) == PresentFields(front, b) + [last];
        assert MissingFields(required, b) == MissingFields(front, b) + [];
      } else {
        assert PresentFields(required, b) == PresentFields(front, b) + [];
        assert MissingFields(required, b) == MissingFields(front, b) + [last];
      }
    }
  }

  /** The check of a typed block against the fields its type requires. */
  function CheckFields(b: Block, schemaType: Json, required: seq<string>): Validation
  {
    var present := PresentFields(required, b);
    Checked(schemaType, required, present, MissingFields(required, b),
            if required == [] then 1.0 else |present| as real / |required| as real)
  }

  /** The required fields of a type name; an unlisted or non-string type requires none. */
  function RequiredOf(t: Json): seq<string>
  {
    if t.JStr? && t.s in RequiredFields then RequiredFields[t.s] else []
  }

  /** `validate_schema` as written: the `@type` is looked up in a dictionary, which
      raises TypeError when it is a list (a block with several types) or an object. */
  function ValidateSchemaAsWritten(b: Block): Result<Validation>
  {
    var t := Get(b, "@type", JNull);
    if !Truthy(t) || "error" in b then Success(Invalid(t))
    else if Unhashable(t) then Failure("TypeError")
    else Success(CheckFields(b, t, RequiredOf(t)))
  }

  /** The type whose required fields apply: a list of types is read by its first
      member, as the content classifier reads it. */
  function LookupType(t: Json): Json
  {
    if t.JArr? && t.items != [] then t.items[0] else t
  }

  /** Facts of a field check: present and missing split the required fields, the
      block is valid iff nothing is missing, completeness is the present share. */
  lemma CheckFieldsFacts(b: Block, t: Json, required: seq<string>)
    ensures var v := CheckFields(b, t, required);
      v.Checked? && v.schemaType == t && v.required == required &&
      (forall f :: f in v.present <==> f in required && f in b) &&
      (forall f :: f in v.missing <==> f in required && f !in b) &&
      |v.present| + |v.missing| == |required| &&
      (v.Valid() <==> forall f :: f in required ==> f in b) &&
      0.0 <= v.completeness <= 1.0 &&
      (required == [] ==> v.completeness == 1.0) &&
      (required != [] ==> v.completeness == |v.present| as real / |required| as real)
  {
    var v := CheckFields(b, t, required);
    FieldsPartition(required, b);
    assert v.missing != [] ==> v.missing[0] in v.missing;
    ShareAtMostOne(|v.present|, |required|);
  }

  lemma ShareAtMostOne(p: nat, n: nat)
    requires p <= n
    ensures n > 0 ==> 0.0 <= p as real / n as real <= 1.0
  {
    if n > 0 {
      assert p as real <= n as real;
    }
  }

  /** `validate_schema`, with a list `@type` read by its first member. */
  function ValidateSchema(b: Block): (r: Validation)
    ensures r.Invalid? <==> !Truthy(Get(b, "@type", JNull)) || "error" in b
    ensures r.Invalid? ==> r.invalidType == Get(b, "@type", JNull)
    ensures r.Checked? ==>
      r.schemaType == b["@type"] &&
      (forall f :: f in r.present <==> f in r.required && f in b) &&
      (forall f :: f in r.missing <==> f in r.required && f !in b) &&
      |r.present| + |r.missing| == |r.required| &&
      (r.Valid() <==> forall f :: f in r.required ==> f in b) &&
      0.0 <= r.completeness <= 1.0 &&
      (r.required == [] ==> r.completeness == 1.0) &&
      (r.required != [] ==> r.completeness == |r.present| as real / |r.required| as real)
  {
    var t := Get(b, "@type", JNull);
    if !Truthy(t) || "error" in b then Invalid(t)
    else
      CheckFieldsFacts(b, t, RequiredOf(LookupType(t)));
      CheckFields(b, t, RequiredOf(LookupType(t)))
  }

  /** The discrepancy: a block typed by a list raises as written; the corrected check
      validates it against its first type. */
  lemma ListTypeRaises()
    ensures var b: Block := map["@type" := JArr([JStr("Article"), JStr("Person")]), "headline" := JStr("h")];
      ValidateSchemaAsWritten(b) == Failure("TypeError") &&
      ValidateSchema(b).Checked? && ValidateSchema(b).required == ["headline", "author", "datePublished"] &&
      ValidateSchema(b).missing == ["author", "datePublished"]
  {
    var b: Block := map["@type" := JArr([JStr("Article"), JStr("Person")]), "headline" := JStr("h")];
    assert b.Keys == {"@type", "headline"};
    assert "headline" in b && "author" !in b && "datePublished" !in b && "error" !in b;
    assert Truthy(b["@type"]) && Unhashable(b["@type"]);
    var req := ["headline", "author", "datePublished"];
    assert RequiredOf(JStr("Article")) == req;
    assert req[..2] == ["headline", "author"] && req[..2][..1] == ["headline"] && req[..2][..1][..0] == [];
    assert MissingFields(req[..2][..1], b) == [];
    assert MissingFields(req[..2], b) == ["author"];
    assert MissingFields(req, b) == ["author", "datePublished"];
  }

  /** The two agree on every block whose `@type` can be a dictionary key. */
  lemma AsWrittenAgrees(b: Block)
    requires !Unhashable(Get(b, "@type", JNull))
    ensures ValidateSchemaAsWritten(b) == Success(ValidateSchema(b))
  {
  }

  /** The validations of the non-error blocks, in order. */
  function ValidateAllSpec(blocks: seq<Block>): (r: seq<Validation>)
    ensures |r| == CountWhere(blocks, NotError)
  {
    if blocks == [] then []
    else ValidateAllSpec(blocks[..|blocks| - 1]) +
         (if IsErrorBlock(blocks[|blocks| - 1]) then [] else [ValidateSchema(blocks[|blocks| - 1])])
  }

  predicate NotError(b: Block) { !IsErrorBlock(b) }

  /** `validate_all_schemas`: exactly one validation per non-error block, in order;
      since no such block carries 'error', a validation is invalid only for a block
      without a usable `@type`. */
  method ValidateAllSchemas(blocks: seq<Block>) returns (validations: seq<Validation>)
    ensures validations == ValidateAllSpec(blocks)
    ensures |validations| == CountWhere(blocks, NotError)
    ensures forall k :: 0 <= k < |validations| && validations[k].Invalid? ==> !Truthy(validations[k].invalidType)
  {
    validations := [];
    for i := 0 to |blocks|
      invariant validations == ValidateAllSpec(blocks[..i])
      invariant forall k :: 0 <= k < |validations| && validations[k].Invalid? ==> !Truthy(validations[k].invalidType)
    {
      assert blocks[..i + 1][..i] == blocks[..i];
      if !IsErrorBlock(blocks[i]) {
        validations := validations + [ValidateSchema(blocks[i])];
      }
    }
    assert blocks[..|blocks|] == blocks;
  }
}

=== FILE: scores.dfy ===
/** The record every category scorer returns: the rounded total, the declared
    maximum, the rounded percentage of the maximum and the named, rounded sub-scores. */
module Scores {
  import opened Numbers

  datatype SubScore = SubScore(name: string, value: real)

  datatype CategoryScore = CategoryScore(score: real, max: real, percentage: real, subScores: seq<SubScore>)

  function SumSubs(subs: seq<SubScore>): real
  {
    if subs == [] then 0.0 else SumSubs(subs[..|subs| - 1]) + subs[|subs| - 1].value
  }

  lemma SumSubs3(a: SubScore, b: SubScore, c: SubScore)
    ensures SumSubs([a, b, c]) == a.value + b.value + c.value
  {
    assert [a, b, c][..2] == [a, b];
    assert [a, b][..1] == [a];
    assert [a][..0] == [];
    assert SumSubs([a]) == a.value;
    assert SumSubs([a, b]) == a.value + b.value;
  }

  lemma SumSubs4(a: SubScore, b: SubScore, c: SubScore, d: SubScore)
    ensures SumSubs([a, b, c, d]) == a.value + b.value + c.value + d.value
  {
    assert [a, b, c, d][..3] == [a, b, c];
    SumSubs3(a, b, c);
  }

  lemma SumSubs5(a: SubScore, b: SubScore, c: SubScore, d: SubScore, e: SubScore)
    ensures SumSubs([a, b, c, d, e]) == a.value + b.value + c.value + d.value + e.value
  {
    assert [a, b, c, d, e][..4] == [a, b, c, d];
    SumSubs4(a, b, c, d);
  }

  predicate AllTenths(subs: seq<SubScore>)
  {
    forall i :: 0 <= i < |subs| ==> IsTenth(subs[i].value)
  }

  function RoundSubs(subs: seq<SubScore>): (r: seq<SubScore>)
    ensures |r| == |subs|
    ensures forall i :: 0 <= i < |subs| ==> r[i] == SubScore(subs[i].name, RoundTenth(subs[i].value))
  {
    if subs == [] then [] else RoundSubs(subs[..|subs| - 1]) + [SubScore(subs[|subs| - 1].name, RoundTenth(subs[|subs| - 1].value))]
  }

  /** `{'score': round(total, 1), 'max': max, 'percentage': round(total / max * 100, 1),
      'sub_scores': {name: round(value, 1), ...}}` with `total` the sum of the sub-scores. */
  function Report(subs: seq<SubScore>, max: real): (r: CategoryScore)
    requires max > 0.0
    ensures r.max == max && |r.subScores| == |subs|
    ensures AllTenths(subs) ==> r.score == SumSubs(subs) && r.subScores == subs
  {
    var total := SumSubs(subs);
    if AllTenths(subs) then
      SumSubsTenth(subs);
      RoundTenthOfTenth(total);
      RoundSubsOfTenths(subs);
      CategoryScore(RoundTenth(total), max, RoundTenth(total / max * 100.0), RoundSubs(subs))
    else
      CategoryScore(RoundTenth(total), max, RoundTenth(total / max * 100.0), RoundSubs(subs))
  }

  lemma {:induction false} SumSubsTenth(subs: seq<SubScore>)
    requires AllTenths(subs)
    ensures IsTenth(SumSubs(subs))
  {
    if subs != [] {
      SumSubsTenth(subs[..|subs| - 1]);
      TenthAdd(SumSubs(subs[..|subs| - 1]), subs[|subs| - 1].value);
    }
  }

  lemma RoundSubsOfTenths(subs: seq<SubScore>)
    requires AllTenths(subs)
    ensures RoundSubs(subs) == subs
  {
    forall i | 0 <= i < |subs| ensures RoundSubs(subs)[i] == subs[i] {
      RoundTenthOfTenth(subs[i].value);
    }
  }
}

=== FILE: semantic.dfy ===
/** Semantic extraction (backend/crawler/extractors/semantic.py) over the parsed
    document and the page's main text: question headings and inline questions, the
    answer text that follows a question heading, answer blocks, key takeaways and a
    word-frequency topic summary. Regular expressions are written out as the string
    tests they perform. */
module Semantic {
  import opened Wrappers
  import opened Strings
  import opened Dom
  import opened PageModel
  import opened Sorting

  const QuestionHeadingTags: set<string> := {"h2", "h3", "h4"}
  const HeadingTags: set<string> := {"h1", "h2", "h3", "h4", "h5", "h6"}

  /** The alternatives of the first question pattern, anchored at the start. */
  const InterrogativeWords: seq<string> := [
    "How", "What", "Why", "When", "Where", "Who", "Which", "Can", "Is", "Does", "Do", "Will", "Should", "Are"]

  /** The alternatives of the second question pattern. */
  const QuestionPhrases: seq<string> := ["how to", "what is", "why does", "when to"]

  /** `text` starts with `prefix`, ignoring case. */
  predicate StartsWithFold(text: string, prefix: string)
  {
    StartsWith(Lower(text), Lower(prefix))
  }

  predicate StartsWithAny(text: string, prefixes: seq<string>)
  {
    exists i :: 0 <= i < |prefixes| && StartsWithFold(text, prefixes[i])
  }

  /** Some phrase occurs in `text`, ignoring case. */
  predicate ContainsAnyFold(text: string, phrases: seq<string>)
  {
    exists i :: 0 <= i < |phrases| && Contains(Lower(text), Lower(phrases[i]))
  }

  /** `_is_question_pattern` as written: `re.match` anchors both patterns at the
      start of the text. */
  predicate IsQuestionPatternAsWritten(text: string)
  {
    StartsWithAny(text, InterrogativeWords) || StartsWithAny(text, QuestionPhrases)
  }

  /** `_is_question_pattern` with the second pattern searched anywhere in the text. */
  predicate IsQuestionPattern(text: string)
  {
    StartsWithAny(text, InterrogativeWords) || ContainsAnyFold(text, QuestionPhrases)
  }

  lemma LowerPrefix(k: nat)
    requires k < |QuestionPhrases|
    ensures StartsWith(Lower(QuestionPhrases[k]), Lower(InterrogativeWords[k]))
  {
    var p, w := Lower(QuestionPhrases[k]), Lower(InterrogativeWords[k]);
    if k == 0 {
      assert w == "how" && p[..3] == "how";
    } else if k == 1 {
      assert w == "what" && p[..4] == "what";
    } else if k == 2 {
      assert w == "why" && p[..3] == "why";
    } else {
      assert w == "when" && p[..4] == "when";
    }
  }

  /** As written, the second pattern adds nothing: every phrase begins with one of
      the interrogative words, so an anchored phrase match is also a word match. */
  lemma {:induction false} SecondPatternRedundant(text: string)
    ensures IsQuestionPatternAsWritten(text) <==> StartsWithAny(text, InterrogativeWords)
  {
    if StartsWithAny(text, QuestionPhrases) {
      var k :| 0 <= k < |QuestionPhrases| && StartsWithFold(text, QuestionPhrases[k]);
      LowerPrefix(k);
      var t, p, w := Lower(text), Lower(QuestionPhrases[k]), Lower(InterrogativeWords[k]);
      assert t[..|w|] == t[..|p|][..|w|];
      assert StartsWithFold(text, InterrogativeWords[k]);
    }
  }

  lemma {:induction false} ContainsAt(s: string, sub: string, k: nat)
    requires k <= |s| && StartsWith(s[k..], sub)
    ensures Contains(s, sub)
  {
    if k > 0 {
      assert s[1..][k - 1..] == s[k..];
      ContainsAt(s[1..], sub, k - 1);
    }
  }

  /** No interrogative word begins with the letter l, in either case. */
  lemma NoWordStartsWithL(i: nat)
    requires i < |InterrogativeWords|
    ensures InterrogativeWords[i] != [] && LowerChar(InterrogativeWords[i][0]) != 'l'
  {
  }

  lemma LearnLowered(text: string)
    requires text == "Learn how to cook"
    ensures Lower(text)[0] == 'l' && Lower(text)[6..12] == "how to"
  {
    var t := Lower(text);
    assert t[0] == LowerChar(text[0]) && text[0] == 'L';
    assert t[6] == LowerChar(text[6]) && text[6] == 'h';
    assert t[7] == LowerChar(text[7]) && text[7] == 'o';
    assert t[8] == LowerChar(text[8]) && text[8] == 'w';
    assert t[9] == LowerChar(text[9]) && text[9] == ' ';
    assert t[10] == LowerChar(text[10]) && text[10] == 't';
    assert t[11] == LowerChar(text[11]) && text[11] == 'o';
    assert t[6..12] == [t[6], t[7], t[8], t[9], t[10], t[11]];
  }

  lemma PhraseLowered()
    ensures Lower(QuestionPhrases[0]) == "how to"
  {
    var p := QuestionPhrases[0];
    var q := Lower(p);
    assert q[0] == LowerChar(p[0]) && p[0] == 'h';
    assert q[1] == LowerChar(p[1]) && p[1] == 'o';
    assert q[2] == LowerChar(p[2]) && p[2] == 'w';
    assert q[3] == LowerChar(p[3]) && p[3] == ' ';
    assert q[4] == LowerChar(p[4]) && p[4] == 't';
    assert q[5] == LowerChar(p[5]) && p[5] == 'o';
    assert q == [q[0], q[1], q[2], q[3], q[4], q[5]];
  }

  /** A text whose lower-cased form starts with 'l' starts with no interrogative word. */
  lemma NoWordMatches(text: string)
    requires text != [] && LowerChar(text[0]) == 'l'
    ensures !StartsWithAny(text, InterrogativeWords)
  {
    forall i | 0 <= i < |InterrogativeWords|
      ensures !StartsWithFold(text, InterrogativeWords[i])
    {
      NoWordStartsWithL(i);
      var w := Lower(InterrogativeWords[i]);
      assert w[0] != Lower(text)[0];
      assert |w| > 0 && |w| <= |Lower(text)| ==> Lower(text)[..|w|][0] == Lower(text)[0];
    }
  }

  /** The discrepancy: a heading that asks with a phrase inside it is missed as
      written and caught by the corrected test. */
  lemma PhraseInsideMissed(text: string)
    requires text == "Learn how to cook"
    ensures !IsQuestionPatternAsWritten(text)
    ensures IsQuestionPattern(text)
  {
    var t := Lower(text);
    LearnLowered(text);
    NoWordMatches(text);
    SecondPatternRedundant(text);
    assert t[6..][..6] == t[6..12];
    ContainsAt(t, "how to", 6);
    PhraseLowered();
    assert Contains(Lower(text), Lower(QuestionPhrases[0]));
  }

  /** A heading's question test: a '?' anywhere, or a question pattern (the one as
      written, or the corrected one). */
  predicate IsQuestionHeading(text: string, corrected: bool)
  {
    Contains(text, "?") || if corrected then IsQuestionPattern(text) else IsQuestionPatternAsWritten(text)
  }

  /** The texts collected after a heading: walking the element siblings that follow
      it until the next h1-h6, the p/div texts longer than 20 characters, stopping
      once two are held. */
  function AnswerParts(sibs: seq<Node>, acc: seq<string>): (r: seq<string>)
    requires |acc| < 2
    ensures |r| <= 2
    ensures (forall i :: 0 <= i < |acc| ==> |acc[i]| > 20) ==> forall i :: 0 <= i < |r| ==> |r[i]| > 20
    decreases |sibs|
  {
    if sibs == [] || HasTagIn(sibs[0], HeadingTags) then acc
    else
      var acc' := if HasTagIn(sibs[0], {"p", "div"}) && |TextOf(sibs[0])| > 20 then acc + [TextOf(sibs[0])] else acc;
      if |acc'| >= 2 then acc' else AnswerParts(sibs[1..], acc')
  }

  /** `_extract_answer_after_heading` for a heading whose following siblings are `following`. */
  function AnswerAfterHeading(following: seq<Node>): (r: string)
    ensures |r| <= 500
  {
    Take(Join(" ", AnswerParts(Elements(following), [])), 500)
  }

  /** `_extract_answer_after_heading`: the sibling walk. */
  method ExtractAnswerAfterHeading(following: seq<Node>) returns (answer: string)
    ensures answer == AnswerAfterHeading(following)
    ensures |answer| <= 500
  {
    var sibs := Elements(following);
    var parts: seq<string> := [];
    var i := 0;
    while i < |sibs| && !HasTagIn(sibs[i], HeadingTags)
      invariant 0 <= i <= |sibs|
      invariant |parts| < 2
      invariant AnswerParts(sibs[i..], parts) == AnswerParts(sibs, [])
    {
      ghost var before := parts;
      assert sibs[i..][1..] == sibs[i + 1..];
      if HasTagIn(sibs[i], {"p", "div"}) {
        var text := TextOf(sibs[i]);
        if |text| > 20 {
          parts := parts + [text];
        }
      }
      i := i + 1;
      if |parts| >= 2 {
        assert parts == AnswerParts(sibs[i - 1..], before);
        break;
      }
    }
    answer := Take(Join(" ", parts), 500);
  }

  /** The question records of the question headings, in document order. */
  function HeadingQuestions(ls: seq<Located>, corrected: bool): (r: seq<Question>)
    ensures |r| <= |ls|
    ensures forall i :: 0 <= i < |r| ==>
      r[i].kind == "heading" && r[i].level.Some? && r[i].level.value in QuestionHeadingTags &&
      r[i].answer.Some? && |r[i].answer.value| <= 500
  {
    if ls == [] then []
    else
      var l := ls[|ls| - 1];
      HeadingQuestions(ls[..|ls| - 1], corrected) +
        (if HasTagIn(l.node, QuestionHeadingTags) && IsQuestionHeading(TextOf(l.node), corrected)
         then [Question(TextOf(l.node), "heading", Some(l.node.tag), Some(AnswerAfterHeading(l.following)))]
         else [])
  }

  /** The corrected test only adds questions: every heading question found as
      written is found, in the same order, by the corrected test. */
  lemma {:induction false} CorrectedFindsMore(ls: seq<Located>)
    ensures |HeadingQuestions(ls, false)| <= |HeadingQuestions(ls, true)|
    ensures forall q :: q in HeadingQuestions(ls, false) ==> q in HeadingQuestions(ls, true)
  {
    if ls != [] {
      var front := ls[..|ls| - 1];
      var text := TextOf(ls[|ls| - 1].node);
      CorrectedFindsMore(front);
      SecondPatternRedundant(text);
      assert IsQuestionHeading(text, false) ==> IsQuestionHeading(text, true);
    }
  }

  /** The inline questions among the '.'-separated pieces of the main text. */
  function InlineQuestions(sentences: seq<string>): (r: seq<Question>)
    ensures |r| <= |sentences|
    ensures forall i :: 0 <= i < |r| ==> r[i].kind == "inline" && |r[i].text| > 10 && r[i].answer.None?
  {
    if sentences == [] then []
    else
      var s := sentences[|sentences| - 1];
      InlineQuestions(sentences[..|sentences| - 1]) +
        (if Contains(s, "?") && |Strip(s)| > 10 then [Question(Strip(s), "inline", None, None)] else [])
  }

  /** What `extract_questions` returns. */
  function QuestionsSpec(root: Node, mainContent: string, corrected: bool): seq<Question>
  {
    HeadingQuestions(LocatedIn(root), corrected) + InlineQuestions(Split(mainContent, '.'))
  }

  /** The heading pass of `extract_questions`. */
  method CollectHeadingQuestions(located: seq<Located>, corrected: bool) returns (questions: seq<Question>)
    ensures questions == HeadingQuestions(located, corrected)
  {
    questions := [];
    for i := 0 to |located|
      invariant questions == HeadingQuestions(located[..i], corrected)
    {
      assert located[..i + 1][..i] == located[..i];
      var l := located[i];
      if HasTagIn(l.node, QuestionHeadingTags) {
        var text := TextOf(l.node);
        var matched := if corrected then IsQuestionPattern(text) else IsQuestionPatternAsWritten(text);
        if Contains(text, "?") || matched {
          var answer := ExtractAnswerAfterHeading(l.following);
          questions := questions + [Question(text, "heading", Some(l.node.tag), Some(answer))];
        }
      }
    }
    assert located[..|located|] == located;
  }

  /** The inline pass of `extract_questions`. */
  method CollectInlineQuestions(sentences: seq<string>) returns (questions: seq<Question>)
    ensures questions == InlineQuestions(sentences)
  {
    questions := [];
    for i := 0 to |sentences|
      invariant questions == InlineQuestions(sentences[..i])
    {
      assert sentences[..i + 1][..i] == sentences[..i];
      var sentence := sentences[i];
      if Contains(sentence, "?") && |Strip(sentence)| > 10 {
        questions := questions + [Question(Strip(sentence), "inline", None, None)];
      }
    }
    assert sentences[..|sentences|] == sentences;
  }

  /** `extract_questions`: the heading pass, then the inline pass; `corrected` picks
      the heading pattern test. */
  method ExtractQuestions(root: Node, mainContent: string, corrected: bool) returns (questions: seq<Question>)
    ensures questions == QuestionsSpec(root, mainContent, corrected)
    ensures |questions| <= |Descendants(root)| + |Split(mainContent, '.')|
    ensures forall i :: 0 <= i < |questions| ==>
      (questions[i].kind == "heading" && questions[i].answer.Some? && |questions[i].answer.value| <= 500) ||
      (questions[i].kind == "inline" && questions[i].answer.None? && |questions[i].text| > 10)
  {
    LocatedInNodes(root);
    var headingQuestions := CollectHeadingQuestions(LocatedIn(root), corrected);
    var inlineQuestions := CollectInlineQuestions(Split(mainContent, '.'));
    questions := headingQuestions + inlineQuestions;
  }

  const CalloutKeywords: seq<string> := ["definition", "callout", "highlight", "answer", "tldr", "summary"]
  const TldrPrefixes: seq<string> := ["tldr", "tl;dr", "in short", "quick answer", "the answer is", "summary:"]

  /** A class value naming a callout: it contains a callout keyword, ignoring case. */
  predicate IsCalloutClass(c: string)
  {
    exists k :: 0 <= k < |CalloutKeywords| && Contains(Lower(c), CalloutKeywords[k])
  }

  predicate HasCalloutClass(n: Node)
  {
    n.Element? && exists i :: 0 <= i < |n.classes| && IsCalloutClass(n.classes[i])
  }

  /** A text that opens like a short answer, once lower-cased. */
  predicate IsTldrText(text: string)
  {
    exists k :: 0 <= k < |TldrPrefixes| && StartsWith(Lower(text), TldrPrefixes[k])
  }

  /** The element test of each answer-block kind. */
  predicate Selects(kind: string, n: Node)
  {
    if kind == "definition_box" then HasCalloutClass(n) && |TextOf(n)| > 20
    else if kind == "tldr" then HasTagIn(n, {"div", "p", "section"}) && IsTldrText(TextOf(n))
    else HasTagIn(n, {"blockquote"}) && |TextOf(n)| > 20
  }

  function PatternOf(kind: string, n: Node): AnswerPattern
  {
    AnswerPattern(kind, Take(TextOf(n), 300), if kind == "definition_box" && n.Element? then Some(n.classes) else None)
  }

  /** The answer blocks of one kind among `ns`, in order. */
  function PatternsOf(ns: seq<Node>, kind: string): (r: seq<AnswerPattern>)
    ensures |r| <= |ns|
    ensures forall i :: 0 <= i < |r| ==> r[i].kind == kind && |r[i].content| <= 300
  {
    if ns == [] then []
    else
      var n := ns[|ns| - 1];
      PatternsOf(ns[..|ns| - 1], kind) + (if Selects(kind, n) then [PatternOf(kind, n)] else [])
  }

  /** The three passes of `extract_answer_patterns`, in order. */
  function AnswerPatternsSpec(root: Node): seq<AnswerPattern>
  {
    var d := Descendants(root);
    PatternsOf(d, "definition_box") + PatternsOf(d, "tldr") + PatternsOf(d, "blockquote")
  }

  /** One pass of `extract_answer_patterns`. */
  method CollectPatterns(ns: seq<Node>, kind: string) returns (found: seq<AnswerPattern>)
    ensures found == PatternsOf(ns, kind)
  {
    found := [];
    for i := 0 to |ns|
      invariant found == PatternsOf(ns[..i], kind)
    {
      assert ns[..i + 1][..i] == ns[..i];
      if Selects(kind, ns[i]) {
        found := found + [PatternOf(kind, ns[i])];
      }
    }
    assert ns[..|ns|] == ns;
  }

  /** `extract_answer_patterns`: callout boxes, then TL;DR openings, then
      blockquotes; every content is cut to 300 characters. */
  method ExtractAnswerPatterns(root: Node) returns (answers: seq<AnswerPattern>)
    ensures answers == AnswerPatternsSpec(root)
    ensures forall i :: 0 <= i < |answers| ==>
      |answers[i].content| <= 300 && answers[i].kind in {"definition_box", "tldr", "blockquote"}
  {
    var d := Descendants(root);
    var boxes := CollectPatterns(d, "definition_box");
    var tldrs := CollectPatterns(d, "tldr");
    var quotes := CollectPatterns(d, "blockquote");
    answers := boxes + tldrs + quotes;
  }

  /** An element yields a TL;DR entry exactly when it is a div, p or section whose
      lower-cased text starts with one of the listed openings. */
  lemma {:induction false} TldrEntries(ns: seq<Node>)
    ensures |PatternsOf(ns, "tldr")| == |Filter(ns, IsTldrElement)|
  {
    if ns != [] {
      var front, n := ns[..|ns| - 1], ns[|ns| - 1];
      TldrEntries(front);
      assert ns == front + [n];
      FilterAppend(front, [n], IsTldrElement);
      assert [n][1..] == [];
    }
  }

  predicate IsTldrElement(n: Node)
  {
    HasTagIn(n, {"div", "p", "section"}) && IsTldrText(TextOf(n))
  }

  const TakeawayKeywords: seq<string> := ["key takeaway", "main point", "summary", "conclusion", "key insight"]
  const TakeawayContainers: set<string> := {"div", "section", "ul"}

  /** `find_previous(['h2', 'h3'])` for the element at position `i` of the document-order
      element list `ns`: the nearest h2 or h3 before it. */
  function PreviousHeading(ns: seq<Node>, i: nat): (r: Option<Node>)
    requires i <= |ns|
    ensures r.Some? ==> HasTagIn(r.value, {"h2", "h3"})
  {
    if i == 0 then None
    else if HasTagIn(ns[i - 1], {"h2", "h3"}) then Some(ns[i - 1])
    else PreviousHeading(ns, i - 1)
  }

  /** What one container contributes: under a heading that mentions a takeaway
      keyword, the first five item texts of a list, or the text of a div/section of
      more than 20 characters cut to 200. */
  function Contribution(n: Node, heading: Option<Node>): (r: seq<string>)
    ensures |r| <= 5
  {
    if heading.Some? && exists k :: 0 <= k < |TakeawayKeywords| && Contains(Lower(TextOf(heading.value)), TakeawayKeywords[k]) then
      if HasTagIn(n, {"ul", "ol"}) then Take(Texts(FindAll(n, {"li"})), 5)
      else if |TextOf(n)| > 20 then [Take(TextOf(n), 200)]
      else []
    else []
  }

  /** The takeaways of the first `i` elements of `ns`, before the final cut. */
  function TakeawaysUpTo(ns: seq<Node>, i: nat): seq<string>
    requires i <= |ns|
  {
    if i == 0 then []
    else TakeawaysUpTo(ns, i - 1) +
         (if HasTagIn(ns[i - 1], TakeawayContainers) then Contribution(ns[i - 1], PreviousHeading(ns, i - 1)) else [])
  }

  /** What `extract_key_takeaways` returns. */
  function KeyTakeawaysSpec(root: Node): seq<string>
  {
    var d := Descendants(root);
    Take(TakeawaysUpTo(d, |d|), 10)
  }

  /** `extract_key_takeaways`: at most ten in all, at most five from one list. */
  method ExtractKeyTakeaways(root: Node) returns (takeaways: seq<string>)
    ensures takeaways == KeyTakeawaysSpec(root)
    ensures |takeaways| <= 10
  {
    var d := Descendants(root);
    var all: seq<string> := [];
    for i := 0 to |d|
      invariant all == TakeawaysUpTo(d, i)
    {
      if HasTagIn(d[i], TakeawayContainers) {
        var heading := PreviousHeading(d, i);
        all := all + Contribution(d[i], heading);
      }
    }
    takeaways := Take(all, 10);
  }

  /** The takeaways gathered from the first `i` containers number at most five per container. */
  lemma {:induction false} TakeawaysBound(ns: seq<Node>, i: nat)
    requires i <= |ns|
    ensures |TakeawaysUpTo(ns, i)| <= 5 * |Filter(ns[..i], IsContainer)|
  {
    if i > 0 {
      TakeawaysBound(ns, i - 1);
      assert ns[..i] == ns[..i - 1] + [ns[i - 1]];
      FilterAppend(ns[..i - 1], [ns[i - 1]], IsContainer);
      assert [ns[i - 1]][1..] == [];
    }
  }

  predicate IsContainer(n: Node)
  {
    HasTagIn(n, TakeawayContainers)
  }

  /** The common words `extract_topics` ignores. */
  const StopWords: set<string> := {
    "the", "a", "an", "and", "or", "but", "in", "on", "at", "to", "for",
    "of", "with", "is", "are", "was", "were", "be", "been", "being",
    "have", "has", "had", "do", "does", "did", "will", "would", "should",
    "can", "could", "may", "might", "must", "this", "that", "these", "those"}

  /** `re.sub(r'[^\w]', '', w)`: the word characters of `w`. */
  function CleanWord(w: string): (r: string)
    ensures |r| <= |w|
    ensures forall i :: 0 <= i < |r| ==> IsWordChar(r[i])
  {
    if w == [] then []
    else CleanWord(w[..|w| - 1]) + (if IsWordChar(w[|w| - 1]) then [w[|w| - 1]] else [])
  }

  predicate IsKeyword(w: string)
  {
    |w| > 3 && w !in StopWords
  }

  /** The cleaned words that are counted, in text order. */
  function KeptWords(words: seq<string>): (r: seq<string>)
    ensures forall i :: 0 <= i < |r| ==> IsKeyword(r[i])
  {
    if words == [] then []
    else
      var w := CleanWord(words[|words| - 1]);
      KeptWords(words[..|words| - 1]) + (if IsKeyword(w) then [w] else [])
  }

  /** The frequency table of `ws`: each word's number of occurrences. */
  function Freq(ws: seq<string>): (r: map<string, nat>)
    ensures forall w :: w in r <==> w in ws
    ensures forall w :: w in r ==> r[w] == multiset(ws)[w]
  {
    if ws == [] then map[]
    else
      var front, w := ws[..|ws| - 1], ws[|ws| - 1];
      var f := Freq(front);
      assert ws == front + [w];
      f[w := if w in f then f[w] + 1 else 1]
  }

  /** The sort key: a word's frequency. */
  function FreqKey(freq: map<string, nat>): string -> real
  {
    w => if w in freq then freq[w] as real else 0.0
  }

  /** At most ten counted words, most frequent first, ties in order of first
      occurrence. */
  function TopKeywords(kept: seq<string>): seq<string>
  {
    Take(SortDesc(Dedup(kept), FreqKey(Freq(kept))), 10)
  }

  /** `{kw: word_freq.get(kw, 0) for kw in top[:5]}`. */
  function Density(top: seq<string>, freq: map<string, nat>): (r: map<string, nat>)
    ensures r.Keys == set i | 0 <= i < |Take(top, 5)| :: Take(top, 5)[i]
  {
    map kw | kw in Take(top, 5) :: if kw in freq then freq[kw] else 0
  }

  /** What `extract_topics` returns. */
  function TopicsSpec(mainContent: string): Topics
  {
    var words := Words(Lower(mainContent));
    var kept := KeptWords(words);
    var top := TopKeywords(kept);
    Topics(top, Density(top, Freq(kept)), |words|)
  }

  /** One counted word extends the frequency table and the first-occurrence order. */
  lemma TopicStep(kept: seq<string>, w: string)
    ensures Freq(kept + [w]) == Freq(kept)[w := if w in Freq(kept) then Freq(kept)[w] + 1 else 1]
    ensures Dedup(kept + [w]) == if w in Freq(kept) then Dedup(kept) else Dedup(kept) + [w]
  {
    assert (kept + [w])[..|kept|] == kept;
  }

  /** The counting loop of `extract_topics`: the frequency table, filled in
      first-insertion order. */
  method CountKeywords(words: seq<string>) returns (freq: map<string, nat>, order: seq<string>)
    ensures freq == Freq(KeptWords(words))
    ensures order == Dedup(KeptWords(words))
  {
    freq := map[];
    order := [];
    for i := 0 to |words|
      invariant freq == Freq(KeptWords(words[..i]))
      invariant order == Dedup(KeptWords(words[..i]))
    {
      assert words[..i + 1][..i] == words[..i];
      var word := CleanWord(words[i]);
      ghost var kept := KeptWords(words[..i]);
      if |word| > 3 && word !in StopWords {
        assert KeptWords(words[..i + 1]) == kept + [word];
        TopicStep(kept, word);
        if word !in freq {
          order := order + [word];
        }
        freq := freq[word := if word in freq then freq[word] + 1 else 1];
      } else {
        assert KeptWords(words[..i + 1]) == kept + [];
        assert kept + [] == kept;
      }
    }
    assert words[..|words|] == words;
  }

  /** `extract_topics`. */
  method ExtractTopics(mainContent: string) returns (topics: Topics)
    ensures topics == TopicsSpec(mainContent)
  {
    var words := Words(Lower(mainContent));
    var freq, order := CountKeywords(words);
    var sorted := SortDesc(order, FreqKey(freq));
    var top := Take(sorted, 10);
    topics := Topics(top, Density(top, freq), |words|);
  }

  /** The top keywords are the ten most frequent distinct counted words (all of
      them when there are fewer), in non-increasing frequency: a counted word left
      out occurs no more often than the tenth one kept. */
  lemma TopKeywordsFacts(kept: seq<string>)
    ensures var top := TopKeywords(kept);
      |top| <= 10 && NoDuplicates(top) && SortedDesc(top, FreqKey(Freq(kept))) &&
      (forall i :: 0 <= i < |top| ==> top[i] in kept) &&
      |top| == (if |Dedup(kept)| < 10 then |Dedup(kept)| else 10) &&
      forall w :: w in kept ==> w in top || (|top| == 10 && multiset(kept)[w] <= multiset(kept)[top[9]])
  {
    var top := TopKeywords(kept);
    TopKeywordsShape(kept);
    TopKeywordsCount(kept);
    forall w | w in kept
      ensures w in top || (|top| == 10 && multiset(kept)[w] <= multiset(kept)[top[9]])
    {
      TopKeywordLeftOut(kept, w);
    }
  }

  lemma TopKeywordsShape(kept: seq<string>)
    ensures var top := TopKeywords(kept);
      |top| <= 10 && NoDuplicates(top) && SortedDesc(top, FreqKey(Freq(kept))) &&
      forall i :: 0 <= i < |top| ==> top[i] in kept
  {
    var order := Dedup(kept);
    var key := FreqKey(Freq(kept));
    var sorted := SortDesc(order, key);
    var top := Take(sorted, 10);
    SortDescSorted(order, key);
    NoDuplicatesPermutation(order, sorted);
    forall i | 0 <= i < |top|
      ensures top[i] in kept
    {
      assert top[i] == sorted[i];
      assert top[i] in multiset(sorted);
      assert top[i] in order;
    }
  }

  lemma TopKeywordsCount(kept: seq<string>)
    ensures |TopKeywords(kept)| == if |Dedup(kept)| < 10 then |Dedup(kept)| else 10
  {
  }

  /** One counted word is kept, or occurs no more often than the tenth one kept. */
  lemma TopKeywordLeftOut(kept: seq<string>, w: string)
    requires w in kept
    ensures var top := TopKeywords(kept);
      w in top || (|top| == 10 && multiset(kept)[w] <= multiset(kept)[top[9]])
  {
    var order := Dedup(kept);
    var key := FreqKey(Freq(kept));
    var sorted := SortDesc(order, key);
    var top := Take(sorted, 10);
    SortDescTop(order, key, 10, w);
    if w !in top {
      assert top == sorted[..if 10 < |order| then 10 else |order|];
      assert sorted[9] in multiset(order);
      assert top[9] == sorted[9] && top[9] in kept;
    }
  }

  /** The topic summary: at most ten distinct keywords, each longer than three
      characters and not a stop word, in non-increasing frequency; the density table
      holds the first five with their counts; total_words counts every word. */
  lemma TopicsFacts(mainContent: string)
    ensures var t := TopicsSpec(mainContent);
      var kept := KeptWords(Words(Lower(mainContent)));
      |t.mainKeywords| <= 10 &&
      NoDuplicates(t.mainKeywords) &&
      (forall i :: 0 <= i < |t.mainKeywords| ==> IsKeyword(t.mainKeywords[i])) &&
      SortedDesc(t.mainKeywords, FreqKey(Freq(kept))) &&
      |t.mainKeywords| == (if |Dedup(kept)| < 10 then |Dedup(kept)| else 10) &&
      (forall w :: w in kept ==>
         w in t.mainKeywords ||
         (|t.mainKeywords| == 10 && multiset(kept)[w] <= multiset(kept)[t.mainKeywords[9]])) &&
      (forall w :: w in t.keywordDensity ==>
         (w in Take(t.mainKeywords, 5) && t.keywordDensity[w] == multiset(kept)[w])) &&
      t.totalWords == |Words(Lower(mainContent))|
  {
    var kept := KeptWords(Words(Lower(mainContent)));
    var top := TopKeywords(kept);
    assert TopicsSpec(mainContent).mainKeywords == top;
    assert TopicsSpec(mainContent).keywordDensity == Density(top, Freq(kept));
    TopKeywordsFacts(kept);
    TopKeywordsAreKeywords(mainContent);
    DensityCounts(kept);
  }

  lemma TopKeywordsAreKeywords(mainContent: string)
    ensures var top := TopKeywords(KeptWords(Words(Lower(mainContent))));
      forall i :: 0 <= i < |top| ==> IsKeyword(top[i])
  {
    var kept := KeptWords(Words(Lower(mainContent)));
    var top := TopKeywords(kept);
    TopKeywordsShape(kept);
    forall i | 0 <= i < |top|
      ensures IsKeyword(top[i])
    {
      var j :| 0 <= j < |kept| && kept[j] == top[i];
    }
  }

  lemma DensityCounts(kept: seq<string>)
    ensures var top := TopKeywords(kept);
      var d := Density(top, Freq(kept));
      forall w :: w in d ==> w in Take(top, 5) && d[w] == multiset(kept)[w]
  {
    var top := TopKeywords(kept);
    TopKeywordsShape(kept);
    var d := Density(top, Freq(kept));
    forall w | w in d
      ensures w in Take(top, 5) && d[w] == multiset(kept)[w]
    {
      var i :| 0 <= i < |Take(top, 5)| && Take(top, 5)[i] == w;
      assert top[i] == w;
    }
  }
}

=== FILE: sorting.dfy ===
/** Python's `sorted(xs, key=k, reverse=True)` and `list.sort(key=k, reverse=True)`:
    a stable sort into non-increasing key order. Elements with equal keys keep their
    original relative order. */
module Sorting {
  import opened Wrappers

  /** The first element whose key is `key`, if any: a lookup in a table kept as a
      list of keyed entries. */
  function FindKey<T>(s: seq<T>, keyOf: T -> string, key: string): (r: Option<T>)
    ensures r.Some? ==> r.value in s && keyOf(r.value) == key
    ensures r.None? ==> forall k :: 0 <= k < |s| ==> keyOf(s[k]) != key
  {
    if s == [] then None else if keyOf(s[0]) == key then Some(s[0]) else FindKey(s[1..], keyOf, key)
  }

  /** The elements of `s` satisfying `p`, in order. */
  function Filter<T>(s: seq<T>, p: T -> bool): (r: seq<T>)
    ensures |r| <= |s|
    ensures forall x :: x in r ==> x in s && p(x)
  {
    if s == [] then [] else (if p(s[0]) then [s[0]] else []) + Filter(s[1..], p)
  }

  /** A member of `s` satisfying `p` survives `Filter`. */
  lemma {:induction false} FilterKeeps<T>(s: seq<T>, p: T -> bool, x: T)
    requires x in s && p(x)
    ensures x in Filter(s, p)
  {
    if s[0] != x {
      FilterKeeps(s[1..], p, x);
    }
  }

  /** When every element satisfies `p`, `Filter` keeps them all. */
  lemma {:induction false} FilterAll<T>(s: seq<T>, p: T -> bool)
    requires forall i :: 0 <= i < |s| ==> p(s[i])
    ensures Filter(s, p) == s
  {
    if s != [] {
      FilterAll(s[1..], p);
    }
  }

  lemma {:induction false} FilterAppend<T>(a: seq<T>, b: seq<T>, p: T -> bool)
    ensures Filter(a + b, p) == Filter(a, p) + Filter(b, p)
  {
    if a == [] {
      assert a + b == b;
    } else {
      var ab := a + b;
      assert ab[0] == a[0] && ab[1..] == a[1..] + b;
      FilterAppend(a[1..], b, p);
      var h := if p(a[0]) then [a[0]] else [];
      calc {
        Filter(ab, p);
        h + Filter(ab[1..], p);
        h + (Filter(a[1..], p) + Filter(b, p));
        (h + Filter(a[1..], p)) + Filter(b, p);
        Filter(a, p) + Filter(b, p);
      }
    }
  }

  predicate SortedDesc<T>(s: seq<T>, key: T -> real)
  {
    forall i, j :: 0 <= i < j < |s| ==> key(s[i]) >= key(s[j])
  }

  /** Insert `x` in front of the first element whose key is not greater than its own. */
  function InsertDesc<T>(x: T, s: seq<T>, key: T -> real): (r: seq<T>)
    ensures |r| == |s| + 1
    ensures multiset(r) == multiset(s) + multiset{x}
  {
    if s == [] then [x]
    else if key(s[0]) <= key(x) then [x] + s
    else
      assert s == [s[0]] + s[1..];
      [s[0]] + InsertDesc(x, s[1..], key)
  }

  /** Insertion sort: the front element is inserted into the sorted rest, before
      every element of equal key, which keeps the sort stable. */
  function SortDesc<T>(s: seq<T>, key: T -> real): (r: seq<T>)
    ensures |r| == |s|
    ensures multiset(r) == multiset(s)
  {
    if s == [] then []
    else
      assert s == [s[0]] + s[1..];
      InsertDesc(s[0], SortDesc(s[1..], key), key)
  }

  predicate KeysAtMost<T>(s: seq<T>, key: T -> real, b: real)
  {
    forall i :: 0 <= i < |s| ==> key(s[i]) <= b
  }

  lemma {:induction false} InsertDescKeysAtMost<T>(x: T, s: seq<T>, key: T -> real, b: real)
    requires key(x) <= b && KeysAtMost(s, key, b)
    ensures KeysAtMost(InsertDesc(x, s, key), key, b)
  {
    if s != [] && key(s[0]) > key(x) {
      InsertDescKeysAtMost(x, s[1..], key, b);
    }
  }

  lemma {:induction false} InsertDescSorted<T>(x: T, s: seq<T>, key: T -> real)
    requires SortedDesc(s, key)
    ensures SortedDesc(InsertDesc(x, s, key), key)
  {
    if s != [] && key(s[0]) > key(x) {
      InsertDescSorted(x, s[1..], key);
      var r := InsertDesc(x, s[1..], key);
      InsertDescKeysAtMost(x, s[1..], key, key(s[0]));
      assert InsertDesc(x, s, key) == [s[0]] + r;
      forall i, j | 0 <= i < j < |[s[0]] + r|
        ensures key(([s[0]] + r)[i]) >= key(([s[0]] + r)[j])
      {
        if i == 0 {
          assert ([s[0]] + r)[j] == r[j - 1];
        } else {
          assert ([s[0]] + r)[i] == r[i - 1];
          assert ([s[0]] + r)[j] == r[j - 1];
        }
      }
    }
  }

  /** Keeping the first `n` of a descending sort keeps the `n` largest: an element
      left out has a key no larger than the last one kept. */
  lemma SortDescTop<T>(s: seq<T>, key: T -> real, n: nat, x: T)
    requires x in s && n > 0
    ensures var sorted := SortDesc(s, key);
      x in sorted[..if n < |s| then n else |s|] || (0 < n < |s| && key(x) <= key(sorted[n - 1]))
  {
    var sorted := SortDesc(s, key);
    SortDescSorted(s, key);
    assert x in multiset(sorted);
    var k :| 0 <= k < |sorted| && sorted[k] == x;
    if k >= n {
      assert key(sorted[n - 1]) >= key(sorted[k]);
    }
    if k < n {
      assert sorted[..if n < |s| then n else |s|][k] == x;
    }
  }

  /** The output of the sort is in non-increasing key order. */
  lemma {:induction false} SortDescSorted<T>(s: seq<T>, key: T -> real)
    ensures SortedDesc(SortDesc(s, key), key)
  {
    if s != [] {
      SortDescSorted(s[1..], key);
      InsertDescSorted(s[0], SortDesc(s[1..], key), key);
    }
  }

  /** The test "the key of `t` is `v`". */
  function KeyIs<T>(key: T -> real, v: real): T -> bool
  {
    t => key(t) == v
  }

  /** The step of `InsertDescStable` where `x` passes the front element `s[0]`. */
  lemma InsertDescStablePast<T>(x: T, s: seq<T>, key: T -> real, v: real)
    requires s != [] && key(s[0]) > key(x)
    requires Filter(InsertDesc(x, s[1..], key), KeyIs(key, v)) ==
             Filter([x], KeyIs(key, v)) + Filter(s[1..], KeyIs(key, v))
    ensures Filter(InsertDesc(x, s, key), KeyIs(key, v)) ==
            Filter([x], KeyIs(key, v)) + Filter(s, KeyIs(key, v))
  {
    var p := KeyIs(key, v);
    var r := InsertDesc(x, s[1..], key);
    var h := if p(s[0]) then [s[0]] else [];
    var ins := InsertDesc(x, s, key);
    assert ins == [s[0]] + r;
    assert ins[0] == s[0] && ins[1..] == r;
    assert Filter(ins, p) == h + Filter(r, p);
    assert Filter(s, p) == h + Filter(s[1..], p);
    var fx, ft, fr := Filter([x], p), Filter(s[1..], p), Filter(r, p);
    if key(x) == v {
      assert h == [];
      assert h + fr == fr;
      assert h + ft == ft;
    } else {
      assert fx == [];
      assert fx + ft == ft;
      assert fx + (h + ft) == h + ft;
    }
  }

  lemma {:induction false} InsertDescStable<T>(x: T, s: seq<T>, key: T -> real, v: real)
    ensures Filter(InsertDesc(x, s, key), KeyIs(key, v)) ==
            Filter([x], KeyIs(key, v)) + Filter(s, KeyIs(key, v))
  {
    if s == [] {
      assert [x] + [] == [x];
    } else if key(s[0]) <= key(x) {
      FilterAppend([x], s, KeyIs(key, v));
    } else {
      InsertDescStable(x, s[1..], key, v);
      InsertDescStablePast(x, s, key, v);
    }
  }

  /** Stability: among the elements with any one key value, the sort keeps their order. */
  lemma {:induction false} SortDescStable<T>(s: seq<T>, key: T -> real, v: real)
    ensures Filter(SortDesc(s, key), KeyIs(key, v)) == Filter(s, KeyIs(key, v))
  {
    if s != [] {
      SortDescStable(s[1..], key, v);
      InsertDescStable(s[0], SortDesc(s[1..], key), key, v);
      assert s == [s[0]] + s[1..];
      FilterAppend([s[0]], s[1..], KeyIs(key, v));
    }
  }

  predicate NoDuplicates<T(==)>(s: seq<T>)
  {
    forall i, j :: 0 <= i < j < |s| ==> s[i] != s[j]
  }

  /** Two sequences without duplicates and without common values concatenate to one
      without duplicates. */
  lemma NoDuplicatesConcat<T>(a: seq<T>, b: seq<T>)
    requires NoDuplicates(a) && NoDuplicates(b)
    requires forall x :: x in a ==> x !in b
    ensures NoDuplicates(a + b)
  {
    forall i, j | 0 <= i < j < |a + b|
      ensures (a + b)[i] != (a + b)[j]
    {
      if i < |a| && j >= |a| {
        assert (a + b)[i] in a && (a + b)[j] == b[j - |a|];
      }
    }
  }

  /** The values of `s`, each once, in order of first occurrence. */
  function Dedup<T(==,!new)>(s: seq<T>): (r: seq<T>)
    ensures NoDuplicates(r)
    ensures forall x :: x in r <==> x in s
  {
    if s == [] then []
    else
      var d := Dedup(s[..|s| - 1]);
      assert forall x :: x in s <==> x in s[..|s| - 1] || x == s[|s| - 1];
      if s[|s| - 1] in d then d else d + [s[|s| - 1]]
  }

  /** The first value of `Dedup(s)` satisfying `p` is the first element of `s`
      satisfying it: it occurs no later than any element that does. */
  lemma {:induction false} DedupFilterFirst<T(!new)>(s: seq<T>, p: T -> bool, i: nat)
    requires i < |s| && p(s[i])
    ensures Filter(Dedup(s), p) != [] && Filter(Dedup(s), p)[0] in s[..i + 1]
  {
    var front, last := s[..|s| - 1], s[|s| - 1];
    assert s == front + [last];
    if j :| 0 <= j < |front| && p(front[j]) && j <= i {
      DedupFilterFirst(front, p, j);
      DedupFilterFirstAppend(front, last, p);
      assert front[..j + 1] == s[..j + 1];
    } else {
      assert i == |s| - 1;
      DedupFilterNew(front, last, p);
    }
  }

  /** Appending `last` keeps the first value of the deduplicated list satisfying `p`. */
  lemma DedupFilterFirstAppend<T(!new)>(front: seq<T>, last: T, p: T -> bool)
    requires Filter(Dedup(front), p) != []
    ensures var s := front + [last];
      Filter(Dedup(s), p) != [] && Filter(Dedup(s), p)[0] == Filter(Dedup(front), p)[0]
  {
    var s := front + [last];
    assert s[..|s| - 1] == front;
    FilterAppend(Dedup(front), [last], p);
  }

  /** When no element of `front` satisfies `p`, a `last` that does is the first such value. */
  lemma DedupFilterNew<T(!new)>(front: seq<T>, last: T, p: T -> bool)
    requires forall j :: 0 <= j < |front| ==> !p(front[j])
    requires p(last)
    ensures Filter(Dedup(front + [last]), p) == [last]
  {
    var s := front + [last];
    var d := Dedup(front);
    assert s[..|s| - 1] == front;
    FilterNone(d, p);
    assert last !in d;
    FilterAppend(d, [last], p);
  }

  /** When no element satisfies `p`, `Filter` keeps nothing. */
  lemma {:induction false} FilterNone<T>(s: seq<T>, p: T -> bool)
    requires forall x :: x in s ==> !p(x)
    ensures Filter(s, p) == []
  {
    if s != [] {
      FilterNone(s[1..], p);
    }
  }

  /** A sequence without duplicates holds each value at most once. */
  lemma {:induction false} NoDuplicatesCount<T>(s: seq<T>, x: T)
    requires NoDuplicates(s)
    ensures multiset(s)[x] <= 1
  {
    if s != [] {
      var front := s[..|s| - 1];
      assert s == front + [s[|s| - 1]];
      NoDuplicatesCount(front, x);
      assert x == s[|s| - 1] ==> x !in front;
    }
  }

  /** A permutation of a sequence without duplicates has none either. */
  lemma NoDuplicatesPermutation<T>(a: seq<T>, b: seq<T>)
    requires multiset(a) == multiset(b) && NoDuplicates(a)
    ensures NoDuplicates(b)
  {
    forall i, j | 0 <= i < j < |b|
      ensures b[i] != b[j]
    {
      if b[i] == b[j] {
        var x := b[i];
        assert b == b[..j] + [b[j]] + b[j + 1..];
        assert b[..j] == b[..i] + [b[i]] + b[i + 1..j];
        assert multiset(b)[x] >= 2;
        NoDuplicatesCount(a, x);
      }
    }
  }
}

=== FILE: strings.dfy ===
/** The string operations of Python's `str` type that the auditor relies on,
    written out on `seq<char>`: whitespace as `str.isspace` defines it,
    `strip`, `split()` and `split(sep)`, `lower`, `capitalize`, substring tests,
    non-overlapping `count`, `replace(pat, '')` and decimal rendering of integers. */
module Strings {

  /** `str.isspace()` for one character (the Unicode whitespace set Python uses). */
  predicate IsSpace(c: char)
  {
    var k := c as int;
    (9 <= k <= 13) || (28 <= k <= 32) || k == 0x85 || k == 0xA0 || k == 0x1680 ||
    (0x2000 <= k <= 0x200A) || k == 0x2028 || k == 0x2029 || k == 0x202F ||
    k == 0x205F || k == 0x3000
  }

  predicate IsAsciiUpper(c: char) { 'A' <= c <= 'Z' }
  predicate IsAsciiLower(c: char) { 'a' <= c <= 'z' }
  predicate IsDigit(c: char) { '0' <= c <= '9' }

  /** A character of the regular-expression class `\w` (ASCII letters, digits, underscore). */
  predicate IsWordChar(c: char) { IsAsciiUpper(c) || IsAsciiLower(c) || IsDigit(c) || c == '_' }

  function LowerChar(c: char): (r: char)
    ensures !IsAsciiUpper(r)
  {
    if IsAsciiUpper(c) then (c as int + 32) as char else c
  }

  function UpperChar(c: char): (r: char)
    ensures !IsAsciiLower(r)
  {
    if IsAsciiLower(c) then (c as int - 32) as char else c
  }

  /** `str.lower()`, restricted to ASCII letters. */
  function Lower(s: string): (r: string)
    ensures |r| == |s|
    ensures forall i :: 0 <= i < |s| ==> r[i] == LowerChar(s[i])
  {
    if s == [] then [] else [LowerChar(s[0])] + Lower(s[1..])
  }

  /** `str.capitalize()`: first character upper case, the rest lower case. */
  function Capitalize(s: string): (r: string)
    ensures |r| == |s|
    ensures s != [] ==> r[0] == UpperChar(s[0]) && r[1..] == Lower(s[1..])
  {
    if s == [] then [] else [UpperChar(s[0])] + Lower(s[1..])
  }

  predicate StartsWith(s: string, prefix: string)
  {
    |prefix| <= |s| && s[..|prefix|] == prefix
  }

  /** `sub in s`. */
  predicate Contains(s: string, sub: string)
    decreases |s|
  {
    StartsWith(s, sub) || (s != [] && Contains(s[1..], sub))
  }

  /** `s.count(pat)` for a non-empty pattern: leftmost, non-overlapping occurrences. */
  function CountOcc(s: string, pat: string): (n: nat)
    requires pat != []
    ensures n * |pat| <= |s|
    ensures n > 0 ==> Contains(s, pat)
    decreases |s|
  {
    if |s| < |pat| then 0
    else if s[..|pat|] == pat then 1 + CountOcc(s[|pat|..], pat)
    else CountOcc(s[1..], pat)
  }

  /** `s.replace(pat, '')`: every leftmost, non-overlapping occurrence removed. */
  function RemoveAll(s: string, pat: string): (r: string)
    requires pat != []
    ensures |r| <= |s|
    decreases |s|
  {
    if |s| < |pat| then s
    else if s[..|pat|] == pat then RemoveAll(s[|pat|..], pat)
    else [s[0]] + RemoveAll(s[1..], pat)
  }

  function StripLeft(s: string): (r: string)
    ensures |r| <= |s| && r == s[|s| - |r|..]
    ensures r != [] ==> !IsSpace(r[0])
    decreases |s|
  {
    if s != [] && IsSpace(s[0]) then StripLeft(s[1..]) else s
  }

  function StripRight(s: string): (r: string)
    ensures |r| <= |s| && r == s[..|r|]
    ensures r != [] ==> !IsSpace(r[|r| - 1])
    decreases |s|
  {
    if s != [] && IsSpace(s[|s| - 1]) then StripRight(s[..|s| - 1]) else s
  }

  /** `str.strip()`: leading and trailing whitespace removed. */
  function Strip(s: string): (r: string)
    ensures |r| <= |s|
    ensures r != [] ==> !IsSpace(r[0]) && !IsSpace(r[|r| - 1])
  {
    StripRight(StripLeft(s))
  }

  /** `s[:n]` for a non-negative bound. */
  function Take<T>(s: seq<T>, n: nat): (r: seq<T>)
    ensures |r| <= n && |r| <= |s|
    ensures |r| == if |s| <= n then |s| else n
    ensures |s| <= n ==> r == s
    ensures r == s[..|r|]
  {
    if |s| <= n then s else s[..n]
  }

  /** Python's `s[:n]` for any integer `n`: a negative bound counts from the end. */
  function PySliceTo<T>(s: seq<T>, n: int): (r: seq<T>)
    ensures |r| <= |s| && r == s[..|r|]
    ensures n >= 0 ==> |r| == if n <= |s| then n else |s|
    ensures n < 0 ==> |r| == if |s| + n >= 0 then |s| + n else 0
  {
    if n >= 0 then Take(s, n) else if |s| + n >= 0 then s[..|s| + n] else []
  }

  function WordsFrom(s: string, cur: string): seq<string>
    decreases |s|
  {
    if s == [] then (if cur == [] then [] else [cur])
    else if IsSpace(s[0]) then (if cur == [] then [] else [cur]) + WordsFrom(s[1..], [])
    else WordsFrom(s[1..], cur + [s[0]])
  }

  /** `str.split()` with no argument: the maximal runs of non-whitespace characters. */
  function Words(s: string): seq<string>
  {
    WordsFrom(s, [])
  }

  predicate NoSpace(w: string) { forall i :: 0 <= i < |w| ==> !IsSpace(w[i]) }

  lemma {:induction false} WordsFromAreWords(s: string, cur: string)
    requires NoSpace(cur)
    ensures forall k :: 0 <= k < |WordsFrom(s, cur)| ==>
      WordsFrom(s, cur)[k] != [] && NoSpace(WordsFrom(s, cur)[k])
    decreases |s|
  {
    if s == [] {
    } else if IsSpace(s[0]) {
      WordsFromAreWords(s[1..], []);
    } else {
      WordsFromAreWords(s[1..], cur + [s[0]]);
    }
  }

  /** Every word `split()` returns is non-empty and free of whitespace. */
  lemma WordsAreWords(s: string)
    ensures forall k :: 0 <= k < |Words(s)| ==> Words(s)[k] != [] && NoSpace(Words(s)[k])
  {
    WordsFromAreWords(s, []);
  }

  function SplitFrom(s: string, sep: char, cur: string): (r: seq<string>)
    ensures |r| >= 1
    decreases |s|
  {
    if s == [] then [cur]
    else if s[0] == sep then [cur] + SplitFrom(s[1..], sep, [])
    else SplitFrom(s[1..], sep, cur + [s[0]])
  }

  /** `s.split(sep)` for a one-character separator: pieces between separators, empty ones kept. */
  function Split(s: string, sep: char): (r: seq<string>)
    ensures |r| >= 1
  {
    SplitFrom(s, sep, [])
  }

  /** `sep.join(parts)`. */
  function Join(sep: string, parts: seq<string>): string
  {
    if parts == [] then [] else if |parts| == 1 then parts[0] else parts[0] + sep + Join(sep, parts[1..])
  }

  lemma {:induction false} JoinSplitFrom(s: string, sep: char, cur: string)
    ensures Join([sep], SplitFrom(s, sep, cur)) == cur + s
    decreases |s|
  {
    if s == [] {
    } else if s[0] == sep {
      JoinSplitFrom(s[1..], sep, []);
      var rest := SplitFrom(s[1..], sep, []);
      assert SplitFrom(s, sep, cur) == [cur] + rest;
      assert ([cur] + rest)[1..] == rest;
      assert s == [s[0]] + s[1..];
    } else {
      JoinSplitFrom(s[1..], sep, cur + [s[0]]);
      assert s == [s[0]] + s[1..];
    }
  }

  /** Round trip: joining the pieces of `s.split(sep)` with `sep` gives back `s`. */
  lemma SplitJoin(s: string, sep: char)
    ensures Join([sep], Split(s, sep)) == s
  {
    JoinSplitFrom(s, sep, []);
  }

  /** The text before the first `sep` (all of `s` when there is none). */
  function Before(s: string, sep: char): (r: string)
    ensures sep !in r
  {
    if s == [] || s[0] == sep then [] else [s[0]] + Before(s[1..], sep)
  }

  lemma {:induction false} SplitFromHead(s: string, sep: char, cur: string)
    ensures SplitFrom(s, sep, cur)[0] == cur + Before(s, sep)
    decreases |s|
  {
    if s != [] && s[0] != sep {
      SplitFromHead(s[1..], sep, cur + [s[0]]);
    }
  }

  /** `s.split(sep)[0]` is the text before the first separator. */
  lemma SplitHead(s: string, sep: char)
    ensures Split(s, sep)[0] == Before(s, sep)
  {
    SplitFromHead(s, sep, []);
  }

  /** Text free of `sep` passes whole into `Before`. */
  lemma {:induction false} BeforeAppend(a: string, b: string, sep: char)
    requires sep !in a
    ensures Before(a + b, sep) == a + Before(b, sep)
  {
    if a == [] {
      assert a + b == b;
    } else {
      assert (a + b)[0] == a[0] && (a + b)[1..] == a[1..] + b;
      assert a[0] != sep;
      BeforeAppend(a[1..], b, sep);
      assert a == [a[0]] + a[1..];
    }
  }

  function DigitChar(d: nat): char
    requires d < 10
  {
    "0123456789"[d]
  }

  /** `str(n)` for a natural number. */
  function NatToString(n: nat): (r: string)
    ensures |r| >= 1
    decreases n
  {
    if n < 10 then [DigitChar(n)] else NatToString(n / 10) + [DigitChar(n % 10)]
  }

  /** `str(i)` for an integer. */
  function IntToString(i: int): string
  {
    if i < 0 then "-" + NatToString(-i) else NatToString(i)
  }
}

=== FILE: structured_data.dfy ===
/** The structured-data category (15 points): basic schema presence, schema
    quality, advanced schema features and social metadata
    (backend/scoring/structured_data.py). */
module StructuredData {
  import opened Json
  import opened Numbers
  import opened PageModel
  import opened Scores

  const MaxScore: real := 15.0

  const CoreTypes: seq<string> := ["Article", "BlogPosting", "NewsArticle", "WebPage", "Person", "Organization", "WebSite"]
  const RichTypes: seq<string> := ["FAQPage", "HowTo", "QAPage", "BreadcrumbList"]

  predicate IsValidBlock(b: Block) { "error" !in b }

  /** `d.get(key)` is a non-empty string. */
  predicate HasText(d: map<string, string>, key: string) { key in d && d[key] != [] }

  /** The three primary presence signals, worth 3, 2 and 2 points. */
  function PrimaryPresence(p: PageData): int
  {
    (if CountWhere(p.jsonld, IsValidBlock) >= 1 then 3 else 0)
    + (if p.microdataCount >= 1 then 2 else 0)
    + (if HasText(p.ogTags, "title") || HasText(p.ogTags, "description") then 2 else 0)
  }

  /** The fallback signals: a title longer than 10 characters, a meta description
      longer than 30, at least five headings; one point each. */
  function FallbackPresence(p: PageData): int
  {
    (if |p.title| > 10 then 1 else 0)
    + (if |p.metaDescription| > 30 then 1 else 0)
    + (if |p.headings| >= 5 then 1 else 0)
  }

  function BasicPresence(p: PageData): (r: real)
    ensures 0.0 <= r <= 5.0 && r == r.Floor as real
  {
    var score := PrimaryPresence(p);
    var score' := if score == 0 then score + FallbackPresence(p) else score;
    (if score' <= 5 then score' else 5) as real
  }

  /** The fallback counts only when no primary signal fired; otherwise at least 2
      points are earned and the fallback is ignored. */
  lemma BasicPresenceCases(p: PageData)
    ensures PrimaryPresence(p) == 0 ==> BasicPresence(p) == FallbackPresence(p) as real <= 3.0
    ensures PrimaryPresence(p) > 0 ==> 2.0 <= BasicPresence(p)
    ensures PrimaryPresence(p) > 0 ==> BasicPresence(p) == Min(5.0, PrimaryPresence(p) as real)
  {
  }

  predicate HasType(types: seq<Json>, t: string) { JStr(t) in types }

  predicate HasAnyType(types: seq<Json>, names: seq<string>)
  {
    exists i :: 0 <= i < |names| && HasType(types, names[i])
  }

  function CompletenessOf(v: Validation): real { v.CompletenessOr0() }

  /** 2 points for an average completeness of at least 0.7, 1 for at least 0.5. */
  function CompletenessBonus(vs: seq<Validation>): (r: int)
    ensures 0 <= r <= 2
  {
    if vs == [] then 0
    else
      var avg := SumBy(vs, CompletenessOf) / |vs| as real;
      if avg >= 0.7 then 2 else if avg >= 0.5 then 1 else 0
  }

  /** A core type (an article, a page, a person, an organisation or a site) earns 3
      points, a rich type (FAQ, how-to, Q&A or breadcrumbs) 2, and the completeness
      bonus is added; the cap of 5 only cuts when both kinds of type are present. */
  function SchemaQuality(p: PageData): (r: real)
    ensures 0.0 <= r <= 5.0 && r == r.Floor as real
    ensures HasAnyType(p.schemaTypes, CoreTypes) && HasAnyType(p.schemaTypes, RichTypes) ==> r == 5.0
    ensures HasAnyType(p.schemaTypes, CoreTypes) && !HasAnyType(p.schemaTypes, RichTypes) ==>
      r == 3.0 + CompletenessBonus(p.schemaValidation) as real
    ensures !HasAnyType(p.schemaTypes, CoreTypes) && HasAnyType(p.schemaTypes, RichTypes) ==>
      r == 2.0 + CompletenessBonus(p.schemaValidation) as real
    ensures !HasAnyType(p.schemaTypes, CoreTypes) && !HasAnyType(p.schemaTypes, RichTypes) ==>
      r == CompletenessBonus(p.schemaValidation) as real
  {
    var score := (if HasAnyType(p.schemaTypes, CoreTypes) then 3 else 0)
                 + (if HasAnyType(p.schemaTypes, RichTypes) then 2 else 0)
                 + CompletenessBonus(p.schemaValidation);
    (if score <= 5 then score else 5) as real
  }

  function AdvancedFeatures(p: PageData): (r: real)
    ensures 0.0 <= r <= 3.0 && r == r.Floor as real
    ensures !p.faqSchema.found && !HasType(p.schemaTypes, "BreadcrumbList") ==> r == 0.0
    ensures p.faqSchema.found && p.faqSchema.validPairs >= 3 ==> r >= 2.0
  {
    var faq := if p.faqSchema.found then (if p.faqSchema.validPairs >= 3 then 2 else if p.faqSchema.validPairs >= 1 then 1 else 0) else 0;
    var crumbs := if HasType(p.schemaTypes, "BreadcrumbList") then 1 else 0;
    (if faq + crumbs <= 3 then faq + crumbs else 3) as real
  }

  /** 1 point for Open Graph title, description and type (0.5 for any other Open
      Graph tags), 1 point for a Twitter card. */
  function SocialMetadata(p: PageData): (r: real)
    ensures r == 0.0 || r == 0.5 || r == 1.0 || r == 1.5 || r == 2.0
    ensures p.ogTags == map[] && !HasText(p.twitterCard, "card") ==> r == 0.0
  {
    var og := if "title" in p.ogTags && "description" in p.ogTags && "type" in p.ogTags then 1.0
              else if p.ogTags != map[] then 0.5 else 0.0;
    var twitter := if HasText(p.twitterCard, "card") then 1.0 else 0.0;
    Min(2.0, og + twitter)
  }

  lemma SubScoresAreTenths(p: PageData)
    ensures IsTenth(BasicPresence(p)) && IsTenth(SchemaQuality(p)) && IsTenth(AdvancedFeatures(p))
    ensures IsTenth(SocialMetadata(p))
  {
    TenthOfInt(BasicPresence(p).Floor);
    TenthOfInt(SchemaQuality(p).Floor);
    TenthOfInt(AdvancedFeatures(p).Floor);
    var s := SocialMetadata(p);
    assert s * 10.0 == (s * 10.0).Floor as real;
  }

  function SubScores(p: PageData): seq<SubScore>
  {
    [SubScore("basic_presence", BasicPresence(p)),
     SubScore("schema_quality", SchemaQuality(p)),
     SubScore("advanced_features", AdvancedFeatures(p)),
     SubScore("social_metadata", SocialMetadata(p))]
  }

  /** `StructuredDataScorer.calculate`: the sum of the four sub-scores, between 0 and 15. */
  function Calculate(p: PageData): (r: CategoryScore)
    ensures r.max == MaxScore && r.subScores == SubScores(p)
    ensures r.score == BasicPresence(p) + SchemaQuality(p) + AdvancedFeatures(p) + SocialMetadata(p)
    ensures 0.0 <= r.score <= MaxScore
  {
    SubScoresAreTenths(p);
    var subs := SubScores(p);
    SumSubs4(subs[0], subs[1], subs[2], subs[3]);
    Report(subs, MaxScore)
  }
}

=== FILE: technical.dfy ===
/** The technical category (declared maximum 10): page speed, mobile proxy, semantic
    headings, internal linking and meta description (backend/scoring/technical.py). */
module Technical {
  import opened Wrappers
  import opened Numbers
  import opened PageModel
  import opened Scores

  const MaxScore: real := 10.0

  /** 3/2/1/0 points for a time to first byte of at most 500/1000/2000 ms or more. */
  function PerformancePoints(ttfb: real): (r: real)
    ensures r == 0.0 || r == 1.0 || r == 2.0 || r == 3.0
    ensures ttfb <= 500.0 ==> r == 3.0
    ensures ttfb > 2000.0 ==> r == 0.0
  {
    if ttfb <= 500.0 then 3.0 else if ttfb <= 1000.0 then 2.0 else if ttfb <= 2000.0 then 1.0 else 0.0
  }

  /** A slower first byte never scores higher. */
  lemma PerformanceMonotone(t1: real, t2: real)
    requires t1 <= t2
    ensures PerformancePoints(t2) <= PerformancePoints(t1)
  {
  }

  /** A missing time to first byte counts as 0 ms and so earns all 3 points. */
  function PerformanceScore(p: PageData): (r: real)
    ensures p.performance.ttfb.None? ==> r == 3.0
  {
    PerformancePoints(p.performance.ttfb.GetOr(0.0))
  }

  function MobileScore(p: PageData): (r: real)
    ensures r == 2.0 <==> p.features.hasMetaDescription
    ensures r == 0.0 <==> !p.features.hasMetaDescription
  {
    if p.features.hasMetaDescription then 2.0 else 0.0
  }

  /** `any(h['level'] == level for h in hs)`: scans in order, stops at the first match,
      and raises KeyError at a record without a level met before any match. */
  function AnyLevel(hs: seq<Heading>, level: int): (r: Result<bool>)
    ensures r == Success(true) <==>
      exists i :: 0 <= i < |hs| && hs[i].level == Some(level) && forall j :: 0 <= j < i ==> hs[j].level.Some?
    ensures r == Success(false) <==> forall i :: 0 <= i < |hs| ==> hs[i].level.Some? && hs[i].level != Some(level)
  {
    if hs == [] then Success(false)
    else if hs[0].level.None? then Failure("KeyError")
    else if hs[0].level.value == level then Success(true)
    else
      var r := AnyLevel(hs[1..], level);
      assert r == Success(true) ==> exists i :: 0 <= i < |hs| && hs[i].level == Some(level) && forall j :: 0 <= j < i ==> hs[j].level.Some? by {
        if r == Success(true) {
          var i :| 0 <= i < |hs[1..]| && hs[1..][i].level == Some(level) && forall j :: 0 <= j < i ==> hs[1..][j].level.Some?;
          assert hs[i + 1].level == Some(level);
          forall j | 0 <= j < i + 1 ensures hs[j].level.Some? {
            if j > 0 { assert hs[j] == hs[1..][j - 1]; }
          }
        }
      }
      assert (exists i :: 0 <= i < |hs| && hs[i].level == Some(level) && forall j :: 0 <= j < i ==> hs[j].level.Some?) ==> r == Success(true) by {
        if exists i :: 0 <= i < |hs| && hs[i].level == Some(level) && forall j :: 0 <= j < i ==> hs[j].level.Some? {
          var i :| 0 <= i < |hs| && hs[i].level == Some(level) && forall j :: 0 <= j < i ==> hs[j].level.Some?;
          assert i > 0;
          assert hs[1..][i - 1].level == Some(level);
          forall j | 0 <= j < i - 1 ensures hs[1..][j].level.Some? {
            assert hs[1..][j] == hs[j + 1];
          }
        }
      }
      assert (forall i :: 0 <= i < |hs| ==> hs[i].level.Some? && hs[i].level != Some(level)) <==>
             (forall i :: 0 <= i < |hs[1..]| ==> hs[1..][i].level.Some? && hs[1..][i].level != Some(level)) by {
        if forall i :: 0 <= i < |hs[1..]| ==> hs[1..][i].level.Some? && hs[1..][i].level != Some(level) {
          forall i | 0 <= i < |hs| ensures hs[i].level.Some? && hs[i].level != Some(level) {
            if i > 0 { assert hs[i] == hs[1..][i - 1]; }
          }
        }
      }
      r
  }

  /** Some heading records level `level`. */
  predicate HasLevel(hs: seq<Heading>, level: int)
  {
    exists i :: 0 <= i < |hs| && hs[i].level == Some(level)
  }

  /** One point each for a level-1 and a level-2 heading. */
  function SemanticScore(p: PageData): (r: Result<real>)
    ensures r.Success? ==> 0.0 <= r.value <= 2.0 && r.value == r.value.Floor as real
    ensures r.Success? ==>
      r.value == (if HasLevel(p.headings, 1) then 1.0 else 0.0) + (if HasLevel(p.headings, 2) then 1.0 else 0.0)
    ensures r.Success? <==> AnyLevel(p.headings, 1).Success? && AnyLevel(p.headings, 2).Success?
  {
    var h1 := AnyLevel(p.headings, 1);
    if h1.Failure? then Failure(h1.error)
    else
      var h2 := AnyLevel(p.headings, 2);
      if h2.Failure? then Failure(h2.error)
      else Success((if h1.value then 1.0 else 0.0) + (if h2.value then 1.0 else 0.0))
  }

  /** A placeholder: always 1 point. */
  function LinkingScore(p: PageData): real
  {
    1.0
  }

  /** 1 point for a meta description of 50 to 160 characters. */
  function MetaScore(p: PageData): (r: real)
    ensures r == 1.0 <==> 50 <= |p.metaDescription| <= 160
    ensures r == 0.0 <==> !(50 <= |p.metaDescription| <= 160)
  {
    if p.metaDescription != [] && 50 <= |p.metaDescription| <= 160 then 1.0 else 0.0
  }

  function SubScores(p: PageData, semantic: real): seq<SubScore>
  {
    [SubScore("page_performance", PerformanceScore(p)),
     SubScore("mobile_friendliness", MobileScore(p)),
     SubScore("semantic_html", semantic),
     SubScore("internal_linking", LinkingScore(p)),
     SubScore("meta_description", MetaScore(p))]
  }

  /** `TechnicalScorer.calculate`: fails exactly where the semantic sub-score does;
      otherwise the sum of the five sub-scores, between 1 and 9, one short of the
      declared maximum. */
  function Calculate(p: PageData): (r: Result<CategoryScore>)
    ensures r.Failure? <==> SemanticScore(p).Failure?
    ensures r.Success? ==> r.value.max == MaxScore
    ensures r.Success? ==> r.value.score == PerformanceScore(p) + MobileScore(p) + SemanticScore(p).value
                                            + LinkingScore(p) + MetaScore(p)
    ensures r.Success? ==> 1.0 <= r.value.score <= 9.0
  {
    var semantic := SemanticScore(p);
    if semantic.Failure? then Failure(semantic.error)
    else
      var subs := SubScores(p, semantic.value);
      TenthOfInt(PerformanceScore(p).Floor);
      assert PerformanceScore(p) == PerformanceScore(p).Floor as real;
      TenthOfInt(MobileScore(p).Floor);
      assert MobileScore(p) == MobileScore(p).Floor as real;
      TenthOfInt(semantic.value.Floor);
      TenthOfInt(1);
      TenthOfInt(MetaScore(p).Floor);
      assert MetaScore(p) == MetaScore(p).Floor as real;
      SumSubs5(subs[0], subs[1], subs[2], subs[3], subs[4]);
      Success(Report(subs, MaxScore))
  }
}

=== FILE: wrappers.dfy ===
/** Option and Result, the two failure-carrying values used throughout the model. */
module Wrappers {

  datatype Option<+T> = None | Some(value: T) {
    function GetOr(default: T): T {
      match this
      case Some(v) => v
      case None => default
    }
  }

  /** A computation that either produces a value or raises; `Failure` carries the
      name of the exception the source would raise. */
  datatype Result<+T> = Success(value: T) | Failure(error: string) {
    predicate IsFailure() { Failure? }
    function PropagateFailure<U>(): Result<U>
      requires Failure?
    {
      Failure(error)
    }
    function Extract(): T
      requires Success?
    {
      value
    }
  }
}
